=== FILE: README.md ===
# YouthCognitionPlatform core, modelled in Dafny

YouthCognitionPlatform gives children a battery of cognitive tests. This project models the rules behind them and proves properties of the model:

- Reading fluency: sentence judgement, with trials and sessions.
- Oral reading fluency: reading a chart of characters aloud, scored by the iFlytek speech-evaluation service (ISE).
- Literacy: reading single characters aloud, scored by group.
- Raven's progressive matrices: 72 questions in six groups, scored against an age norm table.
- Attention: a symbol-cancellation grid.
- Calculation: mental arithmetic by grade.

The model also covers:

- the browser-side helpers: problem generator, answer formatting and countdown timer;
- the offline scripts that build the attention grids, fetch the Raven pictures and turn a Word document into reading questions.

Every operation is a pure function (or a method with loop invariants) over immutable records. A database table is a sequence of records passed in and handed back. A clock reading is an integer number of seconds. A random draw is a value from a `Randomness.Source` with its stated range. An XML result is an abstract element tree, and a CSV or Word table is a sequence of rows of cells. Percentages are exact `real` ratios of integers.

| file | module | what it models |
|---|---|---|
| wrappers.dfy | Wrappers | `Option` and `Result`, the error paths of the source |
| seqs.dfy | Seqs | filter, count, sum and first-index over sequences, with their algebra |
| text.dfy | Text | Python `strip`, `split`, `isdigit`, `int()`, zero-padded numbers, JavaScript `trim` |
| ratio.dfy | Ratio | the guarded percentages and means used by every test (0 when the denominator is 0) |
| randomness.dfy | Randomness | `Math.random()` and its integer and coin draws |
| xml.dfy | Xml | the element tree and the `find`/`findall`/`get` queries of ElementTree |
| analysis.dfy | Analysis | the speech-evaluation result analysis of `reading_fluency/analysis.py` |
| speech_sdk.dfy | SpeechSdk | the ISE client: parameters, audio frames, progress, result selection and parsing, the factory |
| oral_service.dfy | OralReading | the oral-reading service: submission, single and batch evaluation, results |
| literacy.dfy | Literacy | the literacy test: groups, records, the 60-point verdict, per-group aggregation |
| reading.dfy | ReadingFluency | the reading-fluency models and service |
| raven_service.dfy | RavenTest | question numbering, answer key, answer upsert, session completion |
| raven_scoring.dfy | RavenScoring | the norm-table search of `calculate_score` |
| attention.dfy | Attention | the attention grid, the scoring of submissions, the session model |
| calculation.dfy | CalculationTest | the calculation session state machine, per-grade results, recommendations |
| calc_problems.dfy | CalculationProblems | the browser's problem generator: fractions, expressions, grades, shuffling |
| number_format.dfy | NumberFormat | answer formatting and comparison |
| timer.dfy | Timer | the countdown timer |
| symbol_matrix.dfy | SymbolMatrix | the symbol matrix script: generation, text file, target positions, counts |
| target_rows.dfy | TargetRows | the per-row target placement script |
| raven_download.dfy | RavenDownload | the direct Raven picture downloader |
| raven_scraper.dfy | RavenScraper | the browser-driven Raven picture scraper: file names and picture selection |
| docx_parse.dfy | DocxParse | the Word-document parser: pictures, questions, answers, CSV rows |

## Model

| member | source | states |
|---|---|---|
| Analysis.ErrorTypeOf | backend/apps/reading_fluency/analysis.py:18-24 | a known code (0, 16, 32, 64, 128) gives the error type with that code; any other code is the enum's error |
| Analysis.ErrorTypeRoundTrip | backend/apps/reading_fluency/analysis.py:46-49 | reading back the code of any error type gives that type |
| Analysis.DpLabel | backend/apps/reading_fluency/analysis.py:73-81 | exactly the codes 16, 32, 64 and 128 have an add/omit label, and no label reads "correct", "not paper content" or "unknown error" |
| Analysis.DurationMs | backend/apps/reading_fluency/analysis.py:41-44 | durations are ten milliseconds per frame |
| Analysis.ConfidenceLevel | backend/apps/reading_fluency/analysis.py:58-62 | the level is "unknown" exactly when the code is not 1, 2 or 3 |
| Analysis.PronunciationNote | backend/apps/reading_fluency/analysis.py:83-95 | a pronunciation note is given only when the add/omit code is 0 and the pronunciation code is not |
| Analysis.PhoneErrorDescription | backend/apps/reading_fluency/analysis.py:64-99 | "correct" exactly for a paper phone without an add/omit label; "not paper content" exactly for a non-paper phone with neither label nor note; otherwise the label, or the note for a non-paper phone |
| Analysis.LastDigitIndex | backend/apps/reading_fluency/analysis.py:145-149 | the position of the last digit of a symbol, and none exactly when it has no digit |
| Analysis.Tone | backend/apps/reading_fluency/analysis.py:140-149 | no tone exactly when the symbol has no digit; otherwise the value of its last digit, with the neutral tone 5 reported as 0 |
| Analysis.SyllableErrorSummary | backend/apps/reading_fluency/analysis.py:151-177 | "correct" exactly when the syllable is correct; an incorrect syllable is summarised by its add/omit label, or "unknown error" |
| Analysis.PaperSyllables | backend/apps/reading_fluency/analysis.py:199-202 | exactly the syllables of the character that are paper content |
| Analysis.IsReadMeans | backend/apps/reading_fluency/analysis.py:204-207 | a character is read exactly when one of its syllables is paper content |
| Analysis.CharacterIsCorrectMeans | backend/apps/reading_fluency/analysis.py:209-214 | a character is correct exactly when it has a paper syllable and every paper syllable carries code 0 |
| Analysis.ActualPinyin | backend/apps/reading_fluency/analysis.py:216-222 | empty for an unread character, otherwise the symbol of its first paper syllable: one with no paper syllable before it |
| Analysis.StatusSummaryAsWrittenMisreports | backend/apps/reading_fluency/analysis.py:224-235 | as written, a character whose first paper syllable is correct and second is replaced is incorrect yet reported "correct" |
| Analysis.FirstIncorrect | backend/apps/reading_fluency/analysis.py:232-234 | none exactly when every syllable is correct, otherwise an incorrect syllable of the sequence |
| Analysis.StatusSummary | backend/apps/reading_fluency/analysis.py:224-235 | corrected: "missed" for an unread character; "correct" exactly when the character is correct; otherwise the label of a wrong paper syllable |
| Analysis.ReadCharacters | backend/apps/reading_fluency/analysis.py:278-281 | no more characters read than there are characters |
| Analysis.CorrectCharacters | backend/apps/reading_fluency/analysis.py:283-286 | no more correct characters than read ones |
| Analysis.Percent | backend/apps/reading_fluency/analysis.py:288-300 | part over total in per cent, 0 for an empty test, between 0 and 100, and 100 when the part is the whole |
| Analysis.PercentMonotone | backend/apps/reading_fluency/analysis.py:288-300 | a larger part gives a larger percentage of the same total |
| Analysis.CharacterAccuracyRate | backend/apps/reading_fluency/analysis.py:288-293 | the accuracy rate is between 0 and the completion rate |
| Analysis.ReadingCompletionRate | backend/apps/reading_fluency/analysis.py:295-300 | the completion rate is between 0 and 100, and 100 exactly when the test is non-empty and every character was read |
| Analysis.IntAttr | backend/apps/reading_fluency/analysis.py:359-361 | a missing attribute reads as 0; a present one succeeds exactly when it is an integer literal, with that value |
| Analysis.IntAttrIfSet | backend/apps/reading_fluency/analysis.py:406-408 | a missing or empty attribute reads as 0 |
| Analysis.FloatAttr | backend/apps/reading_fluency/analysis.py:320-324 | a missing attribute reads as 0.0; a present one succeeds exactly when it is a decimal literal |
| Analysis.DecodePhone | backend/apps/reading_fluency/analysis.py:399-418 | succeeds exactly when every integer attribute reads; then each field is its attribute: content, node type, tone, span, `dp_message`, `perr_msg`, `perr_level_msg` and `is_yun` |
| Analysis.DecodeSyllable | backend/apps/reading_fluency/analysis.py:377-396 | succeeds exactly when its span and `dp_message` read and every phone below it decodes; then it keeps content, symbol, node type, span and `dp_message`, and its i-th phone is the decoding of the i-th phone element |
| Analysis.DecodeCharacter | backend/apps/reading_fluency/analysis.py:357-372 | succeeds exactly when its span reads and every syllable of its first word decodes; it keeps content and span; without a word it has no syllables and no expected pinyin, otherwise its i-th syllable is the decoding of the word's i-th syllable element and the pinyin is the word's symbol |
| Analysis.Scores | backend/apps/reading_fluency/analysis.py:320-324 | the five scores are read exactly when all five attributes are numbers, in the order total, phone, tone, fluency, integrity |
| Analysis.DecodeReadSyllable | backend/apps/reading_fluency/analysis.py:318-331 | succeeds exactly when the five scores, the duration and every named sentence read; then the i-th character is the decoding of the i-th named sentence, never empty, the five scores are the element's five attributes in order, the duration and `except_info` are the element's, and the result is not rejected |
| Analysis.AnalyzeXml | backend/apps/reading_fluency/analysis.py:307-344 | malformed XML fails; a document without rec_paper/read_syllable gives the empty evaluation; otherwise the decoded read_syllable |
| Analysis.Detail | backend/apps/reading_fluency/analysis.py:443-451 | a correct character is read, and its status is "正确" exactly when it is correct (with the corrected status; see Left out) |
| Analysis.Details | backend/apps/reading_fluency/analysis.py:442-453 | one detail per character, in order |
| Analysis.AnalyzeReadingEvaluation | backend/apps/reading_fluency/analysis.py:421-464 | succeeds exactly when the XML analysis does, and otherwise reports its error; on success it reports the evaluation's five scores and duration in milliseconds, one detail per character, the total, read and correct counts both of the characters and of the details, the accuracy and completion rates as those counts' percentages of the total, correct at most read at most total, and accuracy at most completion |
| Analysis.CorrectCountMatchesDetails | backend/apps/reading_fluency/analysis.py:284-286 | the reported correct count equals the number of details marked correct |
| Analysis.Truncate | backend/apps/reading_fluency/analysis.py:482 | Python's `int` of a float truncates toward zero |
| Analysis.ScoreShare | backend/apps/reading_fluency/analysis.py:482 | the share of the maximum a score out of 100 stands for, rounded toward zero: at most the maximum, within one of the exact share up to a score of 100, not negative for a non-negative score, the whole maximum at 100, and between the exact share and 0 for a negative score |
| Analysis.EstimateCorrectCharacterCount | backend/apps/reading_fluency/analysis.py:467-488 | the correct count capped at the maximum when the analysis succeeds; otherwise the score share of the fallback total score, or 0 when it cannot be read or the XML is malformed; never above the maximum, and negative only for a negative fallback score |
| Analysis.StatusSummaryDiffersOnlyThere | backend/apps/reading_fluency/analysis.py:224-235 | a correct character is reported "正确" by the code as written too; the corrected status differs from the as-written one only for a read, incorrect character whose first paper syllable is correct |
| Analysis.FallbackScore | backend/apps/reading_fluency/analysis.py:476-482 | a fallback score is read only from a parsed document's `rec_paper/read_syllable` element, and is its `total_score` attribute |
| Analysis.ReadCountMatchesDetails | backend/apps/reading_fluency/analysis.py:279-281 | the reported read count equals the number of details marked read |
| Attention.RowCells | backend/apps/attention_test/service.py:146-162 | one cell per symbol of the row, carrying its position and symbol, a target exactly when its position is listed for the target symbol and it holds that symbol, and not clicked |
| Attention.GridOfRowsShape | backend/apps/attention_test/service.py:142-162 | the grid of the first n rows has one cell per matrix cell, each faithful to the matrix, in strictly increasing row-major order, covering every position |
| Attention.GridOfRowsLength | backend/apps/attention_test/service.py:142-162 | the grid has as many cells as the rows have symbols |
| Attention.GridOfRowsCells | backend/apps/attention_test/service.py:142-162 | every grid cell lies in one of the first n rows and is faithful to the matrix |
| Attention.GridOfRowsOrder | backend/apps/attention_test/service.py:142-162 | grid cells come in strictly increasing row-major order, so no position appears twice |
| Attention.GridOfRowsCovers | backend/apps/attention_test/service.py:142-162 | every position of the first n rows has a cell in the grid |
| Attention.GenerateSymbolGrid | backend/apps/attention_test/service.py:121-164 | an empty matrix gives no grid; practice shows the first row only and the test every row; every cell is faithful, in row-major order, and every position of those rows is covered |
| Attention.TargetSet | backend/apps/attention_test/service.py:139 | the target positions of a symbol, or none for a symbol without a list |
| Attention.SaveAttentionRecord | backend/apps/attention_test/service.py:321-355 | corrected: an unknown session fails with "测试会话不存在: ID=<session id>", then an unknown user with "用户不存在: ID=<user id>", both ids the request's; otherwise one record is appended with the request's fields, correct exactly when target and click agree |
| Attention.ClampedScore | backend/apps/attention_test/service.py:280-282 | correct minus incorrect minus half the missed, but never below 0; never above the correct count |
| Attention.AnalyzeUserSubmissions | backend/apps/attention_test/service.py:248-289 | corrected: an unknown session fails with "测试会话不存在: ID=<session id>"; otherwise hits, false alarms and misses are counted among the session's records and give the clamped score |
| Attention.OutcomeCountsPartition | backend/apps/attention_test/service.py:265-278 | hits, false alarms, misses and correct rejections split the records exactly |
| Attention.TargetsAreHitOrMissed | backend/apps/attention_test/service.py:265-278 | hits plus misses are the number of target records |
| Attention.NewSession | backend/apps/attention_test/models.py:13-22 | a fresh session has the default target symbol, zero counts and score, and accuracy 0 |
| Attention.Accuracy | backend/apps/attention_test/models.py:28-34 | hits over clicks in per cent, 0 before any click, between 0 and 100, and 100 exactly when there are hits and no false alarms |
| Attention.CompleteTestSession | backend/apps/attention_test/service.py:292-318 | an unknown session gives none; otherwise the session is completed now with the corrected analysis's counts and non-negative score and its elapsed seconds |
| Attention.SaveAttentionRecordAsWritten | backend/apps/attention_test/service.py:321-349 | as written: an unknown session fails with "测试会话不存在: ID=<session id>", then an unknown user with "用户不存在: ID=<user id>", both ids the request's, and any other request fails on the missing `is_clicked` attribute, so no record is ever stored |
| Attention.AsWrittenSaveAlwaysRaises | backend/apps/attention_test/service.py:321-349 | whatever the request, the as-written save stores nothing, while the corrected save stores the record whenever the session and user exist |
| Attention.AnalyzeUserSubmissionsAsWritten | backend/apps/attention_test/service.py:248-289 | as written: an unknown session fails with "测试会话不存在: ID=<session id>"; the analysis succeeds exactly when the session exists and has no record, and then gives zero counts and score |
| Attention.AsWrittenAnalysisFailsOnAnyRecord | backend/apps/attention_test/service.py:248-289 | where the as-written analysis succeeds it agrees with the corrected one; a session with a single hit makes it fail where the corrected analysis scores 1 |
| CalculationProblems.GcdLoop | src/composables/useCalculationProblems.js:33-40 | the loop of `gcd` ends with Euclid's greatest common divisor, which divides both arguments and is positive unless both are 0 |
| CalculationProblems.GcdIsGreatest | src/composables/useCalculationProblems.js:33-40 | every common divisor of the two arguments divides the result of `gcd` |
| CalculationProblems.SimplifyFraction | src/composables/useCalculationProblems.js:42-48 | the simplified fraction has the value of the given one, a positive denominator, and coprime parts |
| CalculationProblems.SimplifiedIsCoprime | src/composables/useCalculationProblems.js:42-48 | dividing both parts by their greatest common divisor leaves parts whose greatest common divisor is 1 |
| CalculationProblems.ToMixedNumber | src/composables/useCalculationProblems.js:50-57 | for a non-negative numerator, whole times denominator plus the remainder gives back the numerator, and the remainder is below the denominator |
| CalculationProblems.MixedKeepsValue | src/composables/useCalculationProblems.js:50-57 | a mixed number has the value of the fraction it was made from |
| CalculationProblems.SimplifiedMixedKeepsValue | src/composables/useCalculationProblems.js:81-88 | simplifying and then splitting off the whole part keeps the fraction's value and leaves a proper fractional part |
| CalculationProblems.MixedAnswer | src/composables/useCalculationProblems.js:81-89 | the stored fractional answer is proper, in lowest terms (or zero), and equals numerator over denominator |
| CalculationProblems.ResultNumerator | src/composables/useCalculationProblems.js:67-78 | the result numerator is the sum for an addition, and for a subtraction the larger numerator minus the smaller |
| CalculationProblems.FractionAddSubAsWritten | src/composables/useCalculationProblems.js:60-91 | as written: the denominator is 2 to 7, both numerators 1 to the denominator, and the answer is the absolute difference while the text keeps the drawn order |
| CalculationProblems.AsWrittenFractionSubtractionHasWrongSign | src/composables/useCalculationProblems.js:73-77 | when a subtraction draws the smaller numerator first, the stored answer is the negation of the value the text shows |
| CalculationProblems.ShownFractions | src/composables/useCalculationProblems.js:87 | the corrected text shows the same two numerators (larger first for a difference), and its value is the answer's numerator over the denominator |
| CalculationProblems.FractionAddSub | src/composables/useCalculationProblems.js:60-91 | corrected generator: the value of the shown text equals the stored mixed-number answer, which is not negative |
| CalculationProblems.FractionIntegerAddSubAsWritten | src/composables/useCalculationProblems.js:93-124 | as written: the text shows the fraction minus the whole number, while the answer is the whole number minus the fraction |
| CalculationProblems.AsWrittenIntegerSubtractionHasWrongSign | src/composables/useCalculationProblems.js:104-111 | for every drawn subtraction, the stored answer is the negation of the value the text shows |
| CalculationProblems.WholeExceedsFraction | src/composables/useCalculationProblems.js:106-110 | the guard that turns a subtraction into an addition never fails, because a whole number of at least 1 covers a numerator no larger than its denominator |
| CalculationProblems.ShownWithInteger | src/composables/useCalculationProblems.js:120 | the corrected text (fraction plus whole, or whole minus fraction) has the value of the answer's numerator over the denominator |
| CalculationProblems.FractionIntegerAddSub | src/composables/useCalculationProblems.js:93-124 | corrected generator: the value of the shown text equals the stored mixed-number answer, which is not negative |
| CalculationProblems.Clamped | src/composables/useCalculationProblems.js:483-504 | after clamping, the value of the shown three-number expression equals the answer, and that answer is not negative for non-negative operands |
| CalculationProblems.ThreeNumberExpression | src/composables/useCalculationProblems.js:467-507 | the first operand lies from min to max - 1, the answer is the value of the text, and it is not negative |
| CalculationProblems.Grade1Addition | src/composables/useCalculationProblems.js:127-146 | a grade-1 addition numbered as given, whose answer (1 to 19) is the value of its text |
| CalculationProblems.Grade1Subtraction | src/composables/useCalculationProblems.js:147-165 | a grade-1 subtraction whose answer (0 to 10) is the value of its text |
| CalculationProblems.TwoNumbers | src/composables/useCalculationProblems.js:169-195 | a grade-2 two-number problem whose answer (0 to 100) is the value of its text |
| CalculationProblems.ThreeNumbers | src/composables/useCalculationProblems.js:196-206 | a grade-2 three-number problem whose non-negative answer is the value of its text |
| CalculationProblems.Grade3Type1 | src/composables/useCalculationProblems.js:210-235 | a three-digit plus or minus two-digit problem with an answer from 1 to 1098 that is the value of its text |
| CalculationProblems.Grade3Type2 | src/composables/useCalculationProblems.js:237-262 | two three-digit numbers whose answer (0 to 999) is the value of its text |
| CalculationProblems.Grade3Type3 | src/composables/useCalculationProblems.js:264-274 | a three-digit three-number problem whose non-negative answer is the value of its text |
| CalculationProblems.TwoDigitAddSub | src/composables/useCalculationProblems.js:278-303 | two-digit addition or subtraction whose answer (0 to 198) is the value of its text |
| CalculationProblems.Product | src/composables/useCalculationProblems.js:306-317 | `a × b` with each operand in its drawn range: the answer is the product and lies between the products of the bounds |
| CalculationProblems.ProductOf | src/composables/useCalculationProblems.js:311-314 | the problem text shows `a × b` and its answer is the value of that text |
| CalculationProblems.TwoDigitMult | src/composables/useCalculationProblems.js:306-317 | the product of two two-digit numbers, from 100 to 9801 |
| CalculationProblems.ThreeDigitMult | src/composables/useCalculationProblems.js:341-353 | the product of a three-digit and a two-digit number, from 1000 to 98901 |
| CalculationProblems.FractionProblem | src/composables/useCalculationProblems.js:320-338 | a fraction problem whose decimal answer is the value of its mixed-number answer, with a positive denominator |
| CalculationProblems.Multiplication | src/composables/useCalculationProblems.js:415-434 | a product of two digits from 1 to 9, answer 1 to 81 |
| CalculationProblems.Division | src/composables/useCalculationProblems.js:437-451 | the dividend is a multiple of the divisor (1 to 9), so the division is exact and the answer from 1 to 19 is its value |
| CalculationProblems.Round | src/composables/useCalculationProblems.js:625 | `Math.round` gives the integer within one half of its argument, halves rounded up |
| CalculationProblems.ComplexFraction | src/composables/useCalculationProblems.js:606-627 | two mixed numbers over a common denominator from 2 to 4; the answer is within 0.005 of the value of the text |
| CalculationProblems.RepeatNumbers | src/composables/useCalculationProblems.js:128-146 | a loop of `count` problems numbers them from its first index, one after another |
| CalculationProblems.Grade1 | src/composables/useCalculationProblems.js:126-166 | 40 problems, every one a grade-1 addition or subtraction: additions in positions 1 to 20, then subtractions in 21 to 40 |
| CalculationProblems.Grade2 | src/composables/useCalculationProblems.js:168-207 | 40 problems, every one a grade-2 problem: two-number problems in positions 1 to 30, then three-number problems in 31 to 40 |
| CalculationProblems.Grade3 | src/composables/useCalculationProblems.js:209-275 | 40 problems, every one a grade-3 problem: type 1 in positions 1 to 10, type 2 in 11 to 30, type 3 in 31 to 40 |
| CalculationProblems.Grade4 | src/composables/useCalculationProblems.js:277-354 | 40 problems, every one a grade-4 problem: two-digit additions and subtractions in positions 1 to 10, two-digit products in 11 to 20, fraction problems in 21 to 30 (two fractions in 21 to 28, a fraction and a whole number in 29 and 30), three-by-two-digit products in 31 to 40 |
| CalculationProblems.Grade5 | src/composables/useCalculationProblems.js:356-412 | the fixed table of 40 problems numbered 1 to 40, all decimal problems, with their texts and answers; nothing is drawn |
| CalculationProblems.Grade6 | src/composables/useCalculationProblems.js:414-465 | 40 problems, every one a grade-6 problem: products in positions 1 to 15, divisions in 16 to 30, mixed-number problems in 31 to 40 |
| CalculationProblems.Draft | src/composables/useCalculationProblems.js:3-24 | 40 problems for grades 1 to 6 and none for any other grade, each of its grade's kind |
| CalculationProblems.DraftLayout | src/composables/useCalculationProblems.js:3-24 | before the shuffle, every position of each grade's list holds a problem of its part's kind, in the order the grade's generator makes its parts |
| CalculationProblems.FractionPartSplit | src/composables/useCalculationProblems.js:320-329 | in grade 4's fraction part the first eight problems show two fractions and the last two a fraction and a whole number |
| CalculationProblems.DraftIsNumbered | src/composables/useCalculationProblems.js:3-24 | before the shuffle, each grade numbers its problems 1 to 40 in the order it makes them |
| CalculationProblems.ShuffleFrom | src/composables/useCalculationProblems.js:653-656 | the Fisher-Yates loop yields a permutation of its input |
| CalculationProblems.ShuffleFromCommutes | src/composables/useCalculationProblems.js:653-656 | the shuffle's swaps do not look at the elements, so shuffling commutes with any map over them |
| CalculationProblems.ShuffleProblems | src/composables/useCalculationProblems.js:652-661 | after the shuffle, problems are numbered 1 to n and, apart from their numbers, are a permutation of the input |
| CalculationProblems.ShuffleKeepsExpected | src/composables/useCalculationProblems.js:652-661 | whatever holds of every problem, apart from its number, still holds after the shuffle |
| CalculationProblems.GenerateProblems | src/composables/useCalculationProblems.js:3-30 | `generateProblems`: 40 problems for grades 1 to 6 and none otherwise, numbered 1 to n, each of its grade's kind, and a permutation of the grade's draft |
| CalculationProblems.CorrectedFractionsKeepAnswers | src/composables/useCalculationProblems.js:60-123 | the corrected fraction generators draw the same values and give the same answers as the code as written; the shown text differs only for a subtraction with the smaller numerator first and for a fraction-minus-integer subtraction |
| CalculationTest.CreateTestSession | backend/apps/calculation_test/service.py:16-40 | an unknown user fails with "用户不存在: ID=<user id>"; otherwise a fresh session with the request's grade and question count, nothing answered, a maximum of 40 and accuracy 0 |
| CalculationTest.DefaultSessionRates | backend/apps/calculation_test/models.py:18-48 | a default session has accuracy, completion rate and score percentage 0 |
| CalculationTest.Accuracy | backend/apps/calculation_test/models.py:29-34 | accuracy is correct answers over answers, in per cent (0 with no answers), and lies from 0 to 100 when the counters are consistent |
| CalculationTest.CompletionRate | backend/apps/calculation_test/models.py:36-41 | answered over planned questions in per cent, 0 with none planned, from 0 to 100 while progress does not exceed the plan |
| CalculationTest.ScorePercentage | backend/apps/calculation_test/models.py:43-48 | points over the maximum in per cent, 0 with a maximum of 0 |
| CalculationTest.SaveProblem | backend/apps/calculation_test/service.py:105-145 | an unknown session fails with "测试会话不存在: ID=<session id>", then an unknown user with "用户不存在: ID=<user id>"; otherwise the answer is correct exactly when it equals the correct answer as a string, the problem is appended, progress goes up by one, correct count by one exactly for a correct answer, and no other field changes |
| CalculationTest.SaveAllCounts | backend/apps/calculation_test/service.py:136-139 | after saving a sequence of answers, progress has grown by their number and the correct count by the number answered right |
| CalculationTest.UpdateTestSession | backend/apps/calculation_test/service.py:48-73 | an unknown session gives none; every field sent is overwritten and every other kept; completing a session with no end time sets the end time to now and the elapsed seconds |
| CalculationTest.CompleteTestSession | backend/apps/calculation_test/service.py:82-102 | an unknown session gives none; otherwise it is completed, ends now, and its elapsed seconds are now minus its start |
| CalculationTest.TypeStatOf | backend/apps/calculation_test/service.py:195-208 | a type's total, its correct count, and accuracy as correct over max(total, 1) in per cent; 100 exactly when the type is non-empty and all correct |
| CalculationTest.ProblemTypeStats | backend/apps/calculation_test/service.py:188-260 | grade 1 splits by + and - in the text, grade 2 by the number of operators, grade 3 into problems up to 10, 11 to 30 and past 30, each key's statistics being those of exactly its problems; other grades have no statistics; the grade-3 totals add up to all problems and all correct ones |
| CalculationTest.Grade3Partition | backend/apps/calculation_test/service.py:238-260 | the three position buckets of grade 3 (up to 10, 11 to 30, above 30) split the problems, and their correct ones, exactly |
| CalculationTest.GetTestSessionResults | backend/apps/calculation_test/service.py:159-270 | an unknown session gives none; otherwise the counts, the session's accuracy, completion rate and total seconds, the mean response time over max(n, 1) and the grade's type statistics |
| CalculationTest.AccuracyBand | backend/apps/calculation_test/router.py:200-206 | the first message is the weak band below 60, the fair band from 60 to below 80, and the strong band from 80 |
| CalculationTest.TypeMessage | backend/apps/calculation_test/router.py:212-218 | fractions first, then names containing "Mult", then names containing "AddSub"; any other name gets no message |
| CalculationTest.TypeMessages | backend/apps/calculation_test/router.py:209-218 | at most one message per type, each one of the three type messages, and none when no type name has one |
| CalculationTest.RecommendationsWith | backend/apps/calculation_test/router.py:191-233 | the band message first; the slow message exactly when the mean time exceeds the threshold; the consistency message exactly when consistency is below 70; never the "excellent" message, since the band message is always there |
| CalculationTest.Recommendations | backend/apps/calculation_test/router.py:220-223 | corrected rule: the slow message exactly when the mean response time exceeds 30 seconds (30000 ms) |
| CalculationTest.AsWrittenCallsFastAnswersSlow | backend/apps/calculation_test/router.py:221-223 | with a mean of 31 ms per answer, the rule as written reports slow answering and the corrected rule does not |
| CalculationTest.ObservationsOf | backend/apps/calculation_test/service.py:178-186 | the service's results carry no speed analysis, so no consistency score, and one accuracy per type statistic |
| CalculationTest.ServiceStatsGiveAtMostTwoMessages | backend/apps/calculation_test/router.py:191-233 | for results the service produces, the advice is the band message and at most the speed message |
| CalculationTest.TypeNamesArePlain | backend/apps/calculation_test/service.py:194-260 | none of the type names the statistics use contains "Mult" or "AddSub", because none has an M or an S |
| CalculationTest.PlainNameEarnsNoMessage | backend/apps/calculation_test/router.py:212-218 | a type name with neither an M nor an S gets no type message |
| CalculationTest.Grade3Stats | backend/apps/calculation_test/service.py:235-258 | the three grade-3 keys, in order, each with the statistics of exactly the problems up to 10, 11 to 30 and past 30, whose totals and correct counts add up to all problems and all correct ones |
| DocxParse.ImageExtension | backend/parse_docx.py:31-39 | a picture is saved as .jpg exactly when it starts with the JPEG signature, .gif exactly when it starts with GIF, and .png otherwise, whether or not it has the PNG signature |
| DocxParse.SignaturesExclude | backend/parse_docx.py:32-37 | no picture starts with two of the three signatures, so the order of the tests does not matter |
| DocxParse.ExtractImages | backend/parse_docx.py:15-56 | one path per picture relationship that was written, numbered 1, 2, 3, ... in document order with no gaps, each with the extension its bytes choose |
| DocxParse.ImagePathsDiffer | backend/parse_docx.py:42-48 | two pictures with different numbers never share a path, whatever their extensions |
| DocxParse.RowQuestion | backend/parse_docx.py:73-87 | a row gives a question exactly when it has two cells whose stripped texts are both non-empty; the question's text is the stripped second cell, and it is a picture question exactly when the text names one of the picture keywords |
| DocxParse.NumberedRowKeepsItsNumber | backend/parse_docx.py:76-84 | a row whose first cell is a plain number keeps that number |
| DocxParse.UnnumberedRowTakesItsPosition | backend/parse_docx.py:72-84 | a row whose first cell is not all digits takes its row number |
| DocxParse.RowsQuestions | backend/parse_docx.py:72-91 | one question per kept row, each coming from one of the rows |
| DocxParse.ExtractQuestions | backend/parse_docx.py:59-93 | a document with fewer than two tables has no questions; otherwise the questions of the second table's rows after the header |
| DocxParse.ExtractedQuestionsAreWellFormed | backend/parse_docx.py:72-87 | every extracted question has text and is a picture question exactly when its text names a picture; there are no more questions than data rows |
| DocxParse.JudgeStatement | backend/parse_docx.py:102-116 | a text-only question is judged false exactly when its lower-cased text contains one of the known false statements |
| DocxParse.LoweringKeepsOccurrences | backend/parse_docx.py:102 | lower-casing the text neither creates nor destroys an occurrence of a string without Latin letters |
| DocxParse.JudgementIgnoresCase | backend/parse_docx.py:102-116 | since the known false statements have no Latin letters, lower-casing never changes a judgement |
| DocxParse.GenerateTextAnswers | backend/parse_docx.py:96-118 | an answer is generated exactly for the numbers of text-only questions |
| DocxParse.LastAnswerWins | backend/parse_docx.py:100-116 | when several text-only questions share a number, the last of them decides its answer |
| DocxParse.AnswerCell | backend/parse_docx.py:141-147 | picture questions wait for the user; a text-only question reads FALSE exactly when its generated answer is false, and TRUE otherwise, also when it has none |
| DocxParse.PictureRank | backend/parse_docx.py:129-139 | no more picture questions precede a question than questions do |
| DocxParse.CreateCsvRows | backend/parse_docx.py:121-149 | the header, then one row per question with its number, text, picture and answer; the pictures handed out are as many as there are picture questions, but never more than the saved pictures |
| DocxParse.AssignPictures | backend/parse_docx.py:129-139 | each picture question takes the next saved picture while any remain, and the count of pictures used is the smaller of the picture questions and the pictures |
| DocxParse.PictureRankCounts | backend/parse_docx.py:137-139 | counting picture questions while walking the list agrees with counting them in the prefix |
| DocxParse.PictureRankGrows | backend/parse_docx.py:137-139 | later questions have at least as many picture questions before them |
| DocxParse.PicturesAreNotShared | backend/parse_docx.py:136-139 | with distinct saved pictures, two questions never receive the same picture |
| DocxParse.TextAnswersReachTheirRows | backend/parse_docx.py:96-147 | with distinct numbers, each text-only question's row carries the judgement of its own text |
| Literacy.GetCharacterGroups | backend/apps/literacy_test/service.py:23-27 | a group is returned exactly when it is one of the data's groups and has at least one character; as many groups come back as have characters |
| Literacy.CharacterGroupsKeepOrder | backend/apps/literacy_test/service.py:23-27 | the filter keeps the data's order: groups listed in increasing id order stay in increasing id order |
| Literacy.CreateLiteracyTest | backend/apps/literacy_test/service.py:30-48 | a new test is in progress, with zero totals, no score, no group lines and a pending evaluation, so its accuracy rate is 0 |
| Literacy.AccuracyRate | backend/apps/literacy_test/models.py:44-49 | with no characters the rate is 0; otherwise the rate times the number of characters is 100 times the correct characters |
| Literacy.ScoreContribution | backend/apps/literacy_test/models.py:81-86 | a correct record contributes its group coefficient, any other (wrong or not yet judged) contributes 0 |
| Literacy.SaveAudioRecord | backend/apps/literacy_test/service.py:63-94 | appends one record, leaving the earlier ones untouched, carrying the given test, group and coefficient, not yet evaluated, unjudged and contributing nothing to the score |
| Literacy.Verdict | backend/apps/literacy_test/service.py:153-171 | without an analysis the character is wrong with confidence 0; with one it is correct exactly when its total score (0 when missing) is at least 60, and the confidence is that score over 100 |
| Literacy.VerdictAgreesWithConfidence | backend/apps/literacy_test/service.py:167-171 | a character is judged correct exactly when its confidence is at least 0.6 |
| Literacy.Tally | backend/apps/literacy_test/service.py:260-264 | counting a record on its group line adds one character, one correct character when the record is correct, and the record's contribution to the score, keeping the coefficient |
| Literacy.KeyIndex | backend/apps/literacy_test/service.py:251-252 | finds a line carrying the group id when there is one, and reports none exactly when no line carries it |
| Literacy.GroupScoresAddUp | backend/apps/literacy_test/service.py:243-264 | the group lines' characters add up to the number of records, their correct characters to the correct records and their scores to the total score; there is one line per group with records, and each line's characters, correct characters, score and coefficient are those of its group's records |
| Literacy.AddRecordSums | backend/apps/literacy_test/service.py:250-264 | one loop step adds the record to the character, correct-character and score sums over the lines |
| Literacy.AddRecordKeys | backend/apps/literacy_test/service.py:250-258 | one loop step keeps one line per group id, and the lines are exactly the groups of the records seen so far |
| Literacy.AddRecordCounts | backend/apps/literacy_test/service.py:250-264 | one loop step keeps every line's correct characters within its characters and each line's characters equal to its group's record count |
| Literacy.Aggregate | backend/apps/literacy_test/service.py:232-276 | with no records or one still being evaluated the test is unchanged; otherwise it records the totals, the correct count and the summed score, one line per group whose characters, correct characters, score and coefficient are its group records', and becomes completed at the given time, keeping its id, user and start |
| Literacy.AggregatedAccuracy | backend/apps/literacy_test/service.py:241-276 | after aggregation the accuracy rate lies between 0 and 100 and is 100 exactly when every record was read correctly |
| Literacy.UpdateTestCompletionStatus | backend/apps/literacy_test/service.py:219-282 | the test with the given id becomes the aggregate of exactly its own records; every other test is unchanged, and with no such test nothing changes |
| Literacy.EvaluateLiteracyAudio | backend/apps/literacy_test/service.py:120-217 | an unknown record changes nothing; otherwise only that record changes, keeping its character and coefficient, and ends finished: completed exactly on a successful result, with the analysis verdict; failed and wrong with confidence 0 and the result's error message (or the default one) on an unsuccessful one; failed with the exception message and the tests untouched when the call raises; after a returned result the test is brought up to date by the completion update |
| Literacy.AddRecordTallies | backend/apps/literacy_test/service.py:250-264 | one loop step keeps each line's correct characters, score and coefficient equal to those of its group's records |
| Literacy.AddRecordKeepsFaithful | backend/apps/literacy_test/service.py:250-264 | one loop step keeps the group lines faithful to the records seen so far |
| Literacy.LastEvaluationCompletesTest | backend/apps/literacy_test/service.py:120-282 | evaluating the last unfinished record of an existing test completes that test, with totals counted over all of its records |
| Literacy.EvaluateLiteracyAudioAsWritten | backend/apps/literacy_test/service.py:134-157 | as written, the client call raises: the tests are untouched, no record becomes completed, and the evaluated record fails with the exception message |
| Literacy.AsWrittenNeverCompletes | backend/apps/literacy_test/service.py:134-157 | for one recording the service would score 80, the intended evaluation completes the test with one correct character, while the code as written leaves it in progress |
| NumberFormat.FormatFraction | src/utils/numberFormat.js:57-64 | a string without a slash is returned unchanged; one with a slash becomes the fraction markup of the text before the first slash over the text between the first and the second |
| NumberFormat.SplitCountsSeparators | src/utils/numberFormat.js:38-45 | splitting a string that holds the separator gives at least two parts |
| NumberFormat.FractionRendersItsParts | src/utils/numberFormat.js:57-61 | a numerator and a denominator written with a slash between them are displayed as that numerator over that denominator |
| NumberFormat.FormatMixedNumber | src/utils/numberFormat.js:37-50 | unless splitting on 又 gives exactly two parts and the trimmed second part holds a slash, the input is returned unchanged; otherwise the trimmed whole part is followed by the mixed-number markup of the fraction's first two parts |
| NumberFormat.MixedNumberRendersItsParts | src/utils/numberFormat.js:37-47 | a mixed number written whole又numerator/denominator is displayed as the whole part followed by the numerator over the denominator |
| NumberFormat.FractionKeepsMarkAndSpace | src/utils/numberFormat.js:41-45 | the fraction text adds only a slash to its parts, so it gains no 又 and no spaces |
| NumberFormat.FractionSplits | src/utils/numberFormat.js:44-45 | splitting numerator/denominator on the slash gives back the numerator and the denominator |
| NumberFormat.FormatRepeatingDecimal | src/utils/numberFormat.js:71-75 | a string whose first character is not an overlined digit keeps that first character; one that starts with an overlined digit starts with the markup; the empty string stays empty |
| NumberFormat.RepeatingLeavesPlainStrings | src/utils/numberFormat.js:71-75 | a string with no overlined digit is returned as it is |
| NumberFormat.RepeatingLeavesNoOverlinedDigit | src/utils/numberFormat.js:71-75 | no overlined digit survives the rendering |
| NumberFormat.RepeatingIsIdempotent | src/utils/numberFormat.js:71-75 | rendering repeating decimals twice is rendering them once |
| NumberFormat.FormatAnswer | src/utils/numberFormat.js:11-30 | a number is rendered as its decimal string; a string is dispatched on its first mark in the order 又, overline, slash, and returned as it is with none |
| NumberFormat.PlainAnswersAreUnchanged | src/utils/numberFormat.js:11-75 | a string with none of the three marks is displayed as it is by every formatter |
| NumberFormat.IsFraction | src/utils/numberFormat.js:82-84 | true exactly for strings holding a slash or 又 |
| NumberFormat.IsRepeatingDecimal | src/utils/numberFormat.js:91-93 | true exactly for strings holding the overline |
| NumberFormat.ClassifiersMatchDispatch | src/utils/numberFormat.js:11-93 | every answer sent to a fraction formatter is a fraction, every answer sent to the repeating formatter is a repeating decimal, and any other answer is displayed as its plain string |
| NumberFormat.CompareAnswers | src/utils/numberFormat.js:101-128 | two numbers agree exactly when they are equal; otherwise answers whose trimmed texts are equal agree |
| NumberFormat.SameText | src/utils/numberFormat.js:111-127 | equal texts agree; different texts where the user's does not read as a number do not |
| NumberFormat.SameTextIsSymmetric | src/utils/numberFormat.js:111-127 | comparing texts does not depend on their order |
| NumberFormat.CompareAnswersIsSymmetric | src/utils/numberFormat.js:101-128 | every answer agrees with itself, and comparing does not depend on the order of the answers |
| OralReading.ChartShape | backend/apps/oral_reading_fluency/service.py:34-58 | the reading chart has 18 rows of 19 characters each |
| OralReading.ProcessReadingSubmission | backend/apps/oral_reading_fluency/service.py:106-152 | an unknown test fails with "测试不存在: ID=<test id>"; otherwise both rounds are recorded and completed with their durations and counts (0 when missing), the test is completed at the given time and pending evaluation, counts the recordings already uploaded for it, and takes the mean of the two counts as its average only when both are non-zero |
| OralReading.IndexOf | backend/apps/oral_reading_fluency/service.py:159-162 | finds the first record with the primary key, and none exactly when no record has it |
| OralReading.CompletedRecord | backend/apps/oral_reading_fluency/service.py:198-210 | a successful evaluation completes the record with all five of the service's scores and the correct-character estimate of the result XML for a row of ten, keeping its id, test, round, row and file |
| OralReading.EvaluateAudioRecord | backend/apps/oral_reading_fluency/service.py:155-250 | an unknown record or a row outside the chart is rejected with nothing changed; otherwise the record ends completed or failed, completed exactly when the result is true, which happens exactly when the client is configured, the file exists and the service succeeds on that row's text; no other record changes |
| OralReading.EvaluateEach | backend/apps/oral_reading_fluency/service.py:282-288 | one result per evaluated id; records whose ids are not evaluated are untouched and no record changes identity |
| OralReading.SuccessIsCompleted | backend/apps/oral_reading_fluency/service.py:282-291 | a recording whose evaluation reported success is still completed once the whole batch has run |
| OralReading.EvaluateEachSuccessesAreCompleted | backend/apps/oral_reading_fluency/service.py:282-291 | every success the batch counts corresponds to a recording left completed |
| OralReading.Pending | backend/apps/oral_reading_fluency/service.py:261-266 | the recordings selected are exactly the test's recordings whose evaluation is pending |
| OralReading.BatchEvaluate | backend/apps/oral_reading_fluency/service.py:253-363 | an unknown test fails with "测试不存在: ID=<test id>", the recordings and test unchanged; with nothing pending nothing changes; with recordings pending the batch is evaluated, counts each one as a success or a failure, and stores the evaluation status, both rounds' correct counts and the average score in the test |
| OralReading.EvaluatePending | backend/apps/oral_reading_fluency/service.py:272-344 | the batch's successes and failures add up to the pending recordings, the test is completed exactly when none failed and partially completed otherwise, each round's count is the correct characters of that round's completed recordings, and the average is replaced only when one of them is non-zero |
| OralReading.FilterKeepsUniqueIds | backend/apps/oral_reading_fluency/service.py:261-266 | selecting recordings keeps their ids distinct |
| OralReading.BatchCompletedMeansAllCompleted | backend/apps/oral_reading_fluency/service.py:286-298 | a batch that marks the test completed has left every one of the test's pending recordings completed |
| OralReading.CompletedMeansEverySuccess | backend/apps/oral_reading_fluency/service.py:290-298 | a batch marks the test completed exactly when every one of its evaluations succeeded |
| OralReading.PendingIdsAreDistinct | backend/apps/oral_reading_fluency/service.py:261-287 | the ids handed to the batch are distinct, so no recording is evaluated twice |
| OralReading.TestStatistics | backend/apps/oral_reading_fluency/service.py:366-425 | nothing for an unknown test; otherwise the statistics of exactly the test's recordings |
| OralReading.RoundCountsDisjoint | backend/apps/oral_reading_fluency/service.py:386-387 | the first and second round recordings together are no more than all the recordings |
| OralReading.Summarize | backend/apps/oral_reading_fluency/service.py:381-425 | counts all recordings, the completed ones and each round's; the completion rate is the completed share in per cent (0 with no recordings); each of the three averages is that score summed over all recordings divided by the completed count (0 with none completed) |
| OralReading.CompletionRate | backend/apps/oral_reading_fluency/service.py:383 | the completed share of the recordings in per cent, between 0 and 100, and 0 with no recordings |
| OralReading.AverageOver | backend/apps/oral_reading_fluency/service.py:423-425 | the sum shared over the completed count, or 0 when none is completed |
| OralReading.FullRateMeansAllCompleted | backend/apps/oral_reading_fluency/service.py:381-383 | the completion rate is 100 exactly when there are recordings and every one is completed |
| RavenTest.GetQuestionInfo | backend/apps/raven_test/service.py:51-88 | succeeds exactly for question numbers the group list can index (down to -71, since negative indices wrap); a question's position in its group is 1 to 12, it has 6 or 8 options with one image URL each, numbered from 1; for 1 to 72 the group is the (q-1) div 12-th and options are 6 exactly for the first 36 questions |
| RavenTest.QuestionNumberingIsInjective | backend/apps/raven_test/service.py:63-65 | two valid questions with the same group and position are the same question |
| RavenTest.GroupsDistinct | backend/apps/raven_test/service.py:26 | the six group names are pairwise different |
| RavenTest.NonPositiveQuestionWraps | backend/apps/raven_test/service.py:63-68 | question 0 and below take a group counted from the end of the list yet keep six options, since their group index is negative |
| RavenTest.ImageUrlsNameTheQuestion | backend/apps/raven_test/service.py:72-78 | the image names carry the question number as two digits that read back as the number, shared by the main and option images |
| RavenTest.CorrectAnswer | backend/apps/raven_test/service.py:200-206 | the key lookup succeeds exactly when the question has a group, the key has that group and enough answers for the position; for 1 to 72 it is the key's answer at (q-1) mod 12 of the question's group |
| RavenTest.AnswerIndex | backend/apps/raven_test/service.py:211-217 | finds a stored answer of the session to the question, and none exactly when there is none |
| RavenTest.Upsert | backend/apps/raven_test/service.py:211-245 | an existing answer to the question in the session is overwritten in place, otherwise one is appended; other answers are untouched, at most one answer per session and question is kept, and the stored answer carries the new choice, time and whether it matches the correct answer |
| RavenTest.AnswerIndexAfterUpdate | backend/apps/raven_test/service.py:219-227 | updating answers in place keeps the position of each question's answer |
| RavenTest.AnswerIndexAppend | backend/apps/raven_test/service.py:228-245 | an appended answer to an unanswered question is found at the end |
| RavenTest.SaveAnswer | backend/apps/raven_test/service.py:184-245 | fails exactly when the session or user is unknown or the key cannot grade the question, an unknown session with "测试会话不存在: ID=<session id>" and then an unknown user with "用户不存在: ID=<user id>"; otherwise keeps one answer per question and stores the answer graded against the key |
| RavenTest.UpsertAll | backend/apps/raven_test/service.py:263-313 | the batch succeeds exactly when the key can grade every item |
| RavenTest.SaveAnswersBatch | backend/apps/raven_test/service.py:248-313 | fails exactly when the session or user is unknown or some item cannot be graded, an unknown session with "测试会话不存在: ID=<session id>" and then an unknown user with "用户不存在: ID=<user id>"; otherwise returns the number of items |
| RavenTest.UpsertAllKeepsOnePerQuestion | backend/apps/raven_test/service.py:280-306 | a saved batch keeps one answer per session and question, however often it repeats a question |
| RavenTest.BatchStoresEveryQuestion | backend/apps/raven_test/service.py:264-308 | after a saved batch every item's question has a stored answer |
| RavenTest.UpsertAllKeepsQuestion | backend/apps/raven_test/service.py:280-306 | a question already answered in the session stays answered after a batch |
| RavenTest.CompleteTestSession | backend/apps/raven_test/service.py:316-356 | nothing for an unknown session; otherwise it is completed at the given time, its raw score is the number of correct answers and its progress the number of answers, its time is the seconds since the start, and the norm scores are looked up only when the age is known |
| RavenTest.RawScoreAtMostQuestions | backend/apps/raven_test/service.py:327-328 | with one answer per question, the raw score is at most the number of questions |
| RavenTest.QuestionsOfSession | backend/apps/raven_test/service.py:323-325 | a session's answers come from the store and answer pairwise different questions |
| RavenTest.DistinctQuestionsBound | backend/apps/raven_test/service.py:327-328 | answers to different questions drawn from a set have at most as many correct ones as the set has questions |
| RavenScoring.FirstFrom | backend/apps/raven_test/scoring.py:123-128 | finds the first cell in the range that is present and satisfies the condition, and none exactly when no cell there does |
| RavenScoring.AgeColumn | backend/apps/raven_test/scoring.py:72-81 | the first age column (after P, before Z and IQ) whose band of half a year either side contains the age, skipping headers that are not numbers; none exactly when no column's band does |
| RavenScoring.Column | backend/apps/raven_test/scoring.py:96 | the column's cells from top to bottom |
| RavenScoring.RunEnd | backend/apps/raven_test/scoring.py:134-140 | the run of cells equal to the raw score starts at the first hit and ends at the first cell that differs |
| RavenScoring.SelectRow | backend/apps/raven_test/scoring.py:90-143 | the row lies in 2 to len-3; it is 2 exactly when no scanned cell reaches the raw score, and len-3 when otherwise no scanned cell is at most the score |
| RavenScoring.UpperFallbackUnreachable | backend/apps/raven_test/scoring.py:123-131 | once some scanned cell is at most the raw score, the search for the upper row succeeds, so the fallback row 3 is never used |
| RavenScoring.SelectRowInDescendingColumn | backend/apps/raven_test/scoring.py:117-143 | in a column that never increases, the selected row is the middle (rounded down) of the run of cells equal to the raw score |
| RavenScoring.TruncateCell | backend/apps/raven_test/scoring.py:153-155 | a present IQ is truncated towards zero, so a non-negative one is the whole part; an absent one stays absent |
| RavenScoring.CalculateScore | backend/apps/raven_test/scoring.py:43-157 | no score without an age column; otherwise the P, Z and truncated IQ cells of the row the raw score selects in that column |
| RavenScoring.ScoreRow | backend/apps/raven_test/scoring.py:90-143 | a row exactly when the age has a column: the one the raw score selects there, between 2 and the end |
| RavenScoring.ScoreAtExtremes | backend/apps/raven_test/scoring.py:94-115 | a raw score no scanned cell reaches reads the top row 2; one below every scanned cell reads the bottom row len-3 |
| RavenDownload.QuestionDownloads | scripts/raven_direct_download.py:39-69 | each question fetches seven pictures, the main one and six options |
| RavenDownload.DownloadQuestionImages | scripts/raven_direct_download.py:39-69 | the number of pictures fetched is at most seven, and seven exactly when every fetch succeeded |
| RavenDownload.OptionRange | scripts/raven_direct_download.py:53-61 | the options of question q take answer numbers (q-1)*6+1 to (q-1)*6+6 |
| RavenDownload.AnswerNumbersAreDistinct | scripts/raven_direct_download.py:53-61 | two different question and option pairs never share an answer number |
| RavenDownload.AnswerNumbersCoverTheSeries | scripts/raven_direct_download.py:53-61 | questions 1 to 72 use every answer number from 1 to 432 |
| RavenDownload.MainFilenameParses | scripts/raven_direct_download.py:47 | the main picture's name reads back as the question number and slot 0 |
| RavenDownload.OptionFilenameParses | scripts/raven_direct_download.py:62 | an option picture's name reads back as the question number and the option |
| RavenDownload.DownloadNames | scripts/raven_direct_download.py:45-63 | each fetch is saved under its slot's name |
| RavenDownload.FilenamesAreDistinct | scripts/raven_direct_download.py:47-62 | for questions below 100 no two slots are saved under the same name |
| RavenDownload.Batches | scripts/raven_direct_download.py:84-88 | each batch is non-empty and holds at most five questions |
| RavenDownload.Interval | scripts/raven_direct_download.py:88 | the range from a to b holds the integers from a up to b, in order |
| RavenDownload.BatchesPartition | scripts/raven_direct_download.py:84-96 | the batches hand out every question from the first to the last exactly once, in increasing order |
| RavenDownload.TotalSuccess | scripts/raven_direct_download.py:98-103 | the batches' successes are at most seven per question |
| RavenDownload.DownloadAllQuestions | scripts/raven_direct_download.py:71-115 | seven pictures are expected per question, and no more than that are fetched |
| RavenDownload.ExpectedFiles | scripts/raven_direct_download.py:148-158 | seven file names are checked per question |
| RavenDownload.VerifyDownloads | scripts/raven_direct_download.py:142-169 | the check passes exactly when every slot of every question is present |
| RavenDownload.MissingNone | scripts/raven_direct_download.py:146-169 | no file is missing exactly when every slot of every listed question is present |
| RavenDownload.DownloadThenVerify | scripts/raven_direct_download.py:172-180 | after a download into an empty directory, the check passes exactly when every fetch succeeded |
| RavenScraper.Find | scripts/raven_image_scraper_by_playwright.py:46 | the first position of the character from a start, none exactly when it does not occur there |
| RavenScraper.RFind | scripts/raven_image_scraper_by_playwright.py:47-50 | the last position of the character, none exactly when it does not occur |
| RavenScraper.AfterAuthority | scripts/raven_image_scraper_by_playwright.py:46 | what follows the host is no longer than the address |
| RavenScraper.WithoutParams | scripts/raven_image_scraper_by_playwright.py:46 | the path with parameters removed is a prefix of the path |
| RavenScraper.Basename | scripts/raven_image_scraper_by_playwright.py:47 | the base name is the tail of the path after its last slash and has no slash |
| RavenScraper.Extension | scripts/raven_image_scraper_by_playwright.py:50 | the extension is empty or a tail of the name starting at its last dot; it is empty for a dotted name only when the dots before it are all leading |
| RavenScraper.UrlExtension | scripts/raven_image_scraper_by_playwright.py:45-52 | the extension a picture is saved with always starts with a dot, defaulting to .jpg |
| RavenScraper.NormalizeFilename | scripts/raven_image_scraper_by_playwright.py:43-58 | a main picture is named like the downloader's main picture and an option like its option picture, with the URL's extension |
| RavenScraper.PathOfPlainUrl | scripts/raven_image_scraper_by_playwright.py:46-47 | for an ordinary https address the parsed path is exactly the part after the host |
| RavenScraper.ExtensionOfName | scripts/raven_image_scraper_by_playwright.py:50-52 | a base name with a dot after its first character keeps its own extension |
| RavenScraper.HandleNetworkRequest | scripts/raven_image_scraper_by_playwright.py:60-69 | a request whose lower-cased address names one of the five picture extensions is appended to the list; any other leaves it unchanged |
| RavenScraper.RecordedRequests | scripts/raven_image_scraper_by_playwright.py:60-69 | over a run of requests exactly the picture addresses are recorded, in the order seen |
| RavenScraper.QuestionImages | scripts/raven_image_scraper_by_playwright.py:99-104 | the pictures that look like test pictures, or when there are none, every picture that is not a decoration |
| RavenScraper.Extensions | scripts/raven_image_scraper_by_playwright.py:113-119 | one extension per picture, its URL's |
| RavenScraper.ProcessQuestion | scripts/raven_image_scraper_by_playwright.py:86-130 | with seven pictures or more the first is saved as the main picture and the next six as options 1 to 6, each with its URL's extension; with fewer, each picture is fetched once, in order, and no two share a name |
| RavenScraper.MainThenOptions | scripts/raven_image_scraper_by_playwright.py:108-121 | seven saves: the main picture first, then options 1 to 6 |
| RavenScraper.ScrapedNamesMatchDownloader | scripts/raven_image_scraper_by_playwright.py:108-121 | for .jpg pictures the scraper's seven names are exactly the downloader's |
| ReadingFluency.NewSession | backend/apps/reading_fluency/models.py:8-20 | a new session has answered nothing, plans nothing and is not completed, so both its rates are 0 |
| ReadingFluency.Accuracy | backend/apps/reading_fluency/models.py:26-31 | with nothing answered the accuracy is 0; otherwise it times the answered trials is 100 times the correct ones |
| ReadingFluency.CompletionRate | backend/apps/reading_fluency/models.py:33-38 | with nothing planned the rate is 0; otherwise it times the planned trials is 100 times the answered ones |
| ReadingFluency.RatesArePercentages | backend/apps/reading_fluency/models.py:26-38 | with counters in range both rates lie between 0 and 100, each 100 exactly when its part is the whole |
| ReadingFluency.DefaultTrial | backend/apps/reading_fluency/models.py:41-53 | a trial given only its number answers no, takes 0 ms and is not judged |
| ReadingFluency.FindOrCreateUser | backend/apps/reading_fluency/service.py:64-84 | the user returned has the requested name, school, grade and class and is stored; when one already exists nothing is added, otherwise the new user is appended with the id the database assigns |
| ReadingFluency.FindOrCreateUserIdempotent | backend/apps/reading_fluency/service.py:64-84 | looking the same person up again returns the same user and adds nobody |
| ReadingFluency.SaveTrial | backend/apps/reading_fluency/service.py:87-110 | appends one trial for the found or created user, with the request's number, answer and time and no session, keeping every earlier trial |
| ReadingFluency.SaveTrialDirectAsWritten | backend/apps/reading_fluency/service.py:113-132 | as written: fails with "用户不存在: ID=<user id>" exactly for an unknown user; otherwise appends one trial with the request's user, number, answer and time, unjudged, and with no session |
| ReadingFluency.AsWrittenDropsSession | backend/apps/reading_fluency/service.py:121-126 | a trial sent for session 5 is stored with no session |
| ReadingFluency.SaveTrialDirect | backend/apps/reading_fluency/service.py:113-132 | fails with "用户不存在: ID=<user id>" exactly for an unknown user; otherwise appends one unjudged trial with the new id that carries every field of the request, its session included |
| ReadingFluency.GetUserResults | backend/apps/reading_fluency/service.py:135-174 | nothing for an unknown user; otherwise the user's trials, their number, how many were answered yes, that share in per cent and the mean response time, all 0 without trials |
| ReadingFluency.ResultsAccuracyIsPercentage | backend/apps/reading_fluency/service.py:160-168 | the reported accuracy lies between 0 and 100 and is 100 exactly when the user has trials and answered yes to each |
| ReadingFluency.SaveTrialCountsInResults | backend/apps/reading_fluency/service.py:113-174 | saving a trial for a known user adds one trial to their results, and one yes when the answer was yes |
| ReadingFluency.ReadCsvTrials | backend/apps/reading_fluency/service.py:23-44 | a missing or unreadable file gives no trials; otherwise one trial per row, the row's second cell when present and not empty, else its first |
| ReadingFluency.GetTrials | backend/apps/reading_fluency/service.py:47-61 | both lists come from the cache when both are cached; otherwise they are the trials read from the two files; either way the lists returned are what is cached afterwards |
| ReadingFluency.GetTrialsIsCached | backend/apps/reading_fluency/service.py:47-61 | once loaded, a later call returns the same lists and cache whatever the files hold by then |
| SpeechSdk.ProgressPercent | backend/apps/oral_reading_fluency/xfyun_sdk.py:297-300 | the upload percentage lies between 0 and 100 and is 100 once all the bytes are sent |
| SpeechSdk.ProgressMonotone | backend/apps/oral_reading_fluency/xfyun_sdk.py:297-300 | more bytes sent never report a lower percentage |
| SpeechSdk.FramesCoverAudio | backend/apps/oral_reading_fluency/xfyun_sdk.py:268-290 | frames cut every 1280 bytes number the audio length over 1280 rounded up, are full except the last, carry the end status only on the last and the first, middle and last audio markers where they belong |
| SpeechSdk.ProgressClimbs | backend/apps/oral_reading_fluency/xfyun_sdk.py:296-300 | the percentages after successive frames stay between 0 and 100, never fall, and reach 100 at the last frame |
| SpeechSdk.ProgressReports | backend/apps/oral_reading_fluency/xfyun_sdk.py:296-300 | one progress report per frame, the percentage of bytes sent after that frame |
| SpeechSdk.ProgressReportsClimb | backend/apps/oral_reading_fluency/xfyun_sdk.py:261-300 | the reports for a whole upload stay between 0 and 100, never fall, and end at 100 |
| SpeechSdk.SendAudioData | backend/apps/oral_reading_fluency/xfyun_sdk.py:261-305 | the frames put back together are exactly the audio; there are its length over 1280 rounded up of them, none for empty audio, all full but the last, the end status and the last-frame marker only on the last, the first-frame marker on the first |
| SpeechSdk.SyllableRequest | backend/apps/oral_reading_fluency/xfyun_sdk.py:420-428 | a syllable request for the text, for pupils in Chinese, raw audio at 16000 Hz |
| SpeechSdk.SentenceRequest | backend/apps/oral_reading_fluency/xfyun_sdk.py:430-438 | a sentence request for the text, for pupils in Chinese, raw audio at 16000 Hz |
| SpeechSdk.Parameters | backend/apps/oral_reading_fluency/xfyun_sdk.py:220-250 | the first frame has status 0, the application id and the category, sends the text behind a byte-order mark, and names the sample rate in the audio format |
| SpeechSdk.ParametersRateRoundTrip | backend/apps/oral_reading_fluency/xfyun_sdk.py:235 | the rate written into the audio format reads back as the request's sample rate |
| SpeechSdk.FailureResponse | backend/apps/oral_reading_fluency/xfyun_sdk.py:48-58 | a failed response carries the message and no result document |
| SpeechSdk.ScoresOf | backend/apps/oral_reading_fluency/xfyun_sdk.py:361-375 | zero scores without a document or a `read_syllable` element; otherwise it succeeds exactly when all five score attributes read, and gives them in order |
| SpeechSdk.ParseResult | backend/apps/oral_reading_fluency/xfyun_sdk.py:344-393 | succeeds exactly when there is no payload, an empty one, or a document whose scores are numbers; an empty payload or one that does not parse succeeds with zero scores; a document with readable scores reports them and its text; a failure's message starts with the parse-failure prefix |
| SpeechSdk.ParseResultAgreesWithAnalysis | backend/apps/oral_reading_fluency/xfyun_sdk.py:361-373 | the total and integrity scores the client reports are the ones the full analysis of the same document reads |
| SpeechSdk.FirstFinal | backend/apps/oral_reading_fluency/xfyun_sdk.py:312-323 | finds the first message whose status is 2, and none exactly when no message has it |
| SpeechSdk.WaitForResult | backend/apps/oral_reading_fluency/xfyun_sdk.py:307-342 | with no final message the wait fails with the timeout message; otherwise the response, success or failure, is the parse of the first final message's payload |
| SpeechSdk.EvaluateAudio | backend/apps/oral_reading_fluency/xfyun_sdk.py:163-218 | a connection that cannot be opened fails and sends nothing; otherwise the whole audio is sent and the wait's response is returned |
| SpeechSdk.Initialize | backend/apps/oral_reading_fluency/xfyun_sdk.py:402-410 | the factory stores the credentials with the default host and service address |
| SpeechSdk.GetSdk | backend/apps/oral_reading_fluency/xfyun_sdk.py:412-418 | a client for the stored configuration, or the not-initialised error exactly when none is stored |
| SpeechSdk.GetSdkAfterInitialize | backend/apps/oral_reading_fluency/xfyun_sdk.py:402-418 | after initialising, getting a client succeeds with the given application id |
| SpeechSdk.FirstFinalIsTheFirst | backend/apps/oral_reading_fluency/xfyun_sdk.py:312-323 | a final message with no final message before it is the one the wait stops at |
| SymbolMatrix.GenerateRow | scripts/generate_fixed_squence.py:26-30 | a row of the requested length, every cell one of the test symbols, using one draw per cell |
| SymbolMatrix.GenerateRows | scripts/generate_fixed_squence.py:25-31 | the requested number of rows, each of 40 cells drawn from the test symbols |
| SymbolMatrix.GenerateSymbolMatrix | scripts/generate_fixed_squence.py:21-33 | 26 rows of 40 cells, every cell one of the ten test symbols |
| SymbolMatrix.LoadMatrix | backend/apps/attention_test/service.py:71-78 | one matrix row per line of the file |
| SymbolMatrix.SplitSaved | scripts/generate_fixed_squence.py:36-42 | the saved text cut at its newlines gives back the rows, then an empty piece after the final newline |
| SymbolMatrix.SavedMatrixLoadsBack | scripts/generate_fixed_squence.py:36-42 | a matrix with no whitespace cell, saved and loaded by the attention service, is the same matrix |
| SymbolMatrix.GeneratedMatrixLoadsBack | scripts/generate_fixed_squence.py:172-175 | every generated matrix survives saving and loading unchanged |
| SymbolMatrix.WellShapedHasNoWhitespace | scripts/generate_fixed_squence.py:15 | a matrix of test symbols has no whitespace cell |
| SymbolMatrix.FindTargetPositions | scripts/generate_fixed_squence.py:45-54 | exactly the positions holding the target, in reading order without repeats, one per occurrence |
| SymbolMatrix.ScanRow | scripts/generate_fixed_squence.py:50-52 | scanning one row adds exactly that row's occurrences of the target, keeping reading order and the count |
| SymbolMatrix.GenerateTargetPositions | scripts/generate_fixed_squence.py:57-73 | one position list per test symbol, each listing exactly its occurrences; each symbol count is the length of its list, and for a generated matrix the counts add up to 26 times 40 |
| SymbolMatrix.CountInAll | scripts/generate_fixed_squence.py:67-73 | when every cell is one of the distinct symbols, their counts add up to the number of cells |
| SymbolMatrix.CountsCoverMatrix | scripts/generate_fixed_squence.py:72 | the symbol counts of a generated matrix add up to the number of its cells |
| SymbolMatrix.SymbolsAreDistinct | scripts/generate_fixed_squence.py:15 | the ten test symbols are pairwise different |
| TargetRows.SampleFrom | backend/script/generate_fixed_squence.py:46 | the pool method of `random.sample`: k picks, all from the pool, pairwise different when the pool is |
| TargetRows.RemovedPick | backend/script/generate_fixed_squence.py:46 | moving the pool's last value into the picked place leaves distinct values without the pick |
| TargetRows.Sample | backend/script/generate_fixed_squence.py:46 | `random.sample(range(n), k)` gives k pairwise different values from 0 to n - 1 |
| TargetRows.PositionsForRow | backend/script/generate_fixed_squence.py:43-48 | the requested number of pairwise different positions, all in the given row and within the 25 columns |
| TargetRows.FormalRows | backend/script/generate_fixed_squence.py:36-38 | three distinct positions in each formal row from the given one to the last, in row order |
| TargetRows.SymbolPositions | backend/script/generate_fixed_squence.py:31-38 | one symbol's list: 52 distinct cells, four in the practice row and then three in each of the 16 formal rows |
| TargetRows.PracticeThenFormal | backend/script/generate_fixed_squence.py:32-38 | the practice row's four positions followed by the formal rows' positions make a planned list |
| TargetRows.PlannedRowsAreInTheGrid | backend/script/generate_fixed_squence.py:15-21 | every planned place lies in the grid, and in the practice row exactly for the first four |
| TargetRows.PositionsOf | backend/script/generate_fixed_squence.py:27-38 | a planned list for every symbol given and for no other key |
| TargetRows.GenerateTargetPositions | backend/script/generate_fixed_squence.py:24-40 | a planned list for each of the ten test symbols and for nothing else |
| TargetRows.TargetCounts | backend/script/generate_fixed_squence.py:57 | one count per symbol, the length of its list |
| TargetRows.EverySymbolGetsItsTargets | backend/script/generate_fixed_squence.py:51-68 | every symbol's count is 52, with four positions in the practice row and three in every formal row |
| TargetRows.PlannedListCounts | backend/script/generate_fixed_squence.py:20-21 | a planned list has 52 positions, four in the practice row and three in each formal row |
| TargetRows.PlannedCount | backend/script/generate_fixed_squence.py:32-38 | a prefix of a planned list has, in each row, as many positions as the plan puts there |
| TargetRows.PlannedInRowPrefix | backend/script/generate_fixed_squence.py:32-38 | in closed form, the first n places of the plan give a row the part of its block below n |
| Text.MissingRow | backend/apps/attention_test/service.py:326 | the message for a missing row is the description, then ": ID=", then a decimal rendering that parses back to the id |
| Text.MissingRowIsInjective | backend/apps/attention_test/service.py:331 | two such messages with descriptions of one length are equal only for the same description and id |
| Timer.NewTimer | src/composables/useTimer.js:3-6 | a new countdown has the given time left (180 seconds by default), is not running and has no interval |
| Timer.ParseTime | src/composables/useTimer.js:8-12 | a displayed time reads back as a non-negative number of seconds |
| Timer.FormatTimeRoundTrip | src/composables/useTimer.js:8-12 | every non-negative number of seconds is displayed as mm:ss so that it reads back exactly |
| Timer.Stop | src/composables/useTimer.js:31-37 | stopping clears the interval and the running flag and keeps the time left |
| Timer.StopIsIdempotent | src/composables/useTimer.js:31-37 | stopping twice is stopping once |
| Timer.Start | src/composables/useTimer.js:25-29 | starting runs the countdown with a fresh interval from the time left |
| Timer.Reset | src/composables/useTimer.js:39-42 | resetting stops the countdown and sets the time left to the new time, the initial one by default |
| Timer.Tick | src/composables/useTimer.js:14-23 | a stopped countdown ignores a firing; a running one loses exactly one second and, on reaching zero or below, stops and reports the end, otherwise keeps running |
| Timer.StoppedTimerIgnoresTicks | src/composables/useTimer.js:14-15 | a stopped countdown stays as it is however often the interval fires |
| Timer.CountdownEndsOnTime | src/composables/useTimer.js:14-37 | a countdown started with n seconds runs for n-1 firings, ends on the n-th with no time left, reports the end exactly once and ignores later firings |

## Left out

- Database sessions, commits and queries: tables are sequences of records, and an existence check is a boolean or an `Option`.
- File reads and writes are left out: uploaded audio, result and error JSON files, matrix and target files, the download report and the CSV writer's quoting. A file's content arrives as a value, for example an optional data frame.
- The websocket connection, its lifecycle and the pacing sleeps of `xfyun_sdk.py` are left out. So are `asyncio.Semaphore(3)` and `gather` in `batch_evaluate_test_audio`. The batch is evaluated one record after another, and each outcome is a function of the record id and the request.
- The HMAC-SHA256 signature, base64 and URL encoding of `_generate_auth_url` (backend/apps/oral_reading_fluency/xfyun_sdk.py:70-104) are left out: they are foreign cryptographic and encoding libraries. Whether a connection opens is a parameter.
- XML text parsing (`ET.fromstring`) is left out. A document is an abstract element tree, or `Malformed`. An undecodable base64 payload is a payload variant.
- Python's `float()` and `int()` on attribute text accept more forms than the model reads: whitespace, underscores, exponents, `inf` and `nan`. The model reads plain decimals only.
- Floating point is modelled as exact `real` arithmetic: percentages, means, scores and coefficients. Float rounding is not modelled.
- The download report's success rate, printed with one decimal, is left out.
- Randomness is drawn from an explicit `Randomness.Source`; `Math.random()` and Python's `random` become draws from it. `random.sample` is modelled by its pool method. CPython's `_randbelow` bit draws and its set-based method are not reproduced, so the same seed may pick other values.
- `TargetRows.Sample` requires `k <= n`, where Python raises `ValueError`. Its one call site (backend/script/generate_fixed_squence.py:46) asks for 3 or 4 of 25 columns, so `k <= n` always holds. For n = 25 and k <= 5 CPython takes its set-based method, so the pool method never runs there; the randomness line above admits that difference.
- `CalculationProblems.SimplifyFraction` and `CalculationProblems.ToMixedNumber` require a positive denominator. Every generator draws one of at least 2. The source would produce NaN for 0/0.
- The generators at src/composables/useCalculationProblems.js:509-605 and 629-650 are left out, because no grade calls them: mixed, decimal, fraction, simple and grade fractions, percentage and ratio. `generateComplexFraction`, which grade 6 uses, is modelled.
- The tolerance comparison of `compareAnswers` on non-integer numbers is left out. `parseFloat` is a parameter, and a numeric answer is an integer.
- `Text.AsciiLower` lower-cases ASCII letters only, where Python's `lower` is Unicode-aware. The keywords it is used against contain no Latin letters (`DocxParse.JudgementIgnoresCase`).
- `isdigit` is modelled for ASCII digits only. Python also accepts other Unicode digits.
- `calculate_age` (backend/apps/raven_test/service.py:91-122) is left out: it is date arithmetic with 365.25-day years. The age is an input.
- The remaining record plumbing is left out: Raven `create_test_session`, `update_test_session`, `get_test_results` and `list_user_test_sessions`; oral `create_oral_reading_fluency_test`, `save_audio_file` and `list_user_oral_reading_tests`; literacy `get_literacy_test` and `get_test_results`. They copy fields between records without any rule of their own.
- HTTP routers, the front-end UI, the hourglass styles, the Mongo server, and the browser automation of `click_next_question` and `scrape_all_questions` are left out.
- The statistics that `main()` in backend/parse_docx.py prints are left out.
- A batch step that maps one multi-character recording to per-character verdicts is not part of this model. No such code exists: the literacy path judges one character per recording.
- Literacy.EvaluateLiteracyAudio: follows the literacy code's reading of a returned result, a dictionary with a success flag, an analysis, a total score and an error message. The client in `xfyun_sdk.py` returns a response object instead; the call that would return it raises as written (see Findings).
- RavenScraper.ProcessQuestion: with fewer than seven pictures, states that each picture is fetched once, in order, under names that are all different. It does not spell out the `question_XX_img_NN.jpg` names, because that would only repeat the body.
- Analysis.Detail: builds the status from the corrected `StatusSummary`, where backend/apps/reading_fluency/analysis.py:449 reports the as-written one. `Analysis.StatusSummaryDiffersOnlyThere` proves the two differ only for a read, incorrect character whose first paper syllable is correct; there the source reports "正确" for an incorrect character.
- Analysis.Details: one corrected `Detail` per character, so a status differs from the source's exactly as `Analysis.Detail` says.
- Analysis.AnalyzeReadingEvaluation: its details carry the corrected status, as `Analysis.Detail` says. The counts, rates and scores are the source's.
- CalculationProblems.FractionProblem: draws from the corrected `FractionAddSub` and `FractionIntegerAddSub`, where src/composables/useCalculationProblems.js:320-338 calls the as-written generators. `CalculationProblems.CorrectedFractionsKeepAnswers` proves the draws and answers are the same; only the text of the two subtractions in Findings differs, so `Faithful` holds of the corrected text only.
- Attention.CompleteTestSession: completes the session with the counts and score of the corrected `Attention.AnalyzeUserSubmissions`, where backend/apps/attention_test/service.py:299 calls the as-written analysis, which raises for any session with a stored record (see Findings); as written, only a session without records completes.
- CalculationProblems.Grade4: part three comes from `CalculationProblems.FractionProblem`, with the corrected text that line describes.
- CalculationProblems.Draft: its grade-4 branch inherits the corrected text of `CalculationProblems.FractionProblem`.
- CalculationProblems.GenerateProblems: its grade-4 problems carry the corrected text of `CalculationProblems.FractionProblem`.

## Findings

| source | as written | input that shows it | evidently intended | confidence | as-written member | corrected member |
|---|---|---|---|---|---|---|
| backend/apps/reading_fluency/analysis.py:224-235 | an incorrect character reports the error summary of its FIRST paper syllable | a character whose first paper syllable is right and whose second has `dp_message` 128 is reported "正确" although `is_correct` is false | report the first syllable that is actually wrong, so the summary says "正确" exactly when the character is correct | not executed | Analysis.StatusSummaryAsWrittenMisreports | Analysis.StatusSummary |
| backend/apps/calculation_test/router.py:221-223 | the mean response time, stored in milliseconds, is compared with 30 | a mean of 31 ms per answer gets the "too slow" advice | slow means more than 30 seconds, that is 30000 ms | not executed | CalculationTest.AsWrittenCallsFastAnswersSlow | CalculationTest.Recommendations |
| backend/apps/reading_fluency/service.py:113-132 | the stored trial leaves out the request's `test_session_id` | a trial sent for session 5 is stored with no session | store the trial with the session it was sent for | not executed | ReadingFluency.AsWrittenDropsSession | ReadingFluency.SaveTrialDirect |
| src/composables/useCalculationProblems.js:73-77 | a subtraction whose first numerator is the smaller is answered with the other difference, while the text shows the operands in drawn order | `1/5 - 3/5 = ` is answered 2/5 | the answer equals the value of the expression shown, for example by showing the larger numerator first | not executed | CalculationProblems.AsWrittenFractionSubtractionHasWrongSign | CalculationProblems.FractionAddSub |
| src/composables/useCalculationProblems.js:104-120 | a subtraction is shown as the fraction minus the whole number but answered as the whole number minus the fraction | `1/3 - 2 = ` is answered 1又2/3 | show the whole number first, so that the answer equals the value of the expression shown | not executed | CalculationProblems.AsWrittenIntegerSubtractionHasWrongSign | CalculationProblems.FractionIntegerAddSub |
| backend/apps/attention_test/service.py:321-349 | the stored record is built from `record_data.is_clicked`, a field the request model does not have | any save for an existing session and user raises `AttributeError`, so no record is stored | read whether the cell was clicked from a field the request carries | not executed | Attention.AsWrittenSaveAlwaysRaises | Attention.SaveAttentionRecord |
| backend/apps/attention_test/service.py:264-278 | the counts read `record.is_clicked` from stored records that have no such field | a session with one stored record makes the analysis raise instead of scoring it | count hits, false alarms and misses from whether each cell was clicked | not executed | Attention.AsWrittenAnalysisFailsOnAnyRecord | Attention.AnalyzeUserSubmissions |
| backend/apps/literacy_test/service.py:140-151 | the client is built with `app_id`, `api_key` and `api_secret` keywords, but its constructor takes one configuration (backend/apps/oral_reading_fluency/xfyun_sdk.py:64) | one pending recording of a test, which the service would score 80: the call raises, the record fails, and the test stays in progress | build the client from one configuration and call it with the arguments it takes, so a scored recording completes its test | not executed | Literacy.AsWrittenNeverCompletes | Literacy.EvaluateLiteracyAudio |

=== FILE: analysis.dfy ===
/** Analysis of the speech-evaluation engine's XML result for the character
    reading test: per-phone, per-syllable and per-character verdicts, the
    whole-test summary, the decoder that builds them from the XML tree, and
    the estimate of correctly read characters stored with each recording. */
module Analysis {
  import opened Wrappers
  import opened Text
  import opened Seqs
  import opened Xml

  /** The engine's add/omit code (`dp_message`). */
  datatype ErrorType = Correct | Missed | Added | Repeated | Replaced

  function ErrorCode(t: ErrorType): int
  {
    match t
    case Correct => 0
    case Missed => 16
    case Added => 32
    case Repeated => 64
    case Replaced => 128
  }

  /** `ErrorType(code)`; `None` is the `ValueError` of an unknown code. */
  function ErrorTypeOf(code: int): (r: Option<ErrorType>)
    ensures r.Some? ==> ErrorCode(r.value) == code
    ensures r.None? <==> code !in {0, 16, 32, 64, 128}
  {
    if code == 0 then Some(Correct)
    else if code == 16 then Some(Missed)
    else if code == 32 then Some(Added)
    else if code == 64 then Some(Repeated)
    else if code == 128 then Some(Replaced)
    else None
  }

  lemma ErrorTypeRoundTrip(t: ErrorType)
    ensures ErrorTypeOf(ErrorCode(t)) == Some(t)
  {
  }

  /** The label of a non-zero add/omit code: omitted, added, re-read, replaced. */
  function DpLabel(code: int): (r: Option<string>)
    ensures r.Some? <==> code in {16, 32, 64, 128}
    ensures r.Some? ==> r.value != "正确" && r.value != "非试卷内容" && r.value != "未知错误"
  {
    if code == 16 then Some("漏读")
    else if code == 32 then Some("增读")
    else if code == 64 then Some("回读")
    else if code == 128 then Some("替换")
    else None
  }

  const Paper := "paper"

  datatype Phone = Phone(
    content: string,
    begPos: int,
    endPos: int,
    timeLen: int,
    dpMessage: int,
    perrMsg: int,
    perrLevelMsg: int,
    isYun: int,
    recNodeType: string,
    monoTone: Option<string>)

  /** Frames are 10 ms long. */
  function DurationMs(frames: int): (ms: int)
    ensures ms / 10 == frames && ms % 10 == 0
  {
    frames * 10
  }

  /** Content that is not part of the test paper never counts as an error. */
  predicate PhoneIsCorrect(p: Phone)
  {
    p.recNodeType != Paper || p.dpMessage == 0
  }

  function ConfidenceLevel(p: Phone): (r: string)
    ensures r == "未知" <==> p.perrLevelMsg !in {1, 2, 3}
  {
    if p.perrLevelMsg == 1 then "高"
    else if p.perrLevelMsg == 2 then "中"
    else if p.perrLevelMsg == 3 then "低"
    else "未知"
  }

  /** The pronunciation note for a phone without an add/omit error: initials
      only report code 1, finals report codes 1 to 3. */
  function PronunciationNote(p: Phone): (r: Option<string>)
    ensures r.Some? ==> p.dpMessage == 0 && p.perrMsg != 0
    ensures r.Some? ==> r.value != "正确" && r.value != "非试卷内容"
  {
    if p.dpMessage == 0 && p.perrMsg != 0 then
      if p.isYun == 0 then
        if p.perrMsg == 1 then Some("声母发音不标准") else None
      else if p.perrMsg == 1 then Some("韵母发音不标准")
      else if p.perrMsg == 2 then Some("调型不标准")
      else if p.perrMsg == 3 then Some("韵母和调型不标准")
      else None
    else None
  }

  function OptionToSeq<T>(o: Option<T>): (r: seq<T>)
    ensures |r| <= 1
  {
    if o.Some? then [o.value] else []
  }

  function PhoneErrorDescription(p: Phone): (r: string)
    ensures r == "正确" <==> p.recNodeType == Paper && DpLabel(p.dpMessage).None?
    ensures r == "非试卷内容" <==>
      p.recNodeType != Paper && DpLabel(p.dpMessage).None? && PronunciationNote(p).None?
    ensures DpLabel(p.dpMessage).Some? ==> r == DpLabel(p.dpMessage).value
    /** A pronunciation note can only surface for content outside the paper:
        a paper phone with code 0 is reported correct first. */
    ensures PronunciationNote(p).Some? ==>
      r == (if p.recNodeType == Paper then "正确" else PronunciationNote(p).value)
  {
    if p.dpMessage == 0 && p.recNodeType == Paper then "正确"
    else
      var parts := OptionToSeq(DpLabel(p.dpMessage)) + OptionToSeq(PronunciationNote(p));
      if |parts| > 0 then Join(parts, "; ")
      else if p.recNodeType != Paper then "非试卷内容"
      else "正确"
  }

  datatype Syllable = Syllable(
    content: string,
    symbol: string,
    begPos: int,
    endPos: int,
    timeLen: int,
    dpMessage: int,
    recNodeType: string,
    phones: seq<Phone>)

  predicate IsPaperContent(s: Syllable)
  {
    s.recNodeType == Paper
  }

  predicate SyllableIsCorrect(s: Syllable)
  {
    !IsPaperContent(s) || s.dpMessage == 0
  }

  /** The last digit of a pinyin symbol such as `ma3`. */
  function LastDigitIndex(symbol: string): (r: Option<nat>)
    ensures r.None? <==> forall i :: 0 <= i < |symbol| ==> !IsDigit(symbol[i])
    ensures r.Some? ==>
      r.value < |symbol| && IsDigit(symbol[r.value])
      && forall j :: r.value < j < |symbol| ==> !IsDigit(symbol[j])
    decreases |symbol|
  {
    if |symbol| == 0 then None
    else if IsDigit(symbol[|symbol| - 1]) then Some(|symbol| - 1)
    else LastDigitIndex(symbol[..|symbol| - 1])
  }

  /** The tone number, read from the last digit of the symbol; the neutral
      tone 5 is reported as 0. */
  function Tone(s: Syllable): (r: Option<int>)
    ensures r.None? <==> forall i :: 0 <= i < |s.symbol| ==> !IsDigit(s.symbol[i])
    ensures r.Some? ==> 0 <= r.value <= 9 && r.value != 5
    ensures r.Some? ==>
      exists i :: 0 <= i < |s.symbol| && IsDigit(s.symbol[i])
        && (forall j :: i < j < |s.symbol| ==> !IsDigit(s.symbol[j]))
        && r.value == (if DigitValue(s.symbol[i]) == 5 then 0 else DigitValue(s.symbol[i]))
  {
    if |s.symbol| == 0 then None
    else match LastDigitIndex(s.symbol)
      case None => None
      case Some(i) =>
        var d := DigitValue(s.symbol[i]);
        if d == 5 then Some(0) else Some(d)
  }

  /** The notes for paper phones with a pronunciation error. */
  function PhoneNotes(phones: seq<Phone>): seq<string>
    decreases |phones|
  {
    if |phones| == 0 then []
    else
      var rest := PhoneNotes(phones[1..]);
      if phones[0].recNodeType == Paper && phones[0].perrMsg != 0 then [phones[0].content + "发音不标准"] + rest
      else rest
  }

  /** The phone details are consulted only for code 0, which an incorrect
      syllable never has, so an incorrect syllable is summarised by its
      add/omit label alone. */
  function SyllableErrorSummary(s: Syllable): (r: string)
    ensures r == "正确" <==> SyllableIsCorrect(s)
    ensures !SyllableIsCorrect(s) ==> r == DpLabel(s.dpMessage).GetOr("未知错误")
  {
    if SyllableIsCorrect(s) then "正确"
    else
      var labels := OptionToSeq(DpLabel(s.dpMessage));
      var errors := if s.dpMessage == 0 then labels + PhoneNotes(s.phones) else labels;
      if |errors| > 0 then Join(errors, "; ") else "未知错误"
  }

  datatype Character = Character(
    character: string,
    expectedPinyin: string,
    begPos: int,
    endPos: int,
    timeLen: int,
    syllables: seq<Syllable>)

  function PaperSyllables(c: Character): (r: seq<Syllable>)
    ensures forall s :: s in r <==> s in c.syllables && IsPaperContent(s)
  {
    Filter(c.syllables, IsPaperContent)
  }

  /** A character was read when at least one paper syllable was recognised. */
  predicate IsRead(c: Character)
  {
    |PaperSyllables(c)| > 0
  }

  predicate CharacterIsCorrect(c: Character)
  {
    IsRead(c) && forall s :: s in PaperSyllables(c) ==> SyllableIsCorrect(s)
  }

  lemma IsReadMeans(c: Character)
    ensures IsRead(c) <==> exists s :: s in c.syllables && IsPaperContent(s)
  {
    var ps := PaperSyllables(c);
    if IsRead(c) {
      assert ps[0] in ps;
    }
  }

  /** A correct character has a paper syllable, and every paper syllable it
      has carries code 0. */
  lemma CharacterIsCorrectMeans(c: Character)
    ensures CharacterIsCorrect(c) <==>
      (exists s :: s in c.syllables && IsPaperContent(s))
      && forall s :: s in c.syllables && IsPaperContent(s) ==> s.dpMessage == 0
  {
    IsReadMeans(c);
  }

  function ActualPinyin(c: Character): (r: string)
    ensures !IsRead(c) ==> r == ""
    ensures IsRead(c) ==> exists s :: s in c.syllables && IsPaperContent(s) && r == s.symbol
    ensures IsRead(c) ==>
      exists i :: 0 <= i < |c.syllables| && IsPaperContent(c.syllables[i]) && r == c.syllables[i].symbol
        && forall j :: 0 <= j < i ==> !IsPaperContent(c.syllables[j])
  {
    var ps := PaperSyllables(c);
    FilterHeadIsFirstMatch(c.syllables, IsPaperContent);
    if |ps| > 0 then
      assert ps[0] in ps;
      ps[0].symbol
    else ""
  }

  /** The character status as the source computes it: the summary of the
      FIRST paper syllable, whichever syllable is wrong. */
  function StatusSummaryAsWritten(c: Character): string
  {
    if !IsRead(c) then "漏读"
    else if CharacterIsCorrect(c) then "正确"
    else
      var ps := PaperSyllables(c);
      SyllableErrorSummary(ps[0])
  }

  /** With a correct first syllable and a replaced second one, the character
      is incorrect but the as-written status says it is correct. */
  lemma StatusSummaryAsWrittenMisreports()
    ensures var c := Character("好", "hao3", 0, 0, 0, [
        Syllable("好", "hao3", 0, 0, 0, 0, Paper, []),
        Syllable("好", "hao3", 0, 0, 0, 128, Paper, [])]);
      !CharacterIsCorrect(c) && StatusSummaryAsWritten(c) == "正确"
  {
    var s0 := Syllable("好", "hao3", 0, 0, 0, 0, Paper, []);
    var s1 := Syllable("好", "hao3", 0, 0, 0, 128, Paper, []);
    var c := Character("好", "hao3", 0, 0, 0, [s0, s1]);
    assert [s0, s1][1..] == [s1];
    assert PaperSyllables(c) == [s0] + Filter([s1], IsPaperContent);
    assert s1 in PaperSyllables(c) && !SyllableIsCorrect(s1);
  }

  /** The first paper syllable that is wrong. */
  function FirstIncorrect(ss: seq<Syllable>): (r: Option<Syllable>)
    ensures r.None? <==> forall s :: s in ss ==> SyllableIsCorrect(s)
    ensures r.Some? ==> r.value in ss && !SyllableIsCorrect(r.value)
    decreases |ss|
  {
    if |ss| == 0 then None
    else if !SyllableIsCorrect(ss[0]) then Some(ss[0])
    else
      assert forall s :: s in ss ==> s == ss[0] || s in ss[1..];
      FirstIncorrect(ss[1..])
  }

  /** The character status, summarising the first paper syllable that is
      actually wrong: it says correct exactly when the character is. */
  function StatusSummary(c: Character): (r: string)
    ensures !IsRead(c) ==> r == "漏读"
    ensures r == "正确" <==> CharacterIsCorrect(c)
    ensures IsRead(c) && !CharacterIsCorrect(c) ==>
      exists s :: s in c.syllables && IsPaperContent(s) && !SyllableIsCorrect(s)
        && r == DpLabel(s.dpMessage).GetOr("未知错误")
  {
    if !IsRead(c) then "漏读"
    else if CharacterIsCorrect(c) then "正确"
    else
      match FirstIncorrect(PaperSyllables(c))
      case Some(s) => SyllableErrorSummary(s)
      case None => "未知错误"
  }

  /** The corrected status departs from the source's only in the case the
      as-written lemma exhibits: a read, incorrect character whose first
      paper syllable is right. A correct character is "正确" either way. */
  lemma StatusSummaryDiffersOnlyThere(c: Character)
    ensures CharacterIsCorrect(c) ==> StatusSummaryAsWritten(c) == "正确"
    ensures StatusSummary(c) != StatusSummaryAsWritten(c) ==>
      IsRead(c) && !CharacterIsCorrect(c) && SyllableIsCorrect(PaperSyllables(c)[0])
  {
  }

  datatype Evaluation = Evaluation(
    overallScore: real,
    phoneScore: real,
    toneScore: real,
    fluencyScore: real,
    integrityScore: real,
    isRejected: bool,
    exceptInfo: Option<string>,
    totalTime: int,
    characters: seq<Character>)

  const EmptyEvaluation := Evaluation(0.0, 0.0, 0.0, 0.0, 0.0, false, None, 0, [])

  function TotalCharacters(e: Evaluation): nat
  {
    |e.characters|
  }

  function ReadCharacters(e: Evaluation): (n: nat)
    ensures n <= TotalCharacters(e)
  {
    Count(e.characters, IsRead)
  }

  function CorrectCharacters(e: Evaluation): (n: nat)
    ensures n <= ReadCharacters(e)
  {
    CountMonotone(e.characters, CharacterIsCorrect, IsRead);
    Count(e.characters, CharacterIsCorrect)
  }

  /** `part / total * 100`, or 0 for an empty test. */
  function Percent(part: nat, total: nat): (r: real)
    requires part <= total
    ensures 0.0 <= r <= 100.0
    ensures total == 0 ==> r == 0.0
    ensures total > 0 ==> r * total as real == part as real * 100.0
    ensures total > 0 && part == total ==> r == 100.0
  {
    if total == 0 then 0.0 else part as real / total as real * 100.0
  }

  lemma PercentMonotone(a: nat, b: nat, total: nat)
    requires a <= b <= total
    ensures Percent(a, total) <= Percent(b, total)
    ensures a < b ==> Percent(a, total) < Percent(b, total)
  {
    if total > 0 {
      DivideMonotone(a as real, b as real, total as real);
    }
  }

  lemma DivideMonotone(x: real, y: real, t: real)
    requires x <= y && t > 0.0
    ensures x / t <= y / t
    ensures x < y ==> x / t < y / t
  {
    assert y / t - x / t == (y - x) / t;
  }

  function CharacterAccuracyRate(e: Evaluation): (r: real)
    ensures 0.0 <= r <= ReadingCompletionRate(e)
  {
    PercentMonotone(CorrectCharacters(e), ReadCharacters(e), TotalCharacters(e));
    Percent(CorrectCharacters(e), TotalCharacters(e))
  }

  function ReadingCompletionRate(e: Evaluation): (r: real)
    ensures 0.0 <= r <= 100.0
    ensures r == 100.0 <==> |e.characters| > 0 && forall i :: 0 <= i < |e.characters| ==> IsRead(e.characters[i])
  {
    PercentMonotone(ReadCharacters(e), TotalCharacters(e), TotalCharacters(e));
    Percent(ReadCharacters(e), TotalCharacters(e))
  }

  // ---------------------------------------------------------------------
  // Decoding the XML tree

  const BadLiteral := "invalid literal"

  /** `int(e.get(name, 0))`: a missing attribute reads as 0, a present one
      must be an integer literal. */
  function IntAttr(e: Element, name: string): (r: Result<int, string>)
    ensures name !in e.attrs ==> r == Success(0)
    ensures name in e.attrs ==> (r.Success? <==> ParseInt(e.attrs[name]).Some?)
    ensures name in e.attrs && r.Success? ==> r.value == ParseInt(e.attrs[name]).value
  {
    match Get(e, name)
    case None => Success(0)
    case Some(v) =>
      match ParseInt(v)
      case Some(n) => Success(n)
      case None => Failure(BadLiteral)
  }

  /** `int(e.get(name, 0)) if e.get(name) else 0`: an empty value also reads as 0. */
  function IntAttrIfSet(e: Element, name: string): (r: Result<int, string>)
    ensures (name !in e.attrs || e.attrs[name] == "") ==> r == Success(0)
  {
    if name in e.attrs && e.attrs[name] != "" then IntAttr(e, name) else Success(0)
  }

  /** `float(e.get(name, 0))`. */
  function FloatAttr(e: Element, name: string): (r: Result<real, string>)
    ensures name !in e.attrs ==> r == Success(0.0)
    ensures name in e.attrs ==> (r.Success? <==> ParseDecimal(e.attrs[name]).Some?)
  {
    match Get(e, name)
    case None => Success(0.0)
    case Some(v) =>
      match ParseDecimal(v)
      case Some(x) => Success(x)
      case None => Failure(BadLiteral)
  }

  function StrAttr(e: Element, name: string): string
  {
    Get(e, name).GetOr("")
  }

  /** A phone element: positions read only when set, the codes always. */
  predicate PhoneAttrsRead(e: Element)
  {
    IntAttrIfSet(e, "beg_pos").Success? && IntAttrIfSet(e, "end_pos").Success?
    && IntAttrIfSet(e, "time_len").Success? && IntAttr(e, "dp_message").Success?
    && IntAttr(e, "perr_msg").Success? && IntAttr(e, "perr_level_msg").Success?
    && IntAttr(e, "is_yun").Success?
  }

  function DecodePhone(e: Element): (r: Result<Phone, string>)
    ensures r.Success? <==> PhoneAttrsRead(e)
    ensures r.Success? ==>
      r.value.content == StrAttr(e, "content")
      && r.value.recNodeType == StrAttr(e, "rec_node_type")
      && r.value.monoTone == Get(e, "mono_tone")
      && r.value.begPos == IntAttrIfSet(e, "beg_pos").value
      && r.value.endPos == IntAttrIfSet(e, "end_pos").value
      && r.value.timeLen == IntAttrIfSet(e, "time_len").value
      && r.value.dpMessage == IntAttr(e, "dp_message").value
      && r.value.perrMsg == IntAttr(e, "perr_msg").value
      && r.value.perrLevelMsg == IntAttr(e, "perr_level_msg").value
      && r.value.isYun == IntAttr(e, "is_yun").value
  {
    var beg :- IntAttrIfSet(e, "beg_pos");
    var end :- IntAttrIfSet(e, "end_pos");
    var len :- IntAttrIfSet(e, "time_len");
    var dp :- IntAttr(e, "dp_message");
    var perr :- IntAttr(e, "perr_msg");
    var level :- IntAttr(e, "perr_level_msg");
    var yun :- IntAttr(e, "is_yun");
    Success(Phone(StrAttr(e, "content"), beg, end, len, dp, perr, level, yun,
                  StrAttr(e, "rec_node_type"), Get(e, "mono_tone")))
  }

  /** The integer attributes of a syllable or sentence element. */
  predicate SpanAttrsRead(e: Element)
  {
    IntAttr(e, "beg_pos").Success? && IntAttr(e, "end_pos").Success? && IntAttr(e, "time_len").Success?
  }

  function DecodeSyllable(e: Element): (r: Result<Syllable, string>)
    ensures r.Success? <==>
      SpanAttrsRead(e) && IntAttr(e, "dp_message").Success?
      && forall i :: 0 <= i < |FindAll(e, "phone")| ==> DecodePhone(FindAll(e, "phone")[i]).Success?
    ensures r.Success? ==>
      r.value.content == StrAttr(e, "content")
      && r.value.symbol == StrAttr(e, "symbol")
      && r.value.recNodeType == StrAttr(e, "rec_node_type")
      && r.value.begPos == IntAttr(e, "beg_pos").value
      && r.value.endPos == IntAttr(e, "end_pos").value
      && r.value.timeLen == IntAttr(e, "time_len").value
      && r.value.dpMessage == IntAttr(e, "dp_message").value
      && |r.value.phones| == |FindAll(e, "phone")|
      && forall i :: 0 <= i < |FindAll(e, "phone")| ==> r.value.phones[i] == DecodePhone(FindAll(e, "phone")[i]).value
  {
    var beg :- IntAttr(e, "beg_pos");
    var end :- IntAttr(e, "end_pos");
    var len :- IntAttr(e, "time_len");
    var dp :- IntAttr(e, "dp_message");
    var phones :- MapAll(FindAll(e, "phone"), DecodePhone);
    Success(Syllable(StrAttr(e, "content"), StrAttr(e, "symbol"), beg, end, len, dp,
                     StrAttr(e, "rec_node_type"), phones))
  }

  /** A sentence element is one character of the test; the syllables are
      those of its first `word`. */
  function DecodeCharacter(e: Element): (r: Result<Character, string>)
    ensures r.Success? <==>
      SpanAttrsRead(e)
      && (Find(e, "word").Some? ==>
            forall i :: 0 <= i < |FindAll(Find(e, "word").value, "syll")| ==>
              DecodeSyllable(FindAll(Find(e, "word").value, "syll")[i]).Success?)
    ensures r.Success? ==>
      r.value.character == StrAttr(e, "content")
      && r.value.begPos == IntAttr(e, "beg_pos").value
      && r.value.endPos == IntAttr(e, "end_pos").value
      && r.value.timeLen == IntAttr(e, "time_len").value
    ensures r.Success? ==> match Find(e, "word")
      case None => r.value.syllables == [] && r.value.expectedPinyin == ""
      case Some(w) =>
        |r.value.syllables| == |FindAll(w, "syll")| && r.value.expectedPinyin == StrAttr(w, "symbol")
        && forall i :: 0 <= i < |FindAll(w, "syll")| ==> r.value.syllables[i] == DecodeSyllable(FindAll(w, "syll")[i]).value
  {
    var beg :- IntAttr(e, "beg_pos");
    var end :- IntAttr(e, "end_pos");
    var len :- IntAttr(e, "time_len");
    match Find(e, "word")
    case None => Success(Character(StrAttr(e, "content"), "", beg, end, len, []))
    case Some(w) =>
      var syllables :- MapAll(FindAll(w, "syll"), DecodeSyllable);
      Success(Character(StrAttr(e, "content"), StrAttr(w, "symbol"), beg, end, len, syllables))
  }

  predicate HasContent(e: Element)
  {
    StrAttr(e, "content") != ""
  }

  /** The sentences below `read_syllable` that name a character. */
  function CharacterSentences(readSyllable: Element): seq<Element>
  {
    Filter(FindAll(readSyllable, "sentence"), HasContent)
  }

  /** The total, initial-and-final, tone, fluency and integrity scores of
      `read_syllable`, in that order. */
  function Scores(rs: Element): (r: Result<seq<real>, string>)
    ensures r.Success? <==> forall name :: name in ScoreNames ==> FloatAttr(rs, name).Success?
    ensures r.Success? ==> |r.value| == 5 && forall i :: 0 <= i < 5 ==> r.value[i] == FloatAttr(rs, ScoreNames[i]).value
  {
    var t :- FloatAttr(rs, "total_score");
    var p :- FloatAttr(rs, "phone_score");
    var o :- FloatAttr(rs, "tone_score");
    var f :- FloatAttr(rs, "fluency_score");
    var i :- FloatAttr(rs, "integrity_score");
    Success([t, p, o, f, i])
  }

  const ScoreNames := ["total_score", "phone_score", "tone_score", "fluency_score", "integrity_score"]

  /** The evaluation read from a `read_syllable` element: its scores and
      duration, and one character per sentence that names one, in document
      order. */
  function DecodeReadSyllable(rs: Element): (r: Result<Evaluation, string>)
    ensures r.Success? <==>
      Scores(rs).Success? && IntAttr(rs, "time_len").Success?
      && forall i :: 0 <= i < |CharacterSentences(rs)| ==> DecodeCharacter(CharacterSentences(rs)[i]).Success?
    ensures r.Success? ==>
      var sentences := CharacterSentences(rs);
      |r.value.characters| == |sentences|
      && forall i :: 0 <= i < |sentences| ==> r.value.characters[i] == DecodeCharacter(sentences[i]).value
    ensures r.Success? ==>
      forall i :: 0 <= i < |r.value.characters| ==>
        r.value.characters[i].character == StrAttr(CharacterSentences(rs)[i], "content")
        && r.value.characters[i].character != ""
    ensures r.Success? ==>
      r.value.overallScore == Scores(rs).value[0]
      && r.value.phoneScore == Scores(rs).value[1] && r.value.toneScore == Scores(rs).value[2]
      && r.value.fluencyScore == Scores(rs).value[3]
      && r.value.integrityScore == Scores(rs).value[4] && !r.value.isRejected
      && r.value.exceptInfo == Get(rs, "except_info")
    ensures r.Success? ==> IntAttr(rs, "time_len") == Success(r.value.totalTime)
  {
    match Scores(rs)
    case Failure(err) => Failure(err)
    case Success(scores) =>
      match IntAttr(rs, "time_len")
      case Failure(err) => Failure(err)
      case Success(totalTime) =>
        var sentences := CharacterSentences(rs);
        match MapAll(sentences, DecodeCharacter)
        case Failure(err) => Failure(err)
        case Success(characters) =>
          assert forall i :: 0 <= i < |sentences| ==> sentences[i] in sentences && HasContent(sentences[i]);
          Success(Evaluation(scores[0], scores[1], scores[2], scores[3], scores[4], false, Get(rs, "except_info"),
                             totalTime, characters))
  }

  /** `analyze_xml_content`: a malformed document raises; a document without
      `rec_paper/read_syllable` yields an empty evaluation; otherwise every
      numeric attribute read must be a literal of its type. */
  function AnalyzeXml(m: Markup): (r: Result<Evaluation, string>)
    ensures m.Malformed? ==> r.Failure?
    ensures m.Parsed? && FindUnder(m.root, "rec_paper", "read_syllable").None? ==> r == Success(EmptyEvaluation)
    ensures m.Parsed? && FindUnder(m.root, "rec_paper", "read_syllable").Some? ==>
      r == DecodeReadSyllable(FindUnder(m.root, "rec_paper", "read_syllable").value)
  {
    match m
    case Malformed => Failure("XML parse error")
    case Parsed(root) =>
      match FindUnder(root, "rec_paper", "read_syllable")
      case None => Success(EmptyEvaluation)
      case Some(rs) => DecodeReadSyllable(rs)
  }

  /** One row of `character_details`. */
  datatype CharacterDetail = CharacterDetail(
    character: string,
    expectedPinyin: string,
    actualPinyin: string,
    isRead: bool,
    isCorrect: bool,
    status: string,
    durationMs: int)

  function Detail(c: Character): (d: CharacterDetail)
    ensures d.isCorrect ==> d.isRead
    ensures d.isCorrect <==> d.status == "正确"
  {
    CharacterDetail(c.character, c.expectedPinyin, ActualPinyin(c), IsRead(c), CharacterIsCorrect(c),
                    StatusSummary(c), DurationMs(c.timeLen))
  }

  /** The dictionary `analyze_reading_evaluation` returns; every exception
      becomes `NotAnalyzed`. */
  datatype Report =
    | Analyzed(
        overallScore: real,
        phoneScore: real,
        toneScore: real,
        fluencyScore: real,
        integrityScore: real,
        totalCharacters: nat,
        readCharacters: nat,
        correctCharacters: nat,
        characterAccuracyRate: real,
        readingCompletionRate: real,
        totalDurationMs: int,
        details: seq<CharacterDetail>)
    | NotAnalyzed(error: string)

  function Details(cs: seq<Character>): (ds: seq<CharacterDetail>)
    ensures |ds| == |cs|
    ensures forall i :: 0 <= i < |cs| ==> ds[i] == Detail(cs[i])
  {
    seq(|cs|, i requires 0 <= i < |cs| => Detail(cs[i]))
  }

  predicate DetailIsRead(d: CharacterDetail) { d.isRead }
  predicate DetailIsCorrect(d: CharacterDetail) { d.isCorrect }

  /** `analyze_reading_evaluation`: the scores, counts, rates and duration
      of the analysed evaluation, and one detail per character; the counts
      are those of the details themselves. */
  function AnalyzeReadingEvaluation(m: Markup): (r: Report)
    ensures r.Analyzed? <==> AnalyzeXml(m).Success?
    ensures r.NotAnalyzed? ==> r.error == AnalyzeXml(m).error
    ensures r.Analyzed? ==>
      var e := AnalyzeXml(m).value;
      r.overallScore == e.overallScore && r.phoneScore == e.phoneScore && r.toneScore == e.toneScore
      && r.fluencyScore == e.fluencyScore && r.integrityScore == e.integrityScore
      && r.details == Details(e.characters)
      && r.totalCharacters == |e.characters|
      && r.readCharacters == Count(e.characters, IsRead)
      && r.correctCharacters == Count(e.characters, CharacterIsCorrect)
      && r.totalDurationMs == DurationMs(e.totalTime)
    ensures r.Analyzed? ==>
      r.totalCharacters == |r.details|
      && r.readCharacters == Count(r.details, DetailIsRead)
      && r.correctCharacters == Count(r.details, DetailIsCorrect)
    ensures r.Analyzed? ==>
      r.characterAccuracyRate == Percent(r.correctCharacters, r.totalCharacters)
      && r.readingCompletionRate == Percent(r.readCharacters, r.totalCharacters)
    ensures r.Analyzed? ==>
      r.correctCharacters <= r.readCharacters <= r.totalCharacters
      && 0.0 <= r.characterAccuracyRate <= r.readingCompletionRate <= 100.0
  {
    match AnalyzeXml(m)
    case Failure(err) => NotAnalyzed(err)
    case Success(e) =>
      CorrectCountMatchesDetails(e.characters);
      ReadCountMatchesDetails(e.characters);
      Analyzed(e.overallScore, e.phoneScore, e.toneScore, e.fluencyScore, e.integrityScore,
               TotalCharacters(e), ReadCharacters(e), CorrectCharacters(e),
               CharacterAccuracyRate(e), ReadingCompletionRate(e), DurationMs(e.totalTime),
               Details(e.characters))
  }

  /** The reported correct count agrees with the per-character details. */
  lemma {:induction false} CorrectCountMatchesDetails(cs: seq<Character>)
    ensures Count(cs, CharacterIsCorrect) == Count(Details(cs), DetailIsCorrect)
    decreases |cs|
  {
    if |cs| > 0 {
      assert Details(cs)[1..] == Details(cs[1..]);
      CorrectCountMatchesDetails(cs[1..]);
    }
  }

  /** The reported read count agrees with the per-character details. */
  lemma {:induction false} ReadCountMatchesDetails(cs: seq<Character>)
    ensures Count(cs, IsRead) == Count(Details(cs), DetailIsRead)
    decreases |cs|
  {
    if |cs| > 0 {
      assert Details(cs)[1..] == Details(cs[1..]);
      ReadCountMatchesDetails(cs[1..]);
    }
  }

  /** Python `int(x)` on a float: truncation toward zero. */
  function Truncate(x: real): (n: int)
    ensures x >= 0.0 ==> n as real <= x < n as real + 1.0
    ensures x < 0.0 ==> n as real - 1.0 < x <= n as real
  {
    if x >= 0.0 then x.Floor else -((-x).Floor)
  }

  function Min(a: int, b: int): int
  {
    if a <= b then a else b
  }

  /** `min(max_chars, int(max_chars * total_score / 100))`: the share of
      `maxChars` a score out of 100 stands for, rounded toward zero. A
      negative score gives a negative share. */
  function ScoreShare(maxChars: int, score: real): (n: int)
    ensures n <= maxChars
    ensures 0 <= maxChars && 0.0 <= score ==> 0 <= n
    ensures 0 <= maxChars && score == 100.0 ==> n == maxChars
    ensures 0 <= maxChars && score < 0.0 ==> maxChars as real * score / 100.0 <= n as real <= 0.0
    ensures 0 <= maxChars && score <= 100.0 ==>
      maxChars as real * score / 100.0 - 1.0 < n as real <= maxChars as real * score / 100.0 + 1.0
  {
    var x := maxChars as real * score / 100.0;
    assert 0 <= maxChars && 0.0 <= score ==> 0.0 <= x;
    assert 0 <= maxChars && score <= 100.0 ==> x <= maxChars as real;
    Min(maxChars, Truncate(x))
  }

  /** The total score the fallback of `estimate_correct_character_count`
      reads from `rec_paper/read_syllable` (a missing attribute reads 0),
      when the document parses, has that element and the value is a number. */
  function FallbackScore(m: Markup): (r: Option<real>)
    ensures r.Some? ==>
      m.Parsed? && FindUnder(m.root, "rec_paper", "read_syllable").Some?
      && FloatAttr(FindUnder(m.root, "rec_paper", "read_syllable").value, "total_score") == Success(r.value)
  {
    match m
    case Malformed => None
    case Parsed(root) =>
      match FindUnder(root, "rec_paper", "read_syllable")
      case None => None
      case Some(rs) =>
        match FloatAttr(rs, "total_score")
        case Failure(_) => None
        case Success(score) => Some(score)
  }

  /** `estimate_correct_character_count`: the correct-character count capped
      at `maxChars`; when the analysis fails, a share of `maxChars` scaled by
      the total score, or 0 when even that cannot be read. */
  function EstimateCorrectCharacterCount(m: Markup, maxChars: int): (n: int)
    ensures maxChars >= 0 ==> n <= maxChars
    ensures AnalyzeReadingEvaluation(m).Analyzed? ==>
      n == Min(maxChars, AnalyzeReadingEvaluation(m).correctCharacters)
    ensures AnalyzeReadingEvaluation(m).NotAnalyzed? && FallbackScore(m).Some? ==>
      n == ScoreShare(maxChars, FallbackScore(m).value)
    ensures AnalyzeReadingEvaluation(m).NotAnalyzed? && FallbackScore(m).None? ==> n == 0
    ensures m.Malformed? ==> n == 0
    /** Only a negative score read by the fallback gives a negative count. */
    ensures maxChars >= 0 && n < 0 ==>
      AnalyzeReadingEvaluation(m).NotAnalyzed? && FallbackScore(m).Some? && FallbackScore(m).value < 0.0
  {
    match AnalyzeReadingEvaluation(m)
    case Analyzed(_, _, _, _, _, _, _, correct, _, _, _, _) => Min(maxChars, correct)
    case NotAnalyzed(_) =>
      match FallbackScore(m)
      case None => 0
      case Some(score) => ScoreShare(maxChars, score)
  }

}

=== FILE: attention.dfy ===
/** The attention screening test: a fixed matrix of symbols shown row by
    row, the child clicking every occurrence of the session's target symbol.
    The grid handed to the client, the grading of one record, the session
    analysis (hits, false alarms, misses and the clamped score) and the
    session's accuracy. */
module Attention {
  import opened Wrappers
  import opened Seqs
  import Ratio
  import Text

  /** The matrix file, one row of symbols per line. */
  type Matrix = seq<seq<char>>

  /** Grid position `(row, col)`. */
  type Position = (int, int)

  const DefaultTarget := "Ψ"

  datatype GridCell = GridCell(row: int, col: int, symbol: char, isTarget: bool, isClicked: bool)

  /** One row of the grid: a cell is a target when its position is one of
      the target symbol's listed positions and it really holds that symbol. */
  function RowCells(matrix: Matrix, row: nat, targets: set<Position>, target: string): (cells: seq<GridCell>)
    requires row < |matrix|
    ensures |cells| == |matrix[row]|
    ensures forall c :: 0 <= c < |cells| ==>
      cells[c] == GridCell(row, c, matrix[row][c], (row, c) in targets && [matrix[row][c]] == target, false)
  {
    seq(|matrix[row]|, c requires 0 <= c < |matrix[row]| =>
      GridCell(row, c, matrix[row][c], (row, c) in targets && [matrix[row][c]] == target, false))
  }

  /** The cells of rows `0 .. n - 1`, row after row. */
  function GridOfRows(matrix: Matrix, n: nat, targets: set<Position>, target: string): seq<GridCell>
    requires n <= |matrix|
  {
    if n == 0 then [] else GridOfRows(matrix, n - 1, targets, target) + RowCells(matrix, n - 1, targets, target)
  }

  /** What a grid cell must be: in the matrix, carrying the matrix symbol,
      marked a target by the rule, not clicked. */
  predicate FaithfulCell(matrix: Matrix, targets: set<Position>, target: string, g: GridCell)
  {
    0 <= g.row < |matrix| && 0 <= g.col < |matrix[g.row]|
    && g.symbol == matrix[g.row][g.col]
    && (g.isTarget <==> (g.row, g.col) in targets && [g.symbol] == target)
    && !g.isClicked
  }

  /** Strictly increasing in row-major order. */
  predicate RowMajor(grid: seq<GridCell>)
  {
    forall i, j :: 0 <= i < j < |grid| ==>
      grid[i].row < grid[j].row || (grid[i].row == grid[j].row && grid[i].col < grid[j].col)
  }

  /** Some cell of the grid sits at `(r, c)`. */
  predicate Covers(grid: seq<GridCell>, r: int, c: int)
  {
    exists g :: g in grid && g.row == r && g.col == c
  }

  function RowLengths(matrix: Matrix, n: nat): nat
    requires n <= |matrix|
  {
    if n == 0 then 0 else RowLengths(matrix, n - 1) + |matrix[n - 1]|
  }

  /** The grid of the first `n` rows holds exactly their cells, each once,
      in row-major order. */
  lemma {:induction false} GridOfRowsShape(matrix: Matrix, n: nat, targets: set<Position>, target: string)
    requires n <= |matrix|
    ensures var grid := GridOfRows(matrix, n, targets, target);
      |grid| == RowLengths(matrix, n)
      && (forall g :: g in grid ==> g.row < n && FaithfulCell(matrix, targets, target, g))
      && RowMajor(grid)
      && (forall r, c :: 0 <= r < n && 0 <= c < |matrix[r]| ==> Covers(grid, r, c))
  {
    GridOfRowsLength(matrix, n, targets, target);
    GridOfRowsCells(matrix, n, targets, target);
    GridOfRowsOrder(matrix, n, targets, target);
    GridOfRowsCovers(matrix, n, targets, target);
  }

  lemma {:induction false} GridOfRowsLength(matrix: Matrix, n: nat, targets: set<Position>, target: string)
    requires n <= |matrix|
    ensures |GridOfRows(matrix, n, targets, target)| == RowLengths(matrix, n)
  {
    if n > 0 {
      GridOfRowsLength(matrix, n - 1, targets, target);
    }
  }

  lemma {:induction false} GridOfRowsCells(matrix: Matrix, n: nat, targets: set<Position>, target: string)
    requires n <= |matrix|
    ensures forall g :: g in GridOfRows(matrix, n, targets, target) ==>
      g.row < n && FaithfulCell(matrix, targets, target, g)
  {
    if n > 0 {
      GridOfRowsCells(matrix, n - 1, targets, target);
      var front := GridOfRows(matrix, n - 1, targets, target);
      var last := RowCells(matrix, n - 1, targets, target);
      assert forall g :: g in front + last ==> g in front || g in last;
    }
  }

  lemma {:induction false} GridOfRowsOrder(matrix: Matrix, n: nat, targets: set<Position>, target: string)
    requires n <= |matrix|
    ensures RowMajor(GridOfRows(matrix, n, targets, target))
  {
    if n > 0 {
      GridOfRowsOrder(matrix, n - 1, targets, target);
      GridOfRowsCells(matrix, n - 1, targets, target);
      var front := GridOfRows(matrix, n - 1, targets, target);
      var last := RowCells(matrix, n - 1, targets, target);
      var grid := front + last;
      forall i, j | 0 <= i < j < |grid|
        ensures grid[i].row < grid[j].row || (grid[i].row == grid[j].row && grid[i].col < grid[j].col)
      {
        if j < |front| {
          assert grid[i] == front[i] && grid[j] == front[j];
        } else if i < |front| {
          assert grid[i] in front;
          assert grid[j] == last[j - |front|];
        } else {
          assert grid[i] == last[i - |front|] && grid[j] == last[j - |front|];
        }
      }
    }
  }

  lemma {:induction false} GridOfRowsCovers(matrix: Matrix, n: nat, targets: set<Position>, target: string)
    requires n <= |matrix|
    ensures forall r, c :: 0 <= r < n && 0 <= c < |matrix[r]| ==>
      Covers(GridOfRows(matrix, n, targets, target), r, c)
  {
    if n > 0 {
      GridOfRowsCovers(matrix, n - 1, targets, target);
      var front := GridOfRows(matrix, n - 1, targets, target);
      var last := RowCells(matrix, n - 1, targets, target);
      var grid := front + last;
      forall r, c | 0 <= r < n && 0 <= c < |matrix[r]|
        ensures Covers(grid, r, c)
      {
        if r == n - 1 {
          assert last[c] in grid;
        } else {
          assert Covers(front, r, c);
          var g :| g in front && g.row == r && g.col == c;
          assert g in grid;
        }
      }
    }
  }

  /** `generate_symbol_grid`: an empty matrix gives no grid; practice shows
      the first row only, the test every row. */
  function GenerateSymbolGrid(matrix: Matrix, positions: map<string, seq<Position>>, target: string,
                              isPractice: bool): (grid: seq<GridCell>)
    ensures |matrix| == 0 ==> grid == []
    ensures forall g :: g in grid ==> FaithfulCell(matrix, TargetSet(positions, target), target, g)
    ensures isPractice ==> forall g :: g in grid ==> g.row == 0
    ensures RowMajor(grid)
    ensures |matrix| > 0 ==>
      var rows := if isPractice then 1 else |matrix|;
      |grid| == RowLengths(matrix, rows)
      && forall r, c :: 0 <= r < rows && 0 <= c < |matrix[r]| ==> Covers(grid, r, c)
  {
    if |matrix| == 0 then []
    else
      var rows := if isPractice then 1 else |matrix|;
      var targets := TargetSet(positions, target);
      GridOfRowsShape(matrix, rows, targets, target);
      GridOfRows(matrix, rows, targets, target)
  }

  /** `set(target_positions.get(target_symbol, []))`. */
  function TargetSet(positions: map<string, seq<Position>>, target: string): (s: set<Position>)
    ensures target !in positions ==> s == {}
    ensures target in positions ==> forall p :: p in s <==> p in positions[target]
  {
    if target in positions then set p | p in positions[target] else {}
  }

  /** A stored click record. */
  datatype AttentionRecord = AttentionRecord(
    userId: int,
    sessionId: int,
    row: int,
    col: int,
    symbol: string,
    isTarget: bool,
    isClicked: bool,
    isCorrect: bool,
    responseTime: Option<int>)

  datatype RecordRequest = RecordRequest(
    userId: int, sessionId: int, row: int, col: int, symbol: string, isTarget: bool, isClicked: bool,
    responseTime: Option<int>)

  /** `save_attention_record`: an unknown session or user raises; a record is
      correct when the child clicked a target or left a non-target alone. */
  function SaveAttentionRecord(sessionExists: bool, userExists: bool, records: seq<AttentionRecord>,
                               req: RecordRequest): (r: Result<seq<AttentionRecord>, string>)
    ensures r.Success? <==> sessionExists && userExists
    ensures !sessionExists ==> r.error == Text.MissingRow("测试会话不存在", req.sessionId)
    ensures sessionExists && !userExists ==> r.error == Text.MissingRow("用户不存在", req.userId)
    ensures r.Success? ==> |r.value| == |records| + 1 && r.value[..|records|] == records
    ensures r.Success? ==>
      var rec := r.value[|records|];
      rec.isCorrect == (req.isTarget == req.isClicked)
      && rec.row == req.row && rec.col == req.col && rec.sessionId == req.sessionId
      && rec.isTarget == req.isTarget && rec.isClicked == req.isClicked
  {
    if !sessionExists then Failure(Text.MissingRow("测试会话不存在", req.sessionId))
    else if !userExists then Failure(Text.MissingRow("用户不存在", req.userId))
    else
      var isCorrect := (req.isTarget && req.isClicked) || (!req.isTarget && !req.isClicked);
      Success(records + [AttentionRecord(req.userId, req.sessionId, req.row, req.col, req.symbol, req.isTarget,
                                         req.isClicked, isCorrect, req.responseTime)])
  }

  datatype Outcome = Outcome(correct: nat, incorrect: nat, missed: nat, totalScore: real)

  predicate IsHit(a: AttentionRecord) { a.isTarget && a.isClicked }
  predicate IsFalseAlarm(a: AttentionRecord) { !a.isTarget && a.isClicked }
  predicate IsMiss(a: AttentionRecord) { a.isTarget && !a.isClicked }

  function SessionRecords(records: seq<AttentionRecord>, s: int): seq<AttentionRecord>
  {
    Filter(records, (a: AttentionRecord) => a.sessionId == s)
  }

  /** `max(0, correct - incorrect - 0.5 * missed)`. */
  function ClampedScore(correct: nat, incorrect: nat, missed: nat): (score: real)
    ensures score >= 0.0
    ensures score <= correct as real
    ensures score == 0.0 || score == correct as real - incorrect as real - missed as real / 2.0
    ensures correct as real - incorrect as real - missed as real / 2.0 >= 0.0 ==>
      score == correct as real - incorrect as real - missed as real / 2.0
  {
    var raw := correct as real - incorrect as real - 0.5 * missed as real;
    if raw > 0.0 then raw else 0.0
  }

  /** `analyze_user_submissions`: hits, false alarms and misses among the
      session's records, and the score they give. */
  function AnalyzeUserSubmissions(sessionExists: bool, records: seq<AttentionRecord>, s: int): (r: Result<Outcome, string>)
    ensures r.Success? <==> sessionExists
    ensures !sessionExists ==> r.error == Text.MissingRow("测试会话不存在", s)
    ensures r.Success? ==>
      var mine := SessionRecords(records, s);
      r.value.correct == Count(mine, IsHit)
      && r.value.incorrect == Count(mine, IsFalseAlarm)
      && r.value.missed == Count(mine, IsMiss)
      && r.value.correct + r.value.incorrect + r.value.missed <= |mine|
      && r.value.totalScore == ClampedScore(r.value.correct, r.value.incorrect, r.value.missed)
  {
    if !sessionExists then Failure(Text.MissingRow("测试会话不存在", s))
    else
      var mine := SessionRecords(records, s);
      var correct := Count(mine, IsHit);
      var incorrect := Count(mine, IsFalseAlarm);
      var missed := Count(mine, IsMiss);
      OutcomeCountsPartition(mine);
      Success(Outcome(correct, incorrect, missed, ClampedScore(correct, incorrect, missed)))
  }

  /** The request `save_attention_record` receives as written: its type has
      no click field. */
  datatype SentRecord = SentRecord(
    userId: int, sessionId: int, row: int, col: int, symbol: string, isTarget: bool, responseTime: Option<int>)

  const NoClickField := "'AttentionRecordCreate' object has no attribute 'is_clicked'"

  /** `save_attention_record` as written: after the two existence checks it
      reads the request's `is_clicked`, which the request type lacks, so
      every call raises and nothing is stored. */
  function SaveAttentionRecordAsWritten(sessionExists: bool, userExists: bool, records: seq<AttentionRecord>,
                                        req: SentRecord): (r: Result<seq<AttentionRecord>, string>)
    ensures r.Failure?
    ensures !sessionExists ==> r.error == Text.MissingRow("测试会话不存在", req.sessionId)
    ensures sessionExists && !userExists ==> r.error == Text.MissingRow("用户不存在", req.userId)
    ensures sessionExists && userExists ==> r.error == NoClickField
  {
    if !sessionExists then Failure(Text.MissingRow("测试会话不存在", req.sessionId))
    else if !userExists then Failure(Text.MissingRow("用户不存在", req.userId))
    else Failure(NoClickField)
  }

  /** Where both existence checks pass, the code as written fails while the
      intended save stores the record. */
  lemma AsWrittenSaveAlwaysRaises(records: seq<AttentionRecord>, req: RecordRequest)
    ensures var sent := SentRecord(req.userId, req.sessionId, req.row, req.col, req.symbol, req.isTarget, req.responseTime);
      SaveAttentionRecordAsWritten(true, true, records, sent).Failure?
      && SaveAttentionRecord(true, true, records, req).Success?
  {
  }

  /** `analyze_user_submissions` as written: the stored record has no
      `is_clicked` either, and both counting sums read it for every record
      (the first for targets, the second for the others), so the analysis
      raises as soon as the session has a record; with none it gives zero
      counts and a zero score. */
  function AnalyzeUserSubmissionsAsWritten(sessionExists: bool, records: seq<AttentionRecord>, s: int)
    : (r: Result<Outcome, string>)
    ensures r.Success? <==> sessionExists && |SessionRecords(records, s)| == 0
    ensures !sessionExists ==> r.error == Text.MissingRow("测试会话不存在", s)
    ensures r.Success? ==> r.value == Outcome(0, 0, 0, 0.0)
  {
    if !sessionExists then Failure(Text.MissingRow("测试会话不存在", s))
    else if |SessionRecords(records, s)| > 0 then Failure("'AttentionRecord' object has no attribute 'is_clicked'")
    else Success(Outcome(0, 0, 0, ClampedScore(0, 0, 0)))
  }

  /** The as-written analysis succeeds only where it agrees with the
      intended one, and fails on a session with a single clicked target,
      which the intended analysis scores 1. */
  lemma AsWrittenAnalysisFailsOnAnyRecord(records: seq<AttentionRecord>, s: int)
    ensures AnalyzeUserSubmissionsAsWritten(true, records, s).Success? ==>
      AnalyzeUserSubmissionsAsWritten(true, records, s) == AnalyzeUserSubmissions(true, records, s)
    ensures var hit := AttentionRecord(1, s, 0, 0, "?", true, true, true, None);
      AnalyzeUserSubmissionsAsWritten(true, [hit], s).Failure?
      && AnalyzeUserSubmissions(true, [hit], s).value.totalScore == 1.0
  {
  }

  /** Hits, false alarms and misses are disjoint: the records split into the
      three kinds and the correct rejections. */
  lemma {:induction false} OutcomeCountsPartition(xs: seq<AttentionRecord>)
    ensures Count(xs, IsHit) + Count(xs, IsFalseAlarm) + Count(xs, IsMiss)
            + Count(xs, (a: AttentionRecord) => !a.isTarget && !a.isClicked) == |xs|
    decreases |xs|
  {
    if |xs| > 0 {
      OutcomeCountsPartition(xs[1..]);
    }
  }

  /** Every target is either hit or missed. */
  lemma {:induction false} TargetsAreHitOrMissed(xs: seq<AttentionRecord>)
    ensures Count(xs, IsHit) + Count(xs, IsMiss) == Count(xs, (a: AttentionRecord) => a.isTarget)
    decreases |xs|
  {
    if |xs| > 0 {
      TargetsAreHitOrMissed(xs[1..]);
    }
  }

  datatype AttentionSession = AttentionSession(
    id: int,
    userId: int,
    startTime: int,
    endTime: Option<int>,
    isCompleted: bool,
    totalTimeSeconds: Option<int>,
    targetSymbol: string,
    correctCount: nat,
    incorrectCount: nat,
    missedCount: nat,
    totalScore: real)

  /** A session as created from its defaults. */
  function NewSession(id: int, userId: int, startTime: int): (s: AttentionSession)
    ensures s.targetSymbol == DefaultTarget && !s.isCompleted
    ensures s.correctCount == 0 && s.incorrectCount == 0 && s.missedCount == 0 && s.totalScore == 0.0
    ensures Accuracy(s) == 0.0
  {
    AttentionSession(id, userId, startTime, None, false, None, DefaultTarget, 0, 0, 0, 0.0)
  }

  /** The `accuracy` property: hits over clicks, in per cent; 0 before any
      click. */
  function Accuracy(s: AttentionSession): (r: real)
    ensures s.correctCount + s.incorrectCount == 0 ==> r == 0.0
    ensures 0.0 <= r <= 100.0
    ensures s.correctCount + s.incorrectCount > 0 ==>
      r * (s.correctCount + s.incorrectCount) as real == s.correctCount as real * 100.0
    ensures r == 100.0 <==> s.correctCount > 0 && s.incorrectCount == 0
  {
    Ratio.PercentBounds(s.correctCount as real, (s.correctCount + s.incorrectCount) as real);
    Ratio.CountPercent(s.correctCount, s.correctCount + s.incorrectCount)
  }

  /** `complete_test_session`: an unknown session gives `None`; otherwise the
      session is completed with the analysis of its records. */
  function CompleteTestSession(session: Option<AttentionSession>, records: seq<AttentionRecord>, now: int)
    : (r: Option<AttentionSession>)
    ensures r.None? <==> session.None?
    ensures r.Some? ==>
      var o := AnalyzeUserSubmissions(true, records, session.value.id).value;
      r.value.isCompleted && r.value.endTime == Some(now)
      && r.value.correctCount == o.correct && r.value.incorrectCount == o.incorrect
      && r.value.missedCount == o.missed && r.value.totalScore == o.totalScore
      && r.value.totalScore >= 0.0
      && r.value.totalTimeSeconds == Some(now - session.value.startTime)
      && r.value.targetSymbol == session.value.targetSymbol
  {
    match session
    case None => None
    case Some(t) =>
      var o := AnalyzeUserSubmissions(true, records, t.id).value;
      Some(t.(isCompleted := true, endTime := Some(now), correctCount := o.correct,
              incorrectCount := o.incorrect, missedCount := o.missed, totalScore := o.totalScore,
              totalTimeSeconds := Some(now - t.startTime)))
  }
}

=== FILE: calc_problems.dfy ===
/** The browser-side generator of calculation problems: fraction helpers
    (greatest common divisor, simplification, mixed numbers), the per-grade
    problem generators and the final shuffle. `Math.random()` is the stream
    of a `Source`. */
module CalculationProblems {
  import opened Wrappers
  import opened Randomness
  import Text

  // ---------------------------------------------------------------------
  // Divisibility and the greatest common divisor
  // ---------------------------------------------------------------------

  /** `k * m`, named so that the quantifier in `Divides` only fires on
      the products written for it. */
  function Times(k: int, m: int): int
  {
    k * m
  }

  ghost predicate Divides(k: int, n: int)
  {
    exists m :: n == Times(k, m)
  }

  /** Euclid's algorithm, the reference for the loop in `gcd`. */
  function Gcd(a: nat, b: nat): nat
    decreases b
  {
    if b == 0 then a else Gcd(b, a % b)
  }

  /** `gcd(a, b)`: the loop replaces `(a, b)` by `(b, a % b)` until `b` is 0. */
  method GcdLoop(a0: nat, b0: nat) returns (g: nat)
    ensures g == Gcd(a0, b0)
    ensures b0 == 0 ==> g == a0
    ensures a0 > 0 || b0 > 0 ==> g > 0 && Divides(g, a0) && Divides(g, b0)
  {
    var a, b := a0, b0;
    while b != 0
      invariant Gcd(a, b) == Gcd(a0, b0)
      decreases b
    {
      var temp := b;
      b := a % b;
      a := temp;
    }
    g := a;
    if a0 > 0 || b0 > 0 {
      GcdDivides(a0, b0);
    }
  }

  /** A common divisor of `b` and `r` divides `q * b + r`. */
  lemma DividesCombination(k: int, b: int, r: int, q: int)
    requires Divides(k, b) && Divides(k, r)
    ensures Divides(k, q * b + r)
  {
    var x :| b == Times(k, x);
    var y :| r == Times(k, y);
    assert q * b + r == Times(k, q * x + y);
  }

  /** The greatest common divisor divides both arguments, and is positive
      unless both are 0. */
  lemma {:induction false} GcdDivides(a: nat, b: nat)
    ensures Divides(Gcd(a, b), a) && Divides(Gcd(a, b), b)
    ensures a > 0 || b > 0 ==> Gcd(a, b) > 0
    decreases b
  {
    if b == 0 {
      assert a == Times(a, 1) && 0 == Times(a, 0);
    } else {
      var q, r := a / b, a % b;
      EuclidStep(a, b);
      GcdDivides(b, r);
      DividesCombination(Gcd(b, r), b, r, q);
    }
  }

  /** One step of Euclid's algorithm. */
  lemma EuclidStep(a: nat, b: nat)
    requires b > 0
    ensures a == (a / b) * b + a % b && Gcd(a, b) == Gcd(b, a % b)
  {
  }

  /** Every common divisor of the arguments divides their greatest common
      divisor. */
  lemma {:induction false} GcdIsGreatest(a: nat, b: nat, k: int)
    requires Divides(k, a) && Divides(k, b)
    ensures Divides(k, Gcd(a, b))
    decreases b
  {
    if b != 0 {
      var y :| b == Times(k, y);
      assert Divides(k, -(a / b) * b) by {
        assert -(a / b) * b == Times(k, -(a / b) * y);
      }
      DividesCombination(k, a, -(a / b) * b, 1);
      assert a % b == 1 * a + -(a / b) * b;
      GcdIsGreatest(b, a % b, k);
    }
  }

  /** Exact division undoes multiplication. */
  lemma ExactQuotient(n: int, g: int, x: int)
    requires g > 0 && n == g * x
    ensures n / g == x && n % g == 0
  {
    var q, r := n / g, n % g;
    assert g * (x - q) == r && 0 <= r < g;
    if x - q >= 1 {
      assert false;
    }
    if x - q <= -1 {
      assert false;
    }
  }

  /** A divisor of a divisor is a divisor. */
  lemma DividesTransitive(h: int, g: int, m: int, n: int)
    requires Divides(h, m) && n == Times(g, m)
    ensures Divides(g * h, n)
  {
    var x :| m == Times(h, x);
    assert n == Times(g * h, x);
  }

  /** A positive number divisible by its multiple `g * h` forces `h == 1`. */
  lemma OnlyUnitFactor(g: int, h: nat)
    requires g > 0 && h > 0 && Divides(g * h, g)
    ensures h == 1
  {
    var z :| g == Times(g * h, z);
    assert g * (h * z - 1) == 0;
    assert h * z == 1;
    if z <= 0 {
      assert false;
    }
    if h > 1 {
      assert false;
    }
  }

  /** A fraction `numerator / denominator`. */
  datatype Fraction = Fraction(numerator: int, denominator: int)

  /** The value of a fraction with a non-zero denominator. */
  function ValueOf(f: Fraction): real
    requires f.denominator != 0
  {
    f.numerator as real / f.denominator as real
  }

  /** `simplifyFraction`: both parts divided by their greatest common
      divisor; the source only calls it with a positive denominator. */
  function SimplifyFraction(numerator: nat, denominator: nat): (r: Fraction)
    requires denominator > 0
    ensures r.numerator >= 0 && r.denominator > 0
    ensures r.numerator * denominator == numerator * r.denominator
    ensures Gcd(r.numerator, r.denominator) == 1
  {
    var g := Gcd(numerator, denominator);
    GcdDivides(numerator, denominator);
    var r := Fraction(numerator / g, denominator / g);
    assert r.denominator > 0 && r.numerator * denominator == numerator * r.denominator by {
      SimplifiedParts(numerator, denominator);
    }
    assert Gcd(r.numerator, r.denominator) == 1 by {
      SimplifiedIsCoprime(numerator, denominator);
    }
    r
  }

  lemma SimplifiedParts(n: nat, d: nat)
    requires d > 0
    ensures Gcd(n, d) > 0
    ensures n == Times(Gcd(n, d), n / Gcd(n, d)) && d == Times(Gcd(n, d), d / Gcd(n, d))
    ensures d / Gcd(n, d) > 0
    ensures (n / Gcd(n, d)) * d == n * (d / Gcd(n, d))
  {
    var g := Gcd(n, d);
    GcdDivides(n, d);
    var x :| n == Times(g, x);
    var y :| d == Times(g, y);
    ExactQuotient(n, g, x);
    ExactQuotient(d, g, y);
    CrossProducts(g, x, y);
  }

  lemma CrossProducts(g: int, x: int, y: int)
    requires g > 0 && Times(g, y) > 0
    ensures x * Times(g, y) == Times(g, x) * y && y > 0
  {
    if y <= 0 {
      assert false;
    }
  }

  /** The parts left after dividing by the greatest common divisor have no
      common divisor but 1. */
  lemma SimplifiedIsCoprime(n: nat, d: nat)
    requires d > 0
    ensures Gcd(n, d) > 0 && Gcd(n / Gcd(n, d), d / Gcd(n, d)) == 1
  {
    var g := Gcd(n, d);
    SimplifiedParts(n, d);
    var n1, d1 := n / g, d / g;
    var h := Gcd(n1, d1);
    GcdDivides(n1, d1);
    DividesTransitive(h, g, n1, n);
    DividesTransitive(h, g, d1, d);
    GcdIsGreatest(n, d, g * h);
    GcdDivides(n, d);
    OnlyUnitFactor(g, h);
  }

  /** A mixed number `whole numerator/denominator`. */
  datatype Mixed = Mixed(whole: int, numerator: int, denominator: int)

  function MixedValue(m: Mixed): real
    requires m.denominator != 0
  {
    m.whole as real + m.numerator as real / m.denominator as real
  }

  /** `toMixedNumber`: `Math.floor` of the quotient and the JavaScript
      remainder; for a non-negative numerator they split it exactly. */
  function ToMixedNumber(numerator: int, denominator: int): (m: Mixed)
    requires denominator > 0
    ensures m.denominator == denominator
    ensures numerator >= 0 ==> m.whole * denominator + m.numerator == numerator
    ensures numerator >= 0 ==> 0 <= m.numerator < denominator && m.whole >= 0
  {
    assert numerator >= 0 ==> Text.JsRem(numerator, denominator) == numerator % denominator;
    Mixed(numerator / denominator, Text.JsRem(numerator, denominator), denominator)
  }

  /** A mixed number has the value of the fraction it came from. */
  lemma MixedKeepsValue(numerator: nat, denominator: nat)
    requires denominator > 0
    ensures MixedValue(ToMixedNumber(numerator, denominator)) == numerator as real / denominator as real
  {
    var m := ToMixedNumber(numerator, denominator);
    var d := denominator as real;
    assert numerator as real == m.whole as real * d + m.numerator as real;
    assert (m.whole as real * d) / d == m.whole as real;
  }

  /** Cross-multiplied equality is equality of values. */
  lemma SameValue(a: int, b: int, c: int, d: int)
    requires b != 0 && d != 0 && a * d == c * b
    ensures a as real / b as real == c as real / d as real
  {
    var br, dr := b as real, d as real;
    assert (a as real) * dr == (c as real) * br;
    calc {
      a as real / br;
      (a as real * dr) / (br * dr);
      (c as real * br) / (br * dr);
      c as real / dr;
    }
  }

  /** Simplifying and then splitting off the whole part keeps the value of
      the fraction, and the fractional part stays in lowest terms. */
  lemma SimplifiedMixedKeepsValue(numerator: nat, denominator: nat)
    requires denominator > 0
    ensures var f := SimplifyFraction(numerator, denominator);
      var m := ToMixedNumber(f.numerator, f.denominator);
      MixedValue(m) == numerator as real / denominator as real
      && 0 <= m.numerator < m.denominator
  {
    var f := SimplifyFraction(numerator, denominator);
    MixedKeepsValue(f.numerator, f.denominator);
    SameValue(f.numerator, f.denominator, numerator, denominator);
  }

  // ---------------------------------------------------------------------
  // What a problem displays, and its value
  // ---------------------------------------------------------------------

  datatype Op = Add | Sub | Mul | Div

  function Symbol(op: Op): string
  {
    match op
    case Add => "+"
    case Sub => "-"
    case Mul => "×"
    case Div => "÷"
  }

  /** The displayed expression of a generated problem, kept next to its
      text. The fixed grade-5 problems are only text. */
  datatype Shown =
    | Two(a: int, op: Op, b: int)
    | Three(a: int, op1: Op, b: int, op2: Op, c: int)
    | Fractions(n1: int, op: Op, n2: int, den: int)
    | FractionAndInteger(n: int, den: int, op: Op, k: int)
    | IntegerMinusFraction(k: int, n: int, den: int)
    | MixedNumbers(w1: int, n1: int, op: Op, w2: int, n2: int, den: int)
    | Fixed(text: string)

  function Num(n: int): string
  {
    Text.IntToString(n)
  }

  function FractionText(n: int, den: int): string
  {
    Num(n) + "/" + Num(den)
  }

  /** The problem text, as the template strings of the generators write it. */
  function Render(e: Shown): string
  {
    match e
    case Two(a, op, b) => Num(a) + " " + Symbol(op) + " " + Num(b) + " = "
    case Three(a, op1, b, op2, c) =>
      Num(a) + " " + Symbol(op1) + " " + Num(b) + " " + Symbol(op2) + " " + Num(c) + " = "
    case Fractions(n1, op, n2, den) =>
      FractionText(n1, den) + " " + Symbol(op) + " " + FractionText(n2, den) + " = "
    case FractionAndInteger(n, den, op, k) =>
      FractionText(n, den) + " " + Symbol(op) + " " + Num(k) + " = "
    case IntegerMinusFraction(k, n, den) =>
      Num(k) + " - " + FractionText(n, den) + " = "
    case MixedNumbers(w1, n1, op, w2, n2, den) =>
      Num(w1) + " " + FractionText(n1, den) + " " + Symbol(op) + " "
      + Num(w2) + " " + FractionText(n2, den) + " = (带分数)"
    case Fixed(text) => text
  }

  function Apply(x: real, op: Op, y: real): Option<real>
  {
    match op
    case Add => Some(x + y)
    case Sub => Some(x - y)
    case Mul => Some(x * y)
    case Div => if y == 0.0 then None else Some(x / y)
  }

  function Ratio(n: int, den: int): (r: real)
    requires den != 0
    ensures n >= 0 && den > 0 ==> r >= 0.0
  {
    n as real / den as real
  }

  /** The exact value of a displayed expression, read left to right; `None`
      for a division by zero and for text-only problems. */
  function Exact(e: Shown): Option<real>
  {
    match e
    case Two(a, op, b) => Apply(a as real, op, b as real)
    case Three(a, op1, b, op2, c) =>
      (match Apply(a as real, op1, b as real)
       case Some(m) => Apply(m, op2, c as real)
       case None => None)
    case Fractions(n1, op, n2, den) =>
      if den == 0 then None else Apply(Ratio(n1, den), op, Ratio(n2, den))
    case FractionAndInteger(n, den, op, k) =>
      if den == 0 then None else Apply(Ratio(n, den), op, k as real)
    case IntegerMinusFraction(k, n, den) =>
      if den == 0 then None else Some(k as real - Ratio(n, den))
    case MixedNumbers(w1, n1, op, w2, n2, den) =>
      if den == 0 then None
      else Apply(w1 as real + Ratio(n1, den), op, w2 as real + Ratio(n2, den))
    case Fixed(_) => None
  }

  /** A generated problem. `shown` is the expression behind `text`. */
  datatype Problem = Problem(
    index: int, text: string, answer: real, kind: string,
    hasFraction: bool, hasRepeating: bool, fractionAnswer: Option<Mixed>, shown: Shown)

  function Plain(index: int, shown: Shown, answer: int, kind: string): Problem
  {
    Problem(index, Render(shown), answer as real, kind, false, false, None, shown)
  }

  /** The answer stored with a problem is the value of the expression its
      text shows: exactly, or to within the two-decimal rounding of the
      mixed-number problems. */
  predicate Faithful(p: Problem)
  {
    p.text == Render(p.shown)
    && match p.shown
       case Fixed(_) => true
       case MixedNumbers(_, _, _, _, _, _) =>
         Exact(p.shown).Some? && -0.005 <= p.answer - Exact(p.shown).value <= 0.005
       case _ => Exact(p.shown) == Some(p.answer)
  }

  lemma ProductAsReal(a: int, b: int)
    ensures (a * b) as real == a as real * b as real
  {
  }

  // ---------------------------------------------------------------------
  // Fraction problems
  // ---------------------------------------------------------------------

  /** The answer of a fraction problem: the simplified result as a mixed
      number, and that mixed number's value. */
  function MixedAnswer(numerator: nat, denominator: nat): (m: Mixed)
    requires denominator > 0
    ensures m.denominator > 0 && 0 <= m.numerator < m.denominator && m.whole >= 0
    ensures Gcd(m.numerator, m.denominator) == 1 || m.numerator == 0
    ensures MixedValue(m) == Ratio(numerator, denominator)
  {
    var f := SimplifyFraction(numerator, denominator);
    SimplifiedMixedKeepsValue(numerator, denominator);
    var m := ToMixedNumber(f.numerator, f.denominator);
    assert Gcd(m.numerator, m.denominator) == 1 || m.numerator == 0 by {
      MixedStaysCoprime(f.numerator, f.denominator);
    }
    m
  }

  /** Taking the whole part off a fraction in lowest terms leaves one in
      lowest terms. */
  lemma MixedStaysCoprime(n: nat, d: nat)
    requires d > 0 && Gcd(n, d) == 1
    ensures Gcd(n % d, d) == 1 || n % d == 0
  {
    var r := n % d;
    if r != 0 {
      var h := Gcd(r, d);
      GcdDivides(r, d);
      EuclidStep(n, d);
      DividesCombination(h, d, r, n / d);
      GcdIsGreatest(n, d, h);
      assert Divides(h, 1);
      OnlyUnitFactor(1, h);
    }
  }

  lemma SumOfRatios(a: int, b: int, den: int)
    requires den != 0
    ensures Ratio(a, den) + Ratio(b, den) == Ratio(a + b, den)
    ensures Ratio(a, den) - Ratio(b, den) == Ratio(a - b, den)
  {
  }

  /** The numerator of the result of `generateFractionAddSub`: the sum, or
      the difference taken so that it is not negative. */
  function ResultNumerator(n1: nat, n2: nat, isAddition: bool): (n: nat)
    ensures isAddition ==> n == n1 + n2
    ensures !isAddition ==> n + (if n1 >= n2 then n2 else n1) == (if n1 >= n2 then n1 else n2)
  {
    if isAddition then n1 + n2 else if n1 >= n2 then n1 - n2 else n2 - n1
  }

  /** `generateFractionAddSub` as written: a subtraction with the smaller
      numerator first is answered with the difference the other way round,
      while the text still shows the operands in drawn order. */
  function FractionAddSubAsWritten(s: Source): (r: (Shown, Mixed, Source, bool))
    ensures r.0.Fractions? && 2 <= r.0.den <= 7
    ensures 1 <= r.0.n1 <= r.0.den && 1 <= r.0.n2 <= r.0.den
    ensures r.0.op == (if r.3 then Add else Sub)
    ensures r.1 == MixedAnswer(ResultNumerator(r.0.n1, r.0.n2, r.3), r.0.den)
  {
    var (d, s1) := Below(s, 6);
    var den := d + 2;
    var (x1, s2) := Below(s1, den);
    var (x2, s3) := Below(s2, den);
    var (isAddition, s4) := Chance(s3, 0.5);
    var m := MixedAnswer(ResultNumerator(x1 + 1, x2 + 1, isAddition), den);
    (Fractions(x1 + 1, if isAddition then Add else Sub, x2 + 1, den), m, s4, isAddition)
  }

  /** Whenever the source draws a subtraction whose first numerator is the
      smaller, the stored answer is the negation of the value of the text. */
  lemma AsWrittenFractionSubtractionHasWrongSign(s: Source)
    ensures var (shown, m, _, isAddition) := FractionAddSubAsWritten(s);
      !isAddition && shown.n1 < shown.n2 ==> Exact(shown) == Some(-MixedValue(m)) && MixedValue(m) > 0.0
  {
    var (shown, m, _, isAddition) := FractionAddSubAsWritten(s);
    if !isAddition && shown.n1 < shown.n2 {
      SumOfRatios(shown.n1, shown.n2, shown.den);
      SumOfRatios(shown.n2, shown.n1, shown.den);
      PositiveRatio(shown.n2 - shown.n1, shown.den);
    }
  }

  lemma PositiveRatio(n: int, den: int)
    requires n > 0 && den > 0
    ensures Ratio(n, den) > 0.0
  {
  }

  /** What the corrected generator shows: the drawn operands for a sum, the
      larger numerator first for a difference. */
  function ShownFractions(n1: nat, n2: nat, den: nat, isAddition: bool): (e: Shown)
    requires den > 0
    ensures e.Fractions? && e.den == den
    ensures (e.n1 == n1 && e.n2 == n2) || (e.n1 == n2 && e.n2 == n1)
    ensures Exact(e) == Some(Ratio(ResultNumerator(n1, n2, isAddition), den))
  {
    SumOfRatios(n1, n2, den);
    SumOfRatios(n2, n1, den);
    if isAddition then Fractions(n1, Add, n2, den)
    else if n1 >= n2 then Fractions(n1, Sub, n2, den)
    else Fractions(n2, Sub, n1, den)
  }

  /** `generateFractionAddSub` with the larger numerator shown first in a
      subtraction, so that the stored answer is the value of the text. */
  function FractionAddSub(s: Source): (r: (Shown, Mixed, Source))
    ensures r.0.Fractions? && 2 <= r.0.den <= 7
    ensures 1 <= r.0.n1 <= r.0.den && 1 <= r.0.n2 <= r.0.den
    ensures r.1.denominator > 0 && 0 <= r.1.numerator < r.1.denominator
    ensures Exact(r.0) == Some(MixedValue(r.1)) && MixedValue(r.1) >= 0.0
  {
    var (d, s1) := Below(s, 6);
    var den := d + 2;
    var (x1, s2) := Below(s1, den);
    var (x2, s3) := Below(s2, den);
    var (isAddition, s4) := Chance(s3, 0.5);
    var m := MixedAnswer(ResultNumerator(x1 + 1, x2 + 1, isAddition), den);
    (ShownFractions(x1 + 1, x2 + 1, den, isAddition), m, s4)
  }

  /** The numerator of the result of `generateFractionIntegerAddSub` over
      the drawn denominator; the branch that turns a subtraction into an
      addition is kept, although it is never taken. */
  function IntegerResultNumerator(n: nat, den: nat, k: nat, isAddition: bool): nat
  {
    if isAddition then n + k * den
    else if k * den >= n then k * den - n
    else n + k * den
  }

  /** `generateFractionIntegerAddSub` as written: a subtraction is shown as
      the fraction minus the whole number but answered with the whole
      number minus the fraction. */
  function FractionIntegerAddSubAsWritten(s: Source): (r: (Shown, Mixed, Source, bool))
    ensures r.0.FractionAndInteger? && 2 <= r.0.den <= 7 && 1 <= r.0.n <= r.0.den && 1 <= r.0.k <= 5
    ensures r.0.op == (if r.3 then Add else Sub)
    ensures r.1.denominator > 0 && 0 <= r.1.numerator < r.1.denominator
    ensures r.1 == MixedAnswer(IntegerResultNumerator(r.0.n, r.0.den, r.0.k, r.3), r.0.den)
  {
    var (d, s1) := Below(s, 6);
    var den := d + 2;
    var (x, s2) := Below(s1, den);
    var (y, s3) := Below(s2, 5);
    var (isAddition, s4) := Chance(s3, 0.5);
    var m := MixedAnswer(IntegerResultNumerator(x + 1, den, y + 1, isAddition), den);
    (FractionAndInteger(x + 1, den, if isAddition then Add else Sub, y + 1), m, s4, isAddition)
  }

  /** Whenever the source draws a subtraction, the stored answer is the
      negation of the value of the text; they agree only for `n/n - 1`. */
  lemma AsWrittenIntegerSubtractionHasWrongSign(s: Source)
    ensures var (shown, m, _, isAddition) := FractionIntegerAddSubAsWritten(s);
      !isAddition ==> Exact(shown) == Some(-MixedValue(m))
  {
    var (shown, m, _, isAddition) := FractionIntegerAddSubAsWritten(s);
    if !isAddition {
      IntegerSubtractionNegates(shown.n, shown.den, shown.k);
    }
  }

  lemma IntegerSubtractionNegates(n: int, den: int, k: int)
    requires 1 <= n <= den && k >= 1
    ensures k * den - n >= 0
    ensures Ratio(n, den) - k as real == -Ratio(k * den - n, den)
  {
    WholeExceedsFraction(n, den, k);
    assert k as real == Ratio(k * den, den) by {
      ProductAsReal(k, den);
    }
    SumOfRatios(k * den, n, den);
  }

  /** What the corrected generator shows: the fraction plus the whole
      number, or the whole number minus the fraction. */
  function ShownWithInteger(n: nat, den: nat, k: nat, isAddition: bool): (e: Shown)
    requires 1 <= n <= den && k >= 1
    ensures e.FractionAndInteger? || e.IntegerMinusFraction?
    ensures Exact(e) == Some(Ratio(IntegerResultNumerator(n, den, k, isAddition), den))
  {
    WholeExceedsFraction(n, den, k);
    assert k as real == Ratio(k * den, den) by {
      ProductAsReal(k, den);
    }
    SumOfRatios(n, k * den, den);
    SumOfRatios(k * den, n, den);
    if isAddition then FractionAndInteger(n, den, Add, k) else IntegerMinusFraction(k, n, den)
  }

  /** `generateFractionIntegerAddSub` with a subtraction shown as the whole
      number minus the fraction, which is what its answer computes. */
  function FractionIntegerAddSub(s: Source): (r: (Shown, Mixed, Source))
    ensures r.0.FractionAndInteger? || r.0.IntegerMinusFraction?
    ensures r.1.denominator > 0 && 0 <= r.1.numerator < r.1.denominator
    ensures Exact(r.0) == Some(MixedValue(r.1)) && MixedValue(r.1) >= 0.0
  {
    var (d, s1) := Below(s, 6);
    var den := d + 2;
    var (x, s2) := Below(s1, den);
    var (y, s3) := Below(s2, 5);
    var (isAddition, s4) := Chance(s3, 0.5);
    var m := MixedAnswer(IntegerResultNumerator(x + 1, den, y + 1, isAddition), den);
    (ShownWithInteger(x + 1, den, y + 1, isAddition), m, s4)
  }

  /** The corrected generators draw as the source does and store the same
      answers; the shown text differs only for the subtractions the
      as-written lemmas describe. */
  lemma CorrectedFractionsKeepAnswers(s: Source)
    ensures var (e, m, s') := FractionAddSub(s);
      var (e0, m0, s0, isAddition) := FractionAddSubAsWritten(s);
      m == m0 && s' == s0 && (isAddition || e0.n1 >= e0.n2 ==> e == e0)
    ensures var (e, m, s') := FractionIntegerAddSub(s);
      var (e0, m0, s0, isAddition) := FractionIntegerAddSubAsWritten(s);
      m == m0 && s' == s0 && (isAddition ==> e == e0)
  {
  }

  /** The guard against a negative result in `generateFractionIntegerAddSub`
      never fails: a whole number of at least 1 is at least a fraction whose
      numerator does not exceed its denominator. */
  lemma WholeExceedsFraction(n: int, den: int, k: int)
    requires 1 <= n <= den && k >= 1
    ensures k * den >= n
  {
    assert k * den == den + (k - 1) * den;
  }

  // ---------------------------------------------------------------------
  // Whole-number problems
  // ---------------------------------------------------------------------

  /** The clamping of `generateThreeNumberExpression`: after `a + b` the
      subtrahend `c` is at most `a + b`; for `a - b` the subtrahend `b` is
      at most `a`, and then `c` at most `a - b`. The answer is computed from
      the partial result, as in the source. */
  function Clamped(a: int, b: int, c: int, plus1: bool, plus2: bool): (r: (Shown, int))
    ensures r.0.Three? && r.0.a == a && Exact(r.0) == Some(r.1 as real)
    ensures r.0.op1 == (if plus1 then Add else Sub) && r.0.op2 == (if plus2 then Add else Sub)
    ensures plus2 ==> r.0.c == c
    ensures a >= 0 && b >= 0 && c >= 0 ==> r.1 >= 0
  {
    if plus1 then
      var mid := a + b;
      if plus2 then (Three(a, Add, b, Add, c), mid + c)
      else
        var c' := if c < mid then c else mid;
        (Three(a, Add, b, Sub, c'), mid - c')
    else
      var b' := if b < a then b else a;
      var mid := a - b';
      if plus2 then (Three(a, Sub, b', Add, c), mid + c)
      else
        var c' := if c < mid then c else mid;
        (Three(a, Sub, b', Sub, c'), mid - c')
  }

  /** `generateThreeNumberExpression(min, max, threeDigit)`: the first
      operand from `min` to `max - 1`; the other two likewise, or from 1 to
      40 when `threeDigit` is false. */
  function ThreeNumberExpression(min: int, max: int, threeDigit: bool, s: Source): (r: (Shown, int, Source))
    ensures r.0.Three? && Exact(r.0) == Some(r.1 as real)
    ensures 0 <= min < max ==> r.1 >= 0 && min <= r.0.a < max
  {
    var (plus1, s1) := Chance(s, 0.5);
    var (plus2, s2) := Chance(s1, 0.5);
    var (x, s3) := Below(s2, max - min);
    var (y, s4) := Below(s3, if threeDigit then max - min else 40);
    var (z, s5) := Below(s4, if threeDigit then max - min else 40);
    var a := x + min;
    var b := if threeDigit then y + min else y + 1;
    var c := if threeDigit then z + min else z + 1;
    var (e, answer) := Clamped(a, b, c, plus1, plus2);
    (e, answer, s5)
  }

  /** Grade 1, addition: ten plus a digit, or two numbers whose sum is at
      most ten. */
  function Grade1Addition(index: int, s: Source): (r: (Problem, Source))
    ensures Grade1Ok(r.0)
    ensures r.0.index == index && r.0.kind == "addition" && Faithful(r.0)
    ensures 1.0 <= r.0.answer <= 19.0 && !r.0.hasFraction
  {
    var (ten, s1) := Chance(s, 0.3);
    if ten then
      var (b, s2) := Below(s1, 10);
      (Plain(index, Two(10, Add, b), 10 + b, "addition"), s2)
    else
      var (x, s2) := Below(s1, 10);
      var a := x + 1;
      var (b, s3) := Below(s2, 11 - a);
      (Plain(index, Two(a, Add, b), a + b, "addition"), s3)
  }

  /** Grade 1, subtraction: from ten, or from a number up to ten, never
      below zero. */
  function Grade1Subtraction(index: int, s: Source): (r: (Problem, Source))
    ensures Grade1Ok(r.0)
    ensures r.0.index == index && r.0.kind == "subtraction" && Faithful(r.0)
    ensures 0.0 <= r.0.answer <= 10.0 && !r.0.hasFraction
  {
    var (ten, s1) := Chance(s, 0.3);
    if ten then
      var (b, s2) := Below(s1, 11);
      (Plain(index, Two(10, Sub, b), 10 - b, "subtraction"), s2)
    else
      var (x, s2) := Below(s1, 10);
      var a := x + 1;
      var (b, s3) := Below(s2, a + 1);
      (Plain(index, Two(a, Sub, b), a - b, "subtraction"), s3)
  }

  /** Grade 2, part one: a two-digit number plus or minus a number, with a
      result from 0 to 100. */
  function TwoNumbers(index: int, s: Source): (r: (Problem, Source))
    ensures Grade2Ok(r.0)
    ensures r.0.index == index && r.0.kind == "twoNumbers" && Faithful(r.0)
    ensures 0.0 <= r.0.answer <= 100.0 && !r.0.hasFraction
  {
    var (isAddition, s1) := Chance(s, 0.5);
    var (x, s2) := Below(s1, 90);
    var a := x + 10;
    if isAddition then
      var (b, s3) := Below(s2, 101 - a);
      (Plain(index, Two(a, Add, b), a + b, "twoNumbers"), s3)
    else
      var (b, s3) := Below(s2, a + 1);
      (Plain(index, Two(a, Sub, b), a - b, "twoNumbers"), s3)
  }

  function ThreeNumbers(index: int, s: Source): (r: (Problem, Source))
    ensures Grade2Ok(r.0)
    ensures r.0.index == index && r.0.kind == "threeNumbers" && Faithful(r.0)
    ensures r.0.answer >= 0.0 && !r.0.hasFraction
  {
    var (e, answer, s1) := ThreeNumberExpression(50, 100, false, s);
    (Plain(index, e, answer, "threeNumbers"), s1)
  }

  /** Grade 3, part one: a three-digit number plus or minus a two-digit one. */
  function Grade3Type1(index: int, s: Source): (r: (Problem, Source))
    ensures Grade3Ok(r.0)
    ensures r.0.index == index && r.0.kind == "type1" && Faithful(r.0)
    ensures 1.0 <= r.0.answer <= 1098.0 && !r.0.hasFraction
  {
    var (isAddition, s1) := Chance(s, 0.5);
    var (x, s2) := Below(s1, 900);
    var (y, s3) := Below(s2, 90);
    var a, b := x + 100, y + 10;
    if isAddition then (Plain(index, Two(a, Add, b), a + b, "type1"), s3)
    else (Plain(index, Two(a, Sub, b), a - b, "type1"), s3)
  }

  /** Grade 3, part two: two three-digit numbers, with a sum below 1000 or
      a difference that is not negative. */
  function Grade3Type2(index: int, s: Source): (r: (Problem, Source))
    ensures Grade3Ok(r.0)
    ensures r.0.index == index && r.0.kind == "type2" && Faithful(r.0)
    ensures 0.0 <= r.0.answer <= 999.0 && !r.0.hasFraction
  {
    var (isAddition, s1) := Chance(s, 0.5);
    if isAddition then
      var (x, s2) := Below(s1, 500);
      var a := x + 100;
      var (y, s3) := Below(s2, 1000 - a - 100);
      var b := y + 100;
      (Plain(index, Two(a, Add, b), a + b, "type2"), s3)
    else
      var (x, s2) := Below(s1, 900);
      var a := x + 100;
      var (y, s3) := Below(s2, a - 100);
      var b := y + 100;
      (Plain(index, Two(a, Sub, b), a - b, "type2"), s3)
  }

  function Grade3Type3(index: int, s: Source): (r: (Problem, Source))
    ensures Grade3Ok(r.0)
    ensures r.0.index == index && r.0.kind == "type3" && Faithful(r.0)
    ensures r.0.answer >= 0.0 && !r.0.hasFraction
  {
    var (e, answer, s1) := ThreeNumberExpression(100, 500, true, s);
    (Plain(index, e, answer, "type3"), s1)
  }

  /** Grade 4, part one: two-digit addition, or subtraction of at most the
      first number. */
  function TwoDigitAddSub(index: int, s: Source): (r: (Problem, Source))
    ensures Grade4Ok(r.0)
    ensures r.0.index == index && r.0.kind == "twoDigitAddSub" && Faithful(r.0)
    ensures 0.0 <= r.0.answer <= 198.0 && !r.0.hasFraction
  {
    var (isAddition, s1) := Chance(s, 0.5);
    var (x, s2) := Below(s1, 90);
    var a := x + 10;
    if isAddition then
      var (y, s3) := Below(s2, 90);
      (Plain(index, Two(a, Add, y + 10), a + (y + 10), "twoDigitAddSub"), s3)
    else
      var (y, s3) := Below(s2, a);
      (Plain(index, Two(a, Sub, y + 1), a - (y + 1), "twoDigitAddSub"), s3)
  }

  /** `a × b` with `a` drawn from `lo1` to `hi1` and `b` from `lo2` to `hi2`. */
  function Product(index: int, kind: string, lo1: int, hi1: int, lo2: int, hi2: int, s: Source): (r: (Problem, Source))
    requires 0 <= lo1 <= hi1 && 0 <= lo2 <= hi2
    ensures r.0.index == index && r.0.kind == kind && Faithful(r.0) && !r.0.hasFraction
    ensures (lo1 * lo2) as real <= r.0.answer <= (hi1 * hi2) as real
  {
    var (x, s1) := Below(s, hi1 - lo1 + 1);
    var (y, s2) := Below(s1, hi2 - lo2 + 1);
    var a, b := x + lo1, y + lo2;
    ProductBounds(a, b, lo1, hi1, lo2, hi2);
    (ProductOf(index, kind, a, b), s2)
  }

  /** The problem `a × b` and its answer. */
  function ProductOf(index: int, kind: string, a: int, b: int): (p: Problem)
    ensures p.index == index && p.kind == kind && Faithful(p) && !p.hasFraction
    ensures p.answer == (a * b) as real
  {
    ProductIsExact(a, b);
    Plain(index, Two(a, Mul, b), a * b, kind)
  }

  lemma ProductIsExact(a: int, b: int)
    ensures Exact(Two(a, Mul, b)) == Some((a * b) as real)
  {
    var x, y := a as real, b as real;
    ProductAsReal(a, b);
    assert Exact(Two(a, Mul, b)) == Apply(x, Mul, y) == Some(x * y);
    assert (a * b) as real == x * y;
  }

  lemma ProductBounds(a: int, b: int, lo1: int, hi1: int, lo2: int, hi2: int)
    requires 0 <= lo1 <= a <= hi1 && 0 <= lo2 <= b <= hi2
    ensures (lo1 * lo2) as real <= (a * b) as real <= (hi1 * hi2) as real
  {
    IntProductBounds(a, b, lo1, hi1, lo2, hi2);
  }

  lemma IntProductBounds(a: int, b: int, lo1: int, hi1: int, lo2: int, hi2: int)
    requires 0 <= lo1 <= a <= hi1 && 0 <= lo2 <= b <= hi2
    ensures lo1 * lo2 <= a * b <= hi1 * hi2
  {
    assert lo1 * lo2 <= a * lo2 <= a * b;
    assert a * b <= hi1 * b <= hi1 * hi2;
  }

  function TwoDigitMult(index: int, s: Source): (r: (Problem, Source))
    ensures Grade4Ok(r.0)
    ensures r.0.index == index && r.0.kind == "twoDigitMult" && Faithful(r.0)
    ensures 100.0 <= r.0.answer <= 9801.0 && !r.0.hasFraction
  {
    Product(index, "twoDigitMult", 10, 99, 10, 99, s)
  }

  function ThreeDigitMult(index: int, s: Source): (r: (Problem, Source))
    ensures Grade4Ok(r.0)
    ensures r.0.index == index && r.0.kind == "threeDigitMult" && Faithful(r.0)
    ensures 1000.0 <= r.0.answer <= 98901.0 && !r.0.hasFraction
  {
    Product(index, "threeDigitMult", 100, 999, 10, 99, s)
  }

  /** Grade 4, part three: positions 1 to 8 of the part are two fractions,
      9 and 10 a fraction and a whole number. */
  function FractionProblem(index: int, s: Source): (r: (Problem, Source))
    ensures Grade4Ok(r.0)
    ensures r.0.index == index && r.0.kind == "fractionAddSub" && Faithful(r.0)
    ensures r.0.hasFraction && r.0.answer >= 0.0
    ensures r.0.fractionAnswer.Some? && r.0.fractionAnswer.value.denominator > 0
    ensures r.0.answer == MixedValue(r.0.fractionAnswer.value)
    ensures index - 21 < 8 ==> TwoFractions(r.0)
    ensures index - 21 >= 8 ==> FractionWithInteger(r.0)
  {
    var (e, m, s1) := if index - 21 < 8 then FractionAddSub(s) else FractionIntegerAddSub(s);
    (Problem(index, Render(e), MixedValue(m), "fractionAddSub", true, false, Some(m), e), s1)
  }

  /** Grade 6, part one: two digits from 1 to 9 multiplied (both branches
      of the source draw alike). */
  function Multiplication(index: int, s: Source): (r: (Problem, Source))
    ensures Grade6Ok(r.0)
    ensures r.0.index == index && r.0.kind == "multiplication" && Faithful(r.0)
    ensures 1.0 <= r.0.answer <= 81.0 && !r.0.hasFraction
  {
    var (_, s1) := Chance(s, 0.3);
    Product(index, "multiplication", 1, 9, 1, 9, s1)
  }

  /** Grade 6, part two: the dividend is built as divisor times quotient,
      so every division is exact. */
  function Division(index: int, s: Source): (r: (Problem, Source))
    ensures Grade6Ok(r.0)
    ensures r.0.index == index && r.0.kind == "division" && Faithful(r.0)
    ensures r.0.shown.Two? && r.0.shown.op == Div && 1 <= r.0.shown.b <= 9
    ensures Divides(r.0.shown.b, r.0.shown.a) && 1.0 <= r.0.answer <= 19.0
    ensures !r.0.hasFraction
  {
    var (x, s1) := Below(s, 9);
    var (y, s2) := Below(s1, 19);
    var divisor, quotient := x + 1, y + 1;
    var dividend := divisor * quotient;
    assert dividend == Times(divisor, quotient);
    assert Ratio(dividend, divisor) == quotient as real by {
      ProductAsReal(divisor, quotient);
    }
    (Plain(index, Two(dividend, Div, divisor), quotient, "division"), s2)
  }

  /** `Math.round(x)`: the nearest integer, halves rounded up. */
  function Round(x: real): (n: int)
    ensures x - 0.5 < n as real <= x + 0.5
  {
    (x + 0.5).Floor
  }

  /** Grade 6, part three: two mixed numbers with a common denominator added
      or subtracted; the answer is the exact result rounded to hundredths.
      The subtraction may be negative. */
  function ComplexFraction(index: int, s: Source): (r: (Problem, Source))
    ensures Grade6Ok(r.0)
    ensures r.0.index == index && r.0.kind == "mixed" && Faithful(r.0) && r.0.hasFraction
    ensures r.0.shown.MixedNumbers? && 2 <= r.0.shown.den <= 4
  {
    var (x1, s1) := Below(s, 2);
    var (y1, s2) := Below(s1, 3);
    var (d, s3) := Below(s2, 3);
    var (x2, s4) := Below(s3, 2);
    var (y2, s5) := Below(s4, 3);
    var (isAddition, s6) := Chance(s5, 0.5);
    var w1, n1, den, w2, n2 := x1 + 1, y1 + 1, d + 2, x2 + 1, y2 + 1;
    var v1 := w1 as real + Ratio(n1, den);
    var v2 := w2 as real + Ratio(n2, den);
    var result := if isAddition then v1 + v2 else v1 - v2;
    var answer := Round(result * 100.0) as real / 100.0;
    var e := MixedNumbers(w1, n1, if isAddition then Add else Sub, w2, n2, den);
    (Problem(index, Render(e), answer, "mixed", true, false, None, e), s6)
  }

  /** One row of the fixed grade-5 table. */
  datatype TableEntry = TableEntry(text: string, answer: real, hasRepeating: bool)

  /** The forty fixed grade-5 problems, with the answers the table stores. */
  const Grade5Table: seq<TableEntry> := [
      TableEntry("5 × 2.42 = ", 12.1, false),
      TableEntry("(254 + 8) × 47 = ", 12314.0, false),
      TableEntry("12.2 ÷ 2 = ", 6.1, false),
      TableEntry("156 × 7 × 4 = ", 4368.0, false),
      TableEntry("14.5 ÷ 4 = ", 3.625, false),
      TableEntry("45 ÷ 5 ÷ 3 = ", 3.0, false),
      TableEntry("3 × 1.56 = ", 4.68, false),
      TableEntry("0.6 × 7.8 = ", 4.68, false),
      TableEntry("43 × 8 + 36 ÷ 6 = ", 350.0, false),
      TableEntry("24.4 ÷ 3 = ", 8.13, true),
      TableEntry("700 - [6 × (18 + 45)] = ", 322.0, false),
      TableEntry("1.3 × 5.6 = ", 7.28, false),
      TableEntry("0.05 ÷ 10 = ", 0.005, false),
      TableEntry("9.4 ÷ 11 = ", 0.85, true),
      TableEntry("41.6 ÷ 40 = ", 1.04, false),
      TableEntry("35.1 ÷ 30 = ", 1.17, false),
      TableEntry("0.06 ÷ 12 = ", 0.005, false),
      TableEntry("18.9 × 0.04 = ", 0.756, false),
      TableEntry("26.3 × 1.07 = ", 28.141, false),
      TableEntry("2.5 × 13 + 0.9 = ", 33.4, false),
      TableEntry("2.6 × 2.14 = ", 5.564, false),
      TableEntry("76.14 ÷ 0.27 = ", 282.0, false),
      TableEntry("49.84 ÷ 0.56 = ", 89.0, false),
      TableEntry("8.1 ÷ 1.85 = ", 4.38, true),
      TableEntry("20.88 ÷ 3.48 = ", 6.0, false),
      TableEntry("73 ÷ 3 = ", 24.33, true),
      TableEntry("25 ÷ 6 = ", 4.17, true),
      TableEntry("3.7 × 5.47 = ", 20.239, false),
      TableEntry("35 ÷ 11 = ", 3.18, true),
      TableEntry("200 ÷ 20.32 = ", 9.84, false),
      TableEntry("300 ÷ 18.65 = ", 16.09, false),
      TableEntry("35 × 8.1 + 1.7 = ", 285.2, false),
      TableEntry("76.6 - 6.6 × 3 = ", 56.8, false),
      TableEntry("59.8 - 4.2 × 5 = ", 38.8, false),
      TableEntry("0.79 × 4.8 + 0.79 × 5.2 = ", 7.9, false),
      TableEntry("8.02 × 5.3 + 4.52 × 4.7 = ", 63.75, false),
      TableEntry("(8 + 0.8) × 1.25 = ", 11.0, false),
      TableEntry("(5 + 3.9) × 5.68 = ", 50.552, false),
      TableEntry("2.5 × 0.6 - 1.8 × 0.5 = ", 0.6, false),
      TableEntry("7.1 × 1.5 - 5.4 × 0.3 = ", 9.03, false)
    ]

  // ---------------------------------------------------------------------
  // Per-grade generators
  // ---------------------------------------------------------------------

  /** `count` problems from `gen`, numbered from `first`, each drawing after
      the previous one. */
  function Repeat(count: nat, first: int, gen: (int, Source) -> (Problem, Source), s: Source): (r: (seq<Problem>, Source))
    ensures |r.0| == count
    decreases count
  {
    if count == 0 then ([], s)
    else
      var (p, s1) := gen(first, s);
      var (ps, s2) := Repeat(count - 1, first + 1, gen, s1);
      ([p] + ps, s2)
  }

  /** Whatever every generated problem satisfies, every repeated one does. */
  lemma {:induction false} RepeatKeeps(count: nat, first: int, gen: (int, Source) -> (Problem, Source), s: Source, P: Problem -> bool)
    requires forall i, t :: P(gen(i, t).0)
    ensures forall p :: p in Repeat(count, first, gen, s).0 ==> P(p)
    decreases count
  {
    if count > 0 {
      var (p, s1) := gen(first, s);
      RepeatKeeps(count - 1, first + 1, gen, s1, P);
    }
  }

  /** Problems numbered consecutively from `first`. */
  lemma {:induction false} RepeatNumbers(count: nat, first: int, gen: (int, Source) -> (Problem, Source), s: Source)
    requires forall i, t :: gen(i, t).0.index == i
    ensures forall k :: 0 <= k < count ==> Repeat(count, first, gen, s).0[k].index == first + k
    decreases count
  {
    if count > 0 {
      var (p, s1) := gen(first, s);
      RepeatNumbers(count - 1, first + 1, gen, s1);
    }
  }

  predicate Grade1Ok(p: Problem)
  {
    Faithful(p) && !p.hasFraction
    && ((p.kind == "addition" && 1.0 <= p.answer <= 19.0)
        || (p.kind == "subtraction" && 0.0 <= p.answer <= 10.0))
  }

  predicate Grade2Ok(p: Problem)
  {
    Faithful(p) && !p.hasFraction
    && ((p.kind == "twoNumbers" && 0.0 <= p.answer <= 100.0)
        || (p.kind == "threeNumbers" && p.answer >= 0.0))
  }

  predicate Grade3Ok(p: Problem)
  {
    Faithful(p) && !p.hasFraction
    && ((p.kind == "type1" && 1.0 <= p.answer <= 1098.0)
        || (p.kind == "type2" && 0.0 <= p.answer <= 999.0)
        || (p.kind == "type3" && p.answer >= 0.0))
  }

  predicate Grade4Ok(p: Problem)
  {
    Faithful(p)
    && ((!p.hasFraction && p.kind == "twoDigitAddSub" && 0.0 <= p.answer <= 198.0)
        || (!p.hasFraction && p.kind == "twoDigitMult" && 100.0 <= p.answer <= 9801.0)
        || (p.hasFraction && p.kind == "fractionAddSub" && p.answer >= 0.0
            && p.fractionAnswer.Some? && p.fractionAnswer.value.denominator > 0
            && p.answer == MixedValue(p.fractionAnswer.value))
        || (!p.hasFraction && p.kind == "threeDigitMult" && 1000.0 <= p.answer <= 98901.0))
  }

  predicate Grade5Ok(p: Problem)
  {
    Faithful(p) && !p.hasFraction && p.kind == "decimal" && p.shown.Fixed?
  }

  predicate Grade6Ok(p: Problem)
  {
    Faithful(p)
    && ((!p.hasFraction && p.kind == "multiplication" && 1.0 <= p.answer <= 81.0)
        || (!p.hasFraction && p.kind == "division" && 1.0 <= p.answer <= 19.0)
        || (p.hasFraction && p.kind == "mixed"))
  }

  /** What every problem of a grade looks like; no problem belongs to a
      grade outside 1 to 6. */
  predicate Expected(grade: int, p: Problem)
  {
    match grade
    case 1 => Grade1Ok(p)
    case 2 => Grade2Ok(p)
    case 3 => Grade3Ok(p)
    case 4 => Grade4Ok(p)
    case 5 => Grade5Ok(p)
    case 6 => Grade6Ok(p)
    case _ => false
  }

  /** A problem showing two fractions. */
  predicate TwoFractions(p: Problem)
  {
    p.shown.Fractions?
  }

  /** A problem showing a fraction and a whole number, in either order. */
  predicate FractionWithInteger(p: Problem)
  {
    p.shown.FractionAndInteger? || p.shown.IntegerMinusFraction?
  }

  /** Positions `lo` to `hi - 1` of `ps` all hold problems of one kind. */
  predicate KindRun(ps: seq<Problem>, lo: nat, hi: nat, kind: string)
  {
    hi <= |ps| && forall k :: lo <= k < hi ==> ps[k].kind == kind
  }

  /** The order in which each grade makes its problems, before the shuffle:
      the parts of the grade's generator, one run of positions per part.
      In grade 4's fraction part the first eight show two fractions and
      the last two a fraction and a whole number. */
  predicate Layout(grade: int, ps: seq<Problem>)
  {
    match grade
    case 1 => KindRun(ps, 0, 20, "addition") && KindRun(ps, 20, 40, "subtraction")
    case 2 => KindRun(ps, 0, 30, "twoNumbers") && KindRun(ps, 30, 40, "threeNumbers")
    case 3 => KindRun(ps, 0, 10, "type1") && KindRun(ps, 10, 30, "type2") && KindRun(ps, 30, 40, "type3")
    case 4 =>
      KindRun(ps, 0, 10, "twoDigitAddSub") && KindRun(ps, 10, 20, "twoDigitMult")
      && KindRun(ps, 20, 30, "fractionAddSub") && KindRun(ps, 30, 40, "threeDigitMult")
      && (forall k :: 20 <= k < 28 ==> TwoFractions(ps[k]))
      && (forall k :: 28 <= k < 30 ==> FractionWithInteger(ps[k]))
    case 5 => KindRun(ps, 0, 40, "decimal")
    case 6 => KindRun(ps, 0, 15, "multiplication") && KindRun(ps, 15, 30, "division") && KindRun(ps, 30, 40, "mixed")
    case _ => |ps| == 0
  }

  /** A generator that always makes one kind fills its run with it. */
  lemma RepeatKind(count: nat, first: int, gen: (int, Source) -> (Problem, Source), s: Source, kind: string)
    requires forall i, t :: gen(i, t).0.kind == kind
    ensures KindRun(Repeat(count, first, gen, s).0, 0, count, kind)
  {
    RepeatKeeps(count, first, gen, s, (p: Problem) => p.kind == kind);
  }

  /** A run keeps its kind when more problems follow or come before it. */
  lemma RunInConcat(xs: seq<Problem>, ys: seq<Problem>, lo: nat, hi: nat, kind: string)
    requires KindRun(xs, lo, hi, kind)
    ensures KindRun(xs + ys, lo, hi, kind)
  {
    forall k | lo <= k < hi
      ensures (xs + ys)[k].kind == kind
    {
      assert (xs + ys)[k] == xs[k];
    }
  }

  lemma RunAfterConcat(xs: seq<Problem>, ys: seq<Problem>, kind: string)
    requires KindRun(ys, 0, |ys|, kind)
    ensures KindRun(xs + ys, |xs|, |xs| + |ys|, kind)
  {
    forall k | |xs| <= k < |xs| + |ys|
      ensures (xs + ys)[k].kind == kind
    {
      assert (xs + ys)[k] == ys[k - |xs|];
    }
  }

  /** Three runs of kinds, one after another. */
  lemma ThreeRuns(xs: seq<Problem>, ys: seq<Problem>, zs: seq<Problem>, kx: string, ky: string, kz: string)
    requires KindRun(xs, 0, |xs|, kx) && KindRun(ys, 0, |ys|, ky) && KindRun(zs, 0, |zs|, kz)
    ensures KindRun(xs + ys + zs, 0, |xs|, kx)
    ensures KindRun(xs + ys + zs, |xs|, |xs| + |ys|, ky)
    ensures KindRun(xs + ys + zs, |xs| + |ys|, |xs| + |ys| + |zs|, kz)
  {
    RunInConcat(xs, ys, 0, |xs|, kx);
    RunAfterConcat(xs, ys, ky);
    RunInConcat(xs + ys, zs, 0, |xs|, kx);
    RunInConcat(xs + ys, zs, |xs|, |xs| + |ys|, ky);
    RunAfterConcat(xs + ys, zs, kz);
  }

  /** Four runs of kinds, one after another. */
  lemma FourRuns(ws: seq<Problem>, xs: seq<Problem>, ys: seq<Problem>, zs: seq<Problem>,
                 kw: string, kx: string, ky: string, kz: string)
    requires KindRun(ws, 0, |ws|, kw) && KindRun(xs, 0, |xs|, kx)
    requires KindRun(ys, 0, |ys|, ky) && KindRun(zs, 0, |zs|, kz)
    ensures var n := |ws| + |xs| + |ys|;
      KindRun(ws + xs + ys + zs, 0, |ws|, kw) && KindRun(ws + xs + ys + zs, |ws|, |ws| + |xs|, kx)
      && KindRun(ws + xs + ys + zs, |ws| + |xs|, n, ky) && KindRun(ws + xs + ys + zs, n, n + |zs|, kz)
  {
    var front := ws + xs + ys;
    ThreeRuns(ws, xs, ys, kw, kx, ky);
    RunInConcat(front, zs, 0, |ws|, kw);
    RunInConcat(front, zs, |ws|, |ws| + |xs|, kx);
    RunInConcat(front, zs, |ws| + |xs|, |front|, ky);
    RunAfterConcat(front, zs, kz);
  }

  /** Grade 4's fraction part: two fractions in its first eight problems, a
      fraction and a whole number in its last two. */
  lemma FractionPartSplit(s: Source, fs: seq<Problem>)
    requires fs == Repeat(10, 21, FractionProblem, s).0
    ensures forall k :: 0 <= k < 8 ==> TwoFractions(fs[k])
    ensures forall k :: 8 <= k < 10 ==> FractionWithInteger(fs[k])
  {
    FractionProblemIsPlaced();
    RepeatAt(10, 21, FractionProblem, s, PlacedFraction);
    assert forall k :: 0 <= k < 10 ==> PlacedFraction(21 + k, fs[k]);
  }

  /** The fraction problem for position `i` of grade 4. */
  predicate PlacedFraction(i: int, p: Problem)
  {
    (i - 21 < 8 ==> TwoFractions(p)) && (i - 21 >= 8 ==> FractionWithInteger(p))
  }

  lemma FractionProblemIsPlaced()
    ensures forall i, t :: PlacedFraction(i, FractionProblem(i, t).0)
  {
  }

  /** What a generator promises of the problem it makes for a position, the
      repetition promises of the problem at that position. */
  lemma {:induction false} RepeatAt(count: nat, first: int, gen: (int, Source) -> (Problem, Source), s: Source,
                                    P: (int, Problem) -> bool)
    requires forall i, t :: P(i, gen(i, t).0)
    ensures forall k :: 0 <= k < count ==> P(first + k, Repeat(count, first, gen, s).0[k])
    decreases count
  {
    if count > 0 {
      var (p, s1) := gen(first, s);
      RepeatAt(count - 1, first + 1, gen, s1, P);
      var ps := Repeat(count, first, gen, s).0;
      forall k | 1 <= k < count
        ensures P(first + k, ps[k])
      {
        assert ps[k] == Repeat(count - 1, first + 1, gen, s1).0[k - 1];
      }
    }
  }

  lemma ConcatKeeps(xs: seq<Problem>, ys: seq<Problem>, P: Problem -> bool)
    requires forall p :: p in xs ==> P(p)
    requires forall p :: p in ys ==> P(p)
    ensures forall p :: p in xs + ys ==> P(p)
  {
  }

  /** `generateGrade1Problems`: 20 additions numbered 1 to 20, then 20
      subtractions numbered 21 to 40. */
  function Grade1(s: Source): (r: (seq<Problem>, Source))
    ensures |r.0| == 40 && forall p :: p in r.0 ==> Grade1Ok(p)
    ensures KindRun(r.0, 0, 20, "addition")
    ensures KindRun(r.0, 20, 40, "subtraction")
  {
    var (adds, s1) := Repeat(20, 1, Grade1Addition, s);
    var (subs, s2) := Repeat(20, 21, Grade1Subtraction, s1);
    RepeatKind(20, 1, Grade1Addition, s, "addition");
    RepeatKind(20, 21, Grade1Subtraction, s1, "subtraction");
    RunInConcat(adds, subs, 0, 20, "addition");
    RunAfterConcat(adds, subs, "subtraction");
    RepeatKeeps(20, 1, Grade1Addition, s, Grade1Ok);
    RepeatKeeps(20, 21, Grade1Subtraction, s1, Grade1Ok);
    ConcatKeeps(adds, subs, Grade1Ok);
    (adds + subs, s2)
  }

  /** `generateGrade2Problems`: 30 two-number problems, then 10 with three
      numbers. */
  function Grade2(s: Source): (r: (seq<Problem>, Source))
    ensures |r.0| == 40 && forall p :: p in r.0 ==> Grade2Ok(p)
    ensures KindRun(r.0, 0, 30, "twoNumbers")
    ensures KindRun(r.0, 30, 40, "threeNumbers")
  {
    var (twos, s1) := Repeat(30, 1, TwoNumbers, s);
    var (threes, s2) := Repeat(10, 31, ThreeNumbers, s1);
    RepeatKind(30, 1, TwoNumbers, s, "twoNumbers");
    RepeatKind(10, 31, ThreeNumbers, s1, "threeNumbers");
    RunInConcat(twos, threes, 0, 30, "twoNumbers");
    RunAfterConcat(twos, threes, "threeNumbers");
    RepeatKeeps(30, 1, TwoNumbers, s, Grade2Ok);
    RepeatKeeps(10, 31, ThreeNumbers, s1, Grade2Ok);
    ConcatKeeps(twos, threes, Grade2Ok);
    (twos + threes, s2)
  }

  /** `generateGrade3Problems`: 10 of type 1, 20 of type 2, 10 of type 3. */
  function Grade3(s: Source): (r: (seq<Problem>, Source))
    ensures |r.0| == 40 && forall p :: p in r.0 ==> Grade3Ok(p)
    ensures KindRun(r.0, 0, 10, "type1")
    ensures KindRun(r.0, 10, 30, "type2")
    ensures KindRun(r.0, 30, 40, "type3")
  {
    var (ones, s1) := Repeat(10, 1, Grade3Type1, s);
    var (twos, s2) := Repeat(20, 11, Grade3Type2, s1);
    var (threes, s3) := Repeat(10, 31, Grade3Type3, s2);
    RepeatKind(10, 1, Grade3Type1, s, "type1");
    RepeatKind(20, 11, Grade3Type2, s1, "type2");
    RepeatKind(10, 31, Grade3Type3, s2, "type3");
    ThreeRuns(ones, twos, threes, "type1", "type2", "type3");
    RepeatKeeps(10, 1, Grade3Type1, s, Grade3Ok);
    RepeatKeeps(20, 11, Grade3Type2, s1, Grade3Ok);
    RepeatKeeps(10, 31, Grade3Type3, s2, Grade3Ok);
    ConcatKeeps(ones, twos, Grade3Ok);
    ConcatKeeps(ones + twos, threes, Grade3Ok);
    (ones + twos + threes, s3)
  }

  /** `generateGrade4Problems`: ten each of two-digit addition and
      subtraction, two-digit products, fractions and three-by-two-digit
      products. */
  function Grade4(s: Source): (r: (seq<Problem>, Source))
    ensures |r.0| == 40 && forall p :: p in r.0 ==> Grade4Ok(p)
    ensures Layout(4, r.0)
  {
    var (sums, s1) := Repeat(10, 1, TwoDigitAddSub, s);
    var (products, s2) := Repeat(10, 11, TwoDigitMult, s1);
    var (fractions, s3) := Repeat(10, 21, FractionProblem, s2);
    var (big, s4) := Repeat(10, 31, ThreeDigitMult, s3);
    var all := sums + products + fractions + big;
    assert Layout(4, all) by {
      RepeatKind(10, 1, TwoDigitAddSub, s, "twoDigitAddSub");
      RepeatKind(10, 11, TwoDigitMult, s1, "twoDigitMult");
      RepeatKind(10, 21, FractionProblem, s2, "fractionAddSub");
      RepeatKind(10, 31, ThreeDigitMult, s3, "threeDigitMult");
      FractionPartSplit(s2, fractions);
      Grade4Assembled(sums, products, fractions, big);
    }
    assert forall p :: p in all ==> Grade4Ok(p) by {
      RepeatKeeps(10, 1, TwoDigitAddSub, s, Grade4Ok);
      RepeatKeeps(10, 11, TwoDigitMult, s1, Grade4Ok);
      RepeatKeeps(10, 21, FractionProblem, s2, Grade4Ok);
      RepeatKeeps(10, 31, ThreeDigitMult, s3, Grade4Ok);
      ConcatKeeps(sums, products, Grade4Ok);
      ConcatKeeps(sums + products, fractions, Grade4Ok);
      ConcatKeeps(sums + products + fractions, big, Grade4Ok);
    }
    (all, s4)
  }

  /** Grade 4's four parts, each of its kind, make the grade's layout. */
  lemma Grade4Assembled(sums: seq<Problem>, products: seq<Problem>, fractions: seq<Problem>, big: seq<Problem>)
    requires |sums| == 10 && |products| == 10 && |fractions| == 10 && |big| == 10
    requires KindRun(sums, 0, 10, "twoDigitAddSub") && KindRun(products, 0, 10, "twoDigitMult")
    requires KindRun(fractions, 0, 10, "fractionAddSub") && KindRun(big, 0, 10, "threeDigitMult")
    requires forall k :: 0 <= k < 8 ==> TwoFractions(fractions[k])
    requires forall k :: 8 <= k < 10 ==> FractionWithInteger(fractions[k])
    ensures Layout(4, sums + products + fractions + big)
  {
    FourRuns(sums, products, fractions, big, "twoDigitAddSub", "twoDigitMult", "fractionAddSub", "threeDigitMult");
    Grade4Fractions(sums + products, fractions, big);
  }

  /** Where grade 4's two kinds of fraction problem land in the whole list. */
  lemma Grade4Fractions(front: seq<Problem>, fractions: seq<Problem>, big: seq<Problem>)
    requires |front| == 20 && |fractions| == 10
    requires forall k :: 0 <= k < 8 ==> TwoFractions(fractions[k])
    requires forall k :: 8 <= k < 10 ==> FractionWithInteger(fractions[k])
    ensures forall k :: 20 <= k < 28 ==> TwoFractions((front + fractions + big)[k])
    ensures forall k :: 28 <= k < 30 ==> FractionWithInteger((front + fractions + big)[k])
  {
    forall k | 20 <= k < 30
      ensures (front + fractions + big)[k] == fractions[k - 20]
    {
    }
  }

  /** `generateGrade5Problems`: the fixed table, numbered 1 to 40; it draws
      nothing. */
  function Grade5(s: Source): (r: (seq<Problem>, Source))
    ensures |r.0| == 40 && forall p :: p in r.0 ==> Grade5Ok(p)
    ensures r.1 == s
    ensures KindRun(r.0, 0, 40, "decimal")
    ensures forall k :: 0 <= k < 40 ==>
      (r.0[k].index == k + 1 && r.0[k].text == Grade5Table[k].text
       && r.0[k].answer == Grade5Table[k].answer && r.0[k].hasRepeating == Grade5Table[k].hasRepeating)
  {
    var ps := seq(|Grade5Table|, (k: int) requires 0 <= k < |Grade5Table| =>
      var e := Grade5Table[k];
      Problem(k + 1, e.text, e.answer, "decimal", false, e.hasRepeating, None, Fixed(e.text)));
    (ps, s)
  }

  /** `generateGrade6Problems`: 15 products, 15 exact divisions, 10
      mixed-number problems. */
  function Grade6(s: Source): (r: (seq<Problem>, Source))
    ensures |r.0| == 40 && forall p :: p in r.0 ==> Grade6Ok(p)
    ensures KindRun(r.0, 0, 15, "multiplication")
    ensures KindRun(r.0, 15, 30, "division")
    ensures KindRun(r.0, 30, 40, "mixed")
  {
    var (products, s1) := Repeat(15, 1, Multiplication, s);
    var (quotients, s2) := Repeat(15, 16, Division, s1);
    var (mixed, s3) := Repeat(10, 31, ComplexFraction, s2);
    RepeatKind(15, 1, Multiplication, s, "multiplication");
    RepeatKind(15, 16, Division, s1, "division");
    RepeatKind(10, 31, ComplexFraction, s2, "mixed");
    ThreeRuns(products, quotients, mixed, "multiplication", "division", "mixed");
    RepeatKeeps(15, 1, Multiplication, s, Grade6Ok);
    RepeatKeeps(15, 16, Division, s1, Grade6Ok);
    RepeatKeeps(10, 31, ComplexFraction, s2, Grade6Ok);
    ConcatKeeps(products, quotients, Grade6Ok);
    ConcatKeeps(products + quotients, mixed, Grade6Ok);
    (products + quotients + mixed, s3)
  }

  /** `generateProblems` before the shuffle: the grade's 40 problems, or
      none for a grade outside 1 to 6. */
  function Draft(grade: int, s: Source): (r: (seq<Problem>, Source))
    ensures |r.0| == (if 1 <= grade <= 6 then 40 else 0)
    ensures forall p :: p in r.0 ==> Expected(grade, p)
  {
    match grade
    case 1 => Grade1(s)
    case 2 => Grade2(s)
    case 3 => Grade3(s)
    case 4 => Grade4(s)
    case 5 => Grade5(s)
    case 6 => Grade6(s)
    case _ => ([], s)
  }

  predicate NumberedFrom(ps: seq<Problem>, first: int)
  {
    forall k :: 0 <= k < |ps| ==> ps[k].index == first + k
  }

  lemma RepeatIsNumbered(count: nat, first: int, gen: (int, Source) -> (Problem, Source), s: Source)
    requires forall i, t :: gen(i, t).0.index == i
    ensures NumberedFrom(Repeat(count, first, gen, s).0, first)
  {
    RepeatNumbers(count, first, gen, s);
  }

  lemma ConcatNumbered(xs: seq<Problem>, ys: seq<Problem>, first: int)
    requires NumberedFrom(xs, first) && NumberedFrom(ys, first + |xs|)
    ensures NumberedFrom(xs + ys, first)
  {
  }

  lemma Grade1IsNumbered(s: Source)
    ensures NumberedFrom(Grade1(s).0, 1)
  {
    var (adds, s1) := Repeat(20, 1, Grade1Addition, s);
    RepeatIsNumbered(20, 1, Grade1Addition, s);
    RepeatIsNumbered(20, 21, Grade1Subtraction, s1);
    ConcatNumbered(adds, Repeat(20, 21, Grade1Subtraction, s1).0, 1);
  }

  lemma Grade2IsNumbered(s: Source)
    ensures NumberedFrom(Grade2(s).0, 1)
  {
    var (twos, s1) := Repeat(30, 1, TwoNumbers, s);
    RepeatIsNumbered(30, 1, TwoNumbers, s);
    RepeatIsNumbered(10, 31, ThreeNumbers, s1);
    ConcatNumbered(twos, Repeat(10, 31, ThreeNumbers, s1).0, 1);
  }

  lemma Grade3IsNumbered(s: Source)
    ensures NumberedFrom(Grade3(s).0, 1)
  {
    var (ones, s1) := Repeat(10, 1, Grade3Type1, s);
    var (twos, s2) := Repeat(20, 11, Grade3Type2, s1);
    RepeatIsNumbered(10, 1, Grade3Type1, s);
    RepeatIsNumbered(20, 11, Grade3Type2, s1);
    RepeatIsNumbered(10, 31, Grade3Type3, s2);
    ConcatNumbered(ones, twos, 1);
    ConcatNumbered(ones + twos, Repeat(10, 31, Grade3Type3, s2).0, 1);
  }

  lemma Grade4IsNumbered(s: Source)
    ensures NumberedFrom(Grade4(s).0, 1)
  {
    var (sums, s1) := Repeat(10, 1, TwoDigitAddSub, s);
    var (products, s2) := Repeat(10, 11, TwoDigitMult, s1);
    var (fractions, s3) := Repeat(10, 21, FractionProblem, s2);
    RepeatIsNumbered(10, 1, TwoDigitAddSub, s);
    RepeatIsNumbered(10, 11, TwoDigitMult, s1);
    RepeatIsNumbered(10, 21, FractionProblem, s2);
    RepeatIsNumbered(10, 31, ThreeDigitMult, s3);
    ConcatNumbered(sums, products, 1);
    ConcatNumbered(sums + products, fractions, 1);
    ConcatNumbered(sums + products + fractions, Repeat(10, 31, ThreeDigitMult, s3).0, 1);
  }

  lemma Grade6IsNumbered(s: Source)
    ensures NumberedFrom(Grade6(s).0, 1)
  {
    var (products, s1) := Repeat(15, 1, Multiplication, s);
    var (quotients, s2) := Repeat(15, 16, Division, s1);
    RepeatIsNumbered(15, 1, Multiplication, s);
    RepeatIsNumbered(15, 16, Division, s1);
    RepeatIsNumbered(10, 31, ComplexFraction, s2);
    ConcatNumbered(products, quotients, 1);
    ConcatNumbered(products + quotients, Repeat(10, 31, ComplexFraction, s2).0, 1);
  }

  /** Each grade makes its parts in the order of its generator, so before
      the shuffle every position holds a problem of its part's kind. */
  lemma DraftLayout(grade: int, s: Source)
    ensures Layout(grade, Draft(grade, s).0)
  {
  }

  /** Each grade numbers its problems 1 to 40 in the order it makes them. */
  lemma DraftIsNumbered(grade: int, s: Source)
    ensures NumberedFrom(Draft(grade, s).0, 1)
  {
    match grade
    case 1 => Grade1IsNumbered(s);
    case 2 => Grade2IsNumbered(s);
    case 3 => Grade3IsNumbered(s);
    case 4 => Grade4IsNumbered(s);
    case 5 =>
    case 6 => Grade6IsNumbered(s);
    case _ =>
  }

  // ---------------------------------------------------------------------
  // Shuffling
  // ---------------------------------------------------------------------

  function Swap<T>(xs: seq<T>, i: nat, j: nat): (r: seq<T>)
    requires i < |xs| && j < |xs|
    ensures |r| == |xs| && multiset(r) == multiset(xs)
    ensures r[i] == xs[j] && r[j] == xs[i]
    ensures forall k :: 0 <= k < |xs| && k != i && k != j ==> r[k] == xs[k]
  {
    xs[i := xs[j]][j := xs[i]]
  }

  /** The Fisher-Yates loop of `shuffleProblems` over the first `n`
      positions, from position `n - 1` down to 1: each position is
      exchanged with one drawn from 0 to itself. */
  function ShuffleFrom<T>(xs: seq<T>, n: nat, s: Source): (r: (seq<T>, Source))
    requires n <= |xs|
    ensures |r.0| == |xs| && multiset(r.0) == multiset(xs)
    decreases n
  {
    if n <= 1 then (xs, s)
    else
      var (j, s1) := Below(s, n);
      ShuffleFrom(Swap(xs, n - 1, j), n - 1, s1)
  }

  function Shuffle<T>(xs: seq<T>, s: Source): (r: (seq<T>, Source))
    ensures |r.0| == |xs| && multiset(r.0) == multiset(xs)
  {
    ShuffleFrom(xs, |xs|, s)
  }

  function MapSeq<T, U>(xs: seq<T>, f: T -> U): (r: seq<U>)
    ensures |r| == |xs| && forall k :: 0 <= k < |xs| ==> r[k] == f(xs[k])
  {
    seq(|xs|, (k: int) requires 0 <= k < |xs| => f(xs[k]))
  }

  lemma MapSwap<T, U>(xs: seq<T>, i: nat, j: nat, f: T -> U)
    requires i < |xs| && j < |xs|
    ensures MapSeq(Swap(xs, i, j), f) == Swap(MapSeq(xs, f), i, j)
  {
  }

  /** The draws of the shuffle do not look at the elements, so shuffling
      commutes with any map over them. */
  lemma {:induction false} ShuffleFromCommutes<T, U>(xs: seq<T>, n: nat, s: Source, f: T -> U)
    requires n <= |xs|
    ensures ShuffleFrom(MapSeq(xs, f), n, s).0 == MapSeq(ShuffleFrom(xs, n, s).0, f)
    decreases n
  {
    if n > 1 {
      var (j, s1) := Below(s, n);
      MapSwap(xs, n - 1, j, f);
      ShuffleFromCommutes(Swap(xs, n - 1, j), n - 1, s1, f);
    }
  }

  function Unnumber(p: Problem): Problem
  {
    p.(index := 0)
  }

  /** `shuffleProblems`: the problems in shuffled order, numbered 1 to n;
      apart from their numbers they are the problems given. */
  function ShuffleProblems(ps: seq<Problem>, s: Source): (r: seq<Problem>)
    ensures |r| == |ps|
    ensures forall k :: 0 <= k < |r| ==> r[k].index == k + 1
    ensures multiset(MapSeq(r, Unnumber)) == multiset(MapSeq(ps, Unnumber))
  {
    var shuffled := Shuffle(ps, s).0;
    var r := seq(|shuffled|, (k: int) requires 0 <= k < |shuffled| => shuffled[k].(index := k + 1));
    assert MapSeq(r, Unnumber) == MapSeq(shuffled, Unnumber);
    ShuffleCommutes(ps, s, Unnumber);
    r
  }

  lemma ShuffleCommutes<T, U>(xs: seq<T>, s: Source, f: T -> U)
    ensures Shuffle(MapSeq(xs, f), s).0 == MapSeq(Shuffle(xs, s).0, f)
  {
    ShuffleFromCommutes(xs, |xs|, s, f);
  }

  lemma ExpectedIgnoresIndex(grade: int, p: Problem)
    ensures Expected(grade, p) == Expected(grade, Unnumber(p))
  {
  }

  /** Whatever holds of every problem, up to its number, holds after the
      shuffle. */
  lemma ShuffleKeepsExpected(grade: int, ps: seq<Problem>, s: Source)
    requires forall p :: p in ps ==> Expected(grade, p)
    ensures forall p :: p in ShuffleProblems(ps, s) ==> Expected(grade, p)
  {
    var r := ShuffleProblems(ps, s);
    forall p | p in r
      ensures Expected(grade, p)
    {
      var k :| 0 <= k < |r| && r[k] == p;
      assert Unnumber(p) in multiset(MapSeq(r, Unnumber)) by {
        assert MapSeq(r, Unnumber)[k] == Unnumber(p);
      }
      assert Unnumber(p) in MapSeq(ps, Unnumber);
      var j :| 0 <= j < |ps| && MapSeq(ps, Unnumber)[j] == Unnumber(p);
      assert ps[j] in ps;
      ExpectedIgnoresIndex(grade, ps[j]);
      ExpectedIgnoresIndex(grade, p);
    }
  }

  /** `generateProblems(gradeLevel)`: 40 problems for grades 1 to 6 and
      none otherwise, numbered 1 to n after the shuffle, each of the kind
      and range its grade makes, and apart from their numbers a
      rearrangement of the grade's problems. */
  function GenerateProblems(grade: int, s: Source): (r: seq<Problem>)
    ensures |r| == (if 1 <= grade <= 6 then 40 else 0)
    ensures forall k :: 0 <= k < |r| ==> r[k].index == k + 1
    ensures forall p :: p in r ==> Expected(grade, p)
    ensures multiset(MapSeq(r, Unnumber)) == multiset(MapSeq(Draft(grade, s).0, Unnumber))
  {
    var (ps, s1) := Draft(grade, s);
    ShuffleKeepsExpected(grade, ps, s1);
    ShuffleProblems(ps, s1)
  }
}

=== FILE: calculation.dfy ===
/** The calculation fluency test: the session record with its counters and
    derived rates, saving one answered problem, updating and completing a
    session, the per-grade result statistics and the study recommendations
    derived from them. Clock readings are integer seconds passed in. */
module CalculationTest {
  import opened Wrappers
  import opened Seqs
  import Text
  import Ratio

  datatype CalcSession = CalcSession(
    id: int,
    userId: int,
    startTime: int,
    endTime: Option<int>,
    isCompleted: bool,
    totalTimeSeconds: Option<int>,
    gradeLevel: int,
    progress: int,
    totalQuestions: int,
    correctCount: int,
    totalScore: int,
    maxScore: int)

  datatype Problem = Problem(
    userId: int,
    sessionId: int,
    index: int,
    text: string,
    problemType: Option<string>,
    correctAnswer: string,
    userAnswer: Option<string>,
    isCorrect: Option<bool>,
    responseTime: int,
    score: int)

  /** A session as `create_test_session` builds it: the record's defaults
      except for the grade and question count the request gives. */
  function CreateTestSession(userExists: bool, id: int, userId: int, gradeLevel: int, totalQuestions: int, now: int)
    : (r: Result<CalcSession, string>)
    ensures r.Success? <==> userExists
    ensures !userExists ==> r.error == Text.MissingRow("用户不存在", userId)
    ensures r.Success? ==>
      var s := r.value;
      s.progress == 0 && s.correctCount == 0 && s.totalScore == 0 && s.maxScore == 40
      && !s.isCompleted && s.endTime.None? && s.gradeLevel == gradeLevel && s.totalQuestions == totalQuestions
      && Accuracy(s) == 0.0 && CountersConsistent(s)
  {
    if !userExists then Failure(Text.MissingRow("用户不存在", userId))
    else Success(CalcSession(id, userId, now, None, false, None, gradeLevel, 0, totalQuestions, 0, 0, 40))
  }

  /** The record's own defaults: grade 1, 40 questions, 40 points. */
  const DefaultSession := CalcSession(0, 0, 0, None, false, None, 1, 0, 40, 0, 0, 40)

  lemma DefaultSessionRates()
    ensures Accuracy(DefaultSession) == 0.0 && CompletionRate(DefaultSession) == 0.0
    ensures ScorePercentage(DefaultSession) == 0.0
  {
  }

  /** `accuracy`: correct answers over answered problems, in per cent. */
  function Accuracy(s: CalcSession): (r: real)
    ensures s.progress == 0 ==> r == 0.0
    ensures s.progress != 0 ==> r * s.progress as real == s.correctCount as real * 100.0
    ensures CountersConsistent(s) ==> 0.0 <= r <= 100.0
  {
    assert CountersConsistent(s) ==> 0.0 <= Ratio.CountPercent(s.correctCount, s.progress) <= 100.0 by {
      if CountersConsistent(s) {
        Ratio.PercentBounds(s.correctCount as real, s.progress as real);
      }
    }
    Ratio.CountPercent(s.correctCount, s.progress)
  }

  /** `completion_rate`: answered problems over the planned number. */
  function CompletionRate(s: CalcSession): (r: real)
    ensures s.totalQuestions == 0 ==> r == 0.0
    ensures s.totalQuestions != 0 ==> r * s.totalQuestions as real == s.progress as real * 100.0
    ensures 0 <= s.progress <= s.totalQuestions ==> 0.0 <= r <= 100.0
  {
    assert 0 <= s.progress <= s.totalQuestions ==> 0.0 <= Ratio.CountPercent(s.progress, s.totalQuestions) <= 100.0 by {
      if 0 <= s.progress <= s.totalQuestions {
        Ratio.PercentBounds(s.progress as real, s.totalQuestions as real);
      }
    }
    Ratio.CountPercent(s.progress, s.totalQuestions)
  }

  /** `score_percentage`: points over the maximum. */
  function ScorePercentage(s: CalcSession): (r: real)
    ensures s.maxScore == 0 ==> r == 0.0
    ensures s.maxScore != 0 ==> r * s.maxScore as real == s.totalScore as real * 100.0
  {
    Ratio.CountPercent(s.totalScore, s.maxScore)
  }

  /** What the counters promise: no more correct answers than answers. */
  predicate CountersConsistent(s: CalcSession)
  {
    0 <= s.correctCount <= s.progress
  }

  datatype ProblemData = ProblemData(
    userId: int, index: int, text: string, problemType: Option<string>, correctAnswer: string,
    userAnswer: string, responseTime: int)

  /** `save_problem`: an unknown session or user raises before anything
      changes. Otherwise the answer is correct exactly when it is the same
      string as the correct answer; the problem is stored (without its type
      and with score 0, which the source does not set) and the session
      counts one more answer, and one more correct answer when it is. */
  function SaveProblem(sessionId: int, session: Option<CalcSession>, userExists: bool, problems: seq<Problem>,
                       data: ProblemData): (r: Result<(CalcSession, seq<Problem>), string>)
    requires session.Some? ==> session.value.id == sessionId
    ensures r.Success? <==> session.Some? && userExists
    ensures session.None? ==> r.error == Text.MissingRow("测试会话不存在", sessionId)
    ensures session.Some? && !userExists ==> r.error == Text.MissingRow("用户不存在", data.userId)
    ensures r.Success? ==>
      var (s, stored) := r.value;
      var old_ := session.value;
      s.progress == old_.progress + 1
      && s.correctCount == old_.correctCount + (if data.userAnswer == data.correctAnswer then 1 else 0)
      && s == old_.(progress := s.progress, correctCount := s.correctCount)
      && |stored| == |problems| + 1 && stored[..|problems|] == problems
      && stored[|problems|].isCorrect == Some(data.userAnswer == data.correctAnswer)
      && stored[|problems|].sessionId == old_.id
      && stored[|problems|].problemType.None? && stored[|problems|].score == 0
    ensures r.Success? && CountersConsistent(session.value) ==> CountersConsistent(r.value.0)
  {
    match session
    case None => Failure(Text.MissingRow("测试会话不存在", sessionId))
    case Some(s) =>
      if !userExists then Failure(Text.MissingRow("用户不存在", data.userId))
      else
        var isCorrect := data.userAnswer == data.correctAnswer;
        var problem := Problem(data.userId, s.id, data.index, data.text, None, data.correctAnswer,
                               Some(data.userAnswer), Some(isCorrect), data.responseTime, 0);
        var s' := s.(progress := s.progress + 1,
                     correctCount := if isCorrect then s.correctCount + 1 else s.correctCount);
        Success((s', problems + [problem]))
  }

  /** Saving problems one after another from a fresh session: the progress
      is the number saved and the correct count the number answered right. */
  function SaveAll(s: CalcSession, problems: seq<Problem>, answers: seq<ProblemData>): (r: (CalcSession, seq<Problem>))
    decreases |answers|
  {
    if |answers| == 0 then (s, problems)
    else
      var (s', stored) := SaveProblem(s.id, Some(s), true, problems, answers[0]).value;
      SaveAll(s', stored, answers[1..])
  }

  predicate AnsweredRight(d: ProblemData)
  {
    d.userAnswer == d.correctAnswer
  }

  lemma {:induction false} SaveAllCounts(s: CalcSession, problems: seq<Problem>, answers: seq<ProblemData>)
    ensures var (s', stored) := SaveAll(s, problems, answers);
      s'.progress == s.progress + |answers|
      && s'.correctCount == s.correctCount + Count(answers, AnsweredRight)
      && |stored| == |problems| + |answers|
    decreases |answers|
  {
    if |answers| > 0 {
      var (s1, stored1) := SaveProblem(s.id, Some(s), true, problems, answers[0]).value;
      SaveAllCounts(s1, stored1, answers[1..]);
    }
  }

  /** The fields `update_test_session` may carry; absent means not sent.
      `endTime` distinguishes "not sent" from "sent as null". */
  datatype SessionUpdate = SessionUpdate(
    isCompleted: Option<bool>,
    progress: Option<int>,
    correctCount: Option<int>,
    totalScore: Option<int>,
    endTime: Option<Option<int>>)

  function Overwrite<T>(old_: T, sent: Option<T>): T
  {
    match sent
    case Some(v) => v
    case None => old_
  }

  /** `update_test_session`: overwrites exactly the fields sent; when the
      update marks the session completed and it still has no end time, the
      end time is now and the elapsed seconds are recorded. */
  function UpdateTestSession(session: Option<CalcSession>, u: SessionUpdate, now: int): (r: Option<CalcSession>)
    ensures r.None? <==> session.None?
    ensures r.Some? ==>
      var s := session.value;
      var t := r.value;
      (u.progress.Some? ==> t.progress == u.progress.value) && (u.progress.None? ==> t.progress == s.progress)
      && (u.correctCount.Some? ==> t.correctCount == u.correctCount.value)
      && (u.correctCount.None? ==> t.correctCount == s.correctCount)
      && (u.totalScore.Some? ==> t.totalScore == u.totalScore.value) && (u.totalScore.None? ==> t.totalScore == s.totalScore)
      && (u.isCompleted.Some? ==> t.isCompleted == u.isCompleted.value) && (u.isCompleted.None? ==> t.isCompleted == s.isCompleted)
      && t.id == s.id && t.gradeLevel == s.gradeLevel && t.totalQuestions == s.totalQuestions && t.maxScore == s.maxScore
      && var sentEnd := Overwrite(s.endTime, u.endTime);
         (if u.isCompleted == Some(true) && sentEnd.None?
          then t.endTime == Some(now) && t.totalTimeSeconds == Some(now - s.startTime)
          else t.endTime == sentEnd && t.totalTimeSeconds == s.totalTimeSeconds)
  {
    match session
    case None => None
    case Some(s) =>
      var t := s.(isCompleted := Overwrite(s.isCompleted, u.isCompleted),
                  progress := Overwrite(s.progress, u.progress),
                  correctCount := Overwrite(s.correctCount, u.correctCount),
                  totalScore := Overwrite(s.totalScore, u.totalScore),
                  endTime := Overwrite(s.endTime, u.endTime));
      if u.isCompleted == Some(true) && t.endTime.None? then
        Some(t.(endTime := Some(now), totalTimeSeconds := Some(now - t.startTime)))
      else Some(t)
  }

  /** `complete_test_session`: completed, ending now. */
  function CompleteTestSession(session: Option<CalcSession>, now: int): (r: Option<CalcSession>)
    ensures r.None? <==> session.None?
    ensures r.Some? ==>
      r.value.isCompleted && r.value.endTime == Some(now)
      && r.value.totalTimeSeconds == Some(now - session.value.startTime)
      && r.value.progress == session.value.progress && r.value.correctCount == session.value.correctCount
  {
    match session
    case None => None
    case Some(s) => Some(s.(isCompleted := true, endTime := Some(now), totalTimeSeconds := Some(now - s.startTime)))
  }

  /** One problem type's line in the statistics. */
  datatype TypeStat = TypeStat(total: nat, correct: nat, accuracy: real)

  predicate IsRight(p: Problem)
  {
    p.isCorrect == Some(true)
  }

  /** `correct / max(total, 1) * 100` over the problems of one type. */
  function TypeStatOf(ps: seq<Problem>): (t: TypeStat)
    ensures t.total == |ps| && t.correct == Count(ps, IsRight) && t.correct <= t.total
    ensures t.accuracy == Ratio.CountPercent(t.correct, t.total) && 0.0 <= t.accuracy <= 100.0
    ensures t.accuracy == 100.0 <==> t.total > 0 && t.correct == t.total
  {
    // `correct / max(total, 1) * 100` is 0 on no problems, as the guarded
    // percentage is.
    var correct := Count(ps, IsRight);
    var accuracy := Ratio.CountPercent(correct, |ps|);
    assert 0.0 <= accuracy <= 100.0 by {
      Ratio.PercentBounds(correct as real, |ps| as real);
    }
    TypeStat(|ps|, correct, accuracy)
  }

  /** `problem_text.count(c)` for a one-character `c`. */
  function Occurrences(text: string, c: char): nat
  {
    Count(text, (x: char) => x == c)
  }

  function Operators(p: Problem): nat
  {
    Occurrences(p.text, '+') + Occurrences(p.text, '-')
  }

  predicate HasPlus(p: Problem) { Text.Contains(p.text, "+") }
  predicate HasMinus(p: Problem) { Text.Contains(p.text, "-") }
  predicate TwoNumbers(p: Problem) { Operators(p) == 1 }
  predicate ThreeNumbers(p: Problem) { Operators(p) == 2 }
  predicate Early(p: Problem) { p.index <= 10 }
  predicate Middle(p: Problem) { 10 < p.index <= 30 }
  predicate Late(p: Problem) { p.index > 30 }

  /** The problem-type keys of each grade, in the source's order. */
  function TypeNames(grade: int): seq<string>
  {
    if grade == 1 then ["addition", "subtraction"]
    else if grade == 2 then ["twoNumbers", "threeNumbers"]
    else if grade == 3 then ["twoDigitOperations", "threeDigitOperations", "threeDigitThreeNumbers"]
    else []
  }

  /** The per-type statistics of one grade, in the source's key order;
      grades other than 1 to 3 have none. Grade 1 splits by operator
      symbol, grade 2 by the number of operators, grade 3 by position. */
  function ProblemTypeStats(grade: int, ps: seq<Problem>): (r: seq<(string, TypeStat)>)
    ensures grade !in {1, 2, 3} ==> r == []
    ensures |r| == |TypeNames(grade)| && forall i :: 0 <= i < |r| ==> r[i].0 == TypeNames(grade)[i]
    ensures grade == 1 ==>
      (|r| == 2 && r[0].0 == "addition" && r[1].0 == "subtraction"
       && r[0].1 == TypeStatOf(Filter(ps, HasPlus)) && r[1].1 == TypeStatOf(Filter(ps, HasMinus)))
    ensures grade == 2 ==>
      (|r| == 2 && r[0].0 == "twoNumbers" && r[1].0 == "threeNumbers"
       && r[0].1 == TypeStatOf(Filter(ps, TwoNumbers)) && r[1].1 == TypeStatOf(Filter(ps, ThreeNumbers)))
    ensures grade == 3 ==>
      (|r| == 3
       && r[0].0 == "twoDigitOperations" && r[1].0 == "threeDigitOperations" && r[2].0 == "threeDigitThreeNumbers"
       && r[0].1 == TypeStatOf(Filter(ps, Early)) && r[1].1 == TypeStatOf(Filter(ps, Middle))
       && r[2].1 == TypeStatOf(Filter(ps, Late))
       && r[0].1.total + r[1].1.total + r[2].1.total == |ps|
       && r[0].1.correct + r[1].1.correct + r[2].1.correct == Count(ps, IsRight))
  {
    if grade == 1 then
      [("addition", TypeStatOf(Filter(ps, HasPlus))), ("subtraction", TypeStatOf(Filter(ps, HasMinus)))]
    else if grade == 2 then
      [("twoNumbers", TypeStatOf(Filter(ps, TwoNumbers))), ("threeNumbers", TypeStatOf(Filter(ps, ThreeNumbers)))]
    else if grade == 3 then Grade3Stats(ps)
    else []
  }

  /** The grade-3 statistics: the problems up to 10, 11 to 30, and past 30. */
  function Grade3Stats(ps: seq<Problem>): (r: seq<(string, TypeStat)>)
    ensures |r| == 3
      && r[0].0 == "twoDigitOperations" && r[1].0 == "threeDigitOperations" && r[2].0 == "threeDigitThreeNumbers"
    ensures r[0].1 == TypeStatOf(Filter(ps, Early)) && r[1].1 == TypeStatOf(Filter(ps, Middle))
      && r[2].1 == TypeStatOf(Filter(ps, Late))
    ensures r[0].1.total + r[1].1.total + r[2].1.total == |ps|
    ensures r[0].1.correct + r[1].1.correct + r[2].1.correct == Count(ps, IsRight)
  {
    Grade3Partition(ps);
    [("twoDigitOperations", TypeStatOf(Filter(ps, Early))),
     ("threeDigitOperations", TypeStatOf(Filter(ps, Middle))),
     ("threeDigitThreeNumbers", TypeStatOf(Filter(ps, Late)))]
  }

  /** The three grade-3 buckets split the problems: each problem is counted
      in exactly one, and so is each correct one. */
  lemma {:induction false} Grade3Partition(ps: seq<Problem>)
    ensures |Filter(ps, Early)| + |Filter(ps, Middle)| + |Filter(ps, Late)| == |ps|
    ensures Count(Filter(ps, Early), IsRight) + Count(Filter(ps, Middle), IsRight) + Count(Filter(ps, Late), IsRight)
            == Count(ps, IsRight)
    decreases |ps|
  {
    if |ps| > 0 {
      Grade3Partition(ps[1..]);
    }
  }

  /** The statistics block of `get_test_session_results`. */
  datatype Stats = Stats(
    totalProblems: nat,
    correctProblems: nat,
    accuracy: real,
    completionRate: real,
    totalTimeSeconds: Option<int>,
    averageResponseTime: real,
    problemTypeStats: seq<(string, TypeStat)>)

  function SumResponseTimes(ps: seq<Problem>): int
  {
    Sum(ps, (p: Problem) => p.responseTime)
  }

  function SessionProblems(problems: seq<Problem>, s: int): seq<Problem>
  {
    Filter(problems, (p: Problem) => p.sessionId == s)
  }

  /** `get_test_session_results`: `None` for an unknown session; otherwise
      the counts, the session's rates, the mean response time (0 with no
      problems, as the source divides by `max(len, 1)`) and the grade's
      per-type statistics. */
  function GetTestSessionResults(session: Option<CalcSession>, problems: seq<Problem>): (r: Option<Stats>)
    ensures r.None? <==> session.None?
    ensures r.Some? ==>
      var ps := SessionProblems(problems, session.value.id);
      r.value.totalProblems == |ps| && r.value.correctProblems == Count(ps, IsRight)
      && r.value.correctProblems <= r.value.totalProblems
      && r.value.averageResponseTime == Ratio.Mean(SumResponseTimes(ps), |ps|)
      && r.value.accuracy == Accuracy(session.value)
      && r.value.completionRate == CompletionRate(session.value)
      && r.value.totalTimeSeconds == session.value.totalTimeSeconds
      && r.value.problemTypeStats == ProblemTypeStats(session.value.gradeLevel, ps)
  {
    match session
    case None => None
    case Some(s) =>
      var ps := SessionProblems(problems, s.id);
      var mean := Ratio.Mean(SumResponseTimes(ps), |ps|);
      var types := ProblemTypeStats(s.gradeLevel, ps);
      Some(Stats(|ps|, Count(ps, IsRight), Accuracy(s), CompletionRate(s), s.totalTimeSeconds, mean, types))
  }

  /** What `generate_recommendations` reads from the results, each with the
      default it uses when the key is missing: accuracy 0, type accuracy 0,
      average time 0, consistency 100. */
  datatype Observations = Observations(
    accuracy: Option<real>,
    typeAccuracies: seq<(string, Option<real>)>,
    averageResponseTime: Option<real>,
    consistencyScore: Option<real>)

  const WeakBasics := "建议加强基础计算练习，特别是加减法运算"
  const FairBasics := "基础计算能力尚可，建议多做练习提高熟练度"
  const StrongBasics := "计算能力较强，可以尝试更高难度的题目"
  const WeakFractions := "分数加减法较弱，建议加强通分和化简练习"
  const WeakMultiplication := "乘法运算需要加强，建议背诵乘法口诀表"
  const WeakAddSub := "加减法运算需要练习，注意计算准确性"
  const TooSlow := "答题速度较慢，建议多做速算练习提高计算速度"
  const Inconsistent := "答题速度波动较大，建议加强专注力训练"
  const Excellent := "表现优秀，继续保持！"

  /** The band message for an overall accuracy: below 60, below 80, else. */
  function AccuracyBand(accuracy: real): (m: string)
    ensures m == WeakBasics <==> accuracy < 60.0
    ensures m == FairBasics <==> 60.0 <= accuracy < 80.0
    ensures m == StrongBasics <==> accuracy >= 80.0
  {
    if accuracy < 60.0 then WeakBasics else if accuracy < 80.0 then FairBasics else StrongBasics
  }

  /** The message for one weak problem type: fractions first, then any name
      containing "Mult", then any containing "AddSub"; other names none. */
  function TypeMessage(name: string): (m: Option<string>)
    ensures name == "fractionAddSub" ==> m == Some(WeakFractions)
    ensures name != "fractionAddSub" && Text.Contains(name, "Mult") ==> m == Some(WeakMultiplication)
    ensures m == Some(WeakAddSub) <==> name != "fractionAddSub" && !Text.Contains(name, "Mult") && Text.Contains(name, "AddSub")
    ensures m.None? <==> name != "fractionAddSub" && !Text.Contains(name, "Mult") && !Text.Contains(name, "AddSub")
  {
    if name == "fractionAddSub" then Some(WeakFractions)
    else if Text.Contains(name, "Mult") then Some(WeakMultiplication)
    else if Text.Contains(name, "AddSub") then Some(WeakAddSub)
    else None
  }

  /** One message per problem type below 70 that has one, in key order. */
  function TypeMessages(types: seq<(string, Option<real>)>): (ms: seq<string>)
    ensures |ms| <= |types|
    ensures forall m :: m in ms ==> m in {WeakFractions, WeakMultiplication, WeakAddSub}
    ensures (forall i :: 0 <= i < |types| ==> TypeMessage(types[i].0).None?) ==> ms == []
    decreases |types|
  {
    if |types| == 0 then []
    else
      var (name, accuracy) := types[0];
      var rest := TypeMessages(types[1..]);
      if accuracy.GetOr(0.0) < 70.0 && TypeMessage(name).Some? then [TypeMessage(name).value] + rest else rest
  }

  /** `generate_recommendations` with the "slow" threshold a parameter, in
      the unit of the average response time it is compared with. */
  function RecommendationsWith(o: Observations, slowAbove: real): (ms: seq<string>)
    ensures |ms| >= 1 && ms[0] == AccuracyBand(o.accuracy.GetOr(0.0))
    ensures TooSlow in ms <==> o.averageResponseTime.GetOr(0.0) > slowAbove
    ensures Inconsistent in ms <==> o.consistencyScore.GetOr(100.0) < 70.0
    ensures Excellent !in ms
    ensures |ms| <= 3 + |o.typeAccuracies|
  {
    var band := [AccuracyBand(o.accuracy.GetOr(0.0))];
    var types := TypeMessages(o.typeAccuracies);
    var slow := if o.averageResponseTime.GetOr(0.0) > slowAbove then [TooSlow] else [];
    var unsteady := if o.consistencyScore.GetOr(100.0) < 70.0 then [Inconsistent] else [];
    var ms := band + types + slow + unsteady;
    var fallback := if |ms| == 0 then [Excellent] else [];
    assert ms[0] == band[0];
    assert forall m :: m in ms ==> m in band || m in types || m in slow || m in unsteady;
    ms + fallback
  }

  /** As written: the average response time is in milliseconds (every
      stored `response_time` is), but it is compared with 30, the comment's
      "30 seconds". */
  function RecommendationsAsWritten(o: Observations): seq<string>
  {
    RecommendationsWith(o, 30.0)
  }

  /** Corrected: an average above 30 seconds, that is 30000 ms, is slow. */
  function Recommendations(o: Observations): (ms: seq<string>)
    ensures TooSlow in ms <==> o.averageResponseTime.GetOr(0.0) > 30000.0
    ensures |ms| >= 1 && ms[0] == AccuracyBand(o.accuracy.GetOr(0.0))
  {
    RecommendationsWith(o, 30000.0)
  }

  /** An answer every 31 ms on average, far faster than any child answers,
      is called slow by the code as written and not by the corrected rule. */
  lemma AsWrittenCallsFastAnswersSlow()
    ensures var o := Observations(Some(100.0), [], Some(31.0), None);
      TooSlow in RecommendationsAsWritten(o) && TooSlow !in Recommendations(o)
  {
  }

  /** What the results of `get_test_session_results` show the recommender:
      no speed analysis, so no consistency score. */
  function ObservationsOf(stats: Stats): (o: Observations)
    ensures o.consistencyScore.None? && |o.typeAccuracies| == |stats.problemTypeStats|
  {
    Observations(Some(stats.accuracy),
                 seq(|stats.problemTypeStats|, i requires 0 <= i < |stats.problemTypeStats| =>
                   (stats.problemTypeStats[i].0, Some(stats.problemTypeStats[i].1.accuracy))),
                 Some(stats.averageResponseTime), None)
  }

  /** For the statistics the service produces, no type name earns a type
      message and the consistency message never fires: the advice is the
      accuracy band, then at most the speed message. */
  lemma ServiceStatsGiveAtMostTwoMessages(session: CalcSession, problems: seq<Problem>)
    ensures var ms := Recommendations(ObservationsOf(GetTestSessionResults(Some(session), problems).value));
      1 <= |ms| <= 2 && Inconsistent !in ms
  {
    var stats := GetTestSessionResults(Some(session), problems).value;
    var o := ObservationsOf(stats);
    TypeNamesArePlain(session.gradeLevel);
    forall i | 0 <= i < |o.typeAccuracies|
      ensures TypeMessage(o.typeAccuracies[i].0).None?
    {
      assert o.typeAccuracies[i].0 == TypeNames(session.gradeLevel)[i];
      PlainNameEarnsNoMessage(o.typeAccuracies[i].0);
    }
  }

  /** A type name with neither an `M` nor an `S` earns no type message. */
  lemma PlainNameEarnsNoMessage(name: string)
    requires 'M' !in name && 'S' !in name
    ensures TypeMessage(name).None?
  {
    Text.MissingCharacterExcludes(name, "Mult", 0);
    Text.MissingCharacterExcludes(name, "AddSub", 3);
  }

  /** None of the type names the statistics use has an `M` or an `S`. */
  lemma TypeNamesArePlain(grade: int)
    ensures forall name :: name in TypeNames(grade) ==> 'M' !in name && 'S' !in name
  {
  }
}

=== FILE: docx_parse.dfy ===
/** The offline converter that turns the picture-reading Word document into
    the question bank: it saves the document's pictures under consecutive
    names, reads the questions from the document's second table, guesses a
    true/false answer for each text-only question from a list of known
    false statements, and lays out one CSV row per question. Opening the
    document and writing files are left out: the document arrives as its
    relationships and its tables' cell texts, and a relationship records
    whether reading and saving its picture went through. */
module DocxParse {
  import opened Wrappers
  import Text
  import Seqs

  // ---------------------------------------------------------------------
  // Pictures
  // ---------------------------------------------------------------------

  type Bytes = seq<bv8>

  const JpegSignature: Bytes := [0xff, 0xd8]
  const PngSignature: Bytes := [0x89, 0x50, 0x4e, 0x47]
  const GifSignature: Bytes := [0x47, 0x49, 0x46]

  predicate HasSignature(data: Bytes, signature: Bytes)
  {
    |signature| <= |data| && data[..|signature|] == signature
  }

  /** The extension a picture is saved with, chosen from its first bytes;
      anything unrecognised is saved as a PNG. No picture carries two of the
      signatures, so the order of the tests does not matter. */
  function ImageExtension(data: Bytes): (ext: string)
    ensures ext == ".jpg" <==> HasSignature(data, JpegSignature)
    ensures ext == ".gif" <==> HasSignature(data, GifSignature)
    ensures ext == ".png" <==> !HasSignature(data, JpegSignature) && !HasSignature(data, GifSignature)
  {
    SignaturesExclude(data);
    if HasSignature(data, JpegSignature) then ".jpg"
    else if HasSignature(data, PngSignature) then ".png"
    else if HasSignature(data, GifSignature) then ".gif"
    else ".png"
  }

  /** The three signatures exclude one another. */
  lemma SignaturesExclude(data: Bytes)
    ensures !(HasSignature(data, JpegSignature) && HasSignature(data, PngSignature))
    ensures !(HasSignature(data, JpegSignature) && HasSignature(data, GifSignature))
    ensures !(HasSignature(data, PngSignature) && HasSignature(data, GifSignature))
  {
    if |data| > 0 {
      assert HasSignature(data, JpegSignature) ==> data[0] == 0xff;
      assert HasSignature(data, PngSignature) ==> data[0] == 0x89;
      assert HasSignature(data, GifSignature) ==> data[0] == 0x47;
    }
  }

  /** One relationship of the document: its target reference, the bytes of
      the part it points to, and whether reading and writing that part
      succeeded (a failure is reported and the relationship skipped). */
  datatype Relationship = Relationship(targetRef: string, blob: Bytes, saved: bool)

  predicate IsImage(rel: Relationship)
  {
    Text.Contains(rel.targetRef, "image")
  }

  predicate IsSavedImage(rel: Relationship)
  {
    IsImage(rel) && rel.saved
  }

  const ImageDir := "images/reading/"

  /** `images/reading/question{n}{ext}`. */
  function ImagePath(n: nat, ext: string): string
  {
    ImageDir + "question" + Text.NatToString(n) + ext
  }

  /** `extract_images_from_docx`: the counter moves on only after a picture
      was written, so the saved pictures are numbered 1, 2, 3, ... in
      document order with no gaps, whatever failed in between. */
  method ExtractImages(rels: seq<Relationship>) returns (files: seq<string>)
    ensures var saved := Seqs.Filter(rels, IsSavedImage);
      |files| == |saved|
      && forall k :: 0 <= k < |saved| ==> files[k] == ImagePath(k + 1, ImageExtension(saved[k].blob))
  {
    files := [];
    var counter := 1;
    for i := 0 to |rels|
      invariant counter == |files| + 1
      invariant var saved := Seqs.Filter(rels[..i], IsSavedImage);
        |files| == |saved|
        && forall k :: 0 <= k < |saved| ==> files[k] == ImagePath(k + 1, ImageExtension(saved[k].blob))
    {
      var rel := rels[i];
      assert rels[..i + 1] == rels[..i] + [rel];
      Seqs.FilterAppendOne(rels[..i], rel, IsSavedImage);
      if IsImage(rel) {
        var ext := ImageExtension(rel.blob);
        if rel.saved {
          files := files + [ImagePath(counter, ext)];
          counter := counter + 1;
        }
      }
    }
    assert rels[..|rels|] == rels;
  }

  /** Two pictures with different numbers never share a path, whatever
      their extensions: the number ends where the extension's dot begins. */
  lemma ImagePathsDiffer(n: nat, m: nat, e1: string, e2: string)
    requires n != m
    requires |e1| > 0 && e1[0] == '.' && |e2| > 0 && e2[0] == '.'
    ensures ImagePath(n, e1) != ImagePath(m, e2)
  {
    var a := Text.NatToString(n);
    var b := Text.NatToString(m);
    var prefix := ImageDir + "question";
    var pa := prefix + a + e1;
    var pb := prefix + b + e2;
    assert ImagePath(n, e1) == pa && ImagePath(m, e2) == pb;
    if |a| < |b| {
      assert pa[|prefix| + |a|] == '.' && pb[|prefix| + |a|] == b[|a|];
    } else if |b| < |a| {
      assert pb[|prefix| + |b|] == '.' && pa[|prefix| + |b|] == a[|b|];
    } else {
      Text.DigitsValueOfNatToString(n);
      Text.DigitsValueOfNatToString(m);
      assert a != b;
      assert pa[|prefix|..|prefix| + |a|] == a && pb[|prefix|..|prefix| + |b|] == b;
    }
  }

  // ---------------------------------------------------------------------
  // Questions
  // ---------------------------------------------------------------------

  /** A table row, as the texts of its cells. */
  type Row = seq<string>

  /** A question: its number, its stripped text, and whether it is about a
      picture. */
  datatype Question = Question(id: int, text: string, hasImage: bool)

  predicate HasImage(q: Question)
  {
    q.hasImage
  }

  /** Words that mark a question as being about a picture: picture, in the
      picture, from the picture, photo, scene. */
  const ImageKeywords: seq<string> := ["图", "图片", "图中", "从图", "照片", "画面"]

  /** A row is kept when it has two cells whose stripped texts are both
      non-empty. */
  predicate Keeps(row: Row)
  {
    |row| >= 2 && Text.PyStrip(row[0]) != "" && Text.PyStrip(row[1]) != ""
  }

  /** The question of data row number `i` (counted from 1 after the
      header): the first cell is the number when it is all digits, and the
      row number otherwise. */
  function RowQuestion(row: Row, i: int): (q: Option<Question>)
    ensures q.Some? <==> Keeps(row)
    ensures q.Some? ==> q.value.text == Text.PyStrip(row[1]) && q.value.text != ""
    ensures q.Some? ==> (q.value.hasImage <==> Text.ContainsAny(q.value.text, ImageKeywords))
  {
    if !Keeps(row) then None
    else
      var id := Text.PyStrip(row[0]);
      var text := Text.PyStrip(row[1]);
      Some(Question(if Text.AllDigits(id) then Text.DigitsValue(id) else i, text, Text.ContainsAny(text, ImageKeywords)))
  }

  /** A row numbered in its first cell keeps that number. */
  lemma NumberedRowKeepsItsNumber(n: nat, text: string, i: int)
    requires Text.PyStrip(text) != ""
    ensures RowQuestion([Text.NatToString(n), text], i).Some?
    ensures RowQuestion([Text.NatToString(n), text], i).value.id == n
  {
    var s := Text.NatToString(n);
    assert forall k :: 0 <= k < |s| ==> !Text.IsPyWhitespace(s[k]);
    Text.DigitsValueOfNatToString(n);
  }

  /** A row whose first cell is not a plain number takes its row number. */
  lemma UnnumberedRowTakesItsPosition(row: Row, i: int)
    requires Keeps(row) && !Text.AllDigits(Text.PyStrip(row[0]))
    ensures RowQuestion(row, i).value.id == i
  {
  }

  /** `q` is the question of one of `rows`, the first of them numbered `i`. */
  predicate ComesFrom(q: Question, rows: seq<Row>, i: int)
  {
    exists j :: 0 <= j < |rows| && RowQuestion(rows[j], i + j) == Some(q)
  }

  lemma ComesFromTail(q: Question, rows: seq<Row>, i: int)
    requires |rows| > 0 && ComesFrom(q, rows[1..], i + 1)
    ensures ComesFrom(q, rows, i)
  {
    var j :| 0 <= j < |rows[1..]| && RowQuestion(rows[1..][j], i + 1 + j) == Some(q);
    assert RowQuestion(rows[j + 1], i + (j + 1)) == Some(q);
  }

  lemma ComesFromHead(rows: seq<Row>, i: int)
    requires |rows| > 0 && RowQuestion(rows[0], i).Some?
    ensures ComesFrom(RowQuestion(rows[0], i).value, rows, i)
  {
    assert RowQuestion(rows[0], i + 0) == RowQuestion(rows[0], i);
  }

  /** The questions of the data rows, the first of them numbered `i`. */
  function RowsQuestions(rows: seq<Row>, i: int): (qs: seq<Question>)
    ensures |qs| == Seqs.Count(rows, Keeps)
    ensures forall q :: q in qs ==> ComesFrom(q, rows, i)
    decreases |rows|
  {
    if |rows| == 0 then []
    else
      var rest := RowsQuestions(rows[1..], i + 1);
      var first := RowQuestion(rows[0], i);
      assert forall q :: q in rest ==> ComesFrom(q, rows, i) by {
        forall q | q in rest
          ensures ComesFrom(q, rows, i)
        {
          ComesFromTail(q, rows, i);
        }
      }
      assert first.Some? ==> ComesFrom(first.value, rows, i) by {
        if first.Some? {
          ComesFromHead(rows, i);
        }
      }
      if first.Some? then [first.value] + rest else rest
  }

  /** `extract_questions_from_table`: the questions of the second table, its
      header row skipped; a document with fewer than two tables has none. */
  function ExtractQuestions(tables: seq<seq<Row>>): (qs: seq<Question>)
    ensures |tables| < 2 ==> qs == []
    ensures |tables| >= 2 ==> qs == RowsQuestions(if |tables[1]| == 0 then [] else tables[1][1..], 1)
  {
    if |tables| < 2 then []
    else
      var table := tables[1];
      RowsQuestions(if |table| == 0 then [] else table[1..], 1)
  }

  /** Every extracted question has text, is numbered, and is a picture
      question exactly when its text names a picture. */
  lemma ExtractedQuestionsAreWellFormed(tables: seq<seq<Row>>)
    ensures forall q :: q in ExtractQuestions(tables) ==>
      q.text != "" && (q.hasImage <==> Text.ContainsAny(q.text, ImageKeywords))
    ensures |tables| >= 2 && |tables[1]| > 0 ==> |ExtractQuestions(tables)| <= |tables[1]| - 1
  {
    if |tables| >= 2 {
      var rows := if |tables[1]| == 0 then [] else tables[1][1..];
      forall q | q in ExtractQuestions(tables)
        ensures q.text != "" && (q.hasImage <==> Text.ContainsAny(q.text, ImageKeywords))
      {
        assert ComesFrom(q, rows, 1);
        var j :| 0 <= j < |rows| && RowQuestion(rows[j], 1 + j) == Some(q);
      }
    }
  }

  // ---------------------------------------------------------------------
  // Answers for the text-only questions
  // ---------------------------------------------------------------------

  /** Statements known to be false, in the four groups the converter checks
      one after the other: the sun rising in the west, the moon giving off
      light, a flat earth, ice above zero, trains slower than cars; plant
      photosynthesis, sound in a vacuum, like magnetic poles attracting,
      current from the positive pole, light in water; penguins on the sea
      floor, whales being smallest, eight-legged insects, birds not swimming,
      liquids not freezing, gravity pointing up; a kitten swimming in a fish
      tank, hot snowflakes. */
  const FalseGroups: seq<seq<string>> := [
    ["太阳从西边升起", "月亮发光", "地球是平的", "冰在零度以上", "火车比汽车慢"],
    ["植物光合作用", "声音在真空", "磁铁同极相吸", "电流从正极", "光在水中"],
    ["海底住企鹅", "鲸鱼最小", "昆虫八条腿", "鸟类不游泳", "液体不结冰", "重力向上"],
    ["小猫在鱼缸游泳", "雪花是热的"]
  ]

  /** All the known false statements. */
  const FalseStatements: seq<string> := FalseGroups[0] + FalseGroups[1] + FalseGroups[2] + FalseGroups[3]

  /** The guessed answer to a text-only question: false when the
      lower-cased text contains a known false statement, true otherwise. */
  function JudgeStatement(text: string): (r: bool)
    ensures !r <==> Text.ContainsAny(Text.AsciiLower(text), FalseStatements)
  {
    var lower := Text.AsciiLower(text);
    ContainsAnyOfConcat(lower);
    if Text.ContainsAny(lower, FalseGroups[0]) then false
    else if Text.ContainsAny(lower, FalseGroups[1]) then false
    else if Text.ContainsAny(lower, FalseGroups[2]) then false
    else if Text.ContainsAny(lower, FalseGroups[3]) then false
    else true
  }

  lemma ContainsAnyOfConcat(s: string)
    ensures Text.ContainsAny(s, FalseStatements) <==>
      Text.ContainsAny(s, FalseGroups[0]) || Text.ContainsAny(s, FalseGroups[1])
      || Text.ContainsAny(s, FalseGroups[2]) || Text.ContainsAny(s, FalseGroups[3])
  {
    assert forall k :: k in FalseStatements <==>
      k in FalseGroups[0] || k in FalseGroups[1] || k in FalseGroups[2] || k in FalseGroups[3];
  }

  /** A string with no ASCII letters. */
  predicate NoAsciiLetters(t: string)
  {
    forall j :: 0 <= j < |t| ==> !('A' <= t[j] <= 'Z') && !('a' <= t[j] <= 'z')
  }

  /** Lower-casing cannot create or destroy an occurrence of a string that
      has no ASCII letters. */
  lemma LoweringKeepsOccurrences(s: string, t: string)
    requires NoAsciiLetters(t)
    ensures Text.Contains(Text.AsciiLower(s), t) <==> Text.Contains(s, t)
  {
    var lower := Text.AsciiLower(s);
    forall i | 0 <= i && i + |t| <= |s|
      ensures Text.OccursAt(lower, t, i) <==> Text.OccursAt(s, t, i)
    {
      if Text.OccursAt(lower, t, i) {
        forall j | 0 <= j < |t| ensures s[i + j] == t[j] {
          assert lower[i..i + |t|][j] == t[j];
        }
        assert s[i..i + |t|] == t;
      }
      if Text.OccursAt(s, t, i) {
        forall j | 0 <= j < |t| ensures lower[i + j] == t[j] {
          assert s[i..i + |t|][j] == t[j];
        }
        assert lower[i..i + |t|] == t;
      }
    }
    if Text.Contains(lower, t) {
      var i :| Text.OccursAt(lower, t, i);
      assert Text.OccursAt(s, t, i);
    }
    if Text.Contains(s, t) {
      var i :| Text.OccursAt(s, t, i);
      assert Text.OccursAt(lower, t, i);
    }
  }

  lemma FalseStatementsHaveNoLetters()
    ensures forall k :: k in FalseStatements ==> NoAsciiLetters(k)
  {
    assert forall k :: k in FalseGroups[0] ==> NoAsciiLetters(k);
    assert forall k :: k in FalseGroups[1] ==> NoAsciiLetters(k);
    assert forall k :: k in FalseGroups[2] ==> NoAsciiLetters(k);
    assert forall k :: k in FalseGroups[3] ==> NoAsciiLetters(k);
  }

  /** The known false statements are written without Latin letters, so the
      lower-casing before the test never changes a judgement. */
  lemma JudgementIgnoresCase(text: string)
    ensures JudgeStatement(text) <==> !Text.ContainsAny(text, FalseStatements)
  {
    FalseStatementsHaveNoLetters();
    forall k | k in FalseStatements
      ensures Text.Contains(Text.AsciiLower(text), k) <==> Text.Contains(text, k)
    {
      LoweringKeepsOccurrences(text, k);
    }
  }

  /** `generate_text_answers`: one answer per number of a text-only
      question. */
  function GenerateTextAnswers(qs: seq<Question>): (answers: map<int, bool>)
    ensures forall id :: id in answers <==> exists k :: 0 <= k < |qs| && !qs[k].hasImage && qs[k].id == id
    decreases |qs|
  {
    if |qs| == 0 then map[]
    else
      var init := qs[..|qs| - 1];
      var last := qs[|qs| - 1];
      var before := GenerateTextAnswers(init);
      assert forall k :: 0 <= k < |init| ==> init[k] == qs[k];
      if last.hasImage then before else before[last.id := JudgeStatement(last.text)]
  }

  /** No later text-only question has the number of question `k`. */
  predicate LastWithItsNumber(qs: seq<Question>, k: nat)
    requires k < |qs|
  {
    forall l :: k < l < |qs| && !qs[l].hasImage ==> qs[l].id != qs[k].id
  }

  /** When several text-only questions share a number, the last of them
      decides its answer. */
  lemma {:induction false} LastAnswerWins(qs: seq<Question>, k: nat)
    requires k < |qs| && !qs[k].hasImage && LastWithItsNumber(qs, k)
    ensures qs[k].id in GenerateTextAnswers(qs)
    ensures GenerateTextAnswers(qs)[qs[k].id] == JudgeStatement(qs[k].text)
    decreases |qs|
  {
    var init := qs[..|qs| - 1];
    if k < |qs| - 1 {
      assert init[k] == qs[k];
      assert LastWithItsNumber(init, k);
      LastAnswerWins(init, k);
    }
  }

  // ---------------------------------------------------------------------
  // The CSV rows
  // ---------------------------------------------------------------------

  /** One CSV row: the number, the text, the picture path and the answer. */
  datatype CsvRow = CsvRow(id: string, text: string, imagePath: string, answer: string)

  const Header := CsvRow("id", "text", "image_path", "correct_answer")

  const UserToProvide := "USER_TO_PROVIDE"

  /** The answer column: picture questions wait for the user; a text-only
      question without a generated answer counts as true. */
  function AnswerCell(q: Question, answers: map<int, bool>): (cell: string)
    ensures q.hasImage <==> cell == UserToProvide
    ensures !q.hasImage ==> (cell == "FALSE" <==> q.id in answers && !answers[q.id])
  {
    if q.hasImage then UserToProvide
    else if (if q.id in answers then answers[q.id] else true) then "TRUE"
    else "FALSE"
  }

  /** How many of the first `k` questions are picture questions. */
  function PictureRank(qs: seq<Question>, k: nat): (n: nat)
    requires k <= |qs|
    ensures n <= k
  {
    if k == 0 then 0 else PictureRank(qs, k - 1) + if qs[k - 1].hasImage then 1 else 0
  }

  /** The picture of question `k`: the picture questions take the saved
      pictures in turn, and those left over when they run out get none. */
  function ImageCell(qs: seq<Question>, files: seq<string>, k: nat): string
    requires k < |qs|
  {
    var rank := PictureRank(qs, k);
    if qs[k].hasImage && rank < |files| then files[rank] else ""
  }

  /** `create_csv_file`: the header, then one row per question; `used` is
      the number of pictures handed out, never more than there are. */
  method CreateCsvRows(qs: seq<Question>, files: seq<string>, answers: map<int, bool>)
    returns (rows: seq<CsvRow>, used: nat)
    ensures |rows| == |qs| + 1 && rows[0] == Header
    ensures forall k :: 0 <= k < |qs| ==>
      rows[k + 1] == CsvRow(Text.IntToString(qs[k].id), qs[k].text, ImageCell(qs, files, k), AnswerCell(qs[k], answers))
    ensures used <= |files|
    ensures used == if PictureRank(qs, |qs|) < |files| then PictureRank(qs, |qs|) else |files|
  {
    var paths;
    paths, used := AssignPictures(qs, files);
    rows := [Header];
    for k := 0 to |qs|
      invariant |rows| == k + 1 && rows[0] == Header
      invariant forall j :: 0 <= j < k ==>
        rows[j + 1] == CsvRow(Text.IntToString(qs[j].id), qs[j].text, paths[j], AnswerCell(qs[j], answers))
    {
      rows := rows + [CsvRow(Text.IntToString(qs[k].id), qs[k].text, paths[k], AnswerCell(qs[k], answers))];
    }
  }

  /** The `image_index` walk of `create_csv_file`: each picture question
      takes the next saved picture while any remain. */
  method AssignPictures(qs: seq<Question>, files: seq<string>) returns (paths: seq<string>, used: nat)
    ensures |paths| == |qs|
    ensures forall k :: 0 <= k < |qs| ==> paths[k] == ImageCell(qs, files, k)
    ensures used == if PictureRank(qs, |qs|) < |files| then PictureRank(qs, |qs|) else |files|
  {
    paths := [];
    used := 0;
    for k := 0 to |qs|
      invariant |paths| == k
      invariant forall j :: 0 <= j < k ==> paths[j] == ImageCell(qs, files, j)
      invariant used == if PictureRank(qs, k) < |files| then PictureRank(qs, k) else |files|
    {
      var imagePath := "";
      if qs[k].hasImage && used < |files| {
        imagePath := files[used];
        used := used + 1;
      }
      paths := paths + [imagePath];
    }
  }

  /** Counting the picture questions in one pass agrees with counting them
      in the list's prefix. */
  lemma {:induction false} PictureRankCounts(qs: seq<Question>, k: nat)
    requires k <= |qs|
    ensures PictureRank(qs, k) == Seqs.Count(qs[..k], HasImage)
  {
    if k > 0 {
      PictureRankCounts(qs, k - 1);
      assert qs[..k] == qs[..k - 1] + [qs[k - 1]];
      Seqs.CountAppend(qs[..k - 1], [qs[k - 1]], HasImage);
      assert [qs[k - 1]][1..] == [];
    }
  }

  /** Later questions have at least as many picture questions before them. */
  lemma {:induction false} PictureRankGrows(qs: seq<Question>, k: nat, l: nat)
    requires k <= l <= |qs|
    ensures PictureRank(qs, k) <= PictureRank(qs, l)
    decreases l - k
  {
    if k < l {
      PictureRankGrows(qs, k, l - 1);
    }
  }

  /** Different questions never share a picture when the pictures' paths
      are distinct. */
  lemma PicturesAreNotShared(qs: seq<Question>, files: seq<string>, k: nat, l: nat)
    requires forall a, b :: 0 <= a < b < |files| ==> files[a] != files[b]
    requires k < l < |qs|
    requires ImageCell(qs, files, k) != ""
    ensures ImageCell(qs, files, k) != ImageCell(qs, files, l)
  {
    PictureRankGrows(qs, k + 1, l);
  }

  /** With distinct numbers, each text-only question's row carries the
      judgement of its own text. */
  lemma TextAnswersReachTheirRows(qs: seq<Question>, k: nat)
    requires forall a, b :: 0 <= a < b < |qs| ==> qs[a].id != qs[b].id
    requires k < |qs| && !qs[k].hasImage
    ensures AnswerCell(qs[k], GenerateTextAnswers(qs)) == if JudgeStatement(qs[k].text) then "TRUE" else "FALSE"
  {
    LastAnswerWins(qs, k);
  }
}

=== FILE: literacy.dfy ===
/** The literacy (character recognition) test: the character groups on
    offer, one audio record per character read aloud, the 60-point verdict
    on each evaluated recording, and the aggregation of a test's records
    into its totals and per-group scores once all of them are evaluated.
    The database is two tables passed in and returned; clock readings are
    integers passed in. */
module Literacy {
  import opened Wrappers
  import opened Seqs
  import Ratio

  /** One group of the test data: its characters all carry one coefficient. */
  datatype CharacterGroup = CharacterGroup(groupId: int, coefficient: real, characters: seq<string>)

  predicate HasCharacters(g: CharacterGroup)
  {
    |g.characters| > 0
  }

  /** `get_character_groups`: the groups that have characters. */
  function GetCharacterGroups(groups: seq<CharacterGroup>): (r: seq<CharacterGroup>)
    ensures forall g :: g in r <==> g in groups && |g.characters| > 0
    ensures |r| == Count(groups, HasCharacters)
  {
    CountIsFilterLength(groups, HasCharacters);
    Filter(groups, HasCharacters)
  }

  /** The groups keep their order: with the data's groups in increasing id
      order, the kept groups are too. */
  lemma CharacterGroupsKeepOrder(groups: seq<CharacterGroup>)
    requires forall i, j :: 0 <= i < j < |groups| ==> groups[i].groupId < groups[j].groupId
    ensures var r := GetCharacterGroups(groups);
      forall i, j :: 0 <= i < j < |r| ==> r[i].groupId < r[j].groupId
  {
    FilterKeepsPairwise(groups, HasCharacters, (a: CharacterGroup, b: CharacterGroup) => a.groupId < b.groupId);
  }

  datatype TestStatus = Pending | InProgress | Completed | Failed

  /** A group's line in the aggregated scores. */
  datatype GroupScore = GroupScore(totalCharacters: nat, correctCharacters: nat, coefficient: real, score: real)

  datatype LiteracyTest = LiteracyTest(
    id: int,
    userId: int,
    startTime: int,
    endTime: Option<int>,
    status: TestStatus,
    totalCharacters: nat,
    correctCharacters: nat,
    totalScore: Option<real>,
    groupScores: seq<(int, GroupScore)>,
    evaluationStatus: string)

  /** `create_literacy_test`: the record's defaults (zero totals, no score,
      evaluation pending) with the status set to in progress. */
  function CreateLiteracyTest(id: int, userId: int, now: int): (t: LiteracyTest)
    ensures t.status == InProgress && t.evaluationStatus == "pending"
    ensures t.totalCharacters == 0 && t.correctCharacters == 0 && t.totalScore.None? && t.groupScores == []
    ensures AccuracyRate(t) == 0.0
  {
    LiteracyTest(id, userId, now, None, InProgress, 0, 0, None, [], "pending")
  }

  /** `accuracy_rate`: correct characters over all characters, in per cent. */
  function AccuracyRate(t: LiteracyTest): (r: real)
    ensures t.totalCharacters == 0 ==> r == 0.0
    ensures t.totalCharacters != 0 ==> r * t.totalCharacters as real == t.correctCharacters as real * 100.0
  {
    Ratio.CountPercent(t.correctCharacters, t.totalCharacters)
  }

  datatype AudioRecord = AudioRecord(
    id: int,
    testId: int,
    character: string,
    groupId: int,
    coefficient: real,
    isCorrect: Option<bool>,
    confidenceScore: Option<real>,
    evaluationStatus: string,
    errorMessage: Option<string>)

  /** Python truthiness of `is_correct`: `None` counts as not correct. */
  predicate IsRight(r: AudioRecord)
  {
    r.isCorrect == Some(true)
  }

  /** `score_contribution`: the coefficient for a correct record, else 0. */
  function ScoreContribution(r: AudioRecord): (c: real)
    ensures IsRight(r) ==> c == r.coefficient
    ensures !IsRight(r) ==> c == 0.0
  {
    if IsRight(r) then r.coefficient else 0.0
  }

  /** `save_audio_record`: a new record, not yet evaluated. */
  function SaveAudioRecord(records: seq<AudioRecord>, id: int, testId: int, character: string, groupId: int, coefficient: real)
    : (r: seq<AudioRecord>)
    ensures |r| == |records| + 1 && r[..|records|] == records
    ensures var a := r[|records|];
      a.id == id && a.testId == testId && a.groupId == groupId && a.coefficient == coefficient
      && !Finished(a) && a.isCorrect.None? && ScoreContribution(a) == 0.0
  {
    records + [AudioRecord(id, testId, character, groupId, coefficient, None, None, "pending", None)]
  }

  /** The part of the speech service's answer the verdict reads: no analysis
      (a missing or empty one), or an analysis with an optional total score. */
  datatype Analysis = NoAnalysis | Scored(totalScore: Option<real>)

  /** What the evaluation call produced: a result, or an exception. */
  datatype SdkOutcome =
    | Returned(success: bool, analysis: Analysis, error: Option<string>)
    | Raised(message: string)

  /** The verdict on one character: correct at 60 points or more, with a
      confidence of the score over 100; no analysis is not correct and has
      confidence 0. A missing score counts as 0. */
  function Verdict(a: Analysis): (v: (bool, real))
    ensures a.NoAnalysis? ==> v == (false, 0.0)
    ensures a.Scored? ==> (v.0 <==> a.totalScore.GetOr(0.0) >= 60.0)
    ensures a.Scored? ==> v.1 * 100.0 == a.totalScore.GetOr(0.0)
  {
    match a
    case NoAnalysis => (false, 0.0)
    case Scored(score) =>
      var s := score.GetOr(0.0);
      (s >= 60.0, if s != 0.0 then s / 100.0 else 0.0)
  }

  /** The verdict and the confidence agree: a character is judged correct
      exactly when its confidence is at least 0.6. */
  lemma VerdictAgreesWithConfidence(a: Analysis)
    ensures Verdict(a).0 <==> Verdict(a).1 >= 0.6
  {
  }

  /** A record whose evaluation has ended, well or badly. */
  predicate Finished(r: AudioRecord)
  {
    r.evaluationStatus in ["completed", "failed"]
  }

  function HasId(id: int): AudioRecord -> bool
  {
    (r: AudioRecord) => r.id == id
  }

  function OfTest(testId: int): AudioRecord -> bool
  {
    (r: AudioRecord) => r.testId == testId
  }

  function InGroup(groupId: int): AudioRecord -> bool
  {
    (r: AudioRecord) => r.groupId == groupId
  }

  function TestHasId(id: int): LiteracyTest -> bool
  {
    (t: LiteracyTest) => t.id == id
  }

  /** A group's line after counting one more of its records. */
  function Tally(g: GroupScore, r: AudioRecord): (g': GroupScore)
    ensures g'.totalCharacters == g.totalCharacters + 1
    ensures g'.correctCharacters == g.correctCharacters + (if IsRight(r) then 1 else 0)
    ensures g'.score == g.score + ScoreContribution(r) && g'.coefficient == g.coefficient
  {
    if IsRight(r) then g.(totalCharacters := g.totalCharacters + 1, correctCharacters := g.correctCharacters + 1,
                          score := g.score + r.coefficient)
    else g.(totalCharacters := g.totalCharacters + 1)
  }

  /** The position of a group id among the lines, when it has one. */
  function KeyIndex(groups: seq<(int, GroupScore)>, key: int): (r: Option<nat>)
    ensures r.Some? ==> r.value < |groups| && groups[r.value].0 == key
    ensures r.None? <==> forall i :: 0 <= i < |groups| ==> groups[i].0 != key
  {
    FirstIndex(groups, (g: (int, GroupScore)) => g.0 == key)
  }

  /** One step of the aggregation loop: a record of a group not seen yet
      opens a line (with that record's coefficient); then the record is
      counted on its group's line. */
  function AddRecord(groups: seq<(int, GroupScore)>, r: AudioRecord): seq<(int, GroupScore)>
  {
    match KeyIndex(groups, r.groupId)
    case Some(k) => groups[k := (r.groupId, Tally(groups[k].1, r))]
    case None => groups + [(r.groupId, Tally(GroupScore(0, 0, r.coefficient, 0.0), r))]
  }

  /** The per-group lines of a list of records, in the order the groups
      first appear. */
  function GroupScores(records: seq<AudioRecord>): seq<(int, GroupScore)>
    decreases |records|
  {
    if |records| == 0 then []
    else AddRecord(GroupScores(records[..|records| - 1]), records[|records| - 1])
  }

  predicate UniqueKeys(groups: seq<(int, GroupScore)>)
  {
    forall i, j :: 0 <= i < j < |groups| ==> groups[i].0 != groups[j].0
  }

  function LineTotal(g: (int, GroupScore)): int { g.1.totalCharacters }
  function LineCorrect(g: (int, GroupScore)): int { g.1.correctCharacters }
  function LineScore(g: (int, GroupScore)): real { g.1.score }

  predicate HasLine(groups: seq<(int, GroupScore)>, id: int)
  {
    exists i :: 0 <= i < |groups| && groups[i].0 == id
  }

  predicate HasRecordOf(records: seq<AudioRecord>, id: int)
  {
    exists j :: 0 <= j < |records| && records[j].groupId == id
  }

  /** A correct record of the given group. */
  function RightIn(groupId: int): AudioRecord -> bool
  {
    (r: AudioRecord) => r.groupId == groupId && IsRight(r)
  }

  /** A record's contribution to the given group's score. */
  function ContributionIn(groupId: int): AudioRecord -> real
  {
    (r: AudioRecord) => if r.groupId == groupId then ScoreContribution(r) else 0.0
  }

  /** The coefficient of the group's first record, which opens its line. */
  function FirstCoefficient(records: seq<AudioRecord>, groupId: int): Option<real>
  {
    match FirstIndex(records, InGroup(groupId))
    case Some(k) => Some(records[k].coefficient)
    case None => None
  }

  /** What the aggregation promises of the lines: one per group that has
      records and none for any other, and each line holding its group's
      number of records, number of correct records, score, and the
      coefficient of its first record. */
  ghost predicate LinesFaithful(groups: seq<(int, GroupScore)>, records: seq<AudioRecord>)
  {
    UniqueKeys(groups)
    && (forall i :: 0 <= i < |groups| ==> groups[i].1.correctCharacters <= groups[i].1.totalCharacters)
    && (forall i :: 0 <= i < |groups| ==> groups[i].1.totalCharacters == Count(records, InGroup(groups[i].0)))
    && (forall id :: HasLine(groups, id) <==> HasRecordOf(records, id))
    && LinesTallied(groups, records)
  }

  /** Each line's correct characters, score and coefficient are those of its
      group's records. */
  ghost predicate LinesTallied(groups: seq<(int, GroupScore)>, records: seq<AudioRecord>)
  {
    (forall i :: 0 <= i < |groups| ==> groups[i].1.correctCharacters == Count(records, RightIn(groups[i].0)))
    && (forall i :: 0 <= i < |groups| ==> groups[i].1.score == RealSum(records, ContributionIn(groups[i].0)))
    && (forall i :: 0 <= i < |groups| ==> FirstCoefficient(records, groups[i].0) == Some(groups[i].1.coefficient))
  }

  /** The lines add up: their characters to the number of records, their
      correct characters to the correct records, their scores to the total
      score; and each line is faithful to its group. */
  lemma {:induction false} GroupScoresAddUp(records: seq<AudioRecord>)
    ensures var gs := GroupScores(records);
      Sum(gs, LineTotal) == |records|
      && Sum(gs, LineCorrect) == Count(records, IsRight)
      && RealSum(gs, LineScore) == RealSum(records, ScoreContribution)
      && LinesFaithful(gs, records)
    decreases |records|
  {
    if |records| > 0 {
      var n := |records| - 1;
      var prefix := records[..n];
      var r := records[n];
      assert records == prefix + [r];
      GroupScoresAddUp(prefix);
      var before := GroupScores(prefix);
      var gs := GroupScores(records);
      assert gs == AddRecord(before, r);
      assert Sum(gs, LineTotal) == |records|
        && Sum(gs, LineCorrect) == Count(records, IsRight)
        && RealSum(gs, LineScore) == RealSum(records, ScoreContribution) by {
        CountAppend(prefix, [r], IsRight);
        RealSumAppend(prefix, [r], ScoreContribution);
        AddRecordSums(before, r);
      }
      AddRecordKeepsFaithful(before, prefix, r);
    }
  }

  /** One aggregation step keeps the lines faithful to the records seen. */
  lemma AddRecordKeepsFaithful(groups: seq<(int, GroupScore)>, records: seq<AudioRecord>, r: AudioRecord)
    requires LinesFaithful(groups, records)
    ensures LinesFaithful(AddRecord(groups, r), records + [r])
  {
    AddRecordKeys(groups, records, r);
    AddRecordCounts(groups, records, r);
    AddRecordTallies(groups, records, r);
  }

  /** One aggregation step adds the record to each of the line sums. */
  lemma AddRecordSums(groups: seq<(int, GroupScore)>, r: AudioRecord)
    ensures var gs := AddRecord(groups, r);
      Sum(gs, LineTotal) == Sum(groups, LineTotal) + 1
      && Sum(gs, LineCorrect) == Sum(groups, LineCorrect) + (if IsRight(r) then 1 else 0)
      && RealSum(gs, LineScore) == RealSum(groups, LineScore) + ScoreContribution(r)
  {
    match KeyIndex(groups, r.groupId)
    case Some(k) =>
      var line := (r.groupId, Tally(groups[k].1, r));
      SumUpdate(groups, k, line, LineTotal);
      SumUpdate(groups, k, line, LineCorrect);
      RealSumUpdate(groups, k, line, LineScore);
    case None =>
      var line := (r.groupId, Tally(GroupScore(0, 0, r.coefficient, 0.0), r));
      SumAppend(groups, [line], LineTotal);
      SumAppend(groups, [line], LineCorrect);
      RealSumAppend(groups, [line], LineScore);
  }

  /** One aggregation step keeps one line per group, exactly for the groups
      that have records. */
  lemma AddRecordKeys(groups: seq<(int, GroupScore)>, records: seq<AudioRecord>, r: AudioRecord)
    requires UniqueKeys(groups) && forall id :: HasLine(groups, id) <==> HasRecordOf(records, id)
    ensures var gs := AddRecord(groups, r);
      UniqueKeys(gs) && forall id :: HasLine(gs, id) <==> HasRecordOf(records + [r], id)
  {
    var all := records + [r];
    var gs := AddRecord(groups, r);
    forall id
      ensures HasRecordOf(all, id) <==> HasRecordOf(records, id) || r.groupId == id
    {
      if HasRecordOf(records, id) {
        var j :| 0 <= j < |records| && records[j].groupId == id;
        assert all[j].groupId == id;
      }
      if r.groupId == id {
        assert all[|records|].groupId == id;
      }
      if HasRecordOf(all, id) {
        var j :| 0 <= j < |all| && all[j].groupId == id;
        if j < |records| {
          assert records[j].groupId == id;
        }
      }
    }
    forall id
      ensures HasLine(gs, id) <==> HasLine(groups, id) || r.groupId == id
    {
      match KeyIndex(groups, r.groupId)
      case Some(k) =>
        if HasLine(groups, id) {
          var i :| 0 <= i < |groups| && groups[i].0 == id;
          assert gs[i].0 == id;
        }
        if HasLine(gs, id) {
          var i :| 0 <= i < |gs| && gs[i].0 == id;
          assert groups[i].0 == id;
        }
      case None =>
        if HasLine(groups, id) {
          var i :| 0 <= i < |groups| && groups[i].0 == id;
          assert gs[i].0 == id;
        }
        if r.groupId == id {
          assert gs[|groups|].0 == id;
        }
        if HasLine(gs, id) {
          var i :| 0 <= i < |gs| && gs[i].0 == id;
          if i < |groups| {
            assert groups[i].0 == id;
          }
        }
    }
  }

  /** One aggregation step counts the record on its own line only. */
  lemma AddRecordCounts(groups: seq<(int, GroupScore)>, records: seq<AudioRecord>, r: AudioRecord)
    requires UniqueKeys(groups) && forall id :: HasLine(groups, id) <==> HasRecordOf(records, id)
    requires forall i :: 0 <= i < |groups| ==> groups[i].1.correctCharacters <= groups[i].1.totalCharacters
    requires forall i :: 0 <= i < |groups| ==> groups[i].1.totalCharacters == Count(records, InGroup(groups[i].0))
    ensures var gs := AddRecord(groups, r);
      (forall i :: 0 <= i < |gs| ==> gs[i].1.correctCharacters <= gs[i].1.totalCharacters)
      && forall i :: 0 <= i < |gs| ==> gs[i].1.totalCharacters == Count(records + [r], InGroup(gs[i].0))
  {
    var all := records + [r];
    var gs := AddRecord(groups, r);
    forall i | 0 <= i < |gs|
      ensures gs[i].1.correctCharacters <= gs[i].1.totalCharacters
      ensures gs[i].1.totalCharacters == Count(all, InGroup(gs[i].0))
    {
      CountAppend(records, [r], InGroup(gs[i].0));
      if i == |groups| {
        assert !HasLine(groups, r.groupId);
        assert Count(records, InGroup(r.groupId)) == 0;
      }
    }
  }

  /** One aggregation step counts the record's correctness, score and
      coefficient on its own line only. */
  lemma AddRecordTallies(groups: seq<(int, GroupScore)>, records: seq<AudioRecord>, r: AudioRecord)
    requires UniqueKeys(groups) && forall id :: HasLine(groups, id) <==> HasRecordOf(records, id)
    requires LinesTallied(groups, records)
    ensures LinesTallied(AddRecord(groups, r), records + [r])
  {
    var gs := AddRecord(groups, r);
    forall i | 0 <= i < |gs|
      ensures gs[i].1.correctCharacters == Count(records + [r], RightIn(gs[i].0))
      ensures gs[i].1.score == RealSum(records + [r], ContributionIn(gs[i].0))
      ensures FirstCoefficient(records + [r], gs[i].0) == Some(gs[i].1.coefficient)
    {
      var id := gs[i].0;
      if i < |groups| {
        assert groups[i].0 == id;
        assert HasLine(groups, id);
        assert gs[i].1 == if r.groupId == id then Tally(groups[i].1, r) else groups[i].1;
        LineAfter(records, r, id, groups[i].1, gs[i].1);
      } else {
        assert KeyIndex(groups, r.groupId).None? && id == r.groupId;
        assert !HasLine(groups, id);
        NewLineAfter(records, r);
      }
    }
  }

  /** A line already open keeps its coefficient and counts the new record
      when it is of its group. */
  lemma LineAfter(records: seq<AudioRecord>, r: AudioRecord, id: int, g: GroupScore, g': GroupScore)
    requires g' == if r.groupId == id then Tally(g, r) else g
    requires g.correctCharacters == Count(records, RightIn(id))
    requires g.score == RealSum(records, ContributionIn(id))
    requires FirstCoefficient(records, id) == Some(g.coefficient)
    ensures g'.correctCharacters == Count(records + [r], RightIn(id))
    ensures g'.score == RealSum(records + [r], ContributionIn(id))
    ensures FirstCoefficient(records + [r], id) == Some(g'.coefficient)
  {
    assert [r][1..] == [];
    CountAppend(records, [r], RightIn(id));
    RealSumAppend(records, [r], ContributionIn(id));
    FirstIndexAppendOne(records, r, InGroup(id));
    var k := FirstIndex(records, InGroup(id)).value;
    assert (records + [r])[k] == records[k];
  }

  /** The line a group's first record opens holds that record alone. */
  lemma NewLineAfter(records: seq<AudioRecord>, r: AudioRecord)
    requires !HasRecordOf(records, r.groupId)
    ensures var g := Tally(GroupScore(0, 0, r.coefficient, 0.0), r);
      g.correctCharacters == Count(records + [r], RightIn(r.groupId))
      && g.score == RealSum(records + [r], ContributionIn(r.groupId))
      && FirstCoefficient(records + [r], r.groupId) == Some(g.coefficient)
  {
    var id := r.groupId;
    assert [r][1..] == [];
    assert forall j :: 0 <= j < |records| ==> records[j].groupId != id;
    CountAppend(records, [r], RightIn(id));
    RealSumAppend(records, [r], ContributionIn(id));
    RealSumOfZeros(records, ContributionIn(id));
    FirstIndexAppendOne(records, r, InGroup(id));
    assert (records + [r])[|records|] == r;
  }

  /** `update_test_completion_status` on one test and its records: nothing
      changes while some record is still being evaluated, or when there are
      none; otherwise the totals, the score, the group lines and the
      completion are written. */
  function Aggregate(t: LiteracyTest, mine: seq<AudioRecord>, now: int): (t': LiteracyTest)
    ensures |mine| == 0 || (exists i :: 0 <= i < |mine| && !Finished(mine[i])) ==> t' == t
    ensures |mine| > 0 && (forall i :: 0 <= i < |mine| ==> Finished(mine[i])) ==>
      t'.totalCharacters == |mine| && t'.correctCharacters == Count(mine, IsRight)
      && t'.totalScore == Some(RealSum(mine, ScoreContribution))
      && t'.status == Completed && t'.endTime == Some(now) && t'.evaluationStatus == "completed"
      && Sum(t'.groupScores, LineTotal) == |mine| && LinesFaithful(t'.groupScores, mine)
      && t'.id == t.id && t'.userId == t.userId && t'.startTime == t.startTime
  {
    if |mine| == 0 || exists i :: 0 <= i < |mine| && !Finished(mine[i]) then t
    else
      GroupScoresAddUp(mine);
      t.(totalCharacters := |mine|, correctCharacters := Count(mine, IsRight),
         totalScore := Some(RealSum(mine, ScoreContribution)), groupScores := GroupScores(mine),
         status := Completed, endTime := Some(now), evaluationStatus := "completed")
  }

  /** After aggregation the accuracy rate lies in [0, 100] and is 100
      exactly when every record was read correctly. */
  lemma AggregatedAccuracy(t: LiteracyTest, mine: seq<AudioRecord>, now: int)
    requires |mine| > 0 && forall i :: 0 <= i < |mine| ==> Finished(mine[i])
    ensures var r := AccuracyRate(Aggregate(t, mine, now));
      0.0 <= r <= 100.0 && (r == 100.0 <==> forall i :: 0 <= i < |mine| ==> IsRight(mine[i]))
  {
    var t' := Aggregate(t, mine, now);
    Ratio.PercentBounds(t'.correctCharacters as real, t'.totalCharacters as real);
  }

  /** Runs the aggregation for the test with id `testId`, if it exists. */
  function UpdateTestCompletionStatus(tests: seq<LiteracyTest>, records: seq<AudioRecord>, testId: int, now: int)
    : (r: seq<LiteracyTest>)
    ensures |r| == |tests|
    ensures forall i :: 0 <= i < |tests| && tests[i].id != testId ==> r[i] == tests[i]
    ensures (forall i :: 0 <= i < |tests| ==> tests[i].id != testId) ==> r == tests
    ensures FirstIndex(tests, TestHasId(testId)).Some? ==>
      var j := FirstIndex(tests, TestHasId(testId)).value;
      r[j] == Aggregate(tests[j], Filter(records, OfTest(testId)), now)
      && forall i :: 0 <= i < |tests| && i != j ==> r[i] == tests[i]
  {
    match FirstIndex(tests, TestHasId(testId))
    case None => tests
    case Some(j) => tests[j := Aggregate(tests[j], Filter(records, OfTest(testId)), now)]
  }

  /** `evaluate_literacy_audio`: an unknown record changes nothing. An
      exception marks the record failed with its message and stops. A
      result marks it completed when successful (with the verdict on the
      analysis) and failed otherwise (not correct, confidence 0, the
      service's error or a default message); then the record's test is
      aggregated. */
  function EvaluateLiteracyAudio(tests: seq<LiteracyTest>, records: seq<AudioRecord>, id: int,
                                 outcome: SdkOutcome, now: int): (r: (seq<LiteracyTest>, seq<AudioRecord>))
    ensures |r.1| == |records| && |r.0| == |tests|
    ensures FirstIndex(records, HasId(id)).None? ==> r == (tests, records)
    ensures FirstIndex(records, HasId(id)).Some? ==>
      var k := FirstIndex(records, HasId(id)).value;
      var a := r.1[k];
      (forall i :: 0 <= i < |records| && i != k ==> r.1[i] == records[i])
      && a.id == id && a.testId == records[k].testId && a.groupId == records[k].groupId
      && Finished(a)
      && (a.evaluationStatus == "completed" <==> outcome.Returned? && outcome.success)
      && (outcome.Raised? ==> r.0 == tests && a.errorMessage == Some(outcome.message)
                              && a.isCorrect == records[k].isCorrect)
      && a.character == records[k].character && a.coefficient == records[k].coefficient
      && (outcome.Returned? ==> r.0 == UpdateTestCompletionStatus(tests, r.1, records[k].testId, now))
      && (outcome.Returned? && !outcome.success ==>
            a.isCorrect == Some(false) && a.confidenceScore == Some(0.0)
            && a.errorMessage == Some(outcome.error.GetOr("评测服务异常")))
      && (outcome.Returned? && outcome.success ==>
            a.isCorrect == Some(Verdict(outcome.analysis).0) && a.confidenceScore == Some(Verdict(outcome.analysis).1)
            && a.errorMessage == records[k].errorMessage)
  {
    match FirstIndex(records, HasId(id))
    case None => (tests, records)
    case Some(k) =>
      var rec := records[k];
      match outcome
      case Raised(message) =>
        (tests, records[k := rec.(evaluationStatus := "failed", errorMessage := Some(message))])
      case Returned(success, analysis, error) =>
        var verdict := if success then Verdict(analysis) else (false, 0.0);
        var rec' := rec.(isCorrect := Some(verdict.0), confidenceScore := Some(verdict.1),
                         evaluationStatus := if success then "completed" else "failed",
                         errorMessage := if success then rec.errorMessage else Some(error.GetOr("评测服务异常")));
        var records' := records[k := rec'];
        (UpdateTestCompletionStatus(tests, records', rec.testId, now), records')
  }

  /** Evaluating the last unfinished record of an existing test completes
      the test: its totals are then those of all its records. */
  lemma LastEvaluationCompletesTest(tests: seq<LiteracyTest>, records: seq<AudioRecord>, id: int,
                                    outcome: SdkOutcome, now: int)
    requires outcome.Returned?
    requires FirstIndex(records, HasId(id)).Some?
    requires var k := FirstIndex(records, HasId(id)).value;
      FirstIndex(tests, TestHasId(records[k].testId)).Some?
      && forall i :: 0 <= i < |records| && i != k && records[i].testId == records[k].testId ==> Finished(records[i])
    ensures var k := FirstIndex(records, HasId(id)).value;
      var j := FirstIndex(tests, TestHasId(records[k].testId)).value;
      var r := EvaluateLiteracyAudio(tests, records, id, outcome, now);
      var mine := Filter(r.1, OfTest(records[k].testId));
      r.0[j].status == Completed && r.0[j].totalCharacters == |mine| && r.0[j].correctCharacters == Count(mine, IsRight)
  {
    var k := FirstIndex(records, HasId(id)).value;
    var testId := records[k].testId;
    var r := EvaluateLiteracyAudio(tests, records, id, outcome, now);
    var mine := Filter(r.1, OfTest(testId));
    assert r.1[k] in mine;
    forall x | x in mine
      ensures Finished(x)
    {
      var i :| 0 <= i < |r.1| && r.1[i] == x;
    }
  }

  /** `evaluate_literacy_audio` as written builds the speech client from
      three keyword arguments its constructor does not take (it takes one
      configuration), and would then call `evaluate_audio_file` with
      keywords it does not take either. So every evaluation raises, and
      the exception handler marks the record failed with the message. */
  function EvaluateLiteracyAudioAsWritten(tests: seq<LiteracyTest>, records: seq<AudioRecord>, id: int,
                                          message: string, now: int): (r: (seq<LiteracyTest>, seq<AudioRecord>))
    ensures r.0 == tests && |r.1| == |records|
    ensures forall i :: 0 <= i < |records| && r.1[i].evaluationStatus == "completed" ==>
      records[i].evaluationStatus == "completed"
    ensures FirstIndex(records, HasId(id)).Some? ==>
      var k := FirstIndex(records, HasId(id)).value;
      r.1[k].evaluationStatus == "failed" && r.1[k].errorMessage == Some(message)
  {
    EvaluateLiteracyAudio(tests, records, id, Raised(message), now)
  }

  /** A single pending recording that the service scores 80: the intended
      evaluation completes its test with one correct character, while the
      code as written leaves the test in progress. */
  lemma AsWrittenNeverCompletes()
    ensures var tests := [CreateLiteracyTest(1, 7, 0)];
      var records := SaveAudioRecord([], 3, 1, "人", 1, 1.5);
      var fixed := EvaluateLiteracyAudio(tests, records, 3, Returned(true, Scored(Some(80.0)), None), 10);
      var asWritten := EvaluateLiteracyAudioAsWritten(tests, records, 3, "unexpected keyword argument", 10);
      fixed.0[0].status == Completed && fixed.0[0].correctCharacters == 1
      && asWritten.0[0].status == InProgress
  {
    var tests := [CreateLiteracyTest(1, 7, 0)];
    var records := SaveAudioRecord([], 3, 1, "人", 1, 1.5);
    var outcome := Returned(true, Scored(Some(80.0)), None);
    LastEvaluationCompletesTest(tests, records, 3, outcome, 10);
    var fixed := EvaluateLiteracyAudio(tests, records, 3, outcome, 10);
    var mine := Filter(fixed.1, OfTest(1));
    assert fixed.1[0] in mine;
    assert |mine| == 1;
    assert IsRight(fixed.1[0]);
    assert mine == [fixed.1[0]];
  }
}

=== FILE: number_format.dfy ===
/** Rendering of calculation answers for display: mixed numbers written
    `2又3/4`, fractions `3/4` and repeating decimals whose repeating digits
    carry a combining overline (U+0304) become small HTML fragments; the
    module also classifies answers and compares a typed answer with the
    expected one. */
module NumberFormat {
  import opened Wrappers
  import Text

  /** An answer as the page holds it: a string, or a number (integers here). */
  datatype Answer = Str(s: string) | Num(n: int)

  const Overline: char := '̄'
  const MixedMark: char := '又'

  /** `String(answer)`. */
  function AsString(a: Answer): string
  {
    match a
    case Str(s) => s
    case Num(n) => Text.IntToString(n)
  }

  /** `s.includes(c)` for one character. */
  predicate Has(s: string, c: char)
  {
    c in s
  }

  /** The fraction markup around a numerator and a denominator. */
  function FractionHtml(cls: string, numerator: string, denominator: string): string
  {
    "<span class=\"" + cls + "\"><sup>" + numerator + "</sup>/<sub>" + denominator + "</sub></span>"
  }

  /** `formatFraction`: a string with a slash becomes the fraction markup of
      the text before the first slash over the text between the first and
      the second; any other string is returned unchanged. */
  function FormatFraction(s: string): (r: string)
    ensures !Has(s, '/') ==> r == s
    ensures Has(s, '/') ==>
      var parts := Text.Split(s, '/');
      |parts| >= 2 && r == FractionHtml("fraction", parts[0], parts[1])
  {
    if Has(s, '/') then
      var parts := Text.Split(s, '/');
      SplitCountsSeparators(s, '/');
      FractionHtml("fraction", parts[0], parts[1])
    else s
  }

  /** Splitting a string that holds the separator gives at least two parts. */
  lemma {:induction false} SplitCountsSeparators(s: string, sep: char)
    requires sep in s
    ensures |Text.Split(s, sep)| >= 2
    decreases |s|
  {
    if s[0] != sep {
      assert sep in s[1..];
      SplitCountsSeparators(s[1..], sep);
    }
  }

  /** A numerator and a denominator written with a slash between them are
      displayed as that numerator over that denominator. */
  lemma FractionRendersItsParts(numerator: string, denominator: string)
    requires '/' !in numerator && '/' !in denominator
    ensures FormatFraction(numerator + "/" + denominator) == FractionHtml("fraction", numerator, denominator)
  {
    Text.SplitAfterPrefix(numerator, denominator, '/');
    Text.SplitWithoutSeparator(denominator, '/');
    assert '/' in numerator + "/" + denominator by {
      assert (numerator + "/" + denominator)[|numerator|] == '/';
    }
  }

  /** `formatMixedNumber`: exactly one `又` with a fraction after it gives the
      trimmed whole part followed by the fraction markup; anything else is
      returned unchanged. */
  function FormatMixedNumber(s: string): (r: string)
    ensures |Text.Split(s, MixedMark)| != 2 ==> r == s
    ensures var parts := Text.Split(s, MixedMark);
      |parts| == 2 && !Has(Text.JsTrim(parts[1]), '/') ==> r == s
    ensures var parts := Text.Split(s, MixedMark);
      |parts| == 2 && Has(Text.JsTrim(parts[1]), '/') ==>
        var f := Text.Split(Text.JsTrim(parts[1]), '/');
        |f| >= 2 && r == Text.JsTrim(parts[0]) + FractionHtml("mixed-number", f[0], f[1])
  {
    var parts := Text.Split(s, MixedMark);
    if |parts| != 2 then s
    else
      var whole := Text.JsTrim(parts[0]);
      var fraction := Text.JsTrim(parts[1]);
      if Has(fraction, '/') then
        SplitCountsSeparators(fraction, '/');
        var f := Text.Split(fraction, '/');
        whole + FractionHtml("mixed-number", f[0], f[1])
      else s
  }

  predicate NoSpace(s: string)
  {
    forall i :: 0 <= i < |s| ==> !Text.IsJsWhitespace(s[i])
  }

  /** A mixed number written `whole又numerator/denominator`, as the grade-5
      generator writes them, is displayed as the whole part followed by the
      numerator over the denominator. */
  lemma MixedNumberRendersItsParts(whole: string, numerator: string, denominator: string)
    requires MixedMark !in whole && MixedMark !in numerator && MixedMark !in denominator
    requires '/' !in numerator && '/' !in denominator
    requires NoSpace(whole) && NoSpace(numerator) && NoSpace(denominator)
    ensures FormatMixedNumber(whole + [MixedMark] + (numerator + "/" + denominator))
         == whole + FractionHtml("mixed-number", numerator, denominator)
  {
    var fraction := numerator + "/" + denominator;
    FractionKeepsMarkAndSpace(numerator, denominator);
    Text.SplitAfterPrefix(whole, fraction, MixedMark);
    Text.SplitWithoutSeparator(fraction, MixedMark);
    var parts := Text.Split(whole + [MixedMark] + fraction, MixedMark);
    assert parts == [whole, fraction];
    assert Text.JsTrim(parts[0]) == whole;
    assert Text.JsTrim(parts[1]) == fraction;
    FractionSplits(numerator, denominator);
  }

  /** The fraction text adds only a slash to its two parts. */
  lemma FractionKeepsMarkAndSpace(numerator: string, denominator: string)
    requires MixedMark !in numerator && MixedMark !in denominator
    requires NoSpace(numerator) && NoSpace(denominator)
    ensures MixedMark !in numerator + "/" + denominator
    ensures NoSpace(numerator + "/" + denominator)
  {
    var fraction := numerator + "/" + denominator;
    forall i | 0 <= i < |fraction|
      ensures fraction[i] != MixedMark && !Text.IsJsWhitespace(fraction[i])
    {
      if i < |numerator| { assert fraction[i] == numerator[i]; }
      else if i > |numerator| { assert fraction[i] == denominator[i - |numerator| - 1]; }
      else { assert fraction[i] == '/'; }
    }
  }

  lemma FractionSplits(numerator: string, denominator: string)
    requires '/' !in numerator && '/' !in denominator
    ensures var f := numerator + "/" + denominator;
      Has(f, '/') && Text.Split(f, '/') == [numerator, denominator]
  {
    var f := numerator + "/" + denominator;
    assert f[|numerator|] == '/';
    Text.SplitAfterPrefix(numerator, denominator, '/');
    Text.SplitWithoutSeparator(denominator, '/');
  }

  /** A digit immediately followed by the overline. */
  predicate OverlinedAt(s: string, i: int)
  {
    0 <= i && i + 1 < |s| && Text.IsDigit(s[i]) && s[i + 1] == Overline
  }

  ghost predicate NoOverlinedDigit(s: string)
  {
    forall i :: !OverlinedAt(s, i)
  }

  function RepeatingHtml(d: char): string
  {
    "<span class=\"repeating\">" + [d] + "</span>"
  }

  /** `formatRepeatingDecimal`: every overlined digit, scanning left to
      right, is replaced by the digit in the repeating markup. */
  function FormatRepeatingDecimal(s: string): (r: string)
    ensures |s| > 0 && !OverlinedAt(s, 0) ==> |r| > 0 && r[0] == s[0]
    ensures OverlinedAt(s, 0) ==> |r| > 0 && r[0] == '<'
    ensures |s| == 0 ==> r == []
    decreases |s|
  {
    if |s| == 0 then []
    else if OverlinedAt(s, 0) then RepeatingHtml(s[0]) + FormatRepeatingDecimal(s[2..])
    else [s[0]] + FormatRepeatingDecimal(s[1..])
  }

  /** A string with no overlined digit is returned as it is. */
  lemma {:induction false} RepeatingLeavesPlainStrings(s: string)
    requires NoOverlinedDigit(s)
    ensures FormatRepeatingDecimal(s) == s
    decreases |s|
  {
    if |s| > 0 {
      assert !OverlinedAt(s, 0);
      forall i ensures !OverlinedAt(s[1..], i) {
        assert !OverlinedAt(s, i + 1);
      }
      RepeatingLeavesPlainStrings(s[1..]);
    }
  }

  /** No overlined digit survives the rendering, so rendering twice is
      rendering once. */
  lemma {:induction false} RepeatingLeavesNoOverlinedDigit(s: string)
    ensures NoOverlinedDigit(FormatRepeatingDecimal(s))
    decreases |s|
  {
    if |s| > 0 {
      var r := FormatRepeatingDecimal(s);
      if OverlinedAt(s, 0) {
        var h := RepeatingHtml(s[0]);
        var rest := FormatRepeatingDecimal(s[2..]);
        RepeatingLeavesNoOverlinedDigit(s[2..]);
        assert r == h + rest;
        forall i ensures !OverlinedAt(r, i) {
          if 0 <= i < |h| - 1 {
            assert r[i] == h[i] && r[i + 1] == h[i + 1];
          } else if i == |h| - 1 {
            assert r[i] == '>';
          } else if i >= |h| {
            assert !OverlinedAt(rest, i - |h|);
          }
        }
      } else {
        var rest := FormatRepeatingDecimal(s[1..]);
        RepeatingLeavesNoOverlinedDigit(s[1..]);
        assert r == [s[0]] + rest;
        forall i ensures !OverlinedAt(r, i) {
          if i == 0 && |rest| > 0 {
            if |s| > 1 && OverlinedAt(s[1..], 0) {
              assert rest[0] == '<';
            } else if |s| > 1 {
              assert rest[0] == s[1];
            }
          } else if i >= 1 {
            assert !OverlinedAt(rest, i - 1);
          }
        }
      }
    }
  }

  lemma RepeatingIsIdempotent(s: string)
    ensures FormatRepeatingDecimal(FormatRepeatingDecimal(s)) == FormatRepeatingDecimal(s)
  {
    RepeatingLeavesNoOverlinedDigit(s);
    RepeatingLeavesPlainStrings(FormatRepeatingDecimal(s));
  }

  /** `formatAnswer`: a string is dispatched on its first matching mark, in
      the order `又`, overline, slash, and returned as it is when it has
      none; a number is rendered as its decimal string. */
  function FormatAnswer(a: Answer): (r: string)
    ensures a.Num? ==> r == Text.IntToString(a.n)
    ensures a.Str? && Has(a.s, MixedMark) ==> r == FormatMixedNumber(a.s)
    ensures a.Str? && !Has(a.s, MixedMark) && Has(a.s, Overline) ==> r == FormatRepeatingDecimal(a.s)
    ensures a.Str? && !Has(a.s, MixedMark) && !Has(a.s, Overline) && Has(a.s, '/') ==> r == FormatFraction(a.s)
    ensures a.Str? && !Has(a.s, MixedMark) && !Has(a.s, Overline) && !Has(a.s, '/') ==> r == a.s
  {
    match a
    case Num(n) => Text.IntToString(n)
    case Str(s) =>
      if Has(s, MixedMark) then FormatMixedNumber(s)
      else if Has(s, Overline) then FormatRepeatingDecimal(s)
      else if Has(s, '/') && !Has(s, MixedMark) then FormatFraction(s)
      else s
  }

  /** A string with none of the three marks is displayed as it is, by every
      one of the formatters. */
  lemma PlainAnswersAreUnchanged(s: string)
    requires !Has(s, MixedMark) && !Has(s, Overline) && !Has(s, '/')
    ensures FormatAnswer(Str(s)) == s && FormatFraction(s) == s
    ensures FormatMixedNumber(s) == s && FormatRepeatingDecimal(s) == s
  {
    Text.SplitWithoutSeparator(s, MixedMark);
    forall i ensures !OverlinedAt(s, i) {
      if 0 <= i && i + 1 < |s| {
        assert s[i + 1] in s;
      }
    }
    RepeatingLeavesPlainStrings(s);
  }

  /** `isFraction`: a string with a slash or a `又`. */
  function IsFraction(a: Answer): (b: bool)
    ensures b <==> a.Str? && (Has(a.s, '/') || Has(a.s, MixedMark))
  {
    a.Str? && (Has(a.s, '/') || Has(a.s, MixedMark))
  }

  /** `isRepeatingDecimal`: a string with an overline. */
  function IsRepeatingDecimal(a: Answer): (b: bool)
    ensures b <==> a.Str? && Has(a.s, Overline)
  {
    a.Str? && Has(a.s, Overline)
  }

  /** Every answer `formatAnswer` sends to a fraction formatter is one
      `isFraction` accepts, and every one it sends to the repeating-decimal
      formatter is one `isRepeatingDecimal` accepts. */
  lemma ClassifiersMatchDispatch(a: Answer)
    ensures a.Str? && (Has(a.s, MixedMark) || (!Has(a.s, Overline) && Has(a.s, '/'))) ==> IsFraction(a)
    ensures a.Str? && !Has(a.s, MixedMark) && Has(a.s, Overline) ==> IsRepeatingDecimal(a)
    ensures !IsFraction(a) && !IsRepeatingDecimal(a) ==> FormatAnswer(a) == AsString(a)
  {
  }

  /** `compareAnswers`: two numbers are equal within 0.001; otherwise the
      trimmed strings are compared, and when they differ both are read as
      numbers (`parse`, standing for `parseFloat`, gives `None` for NaN)
      and compared within 0.001. */
  function CompareAnswers(user: Answer, correct: Answer, parse: string -> Option<real>): (b: bool)
    ensures user.Num? && correct.Num? ==> (b <==> user.n == correct.n)
    ensures !(user.Num? && correct.Num?) && Text.JsTrim(AsString(user)) == Text.JsTrim(AsString(correct)) ==> b
  {
    if user.Num? && correct.Num? then
      // Integers within 0.001 of each other are equal.
      user.n == correct.n
    else
      SameText(Text.JsTrim(AsString(user)), Text.JsTrim(AsString(correct)), parse)
  }

  /** Two trimmed answer texts agree when they are equal or both read as
      numbers within 0.001 of each other. */
  function SameText(u: string, c: string, parse: string -> Option<real>): (b: bool)
    ensures u == c ==> b
    ensures parse(u).None? && u != c ==> !b
  {
    if u == c then true
    else
      match (parse(u), parse(c))
      case (Some(x), Some(y)) => -0.001 < x - y < 0.001
      case _ => false
  }

  lemma SameTextIsSymmetric(u: string, c: string, parse: string -> Option<real>)
    ensures SameText(u, c, parse) == SameText(c, u, parse)
  {
  }

  /** Comparing is reflexive and symmetric. */
  lemma CompareAnswersIsSymmetric(x: Answer, y: Answer, parse: string -> Option<real>)
    ensures CompareAnswers(x, x, parse)
    ensures CompareAnswers(x, y, parse) == CompareAnswers(y, x, parse)
  {
    if !(x.Num? && y.Num?) {
      SameTextIsSymmetric(Text.JsTrim(AsString(x)), Text.JsTrim(AsString(y)), parse);
    }
  }
}

=== FILE: oral_service.dfy ===
/** The oral reading fluency test: the character chart read aloud row by
    row, the submission of the two rounds, the evaluation of each recorded
    row by the speech service, the batch evaluation of a test's pending
    recordings, and the result summary. Tables are sequences of records;
    what the speech service answers for a recording is a parameter. */
module OralReading {
  import opened Wrappers
  import opened Seqs
  import opened Xml
  import Text
  import SpeechSdk
  import Analysis

  /** The chart: 18 rows of 10 characters separated by single spaces. */
  const CharacterRows: seq<string> := [
    "的 一 了 我 是 不 在 上 来 有",
    "着 他 地 子 人 们 到 个 小 这",
    "里 大 天 就 说 那 去 看 下 得",
    "时 么 你 也 过 出 起 好 要 把",
    "它 儿 头 只 多 可 中 和 家 会",
    "还 又 没 花 水 长 道 面 样 见",
    "很 走 老 开 树 生 边 想 为 能",
    "声 后 然 从 自 妈 山 回 什 用",
    "成 发 叫 前 以 手 对 点 身 候",
    "飞 白 两 方 心 动 太 听 风 三",
    "十 吃 眼 几 亲 色 雨 光 学 月",
    "高 些 进 孩 住 气 给 她 知 向",
    "船 如 种 国 呢 事 红 快 外 无",
    "再 明 西 同 日 海 真 于 己 门",
    "亮 怎 草 跑 行 最 阳 问 正 啊",
    "常 马 牛 当 笑 打 放 别 经 河",
    "做 鸟 星 东 石 物 空 才 之 吧",
    "火 许 每 间 力 已 二 四 美 次"
  ]

  /** Characters per row, the cap on a row's correct-character estimate. */
  const MaxCharsInRow := 10

  lemma ChartShape()
    ensures |CharacterRows| == 18
    ensures forall r :: r in CharacterRows ==> |r| == 19
  {
  }

  datatype TestStatus = Pending | Completed

  datatype OralTest = OralTest(
    id: int,
    userId: int,
    status: TestStatus,
    endTime: Option<int>,
    round1Duration: int,
    round1CharacterCount: int,
    round1Completed: bool,
    round2Duration: int,
    round2CharacterCount: int,
    round2Completed: bool,
    averageScore: Option<real>,
    totalAudioFiles: int,
    evaluationStatus: string)

  datatype AudioRecord = AudioRecord(
    id: int,
    testId: int,
    roundNumber: int,
    rowIndex: int,
    fileExists: bool,
    evaluationStatus: string,
    totalScore: Option<real>,
    phoneScore: Option<real>,
    toneScore: Option<real>,
    fluencyScore: Option<real>,
    integrityScore: Option<real>,
    correctCharacterCount: Option<int>)

  /** What the client submits for one round; absent keys read as 0. */
  datatype RoundData = RoundData(duration: Option<int>, characterCount: Option<int>)

  /** `process_reading_submission`: both rounds are recorded and completed
      at `now`, the average is set only when both counts are non-zero, and
      the recordings already uploaded for the test are counted. */
  function ProcessReadingSubmission(testId: int, test: Option<OralTest>, round1: RoundData, round2: RoundData,
                                    records: seq<AudioRecord>, now: int): (r: Result<OralTest, string>)
    requires test.Some? ==> test.value.id == testId
    ensures r.Success? <==> test.Some?
    ensures test.None? ==> r.error == Text.MissingRow("测试不存在", testId)
    ensures r.Success? ==>
      var t := r.value;
      t.status == Completed && t.endTime == Some(now) && t.round1Completed && t.round2Completed
      && t.round1Duration == round1.duration.GetOr(0)
      && t.round2Duration == round2.duration.GetOr(0)
      && t.round1CharacterCount == round1.characterCount.GetOr(0)
      && t.round2CharacterCount == round2.characterCount.GetOr(0)
      && t.evaluationStatus == "pending"
      && t.totalAudioFiles == |Filter(records, (a: AudioRecord) => a.testId == test.value.id)|
      && t.id == test.value.id && t.userId == test.value.userId
    ensures r.Success? ==>
      (if r.value.round1CharacterCount != 0 && r.value.round2CharacterCount != 0
       then r.value.averageScore == Some((r.value.round1CharacterCount + r.value.round2CharacterCount) as real / 2.0)
       else r.value.averageScore == test.value.averageScore)
  {
    match test
    case None => Failure(Text.MissingRow("测试不存在", testId))
    case Some(t) =>
      var c1 := round1.characterCount.GetOr(0);
      var c2 := round2.characterCount.GetOr(0);
      var average := if c1 != 0 && c2 != 0 then Some((c1 + c2) as real / 2.0) else t.averageScore;
      Success(t.(status := Completed, endTime := Some(now),
                 round1Duration := round1.duration.GetOr(0), round1CharacterCount := c1, round1Completed := true,
                 round2Duration := round2.duration.GetOr(0), round2CharacterCount := c2, round2Completed := true,
                 averageScore := average,
                 totalAudioFiles := |Filter(records, (a: AudioRecord) => a.testId == t.id)|,
                 evaluationStatus := "pending"))
  }

  /** The position of the record with primary key `id`. */
  function IndexOf(table: seq<AudioRecord>, id: int): (r: Option<nat>)
    ensures r.None? <==> forall i :: 0 <= i < |table| ==> table[i].id != id
    ensures r.Some? ==> (r.value < |table| && table[r.value].id == id
                         && forall j :: 0 <= j < r.value ==> table[j].id != id)
    decreases |table|
  {
    if |table| == 0 then None
    else if table[0].id == id then Some(0)
    else
      match IndexOf(table[1..], id)
      case None => None
      case Some(i) => Some(i + 1)
  }

  /** What the speech service produced for one recording and request: its
      response and the tree its XML parses to. */
  datatype Outcome = Outcome(response: SpeechSdk.EvaluationResponse, xml: Markup)

  datatype Step = Step(ok: bool, table: seq<AudioRecord>)

  /** The record after a successful evaluation: scores copied and the
      correct characters estimated, capped at a row's ten. */
  function CompletedRecord(rec: AudioRecord, outcome: Outcome): (r: AudioRecord)
    ensures r.id == rec.id && r.testId == rec.testId && r.roundNumber == rec.roundNumber
    ensures r.evaluationStatus == "completed"
    ensures r.rowIndex == rec.rowIndex && r.fileExists == rec.fileExists
    ensures r.correctCharacterCount.Some? && r.correctCharacterCount.value <= MaxCharsInRow
    ensures r.correctCharacterCount == Some(Analysis.EstimateCorrectCharacterCount(outcome.xml, MaxCharsInRow))
    ensures r.totalScore == Some(outcome.response.totalScore)
    ensures r.phoneScore == Some(outcome.response.phoneScore) && r.toneScore == Some(outcome.response.toneScore)
    ensures r.fluencyScore == Some(outcome.response.fluencyScore)
    ensures r.integrityScore == Some(outcome.response.integrityScore)
  {
    var response := outcome.response;
    rec.(evaluationStatus := "completed",
         totalScore := Some(response.totalScore), phoneScore := Some(response.phoneScore),
         toneScore := Some(response.toneScore), fluencyScore := Some(response.fluencyScore),
         integrityScore := Some(response.integrityScore),
         correctCharacterCount := Some(Analysis.EstimateCorrectCharacterCount(outcome.xml, MaxCharsInRow)))
  }

  /** `evaluate_audio_record`: an unknown record or a row outside the chart
      is rejected untouched; otherwise the record ends completed exactly
      when the service succeeded, and failed when the client is not
      configured, the file is missing or the service failed. No other
      record changes. */
  function EvaluateAudioRecord(table: seq<AudioRecord>, id: int, factory: SpeechSdk.Factory,
                               evaluate: (int, SpeechSdk.EvaluationRequest) -> Outcome): (r: Step)
    ensures |r.table| == |table|
    ensures forall j :: 0 <= j < |table| && table[j].id != id ==> r.table[j] == table[j]
    ensures forall j :: 0 <= j < |table| ==>
      r.table[j].id == table[j].id && r.table[j].testId == table[j].testId && r.table[j].roundNumber == table[j].roundNumber
    ensures IndexOf(table, id).None? ==> !r.ok && r.table == table
    ensures IndexOf(table, id).Some? ==>
      var i := IndexOf(table, id).value;
      if 0 <= table[i].rowIndex < |CharacterRows| then
        r.table[i].evaluationStatus in {"completed", "failed"}
        && (r.ok <==> r.table[i].evaluationStatus == "completed")
        && (r.ok <==> factory.config.Some? && table[i].fileExists
                      && evaluate(id, SpeechSdk.SyllableRequest(CharacterRows[table[i].rowIndex])).response.success)
      else !r.ok && r.table == table
  {
    match IndexOf(table, id)
    case None => Step(false, table)
    case Some(i) =>
      var rec := table[i];
      if !(0 <= rec.rowIndex < |CharacterRows|) then Step(false, table)
      else
        var failed := table[i := rec.(evaluationStatus := "failed")];
        match SpeechSdk.GetSdk(factory)
        case Failure(_) => Step(false, failed)
        case Success(_) =>
          if !rec.fileExists then Step(false, failed)
          else
            var outcome := evaluate(id, SpeechSdk.SyllableRequest(CharacterRows[rec.rowIndex]));
            if outcome.response.success then Step(true, table[i := CompletedRecord(rec, outcome)])
            else Step(false, failed)
  }

  /** The record ids are primary keys. */
  predicate UniqueIds(table: seq<AudioRecord>)
  {
    forall i, j :: 0 <= i < j < |table| ==> table[i].id != table[j].id
  }

  function StatusOf(table: seq<AudioRecord>, id: int): Option<string>
  {
    match IndexOf(table, id)
    case None => None
    case Some(i) => Some(table[i].evaluationStatus)
  }

  /** Evaluating the records `ids` one after another (the source runs at most
      three at a time over one session; the outcome of each is independent
      of the others'). */
  function EvaluateEach(table: seq<AudioRecord>, ids: seq<int>, factory: SpeechSdk.Factory,
                        evaluate: (int, SpeechSdk.EvaluationRequest) -> Outcome): (r: (seq<bool>, seq<AudioRecord>))
    ensures |r.0| == |ids| && |r.1| == |table|
    ensures forall j :: 0 <= j < |table| ==>
      r.1[j].id == table[j].id && r.1[j].testId == table[j].testId && r.1[j].roundNumber == table[j].roundNumber
    ensures forall j :: 0 <= j < |table| && table[j].id !in ids ==> r.1[j] == table[j]
    decreases |ids|
  {
    if |ids| == 0 then ([], table)
    else
      var step := EvaluateAudioRecord(table, ids[0], factory, evaluate);
      var rest := EvaluateEach(step.table, ids[1..], factory, evaluate);
      ([step.ok] + rest.0, rest.1)
  }

  lemma IndexOfKeepsIds(a: seq<AudioRecord>, b: seq<AudioRecord>, id: int)
    requires |a| == |b| && forall j :: 0 <= j < |a| ==> a[j].id == b[j].id
    ensures IndexOf(a, id) == IndexOf(b, id)
  {
    if IndexOf(a, id).Some? {
      assert b[IndexOf(a, id).value].id == id;
    }
  }

  /** A record reported evaluated successfully is completed at the end of
      the batch: later evaluations of other records leave it alone. */
  lemma {:induction false} SuccessIsCompleted(table: seq<AudioRecord>, ids: seq<int>, factory: SpeechSdk.Factory,
                                              evaluate: (int, SpeechSdk.EvaluationRequest) -> Outcome, k: nat)
    requires forall i, j :: 0 <= i < j < |ids| ==> ids[i] != ids[j]
    requires k < |ids| && EvaluateEach(table, ids, factory, evaluate).0[k]
    ensures StatusOf(EvaluateEach(table, ids, factory, evaluate).1, ids[k]) == Some("completed")
    decreases |ids|
  {
    if k == 0 {
      FirstSuccessIsCompleted(table, ids, factory, evaluate);
    } else {
      var next := EvaluateAudioRecord(table, ids[0], factory, evaluate).table;
      var tail := ids[1..];
      EvaluateEachTail(table, ids, factory, evaluate, k);
      DistinctTail(ids);
      assert tail[k - 1] == ids[k];
      SuccessIsCompleted(next, tail, factory, evaluate, k - 1);
    }
  }

  lemma DistinctTail(ids: seq<int>)
    requires |ids| > 0 && forall i, j :: 0 <= i < j < |ids| ==> ids[i] != ids[j]
    ensures forall i, j :: 0 <= i < j < |ids[1..]| ==> ids[1..][i] != ids[1..][j]
  {
    forall i, j | 0 <= i < j < |ids[1..]|
      ensures ids[1..][i] != ids[1..][j]
    {
      assert ids[1..][i] == ids[i + 1] && ids[1..][j] == ids[j + 1];
    }
  }

  /** After the first record, the batch is the batch of the rest over the
      table the first evaluation left. */
  lemma EvaluateEachTail(table: seq<AudioRecord>, ids: seq<int>, factory: SpeechSdk.Factory,
                         evaluate: (int, SpeechSdk.EvaluationRequest) -> Outcome, k: nat)
    requires 0 < k < |ids|
    ensures var next := EvaluateAudioRecord(table, ids[0], factory, evaluate).table;
      var all := EvaluateEach(table, ids, factory, evaluate);
      var rest := EvaluateEach(next, ids[1..], factory, evaluate);
      |rest.0| == |ids| - 1 && all.0[k] == rest.0[k - 1] && all.1 == rest.1
  {
    EvaluateEachFirst(table, ids, factory, evaluate);
  }

  lemma FirstSuccessIsCompleted(table: seq<AudioRecord>, ids: seq<int>, factory: SpeechSdk.Factory,
                                evaluate: (int, SpeechSdk.EvaluationRequest) -> Outcome)
    requires forall i, j :: 0 <= i < j < |ids| ==> ids[i] != ids[j]
    requires 0 < |ids| && EvaluateEach(table, ids, factory, evaluate).0[0]
    ensures StatusOf(EvaluateEach(table, ids, factory, evaluate).1, ids[0]) == Some("completed")
  {
    EvaluateEachFirst(table, ids, factory, evaluate);
    assert ids[0] !in ids[1..];
    FirstSuccessSurvives(table, ids, factory, evaluate);
  }

  lemma EvaluateEachFirst(table: seq<AudioRecord>, ids: seq<int>, factory: SpeechSdk.Factory,
                          evaluate: (int, SpeechSdk.EvaluationRequest) -> Outcome)
    requires |ids| > 0
    ensures var step := EvaluateAudioRecord(table, ids[0], factory, evaluate);
      var rest := EvaluateEach(step.table, ids[1..], factory, evaluate);
      EvaluateEach(table, ids, factory, evaluate) == ([step.ok] + rest.0, rest.1)
  {
  }

  lemma EvaluateEachSuccessesAreCompleted(table: seq<AudioRecord>, ids: seq<int>, factory: SpeechSdk.Factory,
                                          evaluate: (int, SpeechSdk.EvaluationRequest) -> Outcome)
    requires forall i, j :: 0 <= i < j < |ids| ==> ids[i] != ids[j]
    ensures var r := EvaluateEach(table, ids, factory, evaluate);
      forall k :: 0 <= k < |ids| && r.0[k] ==> StatusOf(r.1, ids[k]) == Some("completed")
  {
    forall k | 0 <= k < |ids| && EvaluateEach(table, ids, factory, evaluate).0[k]
      ensures StatusOf(EvaluateEach(table, ids, factory, evaluate).1, ids[k]) == Some("completed")
    {
      SuccessIsCompleted(table, ids, factory, evaluate, k);
    }
  }

  lemma FirstSuccessSurvives(table: seq<AudioRecord>, ids: seq<int>, factory: SpeechSdk.Factory, evaluate: (int, SpeechSdk.EvaluationRequest) -> Outcome)
    requires |ids| > 0 && ids[0] !in ids[1..]
    requires EvaluateAudioRecord(table, ids[0], factory, evaluate).ok
    ensures var step := EvaluateAudioRecord(table, ids[0], factory, evaluate);
      StatusOf(EvaluateEach(step.table, ids[1..], factory, evaluate).1, ids[0]) == Some("completed")
  {
    var step := EvaluateAudioRecord(table, ids[0], factory, evaluate);
    var rest := EvaluateEach(step.table, ids[1..], factory, evaluate);
    var i := IndexOf(table, ids[0]).value;
    IndexOfKeepsIds(table, step.table, ids[0]);
    IndexOfKeepsIds(step.table, rest.1, ids[0]);
    assert rest.1[i] == step.table[i];
  }

  predicate Succeeded(ok: bool)
  {
    ok
  }

  /** The result of `batch_evaluate_test_audio`. */
  datatype BatchResult =
    | NothingPending
    | Evaluated(totalAudioFiles: nat, succeeded: nat, failed: nat, round1Correct: int, round2Correct: int,
                averageScore: Option<real>, evaluationStatus: string)
    | BatchFailed(error: string)

  predicate IsPendingOf(testId: int, a: AudioRecord)
  {
    a.testId == testId && a.evaluationStatus == "pending"
  }

  /** The test's recordings still waiting for an evaluation. */
  function Pending(table: seq<AudioRecord>, testId: int): (r: seq<AudioRecord>)
    ensures forall a :: a in r <==> a in table && IsPendingOf(testId, a)
  {
    Filter(table, a => IsPendingOf(testId, a))
  }

  predicate IsCompletedOf(testId: int, round: int, a: AudioRecord)
  {
    a.testId == testId && a.evaluationStatus == "completed" && a.roundNumber == round
  }

  function CorrectCount(a: AudioRecord): int
  {
    a.correctCharacterCount.GetOr(0)
  }

  /** `sum(record.correct_character_count or 0 ...)` over the test's
      completed recordings of one round. */
  function RoundCorrect(table: seq<AudioRecord>, testId: int, round: int): int
  {
    Sum(Filter(table, a => IsCompletedOf(testId, round, a)), CorrectCount)
  }

  function Ids(records: seq<AudioRecord>): (ids: seq<int>)
    ensures |ids| == |records| && forall k :: 0 <= k < |records| ==> ids[k] == records[k].id
  {
    seq(|records|, k requires 0 <= k < |records| => records[k].id)
  }

  function Truthy(b: bool): nat
  {
    if b then 1 else 0
  }

  /** `batch_evaluate_test_audio`: evaluates the test's pending recordings,
      counts successes, marks the test completed only when none failed, and
      recomputes each round's correct characters from the completed
      recordings; the average is replaced only when one of them is non-zero. */
  function BatchEvaluate(testId: int, test: Option<OralTest>, table: seq<AudioRecord>, factory: SpeechSdk.Factory,
                         evaluate: (int, SpeechSdk.EvaluationRequest) -> Outcome): (r: (BatchResult, Option<OralTest>, seq<AudioRecord>))
    requires test.Some? ==> test.value.id == testId
    ensures test.None? ==> r.0 == BatchFailed(Text.MissingRow("测试不存在", testId)) && r.1.None? && r.2 == table
    ensures test.Some? && |Pending(table, test.value.id)| == 0 ==> r.0 == NothingPending && r.1 == test && r.2 == table
    ensures test.Some? && |Pending(table, test.value.id)| > 0 ==> r.0.Evaluated?
    ensures r.0.Evaluated? ==> test.Some? && EvaluatedAs(test.value, table, factory, evaluate, r)
  {
    match test
    case None => (BatchFailed(Text.MissingRow("测试不存在", testId)), None, table)
    case Some(t) =>
      var pending := Pending(table, t.id);
      if |pending| == 0 then (NothingPending, test, table)
      else EvaluatePending(t, table, factory, evaluate)
  }

  /** What an evaluated batch reports: every pending recording counted as a
      success or a failure, the test completed exactly when none failed,
      each round's correct characters recomputed from
      the updated recordings, and the average replaced only when one of
      them is non-zero. */
  predicate EvaluatedAs(t: OralTest, table: seq<AudioRecord>, factory: SpeechSdk.Factory,
                        evaluate: (int, SpeechSdk.EvaluationRequest) -> Outcome, r: (BatchResult, Option<OralTest>, seq<AudioRecord>))
  {
    var e := EvaluateEach(table, Ids(Pending(table, t.id)), factory, evaluate);
    r.0.Evaluated?
    && r.2 == e.1
    && r.0.succeeded == Count(e.0, Succeeded)
    && r.0.succeeded + r.0.failed == r.0.totalAudioFiles == |e.0|
    && (r.0.evaluationStatus == "completed" <==> r.0.failed == 0)
    && (r.0.evaluationStatus == "partial_completed" <==> r.0.failed > 0)
    && r.0.round1Correct == RoundCorrect(r.2, t.id, 1)
    && r.0.round2Correct == RoundCorrect(r.2, t.id, 2)
    && r.1 == Some(t.(evaluationStatus := r.0.evaluationStatus, round1CharacterCount := r.0.round1Correct,
                      round2CharacterCount := r.0.round2Correct, averageScore := r.0.averageScore))
    && (if r.0.round1Correct > 0 || r.0.round2Correct > 0
        then r.0.averageScore == Some((r.0.round1Correct + r.0.round2Correct) as real / 2.0)
        else r.0.averageScore == t.averageScore)
  }

  /** The evaluating branch of `batch_evaluate_test_audio`. */
  function EvaluatePending(t: OralTest, table: seq<AudioRecord>, factory: SpeechSdk.Factory,
                           evaluate: (int, SpeechSdk.EvaluationRequest) -> Outcome): (r: (BatchResult, Option<OralTest>, seq<AudioRecord>))
    ensures EvaluatedAs(t, table, factory, evaluate, r)
  {
    var pending := Pending(table, t.id);
    var e := EvaluateEach(table, Ids(pending), factory, evaluate);
    var results := e.0;
    var table' := e.1;
    var succeeded := Count(results, Succeeded);
    var failed := |results| - succeeded;
    var status := if failed == 0 then "completed" else "partial_completed";
    var r1 := RoundCorrect(table', t.id, 1);
    var r2 := RoundCorrect(table', t.id, 2);
    var average := if r1 > 0 || r2 > 0 then Some((r1 + r2) as real / 2.0) else t.averageScore;
    var t' := t.(evaluationStatus := status, round1CharacterCount := r1, round2CharacterCount := r2,
                 averageScore := average);
    (Evaluated(|pending|, succeeded, failed, r1, r2, average, status), Some(t'), table')
  }

  lemma {:induction false} FilterKeepsUniqueIds(table: seq<AudioRecord>, p: AudioRecord -> bool)
    requires UniqueIds(table)
    ensures UniqueIds(Filter(table, p))
    decreases |table|
  {
    if |table| > 0 {
      var tail := table[1..];
      FilterKeepsUniqueIds(tail, p);
      var rest := Filter(tail, p);
      assert forall a :: a in rest ==> a in tail;
      assert forall a :: a in tail ==> a.id != table[0].id;
      if p(table[0]) {
        var f := [table[0]] + rest;
        assert Filter(table, p) == f;
        forall i, j | 0 <= i < j < |f|
          ensures f[i].id != f[j].id
        {
          if i == 0 {
            assert f[j] in rest;
          } else {
            assert f[i] == rest[i - 1] && f[j] == rest[j - 1];
          }
        }
      }
    }
  }

  /** A batch that reports the test completed left every one of the test's
      pending recordings completed. */
  lemma BatchCompletedMeansAllCompleted(t: OralTest, table: seq<AudioRecord>, factory: SpeechSdk.Factory,
                                        evaluate: (int, SpeechSdk.EvaluationRequest) -> Outcome)
    requires UniqueIds(table)
    requires BatchEvaluate(t.id, Some(t), table, factory, evaluate).0.Evaluated?
    requires BatchEvaluate(t.id, Some(t), table, factory, evaluate).0.evaluationStatus == "completed"
    ensures forall a :: a in table && IsPendingOf(t.id, a) ==>
      StatusOf(BatchEvaluate(t.id, Some(t), table, factory, evaluate).2, a.id) == Some("completed")
  {
    var pending := Pending(table, t.id);
    var ids := Ids(pending);
    PendingIdsAreDistinct(t, table);
    var e := EvaluateEach(table, ids, factory, evaluate);
    assert EvaluatedAs(t, table, factory, evaluate, BatchEvaluate(t.id, Some(t), table, factory, evaluate));
    CompletedMeansEverySuccess(t, table, factory, evaluate, BatchEvaluate(t.id, Some(t), table, factory, evaluate));
    EvaluateEachSuccessesAreCompleted(table, ids, factory, evaluate);
    forall a | a in table && IsPendingOf(t.id, a)
      ensures StatusOf(e.1, a.id) == Some("completed")
    {
      var k :| 0 <= k < |pending| && pending[k] == a;
      assert ids[k] == a.id && e.0[k];
    }
  }

  /** Every evaluation of a batch succeeded. */
  predicate EverySucceeded(results: seq<bool>)
  {
    forall k :: 0 <= k < |results| ==> results[k]
  }

  /** A batch is completed exactly when every evaluation in it succeeded. */
  lemma CompletedMeansEverySuccess(t: OralTest, table: seq<AudioRecord>, factory: SpeechSdk.Factory,
                                   evaluate: (int, SpeechSdk.EvaluationRequest) -> Outcome,
                                   r: (BatchResult, Option<OralTest>, seq<AudioRecord>))
    requires EvaluatedAs(t, table, factory, evaluate, r)
    ensures r.0.evaluationStatus == "completed" <==>
      EverySucceeded(EvaluateEach(table, Ids(Pending(table, t.id)), factory, evaluate).0)
  {
    var e := EvaluateEach(table, Ids(Pending(table, t.id)), factory, evaluate);
    assert r.0.failed == 0 <==> Count(e.0, Succeeded) == |e.0|;
    assert (forall k :: 0 <= k < |e.0| ==> Succeeded(e.0[k])) <==> EverySucceeded(e.0);
  }

  lemma PendingIdsAreDistinct(t: OralTest, table: seq<AudioRecord>)
    requires UniqueIds(table)
    ensures var ids := Ids(Pending(table, t.id));
      forall i, j :: 0 <= i < j < |ids| ==> ids[i] != ids[j]
  {
    FilterKeepsUniqueIds(table, a => IsPendingOf(t.id, a));
    assert Pending(table, t.id) == Filter(table, a => IsPendingOf(t.id, a));
  }

  /** The statistics block of `get_test_results`. */
  datatype Statistics = Statistics(
    totalAudioFiles: nat,
    completedEvaluations: nat,
    evaluationCompletionRate: real,
    round1AudioCount: nat,
    round2AudioCount: nat,
    averageTotalScore: real,
    averagePhoneScore: real,
    averageToneScore: real)

  /** `r.total_score or 0`, and likewise for the other two scores. */
  function TotalOrZero(a: AudioRecord): real { a.totalScore.GetOr(0.0) }
  function PhoneOrZero(a: AudioRecord): real { a.phoneScore.GetOr(0.0) }
  function ToneOrZero(a: AudioRecord): real { a.toneScore.GetOr(0.0) }

  predicate IsEvaluated(a: AudioRecord)
  {
    a.evaluationStatus == "completed"
  }

  function InRound(round: int): AudioRecord -> bool
  {
    (a: AudioRecord) => a.roundNumber == round
  }

  function OfTest(testId: int): AudioRecord -> bool
  {
    (a: AudioRecord) => a.testId == testId
  }

  /** `rate` is `part` out of `whole` in per cent, and 0 for no whole. */
  predicate IsPercentOf(rate: real, part: nat, whole: nat)
  {
    (whole == 0 ==> rate == 0.0) && (whole > 0 ==> rate * whole as real == part as real * 100.0)
  }

  /** `mean` is `total` shared over `n`, and 0 for none. */
  predicate IsMeanOf(mean: real, total: real, n: nat)
  {
    (n == 0 ==> mean == 0.0) && (n > 0 ==> mean * n as real == total)
  }

  /** `completed / total * 100 if total > 0 else 0`. */
  function CompletionRate(completed: nat, total: nat): (rate: real)
    requires completed <= total
    ensures IsPercentOf(rate, completed, total)
    ensures 0.0 <= rate <= 100.0
  {
    Analysis.Percent(completed, total)
  }

  /** `sum(...) / completed_evaluations if completed_evaluations > 0 else 0`. */
  function AverageOver(total: real, completed: nat): (m: real)
    ensures IsMeanOf(m, total, completed)
  {
    if completed > 0 then total / completed as real else 0.0
  }

  /** The statistics of one test's recordings: the completed ones and each
      round's are counted, the completion rate is the completed share in
      per cent (0 with no recordings), and each average divides the sum of
      that score over all recordings by the completed count (0 with none
      completed). */
  function Summarize(records: seq<AudioRecord>): (s: Statistics)
    ensures s.totalAudioFiles == |records|
    ensures s.completedEvaluations == Count(records, IsEvaluated)
    ensures s.round1AudioCount == Count(records, InRound(1))
    ensures s.round2AudioCount == Count(records, InRound(2))
    ensures IsPercentOf(s.evaluationCompletionRate, s.completedEvaluations, |records|)
    ensures IsMeanOf(s.averageTotalScore, RealSum(records, TotalOrZero), s.completedEvaluations)
    ensures IsMeanOf(s.averagePhoneScore, RealSum(records, PhoneOrZero), s.completedEvaluations)
    ensures IsMeanOf(s.averageToneScore, RealSum(records, ToneOrZero), s.completedEvaluations)
    ensures s.completedEvaluations <= s.totalAudioFiles
    ensures s.round1AudioCount + s.round2AudioCount <= s.totalAudioFiles
    ensures 0.0 <= s.evaluationCompletionRate <= 100.0
  {
    var completed := Count(records, IsEvaluated);
    var round1 := Count(records, InRound(1));
    var round2 := Count(records, InRound(2));
    RoundCountsDisjoint(records);
    var rate := CompletionRate(completed, |records|);
    var total := AverageOver(RealSum(records, TotalOrZero), completed);
    var phone := AverageOver(RealSum(records, PhoneOrZero), completed);
    var tone := AverageOver(RealSum(records, ToneOrZero), completed);
    Statistics(|records|, completed, rate, round1, round2, total, phone, tone)
  }

  /** The completion rate is 100 exactly when there are recordings and all
      of them are completed. */
  lemma FullRateMeansAllCompleted(records: seq<AudioRecord>)
    ensures var s := Summarize(records);
      s.evaluationCompletionRate == 100.0 <==>
        |records| > 0 && forall i :: 0 <= i < |records| ==> records[i].evaluationStatus == "completed"
  {
    var s := Summarize(records);
    if |records| > 0 && s.evaluationCompletionRate == 100.0 {
      assert 100.0 * |records| as real == s.completedEvaluations as real * 100.0;
    }
  }

  /** `get_test_results`: `None` for an unknown test, otherwise the
      statistics of the test's own recordings. */
  function TestStatistics(test: Option<OralTest>, table: seq<AudioRecord>): (r: Option<Statistics>)
    ensures r.None? <==> test.None?
    ensures r.Some? ==>
      var records := Filter(table, OfTest(test.value.id));
      r.value == Summarize(records)
      && (forall a :: a in records <==> a in table && a.testId == test.value.id)
  {
    match test
    case None => None
    case Some(t) => Some(Summarize(Filter(table, OfTest(t.id))))
  }

  lemma {:induction false} RoundCountsDisjoint(records: seq<AudioRecord>)
    ensures Count(records, InRound(1)) + Count(records, InRound(2)) <= |records|
    decreases |records|
  {
    if |records| > 0 {
      RoundCountsDisjoint(records[1..]);
    }
  }
}

=== FILE: randomness.dfy ===
/** Random number generators seen as a stream of values in [0, 1) handed
    in from outside: `Math.random()` in the browser, `random` in the Python
    scripts. Every draw takes the next value. */
module Randomness {
  /** A value the generator can return. */
  type Unit = x: real | 0.0 <= x < 1.0

  /** The values the generator returns, in order, and how many are used. */
  datatype Source = Source(draws: nat -> Unit, used: nat)

  function Advance(s: Source): Source
  {
    s.(used := s.used + 1)
  }

  lemma FloorOfScaled(u: Unit, k: int)
    ensures k >= 1 ==> 0 <= (u * k as real).Floor < k
    ensures k == 0 ==> (u * k as real).Floor == 0
  {
    if k >= 1 {
      assert u * k as real < 1.0 * k as real;
    }
  }

  /** `Math.floor(Math.random() * k)`; the index draws of Python's
      `random.choice` and `random.sample` are read the same way. */
  function Below(s: Source, k: int): (r: (int, Source))
    ensures r.1 == Advance(s)
    ensures k >= 1 ==> 0 <= r.0 < k
    ensures k == 0 ==> r.0 == 0
  {
    var u := s.draws(s.used);
    FloorOfScaled(u, k);
    ((u * k as real).Floor, Advance(s))
  }

  /** `Math.random() < p`. */
  function Chance(s: Source, p: real): (r: (bool, Source))
    ensures r.1 == Advance(s)
    ensures p <= 0.0 ==> !r.0
    ensures p >= 1.0 ==> r.0
  {
    (s.draws(s.used) < p, Advance(s))
  }
}

=== FILE: ratio.dfy ===
/** The guarded percentage several records compute as a property: `part`
    over `whole`, times 100, and 0 when `whole` is 0 instead of a division
    by zero. */
module Ratio {

  function Percent(part: real, whole: real): (r: real)
    ensures whole == 0.0 ==> r == 0.0
    ensures whole != 0.0 ==> r * whole == part * 100.0
  {
    if whole == 0.0 then 0.0 else part / whole * 100.0
  }

  /** The percentage of two counts, as Python computes `a / b * 100` on ints. */
  function CountPercent(part: int, whole: int): (r: real)
    ensures whole == 0 ==> r == 0.0
    ensures whole != 0 ==> r * whole as real == part as real * 100.0
  {
    Percent(part as real, whole as real)
  }

  /** `total / max(n, 1)`: the mean of `n` values summing to `total`, and 0
      when there are none. */
  function Mean(total: int, n: nat): (m: real)
    ensures n == 0 ==> m == 0.0
    ensures n > 0 ==> m * n as real == total as real
  {
    // With no values the numerator is 0 as well, so `max(n, 1)` only
    // matters for n == 0.
    if n == 0 then 0.0 else total as real / n as real
  }

  /** A part of a whole is between 0 and 100 per cent, and all of it exactly
      when it is the whole. */
  lemma PercentBounds(part: real, whole: real)
    requires 0.0 <= part <= whole
    ensures 0.0 <= Percent(part, whole) <= 100.0
    ensures whole > 0.0 ==> (Percent(part, whole) == 100.0 <==> part == whole)
  {
    if whole > 0.0 {
      var r := Percent(part, whole);
      assert r * whole == part * 100.0;
      if r == 100.0 {
        assert 100.0 * whole == part * 100.0;
      }
    }
  }

  /** A larger part of the same whole is a larger percentage. */
  lemma PercentMonotone(a: real, b: real, whole: real)
    requires a <= b && whole > 0.0
    ensures Percent(a, whole) <= Percent(b, whole)
  {
    assert a / whole <= b / whole;
  }
}

=== FILE: raven_download.dfy ===
/** The Raven test's image downloader: for every question its main picture
    and its six option pictures, fetched from two numbered URL series and
    saved under fixed names; the questions processed five at a time; and
    the final check that every expected file is present. The server's
    answers and the files on disk are parameters: `ok(url)` says whether a
    fetch of `url` succeeds, `present(name)` whether a file is there. */
module RavenDownload {
  import opened Wrappers
  import Text
  import Seqs

  const QuestionUrlPrefix := "https://minke8.cn/Assets/images/rw/question/"
  const AnswerUrlPrefix := "https://minke8.cn/Assets/images/rw/answer/"
  const OptionsPerQuestion: nat := 6
  const ImagesPerQuestion: nat := 7
  const BatchSize: nat := 5
  const MaxQuestions: nat := 72

  function QuestionUrl(q: int): string
  {
    QuestionUrlPrefix + Text.IntToString(q) + ".jpg"
  }

  function AnswerUrl(n: int): string
  {
    AnswerUrlPrefix + Text.IntToString(n) + ".jpg"
  }

  /** `question_XX_main{ext}`, the question number padded to two digits. */
  function MainFilename(q: int, ext: string): string
  {
    "question_" + Text.Pad2(q) + "_main" + ext
  }

  /** `question_XX_option_Y{ext}`. */
  function OptionFilename(q: int, option: int, ext: string): string
  {
    "question_" + Text.Pad2(q) + "_option_" + Text.IntToString(option) + ext
  }

  /** The answer-series number of option `option` (1 to 6) of question `q`:
      question 1 owns 1 to 6, question 2 owns 7 to 12, and so on. */
  function AnswerNumber(q: int, option: int): int
  {
    (q - 1) * OptionsPerQuestion + 1 + (option - 1)
  }

  datatype Download = Download(url: string, filename: string)

  /** What `download_question_images` fetches, in order: the main picture,
      then options 1 to 6. */
  function QuestionDownloads(q: int): (ds: seq<Download>)
    ensures |ds| == ImagesPerQuestion
  {
    [Download(QuestionUrl(q), MainFilename(q, ".jpg"))]
    + seq(OptionsPerQuestion, i requires 0 <= i < OptionsPerQuestion =>
        Download(AnswerUrl(AnswerNumber(q, i + 1)), OptionFilename(q, i + 1, ".jpg")))
  }

  function Succeeded(ok: string -> bool): Download -> bool
  {
    (d: Download) => ok(d.url)
  }

  /** `download_question_images`: how many of the seven fetches succeeded. */
  function DownloadQuestionImages(q: int, ok: string -> bool): (n: nat)
    ensures n <= ImagesPerQuestion
    ensures n == ImagesPerQuestion <==> forall i :: 0 <= i < ImagesPerQuestion ==> ok(QuestionDownloads(q)[i].url)
  {
    Seqs.Count(QuestionDownloads(q), Succeeded(ok))
  }

  // ---------------------------------------------------------------------
  // Answer numbering
  // ---------------------------------------------------------------------

  /** Each question owns six consecutive answer numbers. */
  lemma OptionRange(q: int, option: int)
    requires 1 <= option <= OptionsPerQuestion
    ensures (q - 1) * 6 + 1 <= AnswerNumber(q, option) <= (q - 1) * 6 + 6
  {
  }

  /** Different (question, option) pairs never share an answer number. */
  lemma AnswerNumbersAreDistinct(q1: int, o1: int, q2: int, o2: int)
    requires 1 <= o1 <= OptionsPerQuestion && 1 <= o2 <= OptionsPerQuestion
    requires AnswerNumber(q1, o1) == AnswerNumber(q2, o2)
    ensures q1 == q2 && o1 == o2
  {
  }

  /** Questions 1 to 72 use every answer number from 1 to 432. */
  lemma AnswerNumbersCoverTheSeries(n: int)
    requires 1 <= n <= MaxQuestions * OptionsPerQuestion
    ensures 1 <= (n - 1) / 6 + 1 <= MaxQuestions && AnswerNumber((n - 1) / 6 + 1, (n - 1) % 6 + 1) == n
  {
  }

  // ---------------------------------------------------------------------
  // File names
  // ---------------------------------------------------------------------

  /** Reads a downloaded file's name back: the question number and the slot,
      0 for the main picture and 1 to 9 for an option. */
  function ParseFilename(name: string): Option<(nat, nat)>
  {
    if |name| >= 11 && name[..9] == "question_" && Text.AllDigits(name[9..11]) then
      var q := Text.DigitsValue(name[9..11]);
      var rest := name[11..];
      if rest == "_main.jpg" then Some((q, 0))
      else if |rest| == 13 && rest[..8] == "_option_" && Text.IsDigit(rest[8]) && rest[9..] == ".jpg" then
        Some((q, Text.DigitValue(rest[8])))
      else None
    else None
  }

  lemma MainFilenameParses(q: int)
    requires 0 <= q < 100
    ensures ParseFilename(MainFilename(q, ".jpg")) == Some((q, 0))
  {
    var name := MainFilename(q, ".jpg");
    var p := Text.Pad2(q);
    assert |p| == 2;
    assert name == "question_" + p + "_main.jpg";
    assert name[..9] == "question_" && name[9..11] == p && name[11..] == "_main.jpg";
  }

  lemma OptionFilenameParses(q: int, option: int)
    requires 0 <= q < 100 && 1 <= option <= 9
    ensures ParseFilename(OptionFilename(q, option, ".jpg")) == Some((q, option))
  {
    var name := OptionFilename(q, option, ".jpg");
    var p := Text.Pad2(q);
    assert |p| == 2;
    assert Text.IntToString(option) == [Text.DigitChar(option)];
    var rest := "_option_" + [Text.DigitChar(option)] + ".jpg";
    assert name == "question_" + p + rest;
    assert name[..9] == "question_" && name[9..11] == p && name[11..] == rest;
    assert rest[..8] == "_option_" && rest[8] == Text.DigitChar(option) && rest[9..] == ".jpg";
  }

  /** The file name of slot `slot` (0 for the main picture) of question `q`. */
  function SlotFilename(q: int, slot: nat): string
  {
    if slot == 0 then MainFilename(q, ".jpg") else OptionFilename(q, slot, ".jpg")
  }

  lemma DownloadNames(q: int, slot: nat)
    requires slot < ImagesPerQuestion
    ensures QuestionDownloads(q)[slot].filename == SlotFilename(q, slot)
  {
  }

  /** For questions below 100 no two slots are saved under the same name. */
  lemma FilenamesAreDistinct(q1: int, s1: nat, q2: int, s2: nat)
    requires 0 <= q1 < 100 && 0 <= q2 < 100 && s1 < ImagesPerQuestion && s2 < ImagesPerQuestion
    requires SlotFilename(q1, s1) == SlotFilename(q2, s2)
    ensures q1 == q2 && s1 == s2
  {
    if s1 == 0 { MainFilenameParses(q1); } else { OptionFilenameParses(q1, s1); }
    if s2 == 0 { MainFilenameParses(q2); } else { OptionFilenameParses(q2, s2); }
  }

  // ---------------------------------------------------------------------
  // Batches
  // ---------------------------------------------------------------------

  /** `range(start, max + 1, 5)`, each batch with its end
      `min(batch_start + 5, max + 1)`. */
  function Batches(start: int, max: int): (bs: seq<(int, int)>)
    ensures forall k :: 0 <= k < |bs| ==> bs[k].0 < bs[k].1 <= bs[k].0 + BatchSize
    decreases max + 1 - start
  {
    if start > max then []
    else [(start, if start + BatchSize < max + 1 then start + BatchSize else max + 1)] + Batches(start + BatchSize, max)
  }

  /** `range(a, b)`. */
  function Interval(a: int, b: int): (r: seq<int>)
    ensures |r| == (if b > a then b - a else 0)
    ensures forall i :: 0 <= i < |r| ==> r[i] == a + i
  {
    if b > a then seq(b - a, i requires 0 <= i < b - a => a + i) else []
  }

  /** The questions of the batches, in the order they are processed. */
  function BatchQuestions(bs: seq<(int, int)>): seq<int>
  {
    if |bs| == 0 then [] else Interval(bs[0].0, bs[0].1) + BatchQuestions(bs[1..])
  }

  /** The batches hand out every question from `start` to `max` exactly
      once, in increasing order. */
  lemma {:induction false} BatchesPartition(start: int, max: int)
    ensures BatchQuestions(Batches(start, max)) == Interval(start, max + 1)
    decreases max + 1 - start
  {
    if start <= max {
      var end := if start + BatchSize < max + 1 then start + BatchSize else max + 1;
      BatchesPartition(start + BatchSize, max);
      assert Batches(start, max)[1..] == Batches(start + BatchSize, max);
      assert Interval(start, end) + Interval(start + BatchSize, max + 1) == Interval(start, max + 1);
    }
  }

  // ---------------------------------------------------------------------
  // The whole download and its check
  // ---------------------------------------------------------------------

  function TotalSuccess(qs: seq<int>, ok: string -> bool): (n: nat)
    ensures n <= ImagesPerQuestion * |qs|
  {
    if |qs| == 0 then 0 else DownloadQuestionImages(qs[0], ok) + TotalSuccess(qs[1..], ok)
  }

  /** `download_all_questions`: the images fetched and the images expected,
      seven per question. */
  function DownloadAllQuestions(max: int, ok: string -> bool): (r: (nat, int))
    ensures max >= 0 ==> r.0 <= r.1
    ensures r.1 == max * ImagesPerQuestion
  {
    BatchesPartition(1, max);
    (TotalSuccess(BatchQuestions(Batches(1, max)), ok), max * ImagesPerQuestion)
  }

  /** The seven names `verify_downloads` expects for question `q`. */
  function ExpectedFiles(q: int): (names: seq<string>)
    ensures |names| == ImagesPerQuestion
  {
    seq(ImagesPerQuestion, slot requires 0 <= slot < ImagesPerQuestion => SlotFilename(q, slot))
  }

  function MissingOf(qs: seq<int>, present: string -> bool): seq<string>
  {
    if |qs| == 0 then []
    else Seqs.Filter(ExpectedFiles(qs[0]), name => !present(name)) + MissingOf(qs[1..], present)
  }

  /** `verify_downloads`: true exactly when no expected file is missing. */
  function VerifyDownloads(max: int, present: string -> bool): (r: bool)
    ensures r <==> forall q, slot :: 1 <= q <= max && 0 <= slot < ImagesPerQuestion ==> present(SlotFilename(q, slot))
  {
    var qs := Interval(1, max + 1);
    MissingNone(qs, present);
    assert forall q :: q in qs <==> 1 <= q <= max by {
      forall q | 1 <= q <= max ensures q in qs {
        assert qs[q - 1] == q;
      }
    }
    |MissingOf(qs, present)| == 0
  }

  lemma {:induction false} MissingNone(qs: seq<int>, present: string -> bool)
    ensures |MissingOf(qs, present)| == 0 <==> forall q, slot :: q in qs && 0 <= slot < ImagesPerQuestion ==> present(SlotFilename(q, slot))
  {
    if |qs| > 0 {
      MissingNone(qs[1..], present);
      assert forall q :: q in qs <==> q == qs[0] || q in qs[1..] by {
        assert qs == [qs[0]] + qs[1..];
      }
      var first := Seqs.Filter(ExpectedFiles(qs[0]), name => !present(name));
      if |first| == 0 {
        forall slot | 0 <= slot < ImagesPerQuestion
          ensures present(SlotFilename(qs[0], slot))
        {
          assert ExpectedFiles(qs[0])[slot] in ExpectedFiles(qs[0]);
        }
      } else {
        var name := first[0];
        assert name in ExpectedFiles(qs[0]) && !present(name);
      }
    }
  }

  /** The names a download run leaves on disk: every slot whose fetch
      succeeded. */
  function Written(max: int, ok: string -> bool): set<string>
  {
    set q, slot | 1 <= q <= max && 0 <= slot < ImagesPerQuestion && ok(QuestionDownloads(q)[slot].url) :: SlotFilename(q, slot)
  }

  /** After a download run into an empty directory, the check passes
      exactly when every fetch of every question succeeded. */
  lemma DownloadThenVerify(max: int, ok: string -> bool)
    requires max < 100
    ensures VerifyDownloads(max, name => name in Written(max, ok))
        <==> forall q, slot :: 1 <= q <= max && 0 <= slot < ImagesPerQuestion ==> ok(QuestionDownloads(q)[slot].url)
  {
    var written := Written(max, ok);
    forall q, slot | 1 <= q <= max && 0 <= slot < ImagesPerQuestion && SlotFilename(q, slot) in written
      ensures ok(QuestionDownloads(q)[slot].url)
    {
      var q', slot' :| 1 <= q' <= max && 0 <= slot' < ImagesPerQuestion
        && ok(QuestionDownloads(q')[slot'].url) && SlotFilename(q', slot') == SlotFilename(q, slot);
      FilenamesAreDistinct(q', slot', q, slot);
    }
  }
}

=== FILE: raven_scoring.dfy ===
/** Scoring of the Raven reasoning test against its norm table. The table's
    first row is a header `P, 5.5, 6.5, ..., 16.5, Z, IQ`: column 0 holds
    percentiles, the last two columns Z scores and IQs, and every column in
    between belongs to the one-year age band centred on its header. Rows 3
    and on hold the raw score each percentile needs in that band, highest
    first; `/` and empty cells read as absent. */
module RavenScoring {
  import opened Wrappers
  import Analysis

  type Cell = Option<real>

  /** A loaded norm table: at least the three special rows, a P, a Z and an
      IQ column, and every row as wide as the header. */
  predicate WellFormed(norm: seq<seq<Cell>>)
  {
    |norm| >= 3 && |norm[0]| >= 3
    && forall k :: 0 <= k < |norm| ==> |norm[k]| == |norm[0]|
  }

  /** A cell that is present and whose value satisfies `p`. */
  predicate Holds(c: Cell, p: real -> bool)
  {
    c.Some? && p(c.value)
  }

  /** The first `k` in `[lo, hi)` whose cell holds `p`: one of the source's
      `for k in range(...)` loops that stops at the first hit. */
  function FirstFrom(cells: seq<Cell>, lo: int, hi: int, p: real -> bool): (r: Option<int>)
    requires 0 <= lo && hi <= |cells|
    ensures r.Some? ==> lo <= r.value < hi && Holds(cells[r.value], p)
    ensures r.Some? ==> forall j :: lo <= j < r.value ==> !Holds(cells[j], p)
    ensures r.None? <==> forall j :: lo <= j < hi ==> !Holds(cells[j], p)
    decreases hi - lo
  {
    if lo >= hi then None
    else if Holds(cells[lo], p) then Some(lo)
    else FirstFrom(cells, lo + 1, hi, p)
  }

  /** The age band a header cell stands for: `[c - 0.5, c + 0.5)`. */
  predicate InBand(age: real, c: real)
  {
    c - 0.5 <= age < c + 0.5
  }

  /** The first age column (between the P column and the Z and IQ columns)
      whose band contains `age`; header cells that are not numbers are
      skipped. */
  function AgeColumn(header: seq<Cell>, age: real): (r: Option<int>)
    ensures r.Some? ==> 1 <= r.value < |header| - 2 && Holds(header[r.value], c => InBand(age, c))
    ensures r.Some? ==> forall j :: 1 <= j < r.value ==> !Holds(header[j], c => InBand(age, c))
    ensures r.None? <==> forall j :: 1 <= j < |header| - 2 ==> !Holds(header[j], c => InBand(age, c))
  {
    if |header| < 3 then None else FirstFrom(header, 1, |header| - 2, c => InBand(age, c))
  }

  /** Column `col` of the table, top to bottom. */
  function Column(norm: seq<seq<Cell>>, col: nat): (cells: seq<Cell>)
    requires forall k :: 0 <= k < |norm| ==> col < |norm[k]|
    ensures |cells| == |norm| && forall k :: 0 <= k < |norm| ==> cells[k] == norm[k][col]
  {
    seq(|norm|, k requires 0 <= k < |norm| => norm[k][col])
  }

  /** The end of the run of cells equal to `raw` that starts at `lo`. */
  function RunEnd(cells: seq<Cell>, lo: int, hi: int, raw: real): (r: int)
    requires 0 <= lo <= hi <= |cells|
    ensures lo <= r <= hi
    ensures forall j :: lo <= j < r ==> cells[j] == Some(raw)
    ensures r < hi ==> cells[r] != Some(raw)
    decreases hi - lo
  {
    if lo < hi && cells[lo] == Some(raw) then RunEnd(cells, lo + 1, hi, raw) else lo
  }

  /** The scanned rows of a column run from 3 up to, not including, the
      third row from the bottom. */
  function ScanEnd(cells: seq<Cell>): int
  {
    |cells| - 2
  }

  /** The row whose percentile a raw score earns in one age column. When no
      scanned cell reaches the raw score it is the top row 2; when every
      present cell exceeds it, the bottom row; otherwise the middle of the
      stretch that starts at the first cell the score reaches and runs on
      over the cells equal to the score. */
  function SelectRow(cells: seq<Cell>, raw: int): (row: int)
    requires |cells| >= 3
    ensures 2 <= row < |cells|
    ensures row == 2 || row <= |cells| - 3
    ensures row == 2 <==> forall k :: 3 <= k < ScanEnd(cells) ==> !Holds(cells[k], c => c >= raw as real)
    ensures row != 2 && (forall k :: 3 <= k < ScanEnd(cells) ==> !Holds(cells[k], c => c <= raw as real))
            ==> row == |cells| - 3
  {
    var r := raw as real;
    var hi := ScanEnd(cells);
    if FirstFrom(cells, 3, hi, c => c >= r).None? then 2
    else if FirstFrom(cells, 3, hi, c => c <= r).None? then |cells| - 3
    else
      var upper := match FirstFrom(cells, 3, hi, c => r >= c) case Some(k) => k case None => 3;
      var lower := RunEnd(cells, upper, hi, r);
      (upper + lower) / 2
  }

  /** The `upper = 3` fallback is dead: once some scanned cell is at most the
      raw score, the search for the first such cell succeeds. */
  lemma UpperFallbackUnreachable(cells: seq<Cell>, raw: int)
    requires |cells| >= 3
    requires FirstFrom(cells, 3, ScanEnd(cells), c => c <= raw as real).Some?
    ensures FirstFrom(cells, 3, ScanEnd(cells), c => raw as real >= c).Some?
  {
    var k := FirstFrom(cells, 3, ScanEnd(cells), c => c <= raw as real).value;
    assert Holds(cells[k], c => raw as real >= c);
  }

  /** A column read down the table, with every scanned cell present and the
      scores never increasing. */
  predicate Descending(cells: seq<Cell>)
  {
    (forall k :: 3 <= k < ScanEnd(cells) ==> cells[k].Some?)
    && forall i, j :: 3 <= i < j < ScanEnd(cells) ==> cells[j].value <= cells[i].value
  }

  /** In a descending column the selected row is the middle of the run of
      cells equal to the raw score, `[a, b)` (empty when the score falls
      strictly between two cells), provided some cell reaches the score. */
  lemma {:induction false} SelectRowInDescendingColumn(cells: seq<Cell>, raw: int, a: int, b: int)
    requires |cells| >= 3 && Descending(cells)
    requires 3 <= a <= b <= ScanEnd(cells) && a < ScanEnd(cells)
    requires a == 3 || cells[a - 1].value > raw as real
    requires forall j :: a <= j < b ==> cells[j] == Some(raw as real)
    requires b == ScanEnd(cells) || cells[b].value < raw as real
    requires a > 3 || a < b
    ensures SelectRow(cells, raw) == (a + b) / 2
  {
    var r := raw as real;
    var hi := ScanEnd(cells);
    if a > 3 {
      assert Holds(cells[3], c => c >= r) by {
        assert 3 == a - 1 || cells[a - 1].value <= cells[3].value;
      }
    } else {
      assert Holds(cells[a], c => c >= r);
    }
    assert Holds(cells[a], c => c <= r) by {
      if a == b {
        assert cells[b].value < r;
      }
    }
    var upper := FirstFrom(cells, 3, hi, c => r >= c).value;
    assert upper == a by {
      forall j | 3 <= j < a
        ensures !Holds(cells[j], c => r >= c)
      {
        assert j == a - 1 || cells[a - 1].value <= cells[j].value;
      }
    }
    var lower := RunEnd(cells, upper, hi, r);
    assert lower == b;
  }

  /** Percentile, Z score and IQ, each absent when the norm table has no
      value for it. */
  datatype Score = Score(percentile: Option<real>, zScore: Option<real>, iq: Option<int>)

  const NoScore := Score(None, None, None)

  /** `int(iq)` on a present IQ. */
  function TruncateCell(c: Cell): (r: Option<int>)
    ensures r.Some? <==> c.Some?
    ensures c.Some? && c.value >= 0.0 ==> r.value as real <= c.value < r.value as real + 1.0
  {
    match c
    case None => None
    case Some(x) => Some(Analysis.Truncate(x))
  }

  /** `calculate_score`: the age picks a column; no column gives no score.
      Otherwise the raw score picks a row of that column and the result is
      the row's P, Z and IQ cells, the IQ truncated to an integer. */
  function CalculateScore(norm: seq<seq<Cell>>, age: real, raw: int): (r: Score)
    requires WellFormed(norm)
    ensures AgeColumn(norm[0], age).None? ==> r == NoScore
    ensures AgeColumn(norm[0], age).Some? ==>
      exists row :: 2 <= row < |norm|
        && r.percentile == norm[row][0]
        && r.zScore == norm[row][|norm[0]| - 2]
        && r.iq == TruncateCell(norm[row][|norm[0]| - 1])
    ensures ScoreRow(norm, age, raw).Some? ==>
      var row := ScoreRow(norm, age, raw).value;
      r.percentile == norm[row][0]
      && r.zScore == norm[row][|norm[0]| - 2]
      && r.iq == TruncateCell(norm[row][|norm[0]| - 1])
  {
    match AgeColumn(norm[0], age)
    case None => NoScore
    case Some(col) =>
      var row := SelectRow(Column(norm, col), raw);
      var width := |norm[row]|;
      Score(norm[row][0], norm[row][width - 2], TruncateCell(norm[row][width - 1]))
  }

  /** The row the score comes from, when there is one: the row the raw
      score selects in the age's column. */
  function ScoreRow(norm: seq<seq<Cell>>, age: real, raw: int): (r: Option<int>)
    requires WellFormed(norm)
    ensures r.Some? ==> 2 <= r.value < |norm|
    ensures r.Some? <==> AgeColumn(norm[0], age).Some?
    ensures r.Some? ==> r.value == SelectRow(Column(norm, AgeColumn(norm[0], age).value), raw)
  {
    match AgeColumn(norm[0], age)
    case None => None
    case Some(col) => Some(SelectRow(Column(norm, col), raw))
  }

  /** A raw score no scanned cell of its column reaches earns the top row's
      percentile, and one below every cell the bottom row's. */
  lemma ScoreAtExtremes(norm: seq<seq<Cell>>, age: real, raw: int)
    requires WellFormed(norm) && AgeColumn(norm[0], age).Some?
    ensures var cells := Column(norm, AgeColumn(norm[0], age).value);
      (forall k :: 3 <= k < |norm| - 2 ==> !Holds(cells[k], c => c >= raw as real))
      ==> ScoreRow(norm, age, raw) == Some(2)
    ensures var cells := Column(norm, AgeColumn(norm[0], age).value);
      (exists k :: 3 <= k < |norm| - 2 && Holds(cells[k], c => c >= raw as real))
      && (forall k :: 3 <= k < |norm| - 2 ==> !Holds(cells[k], c => c <= raw as real))
      ==> ScoreRow(norm, age, raw) == Some(|norm| - 3)
  {
  }
}

=== FILE: raven_scraper.dfy ===
/** The browser-driven Raven image scraper: the file name each picture is
    saved under (its extension taken from the URL's path), the filter that
    records image requests seen on the network, and how a question's page
    pictures are split into the main picture and six options. The browser,
    the page and the downloads themselves are left out: the page's picture
    URLs are a parameter and the result is the list of planned downloads. */
module RavenScraper {
  import opened Wrappers
  import Text
  import Seqs
  import RavenDownload

  // ---------------------------------------------------------------------
  // URL path, base name and extension
  // ---------------------------------------------------------------------

  /** The first index of `c` in `s` at or after `from`. */
  function Find(s: string, c: char, from: nat): (r: Option<nat>)
    ensures r.Some? ==> from <= r.value < |s| && s[r.value] == c
    ensures r.Some? ==> forall i :: from <= i < r.value ==> s[i] != c
    ensures r.None? ==> forall i :: from <= i < |s| ==> s[i] != c
    decreases |s| - from
  {
    if from >= |s| then None
    else if s[from] == c then Some(from)
    else Find(s, c, from + 1)
  }

  /** The last index of `c` in `s`. */
  function RFind(s: string, c: char): (r: Option<nat>)
    ensures r.Some? ==> r.value < |s| && s[r.value] == c && forall i :: r.value < i < |s| ==> s[i] != c
    ensures r.None? ==> c !in s
    decreases |s|
  {
    if |s| == 0 then None
    else if s[|s| - 1] == c then Some(|s| - 1)
    else
      var r := RFind(s[..|s| - 1], c);
      assert s == s[..|s| - 1] + [s[|s| - 1]];
      r
  }

  predicate IsSchemeChar(c: char)
  {
    'a' <= c <= 'z' || 'A' <= c <= 'Z' || '0' <= c <= '9' || c == '+' || c == '-' || c == '.'
  }

  /** Schemes whose last path segment may carry `;parameters`, as the
      `uses_params` list of CPython 3.12's `urllib.parse` has them. */
  const UsesParams: seq<string> := ["", "ftp", "hdl", "prospero", "http", "imap", "https", "shttp",
    "rtsp", "rtsps", "rtspu", "sip", "sips", "mms", "sftp", "tel"]

  /** `urlparse(url)`: its scheme, lower-cased, and its path. Tabs and line
      breaks are dropped and leading control characters and spaces removed
      first; a scheme is a letter followed by scheme characters up to the
      first colon; a `//` authority runs to the first `/`, `?` or `#`; then
      the fragment, the query and, for schemes that use them, the last
      segment's parameters are cut off. */
  function ParseUrl(url: string): (r: (string, string))
  {
    var split := SplitScheme(Cleaned(url));
    (split.0, PathPart(split.0, split.1))
  }

  /** Tabs and line breaks dropped, then leading control characters and
      spaces. */
  function Cleaned(url: string): string
  {
    Text.TrimStart(Seqs.Filter(url, NotTabOrBreak), IsControlOrSpace)
  }

  predicate NotTabOrBreak(c: char)
  {
    c != '\t' && c != '\r' && c != '\n'
  }

  predicate IsControlOrSpace(c: char)
  {
    c <= ' '
  }

  /** A letter followed by scheme characters, `n` of them in all. */
  predicate IsScheme(u: string, n: nat)
    requires n <= |u|
  {
    n > 0 && ('a' <= u[0] <= 'z' || 'A' <= u[0] <= 'Z') && forall i :: 0 <= i < n ==> IsSchemeChar(u[i])
  }

  /** The lower-cased scheme and what follows its colon, or no scheme. */
  function SplitScheme(u: string): (r: (string, string))
  {
    var colon := Find(u, ':', 0);
    if colon.Some? && IsScheme(u, colon.value) then (Text.AsciiLower(u[..colon.value]), u[colon.value + 1..])
    else ("", u)
  }

  /** The path: authority, fragment, query and parameters removed. */
  function PathPart(scheme: string, afterScheme: string): string
  {
    var rest := if |afterScheme| >= 2 && afterScheme[..2] == "//" then AfterAuthority(afterScheme) else afterScheme;
    var noFragment := match Find(rest, '#', 0) case Some(i) => rest[..i] case None => rest;
    var noQuery := match Find(noFragment, '?', 0) case Some(i) => noFragment[..i] case None => noFragment;
    if scheme in UsesParams then WithoutParams(noQuery) else noQuery
  }

  /** What follows the authority of `//host...`. */
  function AfterAuthority(u: string): (r: string)
    requires |u| >= 2
    ensures |r| <= |u|
  {
    var ends := [Find(u, '/', 2), Find(u, '?', 2), Find(u, '#', 2)];
    var delim := EarliestOr(ends, |u|);
    u[delim..]
  }

  function EarliestOr(found: seq<Option<nat>>, bound: nat): (r: nat)
    requires forall k :: 0 <= k < |found| ==> found[k].Some? ==> found[k].value <= bound
    ensures r <= bound
    ensures forall k :: 0 <= k < |found| ==> found[k].Some? ==> r <= found[k].value
    ensures r == bound || exists k :: 0 <= k < |found| && found[k] == Some(r)
  {
    if |found| == 0 then bound
    else
      var rest := EarliestOr(found[1..], bound);
      assert forall k :: 1 <= k < |found| ==> found[k] == found[1..][k - 1];
      if found[0].Some? && found[0].value < rest then found[0].value else rest
  }

  /** `_splitparams`: the path up to the first `;` of its last segment. */
  function WithoutParams(path: string): (r: string)
    ensures |r| <= |path| && r == path[..|r|]
  {
    if ';' !in path then path
    else
      var from := match RFind(path, '/') case Some(i) => i case None => 0;
      match Find(path, ';', from)
      case Some(i) => path[..i]
      case None => path
  }

  /** `os.path.basename`: what follows the last `/`. */
  function Basename(path: string): (r: string)
    ensures '/' !in r
    ensures |r| <= |path| && r == path[|path| - |r|..]
    ensures |r| < |path| ==> path[|path| - |r| - 1] == '/'
  {
    match RFind(path, '/')
    case Some(i) => path[i + 1..]
    case None => path
  }

  /** `os.path.splitext(name)[1]`: from the last dot, unless every
      character before that dot is a dot too. */
  function Extension(name: string): (ext: string)
    ensures ext == "" || (|ext| <= |name| && ext == name[|name| - |ext|..] && ext[0] == '.' && '.' !in ext[1..])
    ensures ext == "" && '.' in name ==> forall i :: 0 <= i < RFind(name, '.').value ==> name[i] == '.'
  {
    match RFind(name, '.')
    case None => ""
    case Some(d) =>
      if exists i :: 0 <= i < d && name[i] != '.' then name[d..] else ""
  }

  const DefaultExtension := ".jpg"

  /** The extension a picture is saved with: the URL path's, or `.jpg`. */
  function UrlExtension(url: string): (ext: string)
    ensures |ext| > 0 && ext[0] == '.'
  {
    var e := Extension(Basename(ParseUrl(url).1));
    if e == "" then DefaultExtension else e
  }

  /** `normalize_filename`; an option number left out is written `None`, as
      Python formats it. */
  function NormalizeFilename(url: string, q: int, isMain: bool, optionNum: Option<int>): (name: string)
    ensures isMain ==> name == RavenDownload.MainFilename(q, UrlExtension(url))
    ensures !isMain && optionNum.Some? ==> name == RavenDownload.OptionFilename(q, optionNum.value, UrlExtension(url))
  {
    var ext := UrlExtension(url);
    if isMain then RavenDownload.MainFilename(q, ext)
    else match optionNum
      case Some(n) => RavenDownload.OptionFilename(q, n, ext)
      case None => "question_" + Text.Pad2(q) + "_option_None" + ext
  }

  /** For an ordinary web address, `urlparse` hands back exactly the path
      that follows the host. */
  lemma PathOfPlainUrl(host: string, path: string)
    requires forall i :: 0 <= i < |host| ==> host[i] !in "/?#\t\r\n"
    requires |path| > 0 && path[0] == '/'
    requires forall i :: 0 <= i < |path| ==> path[i] !in "?#;\t\r\n"
    ensures ParseUrl("https://" + host + path) == ("https", path)
  {
    var url := "https://" + host + path;
    PlainUrlIsClean(host, path);
    HttpsScheme(host, path);
    PlainPath(host, path);
  }

  lemma PlainPath(host: string, path: string)
    requires forall i :: 0 <= i < |host| ==> host[i] !in "/?#"
    requires |path| > 0 && path[0] == '/'
    requires forall i :: 0 <= i < |path| ==> path[i] !in "?#;"
    ensures PathPart("https", "//" + host + path) == path
  {
    AuthorityEndsAtPath(host, path);
    assert ("//" + host + path)[..2] == "//";
    assert Find(path, '#', 0).None? && Find(path, '?', 0).None?;
    assert ';' !in path;
  }

  lemma PlainUrlIsClean(host: string, path: string)
    requires forall i :: 0 <= i < |host| ==> host[i] !in "\t\r\n"
    requires forall i :: 0 <= i < |path| ==> path[i] !in "\t\r\n"
    ensures Cleaned("https://" + host + path) == "https://" + host + path
  {
    var url := "https://" + host + path;
    forall i | 0 <= i < |url| ensures NotTabOrBreak(url[i]) {
      if i >= 8 + |host| {
        assert url[i] == path[i - 8 - |host|];
      } else if i >= 8 {
        assert url[i] == host[i - 8];
      }
    }
    FilterKeepsAll(url, NotTabOrBreak);
  }

  lemma HttpsScheme(host: string, path: string)
    ensures SplitScheme("https://" + host + path) == ("https", "//" + host + path)
  {
    var url := "https://" + host + path;
    FindAt(url, ':', 0, 5);
    assert url[..5] == "https";
    assert forall i :: 0 <= i < 5 ==> IsSchemeChar(url[i]);
    assert Text.AsciiLower("https") == "https";
    assert url[6..] == "//" + host + path;
  }

  lemma AuthorityEndsAtPath(host: string, path: string)
    requires forall i :: 0 <= i < |host| ==> host[i] !in "/?#"
    requires |path| > 0 && path[0] == '/'
    ensures AfterAuthority("//" + host + path) == path
  {
    var u := "//" + host + path;
    var d := 2 + |host|;
    forall i | 2 <= i < d ensures u[i] !in "/?#" {
      assert u[i] == host[i - 2];
    }
    FindAt(u, '/', 2, d);
    if Find(u, '?', 2).Some? {
      assert Find(u, '?', 2).value >= d;
    }
    if Find(u, '#', 2).Some? {
      assert Find(u, '#', 2).value >= d;
    }
    assert u[d..] == path;
  }

  lemma {:induction false} FindAt(s: string, c: char, from: nat, i: nat)
    requires from <= i < |s| && s[i] == c
    requires forall j :: from <= j < i ==> s[j] != c
    ensures Find(s, c, from) == Some(i)
    decreases i - from
  {
    if from < i {
      FindAt(s, c, from + 1, i);
    }
  }

  lemma {:induction false} FilterKeepsAll(s: string, p: char -> bool)
    requires forall i :: 0 <= i < |s| ==> p(s[i])
    ensures Seqs.Filter(s, p) == s
    decreases |s|
  {
    if |s| > 0 {
      FilterKeepsAll(s[1..], p);
      assert [s[0]] + s[1..] == s;
    }
  }

  /** A base name with a dot after some other character keeps its own
      extension; one without a dot gets `.jpg`. */
  lemma ExtensionOfName(stem: string, ext: string)
    requires |stem| > 0 && stem[0] != '.' && '/' !in stem
    requires |ext| > 0 && ext[0] == '.' && '.' !in ext[1..] && '/' !in ext
    ensures Extension(stem + ext) == ext
  {
    var name := stem + ext;
    assert name[|stem|] == '.';
    assert forall i :: |stem| < i < |name| ==> name[i] == ext[i - |stem|] && ext[i - |stem|] in ext[1..];
    assert RFind(name, '.') == Some(|stem|);
    assert name[0] != '.';
    assert name[|stem|..] == ext;
  }

  // ---------------------------------------------------------------------
  // Recording image requests
  // ---------------------------------------------------------------------

  const ImageExtensions: seq<string> := [".jpg", ".jpeg", ".png", ".gif", ".webp"]

  predicate IsImageUrl(url: string)
  {
    Text.ContainsAny(Text.AsciiLower(url), ImageExtensions)
  }

  /** `handle_network_request`: a request whose URL names an image is added
      to the current question's list; every other request leaves it. */
  function HandleNetworkRequest(images: seq<string>, url: string): (r: seq<string>)
    ensures IsImageUrl(url) ==> r == images + [url]
    ensures !IsImageUrl(url) ==> r == images
  {
    if IsImageUrl(url) then images + [url] else images
  }

  /** Over a run of requests, exactly the image URLs are recorded, in the
      order they were seen. */
  lemma {:induction false} RecordedRequests(images: seq<string>, urls: seq<string>)
    ensures RecordAll(images, urls) == images + Seqs.Filter(urls, IsImageUrl)
    decreases |urls|
  {
    if |urls| > 0 {
      RecordedRequests(HandleNetworkRequest(images, urls[0]), urls[1..]);
    }
  }

  function RecordAll(images: seq<string>, urls: seq<string>): seq<string>
    decreases |urls|
  {
    if |urls| == 0 then images else RecordAll(HandleNetworkRequest(images, urls[0]), urls[1..])
  }

  // ---------------------------------------------------------------------
  // One question's pictures
  // ---------------------------------------------------------------------

  const QuestionKeywords: seq<string> := ["iq", "test", "question", "raven"]
  const SkipKeywords: seq<string> := ["icon", "logo", "avatar", "banner"]

  predicate LooksLikeQuestion(img: string)
  {
    Text.ContainsAny(Text.AsciiLower(img), QuestionKeywords) || Text.StartsWith(img, "data:")
  }

  predicate NotDecoration(img: string)
  {
    !Text.ContainsAny(Text.AsciiLower(img), SkipKeywords)
  }

  /** The pictures taken as the question's: those that look like a test
      picture, or when there are none, every picture that is not a
      decoration. */
  function QuestionImages(pageImages: seq<string>): (r: seq<string>)
    ensures (exists img :: img in pageImages && LooksLikeQuestion(img)) ==> r == Seqs.Filter(pageImages, LooksLikeQuestion)
    ensures (forall img :: img in pageImages ==> !LooksLikeQuestion(img)) ==> r == Seqs.Filter(pageImages, NotDecoration)
  {
    var picked := Seqs.Filter(pageImages, LooksLikeQuestion);
    if |picked| == 0 then Seqs.Filter(pageImages, NotDecoration)
    else
      assert picked[0] in picked;
      picked
  }

  /** `process_question`: with seven pictures or more, the first is saved as
      the main picture and the next six as options 1 to 6, each with its
      URL's extension; with fewer, every picture is saved as
      `question_XX_img_NN.jpg`, so no two of them share a name. */
  function ProcessQuestion(q: int, pageImages: seq<string>): (ds: seq<RavenDownload.Download>)
    ensures var imgs := QuestionImages(pageImages);
      if |imgs| >= 7 then MainAndOptions(q, imgs, Extensions(imgs[..7]), ds)
      else |ds| == |imgs| && forall i :: 0 <= i < |imgs| ==> ds[i].url == imgs[i]
    ensures |QuestionImages(pageImages)| < 7 ==>
      forall i, j :: 0 <= i < j < |ds| ==> ds[i].filename != ds[j].filename
  {
    var imgs := QuestionImages(pageImages);
    if |imgs| >= 7 then MainThenOptions(q, imgs, Extensions(imgs[..7])) else NumberedImages(q, imgs)
  }

  /** Fewer than seven pictures, each saved as `question_XX_img_NN.jpg`:
      the numbers are single digits, so the names are pairwise distinct. */
  function NumberedImages(q: int, imgs: seq<string>): (ds: seq<RavenDownload.Download>)
    requires |imgs| < 7
    ensures |ds| == |imgs| && forall i :: 0 <= i < |imgs| ==> ds[i].url == imgs[i]
    ensures forall i, j :: 0 <= i < j < |ds| ==> ds[i].filename != ds[j].filename
  {
    var prefix := "question_" + Text.Pad2(q) + "_img_";
    var ds := seq(|imgs|, i requires 0 <= i < |imgs| =>
      RavenDownload.Download(imgs[i], prefix + Text.Pad2(i + 1) + ".jpg"));
    forall i, j | 0 <= i < j < |ds|
      ensures ds[i].filename != ds[j].filename
    {
      assert ds[i].filename[|prefix| + 1] == Text.DigitChar(i + 1);
      assert ds[j].filename[|prefix| + 1] == Text.DigitChar(j + 1);
    }
    ds
  }

  /** The extension each picture is saved with. */
  function Extensions(imgs: seq<string>): (exts: seq<string>)
    ensures |exts| == |imgs|
    ensures forall i :: 0 <= i < |imgs| ==> exts[i] == UrlExtension(imgs[i])
  {
    seq(|imgs|, i requires 0 <= i < |imgs| => UrlExtension(imgs[i]))
  }

  /** The first picture saved as the main one and the next six as options 1
      to 6, each with its own extension. */
  predicate MainAndOptions(q: int, imgs: seq<string>, exts: seq<string>, ds: seq<RavenDownload.Download>)
    requires |imgs| >= 7 && |exts| == 7
  {
    |ds| == 7
    && ds[0] == RavenDownload.Download(imgs[0], RavenDownload.MainFilename(q, exts[0]))
    && forall i :: 1 <= i <= 6 ==> ds[i] == RavenDownload.Download(imgs[i], RavenDownload.OptionFilename(q, i, exts[i]))
  }

  function MainThenOptions(q: int, imgs: seq<string>, exts: seq<string>): (ds: seq<RavenDownload.Download>)
    requires |imgs| >= 7 && |exts| == 7
    ensures MainAndOptions(q, imgs, exts, ds)
  {
    seq(7, i requires 0 <= i < 7 =>
      RavenDownload.Download(imgs[i],
        if i == 0 then RavenDownload.MainFilename(q, exts[0]) else RavenDownload.OptionFilename(q, i, exts[i])))
  }

  /** With seven pictures or more, the names follow the downloader's scheme:
      for `.jpg` pictures they are exactly the downloader's seven names. */
  lemma ScrapedNamesMatchDownloader(q: int, pageImages: seq<string>)
    requires |QuestionImages(pageImages)| >= 7
    requires forall i :: 0 <= i < 7 ==> UrlExtension(QuestionImages(pageImages)[i]) == ".jpg"
    ensures forall slot :: 0 <= slot < 7 ==> ProcessQuestion(q, pageImages)[slot].filename == RavenDownload.SlotFilename(q, slot)
  {
  }
}

=== FILE: raven_service.dfy ===
/** The Raven reasoning test session: 72 questions in six groups of twelve,
    the answer key, saving answers (one per question and session, updated in
    place when the question is answered again) and completing a session
    with its raw score and norm scores. */
module RavenTest {
  import opened Wrappers
  import opened Seqs
  import Text
  import RavenScoring

  const Groups: seq<string> := ["A", "AB", "B", "C", "D", "E"]
  const QuestionsPerGroup := 12
  const TotalQuestions := 72

  const ImagePrefix := "/api/raven-test/images/question_"

  datatype QuestionInfo = QuestionInfo(
    questionId: int,
    groupName: string,
    questionInGroup: int,
    numOptions: int,
    mainImageUrl: string,
    optionImageUrls: seq<string>,
    userAnswer: Option<int>)

  function MainImageUrl(q: int): string
  {
    ImagePrefix + Text.Pad2(q) + "_main.jpg"
  }

  function OptionImageUrl(q: int, option: int): string
  {
    ImagePrefix + Text.Pad2(q) + "_option_" + Text.IntToString(option) + ".jpg"
  }

  /** `(q - 1) // 12`: Python's floor division. */
  function GroupIndex(q: int): int
  {
    (q - 1) / QuestionsPerGroup
  }

  /** `get_question_info`: the group and the position within it, six options
      in the first three groups and eight after, and one image URL per
      option. `GROUPS[group_index]` accepts negative indices, so question
      numbers down to -71 get a group; others raise `IndexError`. */
  function GetQuestionInfo(q: int, userAnswer: Option<int>): (r: Result<QuestionInfo, string>)
    ensures r.Success? <==> -71 <= q <= TotalQuestions
    ensures r.Success? ==>
      var info := r.value;
      1 <= info.questionInGroup <= QuestionsPerGroup
      && info.questionId == q && info.userAnswer == userAnswer
      && (info.numOptions == 6 || info.numOptions == 8)
      && |info.optionImageUrls| == info.numOptions
      && (forall i :: 0 <= i < info.numOptions ==> info.optionImageUrls[i] == OptionImageUrl(q, i + 1))
      && info.mainImageUrl == MainImageUrl(q)
    ensures 1 <= q <= TotalQuestions ==>
      var info := r.value;
      info.groupName == Groups[(q - 1) / 12]
      && q == 12 * ((q - 1) / 12) + info.questionInGroup
      && (info.numOptions == 6 <==> q <= 36)
  {
    var g := GroupIndex(q);
    match PyIndex(Groups, g)
    case None => Failure("list index out of range")
    case Some(name) =>
      var n := if g < 3 then 6 else 8;
      Success(QuestionInfo(q, name, (q - 1) % QuestionsPerGroup + 1, n, MainImageUrl(q),
                           seq(n, i => OptionImageUrl(q, i + 1)), userAnswer))
  }

  /** The group and position of a valid question number identify it: two
      questions with the same group name and position are the same. */
  lemma QuestionNumberingIsInjective(p: int, q: int)
    requires 1 <= p <= TotalQuestions && 1 <= q <= TotalQuestions
    requires GetQuestionInfo(p, None).value.groupName == GetQuestionInfo(q, None).value.groupName
    requires GetQuestionInfo(p, None).value.questionInGroup == GetQuestionInfo(q, None).value.questionInGroup
    ensures p == q
  {
    GroupsDistinct((p - 1) / 12, (q - 1) / 12);
  }

  lemma GroupsDistinct(i: int, j: int)
    requires 0 <= i < |Groups| && 0 <= j < |Groups| && Groups[i] == Groups[j]
    ensures i == j
  {
  }

  /** Question 0 and below wrap to the end of the group list but keep six
      options, since their group index is negative. */
  lemma NonPositiveQuestionWraps(q: int)
    requires -71 <= q <= 0
    ensures GetQuestionInfo(q, None).value.groupName == Groups[6 + (q - 1) / 12]
    ensures GetQuestionInfo(q, None).value.numOptions == 6
  {
  }

  /** The image names carry the question number as two digits. */
  lemma ImageUrlsNameTheQuestion(q: int, option: int)
    requires 1 <= q <= 99
    ensures var u := MainImageUrl(q);
      |u| > |ImagePrefix| + 2 && Text.AllDigits(u[|ImagePrefix|..|ImagePrefix| + 2])
      && Text.DigitsValue(u[|ImagePrefix|..|ImagePrefix| + 2]) == q
    ensures OptionImageUrl(q, option)[..|ImagePrefix| + 2] == MainImageUrl(q)[..|ImagePrefix| + 2]
  {
    var u := MainImageUrl(q);
    assert u[|ImagePrefix|..|ImagePrefix| + 2] == Text.Pad2(q);
  }

  /** The answer key: for each group name, the correct option of each of its
      questions in order. */
  type AnswerKey = map<string, seq<int>>

  /** `answer_key[group_name][question_in_group]`: fails as the source does
      on a question number without a group (`IndexError`), a group missing
      from the key (`KeyError`, also what an unreadable key file leads to)
      or a group list too short. */
  function CorrectAnswer(key: AnswerKey, q: int): (r: Result<int, string>)
    ensures r.Success? <==>
      -71 <= q <= TotalQuestions && PyIndex(Groups, GroupIndex(q)).value in key
      && (q - 1) % 12 < |key[PyIndex(Groups, GroupIndex(q)).value]|
    ensures 1 <= q <= TotalQuestions && r.Success? ==> r.value == key[Groups[(q - 1) / 12]][(q - 1) % 12]
  {
    match PyIndex(Groups, GroupIndex(q))
    case None => Failure("list index out of range")
    case Some(name) =>
      if name !in key then Failure("KeyError: " + name)
      else
        var i := (q - 1) % QuestionsPerGroup;
        if i < |key[name]| then Success(key[name][i]) else Failure("list index out of range")
  }

  datatype RavenAnswer = RavenAnswer(
    userId: int,
    sessionId: int,
    questionId: int,
    groupName: string,
    userAnswer: int,
    correctAnswer: int,
    isCorrect: bool,
    responseTime: Option<int>)

  /** One answer as submitted. */
  datatype AnswerItem = AnswerItem(questionId: int, userAnswer: int, responseTime: Option<int>)

  /** The position of the first stored answer to question `q` in session `s`. */
  function AnswerIndex(answers: seq<RavenAnswer>, s: int, q: int): (r: Option<nat>)
    ensures r.None? <==> forall i :: 0 <= i < |answers| ==> !(answers[i].sessionId == s && answers[i].questionId == q)
    ensures r.Some? ==> r.value < |answers| && answers[r.value].sessionId == s && answers[r.value].questionId == q
    decreases |answers|
  {
    if |answers| == 0 then None
    else if answers[0].sessionId == s && answers[0].questionId == q then Some(0)
    else
      match AnswerIndex(answers[1..], s, q)
      case None => None
      case Some(i) => Some(i + 1)
  }

  /** At most one stored answer per session and question. */
  predicate OnePerQuestion(answers: seq<RavenAnswer>)
  {
    forall i, j :: 0 <= i < j < |answers| ==>
      !(answers[i].sessionId == answers[j].sessionId && answers[i].questionId == answers[j].questionId)
  }

  /** The upsert at the heart of `save_answer`: an existing answer to the
      question in this session gets the new choice, correctness and time;
      otherwise a new answer is appended. */
  function Upsert(answers: seq<RavenAnswer>, userId: int, s: int, group: string, item: AnswerItem, correct: int)
    : (r: seq<RavenAnswer>)
    ensures OnePerQuestion(answers) ==> OnePerQuestion(r)
    ensures AnswerIndex(answers, s, item.questionId).None? ==> |r| == |answers| + 1 && r[..|answers|] == answers
    ensures AnswerIndex(answers, s, item.questionId).Some? ==> |r| == |answers|
    ensures forall i :: 0 <= i < |answers| && !(answers[i].sessionId == s && answers[i].questionId == item.questionId)
                        ==> r[i] == answers[i]
    ensures AnswerIndex(r, s, item.questionId).Some?
    ensures var a := r[AnswerIndex(r, s, item.questionId).value];
      a.userAnswer == item.userAnswer && a.isCorrect == (item.userAnswer == correct)
      && a.responseTime == item.responseTime
  {
    var isCorrect := item.userAnswer == correct;
    match AnswerIndex(answers, s, item.questionId)
    case Some(i) =>
      var r := answers[i := answers[i].(userAnswer := item.userAnswer, isCorrect := isCorrect,
                                        responseTime := item.responseTime)];
      assert AnswerIndex(r, s, item.questionId) == Some(i) by {
        AnswerIndexAfterUpdate(answers, r, s, item.questionId);
      }
      r
    case None =>
      var r := answers + [RavenAnswer(userId, s, item.questionId, group, item.userAnswer, correct, isCorrect,
                                      item.responseTime)];
      assert AnswerIndex(r, s, item.questionId) == Some(|answers|) by {
        AnswerIndexAfterUpdate(answers, r[..|answers|], s, item.questionId);
        AnswerIndexAppend(answers, r, s, item.questionId);
      }
      r
  }

  /** The first match is unchanged by edits that keep every session and
      question number. */
  lemma {:induction false} AnswerIndexAfterUpdate(a: seq<RavenAnswer>, b: seq<RavenAnswer>, s: int, q: int)
    requires |a| == |b|
    requires forall i :: 0 <= i < |a| ==> a[i].sessionId == b[i].sessionId && a[i].questionId == b[i].questionId
    ensures AnswerIndex(a, s, q) == AnswerIndex(b, s, q)
    decreases |a|
  {
    if |a| > 0 {
      AnswerIndexAfterUpdate(a[1..], b[1..], s, q);
    }
  }

  lemma {:induction false} AnswerIndexAppend(a: seq<RavenAnswer>, r: seq<RavenAnswer>, s: int, q: int)
    requires AnswerIndex(a, s, q).None?
    requires |r| == |a| + 1 && r[..|a|] == a && r[|a|].sessionId == s && r[|a|].questionId == q
    ensures AnswerIndex(r, s, q) == Some(|a|)
    decreases |a|
  {
    if |a| > 0 {
      assert r[1..][..|a| - 1] == a[1..];
      AnswerIndexAppend(a[1..], r[1..], s, q);
    }
  }

  /** `save_answer`: an unknown session or user raises before anything is
      stored, as does a question the answer key cannot grade; otherwise the
      answer is upserted and graded against the key. */
  function SaveAnswer(sessionExists: bool, userExists: bool, key: AnswerKey, answers: seq<RavenAnswer>,
                      userId: int, s: int, item: AnswerItem): (r: Result<seq<RavenAnswer>, string>)
    ensures r.Success? <==> sessionExists && userExists && CorrectAnswer(key, item.questionId).Success?
    ensures !sessionExists ==> r.error == Text.MissingRow("测试会话不存在", s)
    ensures sessionExists && !userExists ==> r.error == Text.MissingRow("用户不存在", userId)
    ensures r.Success? ==> OnePerQuestion(answers) ==> OnePerQuestion(r.value)
    ensures r.Success? ==>
      AnswerIndex(r.value, s, item.questionId).Some?
      && r.value[AnswerIndex(r.value, s, item.questionId).value].isCorrect
         == (item.userAnswer == CorrectAnswer(key, item.questionId).value)
  {
    if !sessionExists then Failure(Text.MissingRow("测试会话不存在", s))
    else if !userExists then Failure(Text.MissingRow("用户不存在", userId))
    else
      var correct :- CorrectAnswer(key, item.questionId);
      Success(Upsert(answers, userId, s, PyIndex(Groups, GroupIndex(item.questionId)).value, item, correct))
  }

  /** The upserts of `save_answers_batch`, in order; the first item the key
      cannot grade raises and, as nothing is committed, stores nothing. */
  function UpsertAll(key: AnswerKey, answers: seq<RavenAnswer>, userId: int, s: int, items: seq<AnswerItem>)
    : (r: Result<seq<RavenAnswer>, string>)
    ensures r.Success? <==> forall i :: 0 <= i < |items| ==> CorrectAnswer(key, items[i].questionId).Success?
    decreases |items|
  {
    if |items| == 0 then Success(answers)
    else
      var item := items[0];
      var correct :- CorrectAnswer(key, item.questionId);
      var next := Upsert(answers, userId, s, PyIndex(Groups, GroupIndex(item.questionId)).value, item, correct);
      UpsertAll(key, next, userId, s, items[1..])
  }

  /** `save_answers_batch`: returns the number of items saved. */
  function SaveAnswersBatch(sessionExists: bool, userExists: bool, key: AnswerKey, answers: seq<RavenAnswer>,
                            userId: int, s: int, items: seq<AnswerItem>): (r: Result<(nat, seq<RavenAnswer>), string>)
    ensures r.Success? <==> sessionExists && userExists
                             && forall i :: 0 <= i < |items| ==> CorrectAnswer(key, items[i].questionId).Success?
    ensures !sessionExists ==> r.error == Text.MissingRow("测试会话不存在", s)
    ensures sessionExists && !userExists ==> r.error == Text.MissingRow("用户不存在", userId)
    ensures r.Success? ==> r.value.0 == |items|
  {
    if !sessionExists then Failure(Text.MissingRow("测试会话不存在", s))
    else if !userExists then Failure(Text.MissingRow("用户不存在", userId))
    else
      var stored :- UpsertAll(key, answers, userId, s, items);
      Success((|items|, stored))
  }

  /** Saving a batch keeps one answer per question, however often the batch
      repeats a question. */
  lemma {:induction false} UpsertAllKeepsOnePerQuestion(key: AnswerKey, answers: seq<RavenAnswer>, userId: int, s: int,
                                                        items: seq<AnswerItem>)
    requires OnePerQuestion(answers) && UpsertAll(key, answers, userId, s, items).Success?
    ensures OnePerQuestion(UpsertAll(key, answers, userId, s, items).value)
    decreases |items|
  {
    if |items| > 0 {
      var item := items[0];
      var correct := CorrectAnswer(key, item.questionId).value;
      var next := Upsert(answers, userId, s, PyIndex(Groups, GroupIndex(item.questionId)).value, item, correct);
      UpsertAllKeepsOnePerQuestion(key, next, userId, s, items[1..]);
    }
  }

  /** An item's answer stays stored after the rest of the batch: later items
      for other questions leave it alone, and a later item for the same
      question replaces it. */
  lemma {:induction false} BatchStoresEveryQuestion(key: AnswerKey, answers: seq<RavenAnswer>, userId: int, s: int,
                                                    items: seq<AnswerItem>)
    requires UpsertAll(key, answers, userId, s, items).Success?
    ensures forall i :: 0 <= i < |items| ==>
      AnswerIndex(UpsertAll(key, answers, userId, s, items).value, s, items[i].questionId).Some?
    decreases |items|
  {
    if |items| > 0 {
      var item := items[0];
      var correct := CorrectAnswer(key, item.questionId).value;
      var next := Upsert(answers, userId, s, PyIndex(Groups, GroupIndex(item.questionId)).value, item, correct);
      BatchStoresEveryQuestion(key, next, userId, s, items[1..]);
      UpsertAllKeepsQuestion(key, next, userId, s, items[1..], item.questionId);
      forall i | 1 <= i < |items|
        ensures AnswerIndex(UpsertAll(key, answers, userId, s, items).value, s, items[i].questionId).Some?
      {
        assert items[1..][i - 1] == items[i];
      }
    }
  }

  /** A question already answered in the session stays answered. */
  lemma {:induction false} UpsertAllKeepsQuestion(key: AnswerKey, answers: seq<RavenAnswer>, userId: int, s: int,
                                                  items: seq<AnswerItem>, q: int)
    requires UpsertAll(key, answers, userId, s, items).Success? && AnswerIndex(answers, s, q).Some?
    ensures AnswerIndex(UpsertAll(key, answers, userId, s, items).value, s, q).Some?
    decreases |items|
  {
    if |items| > 0 {
      var item := items[0];
      var correct := CorrectAnswer(key, item.questionId).value;
      var next := Upsert(answers, userId, s, PyIndex(Groups, GroupIndex(item.questionId)).value, item, correct);
      var i := AnswerIndex(answers, s, q).value;
      if item.questionId != q {
        assert next[i] == answers[i];
      }
      UpsertAllKeepsQuestion(key, next, userId, s, items[1..], q);
    }
  }

  datatype RavenSession = RavenSession(
    id: int,
    startTime: int,
    endTime: Option<int>,
    isCompleted: bool,
    totalTimeSeconds: Option<int>,
    currentQuestion: int,
    rawScore: int,
    score: RavenScoring.Score,
    userAge: Option<real>)

  function SessionAnswers(answers: seq<RavenAnswer>, s: int): seq<RavenAnswer>
  {
    Filter(answers, InSession(s))
  }

  function InSession(s: int): RavenAnswer -> bool
  {
    (a: RavenAnswer) => a.sessionId == s
  }

  /** `complete_test_session`: the raw score is the number of correct answers
      and the progress the number of answers; the norm scores are looked up
      only when the age is known. `now` is the clock in seconds. */
  function CompleteTestSession(session: Option<RavenSession>, answers: seq<RavenAnswer>,
                               norm: seq<seq<RavenScoring.Cell>>, now: int): (r: Option<RavenSession>)
    requires RavenScoring.WellFormed(norm)
    ensures r.None? <==> session.None?
    ensures r.Some? ==>
      var mine := SessionAnswers(answers, session.value.id);
      r.value.isCompleted && r.value.endTime == Some(now)
      && r.value.rawScore == Count(mine, (a: RavenAnswer) => a.isCorrect)
      && r.value.currentQuestion == |mine|
      && 0 <= r.value.rawScore <= r.value.currentQuestion
      && r.value.totalTimeSeconds == Some(now - session.value.startTime)
      && (session.value.userAge.None? ==> r.value.score == session.value.score)
      && (session.value.userAge.Some? ==>
            r.value.score == RavenScoring.CalculateScore(norm, session.value.userAge.value, r.value.rawScore))
  {
    match session
    case None => None
    case Some(t) =>
      var mine := SessionAnswers(answers, t.id);
      var raw := Count(mine, (a: RavenAnswer) => a.isCorrect);
      var score := if t.userAge.Some? then RavenScoring.CalculateScore(norm, t.userAge.value, raw) else t.score;
      Some(t.(currentQuestion := |mine|, score := score, isCompleted := true, endTime := Some(now),
              rawScore := raw, totalTimeSeconds := Some(now - t.startTime)))
  }

  /** With one answer per question over the 72 questions, a completed
      session's raw score is at most 72. */
  lemma {:induction false} RawScoreAtMostQuestions(answers: seq<RavenAnswer>, s: int, qs: set<int>)
    requires OnePerQuestion(answers)
    requires forall a :: a in answers ==> a.questionId in qs
    ensures Count(SessionAnswers(answers, s), (a: RavenAnswer) => a.isCorrect) <= |qs|
    decreases |answers|
  {
    var mine := SessionAnswers(answers, s);
    QuestionsOfSession(answers, s);
    DistinctQuestionsBound(mine, qs);
  }

  /** The answers of one session have pairwise different questions. */
  lemma QuestionsOfSession(answers: seq<RavenAnswer>, s: int)
    requires OnePerQuestion(answers)
    ensures var mine := SessionAnswers(answers, s);
      (forall a :: a in mine ==> a in answers && a.sessionId == s)
      && forall i, j :: 0 <= i < j < |mine| ==> mine[i].questionId != mine[j].questionId
  {
    var mine := SessionAnswers(answers, s);
    var rel := (a: RavenAnswer, b: RavenAnswer) => !(a.sessionId == b.sessionId && a.questionId == b.questionId);
    assert forall i, j :: 0 <= i < j < |answers| ==> rel(answers[i], answers[j]);
    FilterKeepsPairwise(answers, InSession(s), rel);
    assert mine == Filter(answers, InSession(s));
    assert forall i, j :: 0 <= i < j < |mine| ==> rel(mine[i], mine[j]);
    forall i, j | 0 <= i < j < |mine|
      ensures mine[i].questionId != mine[j].questionId
    {
      assert rel(mine[i], mine[j]);
      assert mine[i] in mine && mine[j] in mine;
    }
  }

  /** Answers to pairwise different questions drawn from `qs` number at most
      `|qs|`, and so do the correct ones among them. */
  lemma {:induction false} DistinctQuestionsBound(mine: seq<RavenAnswer>, qs: set<int>)
    requires forall i :: 0 <= i < |mine| ==> mine[i].questionId in qs
    requires forall i, j :: 0 <= i < j < |mine| ==> mine[i].questionId != mine[j].questionId
    ensures Count(mine, (a: RavenAnswer) => a.isCorrect) <= |qs|
    decreases |mine|
  {
    if |mine| > 0 {
      var q := mine[0].questionId;
      DistinctQuestionsBound(mine[1..], qs - {q});
    }
  }
}

=== FILE: reading.dfy ===
/** The sentence reading fluency test: the session record and its rates,
    the trial list read from a table, users looked up by their identifying
    fields or created, trials saved, and a user's results. The database is
    tables passed in and returned; ids the database would assign are
    passed in. */
module ReadingFluency {
  import opened Wrappers
  import opened Seqs
  import Ratio
  import Text

  datatype RfSession = RfSession(
    id: int,
    userId: int,
    startTime: int,
    endTime: Option<int>,
    isCompleted: bool,
    totalTimeSeconds: Option<int>,
    progress: int,
    totalQuestions: int,
    correctCount: int)

  /** A session as the record's defaults make it: nothing answered. */
  function NewSession(id: int, userId: int, now: int): (s: RfSession)
    ensures s.progress == 0 && s.totalQuestions == 0 && s.correctCount == 0 && !s.isCompleted
    ensures Accuracy(s) == 0.0 && CompletionRate(s) == 0.0
  {
    RfSession(id, userId, now, None, false, None, 0, 0, 0)
  }

  /** `accuracy`: correct answers over answered trials, in per cent. */
  function Accuracy(s: RfSession): (r: real)
    ensures s.progress == 0 ==> r == 0.0
    ensures s.progress != 0 ==> r * s.progress as real == s.correctCount as real * 100.0
  {
    Ratio.CountPercent(s.correctCount, s.progress)
  }

  /** `completion_rate`: answered trials over planned ones, in per cent. */
  function CompletionRate(s: RfSession): (r: real)
    ensures s.totalQuestions == 0 ==> r == 0.0
    ensures s.totalQuestions != 0 ==> r * s.totalQuestions as real == s.progress as real * 100.0
  {
    Ratio.CountPercent(s.progress, s.totalQuestions)
  }

  /** With counters in range both rates are percentages, and each is 100
      exactly when its part is the whole. */
  lemma RatesArePercentages(s: RfSession)
    requires 0 <= s.correctCount <= s.progress <= s.totalQuestions
    ensures 0.0 <= Accuracy(s) <= 100.0 && 0.0 <= CompletionRate(s) <= 100.0
    ensures s.progress > 0 ==> (Accuracy(s) == 100.0 <==> s.correctCount == s.progress)
    ensures s.totalQuestions > 0 ==> (CompletionRate(s) == 100.0 <==> s.progress == s.totalQuestions)
  {
    Ratio.PercentBounds(s.correctCount as real, s.progress as real);
    Ratio.PercentBounds(s.progress as real, s.totalQuestions as real);
  }

  datatype Trial = Trial(
    id: int,
    userId: Option<int>,
    testSessionId: Option<int>,
    trialId: int,
    userAnswer: bool,
    isCorrect: Option<bool>,
    responseTime: int)

  /** A trial with only its id given: answer `False`, response time 0. */
  function DefaultTrial(id: int, trialId: int): (t: Trial)
    ensures !t.userAnswer && t.responseTime == 0 && t.isCorrect.None? && t.trialId == trialId
  {
    Trial(id, None, None, trialId, false, None, 0)
  }

  datatype User = User(id: int, name: string, school: string, grade: int, classNumber: int)

  /** The fields that identify a user to the older trial API. */
  datatype UserKey = UserKey(name: string, school: string, grade: int, classNumber: int)

  function KeyOf(u: User): UserKey
  {
    UserKey(u.name, u.school, u.grade, u.classNumber)
  }

  function HasKey(key: UserKey): User -> bool
  {
    (u: User) => KeyOf(u) == key
  }

  /** `find_or_create_user`: the first user with the key, or else a new
      user with that key (and the id the database assigns), appended. */
  function FindOrCreateUser(users: seq<User>, key: UserKey, newId: int): (r: (User, seq<User>))
    ensures KeyOf(r.0) == key && r.0 in r.1
    ensures (exists i :: 0 <= i < |users| && KeyOf(users[i]) == key) ==> r.1 == users
    ensures (forall i :: 0 <= i < |users| ==> KeyOf(users[i]) != key) ==>
      r.1 == users + [r.0] && r.0.id == newId
  {
    match FirstIndex(users, HasKey(key))
    case Some(i) => (users[i], users)
    case None =>
      var u := User(newId, key.name, key.school, key.grade, key.classNumber);
      (u, users + [u])
  }

  /** Looking a key up a second time finds the user the first call returned
      (or created) and changes nothing: the lookup is idempotent. */
  lemma FindOrCreateUserIdempotent(users: seq<User>, key: UserKey, newId: int, otherId: int)
    ensures var (u, users') := FindOrCreateUser(users, key, newId);
      FindOrCreateUser(users', key, otherId) == (u, users')
  {
    var (u, users') := FindOrCreateUser(users, key, newId);
    if FirstIndex(users, HasKey(key)).None? {
      var i := |users|;
      assert users'[i] == u;
      assert FirstIndex(users', HasKey(key)) == Some(i) by {
        assert forall j :: 0 <= j < i ==> users'[j] == users[j];
      }
    }
  }

  /** The trial fields of the older API, with the user's identifying fields. */
  datatype UserTrialData = UserTrialData(key: UserKey, trialId: int, userAnswer: bool, responseTime: int)

  /** The trial fields of the direct API, for a known user. */
  datatype TrialData = TrialData(userId: int, testSessionId: Option<int>, trialId: int, userAnswer: bool, responseTime: int)

  /** `save_trial`: finds or creates the user, then appends a trial for them
      (with no session). */
  function SaveTrial(users: seq<User>, trials: seq<Trial>, data: UserTrialData, newUserId: int, newTrialId: int)
    : (r: (seq<User>, seq<Trial>))
    ensures |r.1| == |trials| + 1 && r.1[..|trials|] == trials
    ensures var t := r.1[|trials|];
      t.trialId == data.trialId && t.userAnswer == data.userAnswer && t.responseTime == data.responseTime
      && t.userId == Some(FindOrCreateUser(users, data.key, newUserId).0.id) && t.testSessionId.None?
    ensures r.0 == FindOrCreateUser(users, data.key, newUserId).1
  {
    var (user, users') := FindOrCreateUser(users, data.key, newUserId);
    (users', trials + [Trial(newTrialId, Some(user.id), None, data.trialId, data.userAnswer, None, data.responseTime)])
  }

  function UserHasId(id: int): User -> bool
  {
    (u: User) => u.id == id
  }

  /** `save_trial_direct` as written: an unknown user is an error; otherwise
      the trial is appended, but without the session id the request carries. */
  function SaveTrialDirectAsWritten(users: seq<User>, trials: seq<Trial>, data: TrialData, newTrialId: int)
    : (r: Result<seq<Trial>, string>)
    ensures r.Success? <==> exists i :: 0 <= i < |users| && users[i].id == data.userId
    ensures r.Success? ==> |r.value| == |trials| + 1 && r.value[..|trials|] == trials
    ensures r.Success? ==>
      var t := r.value[|trials|];
      t.id == newTrialId && t.userId == Some(data.userId) && t.trialId == data.trialId
      && t.userAnswer == data.userAnswer && t.responseTime == data.responseTime
      && t.isCorrect.None? && t.testSessionId.None?
    ensures r.Failure? ==> r.error == Text.MissingRow("用户不存在", data.userId)
  {
    if FirstIndex(users, UserHasId(data.userId)).None? then Failure(Text.MissingRow("用户不存在", data.userId))
    else Success(trials + [Trial(newTrialId, Some(data.userId), None, data.trialId, data.userAnswer, None, data.responseTime)])
  }

  /** A trial sent for session 5 is stored with no session at all. */
  lemma AsWrittenDropsSession()
    ensures var users := [User(1, "a", "s", 3, 2)];
      var data := TrialData(1, Some(5), 7, true, 1200);
      var r := SaveTrialDirectAsWritten(users, [], data, 10);
      r.Success? && r.value[0].testSessionId != data.testSessionId
  {
    var users := [User(1, "a", "s", 3, 2)];
    assert users[0].id == 1;
  }

  /** `save_trial_direct` as intended: the stored trial keeps every field of
      the request, the session included. */
  function SaveTrialDirect(users: seq<User>, trials: seq<Trial>, data: TrialData, newTrialId: int)
    : (r: Result<seq<Trial>, string>)
    ensures r.Success? <==> exists i :: 0 <= i < |users| && users[i].id == data.userId
    ensures r.Success? ==> |r.value| == |trials| + 1 && r.value[..|trials|] == trials
    ensures r.Success? ==> TrialDataOf(r.value[|trials|]) == Some(data)
    ensures r.Success? ==> r.value[|trials|].id == newTrialId && r.value[|trials|].isCorrect.None?
    ensures r.Failure? ==> r.error == Text.MissingRow("用户不存在", data.userId)
  {
    if FirstIndex(users, UserHasId(data.userId)).None? then Failure(Text.MissingRow("用户不存在", data.userId))
    else Success(trials + [Trial(newTrialId, Some(data.userId), data.testSessionId, data.trialId, data.userAnswer, None, data.responseTime)])
  }

  /** The request a stored trial answers, when it has a user. */
  function TrialDataOf(t: Trial): Option<TrialData>
  {
    match t.userId
    case None => None
    case Some(u) => Some(TrialData(u, t.testSessionId, t.trialId, t.userAnswer, t.responseTime))
  }

  /** The results block of `get_user_results`. */
  datatype Results = Results(totalTrials: nat, correctTrials: nat, accuracy: real, averageResponseTime: real, trials: seq<Trial>)

  function OfUser(id: int): Trial -> bool
  {
    (t: Trial) => t.userId == Some(id)
  }

  predicate AnsweredYes(t: Trial)
  {
    t.userAnswer
  }

  function ResponseTime(t: Trial): int
  {
    t.responseTime
  }

  /** `get_user_results`: `None` for an unknown user; otherwise the user's
      trials, how many were answered yes, that share in per cent and the
      mean response time, all 0 when there are no trials. */
  function GetUserResults(users: seq<User>, trials: seq<Trial>, userId: int): (r: Option<Results>)
    ensures r.None? <==> forall i :: 0 <= i < |users| ==> users[i].id != userId
    ensures r.Some? ==>
      var mine := Filter(trials, OfUser(userId));
      r.value.trials == mine && r.value.totalTrials == |mine|
      && r.value.correctTrials == Count(mine, AnsweredYes) && r.value.correctTrials <= r.value.totalTrials
      && (|mine| == 0 ==> r.value.accuracy == 0.0 && r.value.averageResponseTime == 0.0 && r.value.correctTrials == 0)
      && r.value.accuracy == Ratio.CountPercent(r.value.correctTrials, |mine|)
      && r.value.averageResponseTime == Ratio.Mean(Sum(mine, ResponseTime), |mine|)
  {
    if FirstIndex(users, UserHasId(userId)).None? then None
    else
      var mine := Filter(trials, OfUser(userId));
      if |mine| == 0 then Some(Results(0, 0, 0.0, 0.0, []))
      else
        var correct := Count(mine, AnsweredYes);
        Some(Results(|mine|, correct, Ratio.CountPercent(correct, |mine|),
                     Ratio.Mean(Sum(mine, ResponseTime), |mine|), mine))
  }

  /** The reported accuracy is a percentage, and 100 exactly when the user
      answered yes on every one of at least one trial. */
  lemma ResultsAccuracyIsPercentage(users: seq<User>, trials: seq<Trial>, userId: int)
    requires GetUserResults(users, trials, userId).Some?
    ensures var r := GetUserResults(users, trials, userId).value;
      0.0 <= r.accuracy <= 100.0
      && (r.accuracy == 100.0 <==> |r.trials| > 0 && forall i :: 0 <= i < |r.trials| ==> r.trials[i].userAnswer)
  {
    var r := GetUserResults(users, trials, userId).value;
    Ratio.PercentBounds(r.correctTrials as real, r.totalTrials as real);
  }

  /** Saving a trial for a known user adds exactly one trial to their
      results, and one yes when the answer was yes. */
  lemma SaveTrialCountsInResults(users: seq<User>, trials: seq<Trial>, data: TrialData, newTrialId: int)
    requires SaveTrialDirect(users, trials, data, newTrialId).Success?
    ensures var before := GetUserResults(users, trials, data.userId).value;
      var after := GetUserResults(users, SaveTrialDirect(users, trials, data, newTrialId).value, data.userId).value;
      after.totalTrials == before.totalTrials + 1
      && after.correctTrials == before.correctTrials + (if data.userAnswer then 1 else 0)
  {
    var trials' := SaveTrialDirect(users, trials, data, newTrialId).value;
    var t := trials'[|trials|];
    assert trials' == trials + [t];
    FilterAppendOne(trials, t, OfUser(data.userId));
    var mine := Filter(trials, OfUser(data.userId));
    CountAppend(mine, [t], AnsweredYes);
  }

  /** A table cell as the data frame holds it: absent for an empty cell. */
  type Cell = Option<string>

  /** `read_csv_trials`: a missing or unreadable file gives no trials;
      otherwise each row gives its second cell when it has one that is not
      empty, and its first cell otherwise. Every row of a data frame has
      at least one column. */
  function ReadCsvTrials(table: Option<seq<seq<Cell>>>): (r: seq<Cell>)
    requires WellFormedFrame(table)
    ensures table.None? ==> r == []
    ensures table.Some? ==> |r| == |table.value|
    ensures table.Some? ==> forall i :: 0 <= i < |r| ==>
      var row := table.value[i];
      (|row| > 1 && row[1].Some? ==> r[i] == row[1]) && (|row| == 1 || row[1].None? ==> r[i] == row[0])
  {
    match table
    case None => []
    case Some(rows) => seq(|rows|, i requires 0 <= i < |rows| => SentenceOf(rows[i]))
  }

  function SentenceOf(row: seq<Cell>): Cell
    requires |row| >= 1
  {
    if |row| > 1 && row[1].Some? then row[1] else row[0]
  }

  /** A CSV file as a data frame: every row has at least one column. */
  predicate WellFormedFrame(table: Option<seq<seq<Cell>>>)
  {
    table.Some? ==> forall i :: 0 <= i < |table.value| ==> |table.value[i]| >= 1
  }

  /** `get_trials`: the cached practice and formal trials when both are
      cached; otherwise both files are read and cached. The result is the
      pair of lists followed by the cache after the call. */
  function GetTrials(practiceCache: Option<seq<Cell>>, formalCache: Option<seq<Cell>>,
                     practiceFile: Option<seq<seq<Cell>>>, formalFile: Option<seq<seq<Cell>>>)
    : (r: (seq<Cell>, seq<Cell>, Option<seq<Cell>>, Option<seq<Cell>>))
    requires WellFormedFrame(practiceFile) && WellFormedFrame(formalFile)
    ensures r.2 == Some(r.0) && r.3 == Some(r.1)
    ensures practiceCache.Some? && formalCache.Some? ==> r.0 == practiceCache.value && r.1 == formalCache.value
    ensures practiceCache.None? || formalCache.None? ==>
      |r.0| == (if practiceFile.Some? then |practiceFile.value| else 0)
      && |r.1| == (if formalFile.Some? then |formalFile.value| else 0)
      && r.0 == ReadCsvTrials(practiceFile) && r.1 == ReadCsvTrials(formalFile)
  {
    if practiceCache.Some? && formalCache.Some? then
      (practiceCache.value, formalCache.value, practiceCache, formalCache)
    else
      var practice := ReadCsvTrials(practiceFile);
      var formal := ReadCsvTrials(formalFile);
      (practice, formal, Some(practice), Some(formal))
  }

  /** Once loaded, the trials are served from the cache: a later call gives
      the same lists and cache, whatever the files hold by then. */
  lemma GetTrialsIsCached(practiceCache: Option<seq<Cell>>, formalCache: Option<seq<Cell>>,
                          practiceFile: Option<seq<seq<Cell>>>, formalFile: Option<seq<seq<Cell>>>,
                          laterPractice: Option<seq<seq<Cell>>>, laterFormal: Option<seq<seq<Cell>>>)
    requires WellFormedFrame(practiceFile) && WellFormedFrame(formalFile)
    requires WellFormedFrame(laterPractice) && WellFormedFrame(laterFormal)
    ensures var r := GetTrials(practiceCache, formalCache, practiceFile, formalFile);
      GetTrials(r.2, r.3, laterPractice, laterFormal) == r
  {
  }
}

=== FILE: seqs.dfy ===
/** Sequence combinators used throughout the model: list comprehensions
    with a condition, counting, summing, and running a fallible conversion
    over every element in order (the first failure wins, as a raised
    exception does in the source). */
module Seqs {
  import opened Wrappers

  /** `[x for x in xs if p(x)]`. */
  function Filter<T(!new)>(xs: seq<T>, p: T -> bool): (r: seq<T>)
    ensures |r| <= |xs|
    ensures forall x :: x in r <==> x in xs && p(x)
    decreases |xs|
  {
    if |xs| == 0 then []
    else if p(xs[0]) then [xs[0]] + Filter(xs[1..], p)
    else Filter(xs[1..], p)
  }

  /** Filtering a list with one more element at the end. */
  lemma {:induction false} FilterAppendOne<T(!new)>(xs: seq<T>, x: T, p: T -> bool)
    ensures Filter(xs + [x], p) == Filter(xs, p) + (if p(x) then [x] else [])
    decreases |xs|
  {
    if |xs| == 0 {
      assert xs + [x] == [x];
    } else {
      assert (xs + [x])[1..] == xs[1..] + [x];
      FilterAppendOne(xs[1..], x, p);
    }
  }

  /** `len([x for x in xs if p(x)])`. */
  function Count<T>(xs: seq<T>, p: T -> bool): (n: nat)
    ensures n <= |xs|
    ensures n == 0 <==> forall i :: 0 <= i < |xs| ==> !p(xs[i])
    ensures n == |xs| <==> forall i :: 0 <= i < |xs| ==> p(xs[i])
    decreases |xs|
  {
    if |xs| == 0 then 0
    else (if p(xs[0]) then 1 else 0) + Count(xs[1..], p)
  }

  lemma {:induction false} CountIsFilterLength<T(!new)>(xs: seq<T>, p: T -> bool)
    ensures Count(xs, p) == |Filter(xs, p)|
    decreases |xs|
  {
    if |xs| > 0 {
      CountIsFilterLength(xs[1..], p);
    }
  }

  /** Counting is monotone in the condition. */
  lemma {:induction false} CountMonotone<T(!new)>(xs: seq<T>, p: T -> bool, q: T -> bool)
    requires forall x :: x in xs && p(x) ==> q(x)
    ensures Count(xs, p) <= Count(xs, q)
    decreases |xs|
  {
    if |xs| > 0 {
      assert forall x :: x in xs[1..] ==> x in xs;
      CountMonotone(xs[1..], p, q);
    }
  }

  lemma {:induction false} CountAppend<T>(xs: seq<T>, ys: seq<T>, p: T -> bool)
    ensures Count(xs + ys, p) == Count(xs, p) + Count(ys, p)
    decreases |xs|
  {
    if |xs| == 0 {
      assert xs + ys == ys;
    } else {
      assert (xs + ys)[1..] == xs[1..] + ys;
      CountAppend(xs[1..], ys, p);
    }
  }

  /** Filtering keeps the order of what it keeps, so a relation that holds
      between every element and each later one still holds afterwards. */
  lemma {:induction false} FilterKeepsPairwise<T(!new)>(xs: seq<T>, p: T -> bool, rel: (T, T) -> bool)
    requires forall i, j :: 0 <= i < j < |xs| ==> rel(xs[i], xs[j])
    ensures forall i, j :: 0 <= i < j < |Filter(xs, p)| ==> rel(Filter(xs, p)[i], Filter(xs, p)[j])
    decreases |xs|
  {
    if |xs| > 0 {
      var tail := xs[1..];
      FilterKeepsPairwise(tail, p, rel);
      var rest := Filter(tail, p);
      assert forall i, j :: 0 <= i < j < |rest| ==> rel(rest[i], rest[j]);
      if p(xs[0]) {
        var f := [xs[0]] + rest;
        assert Filter(xs, p) == f;
        forall i, j | 0 <= i < j < |f|
          ensures rel(f[i], f[j])
        {
          if i == 0 {
            assert f[j] == rest[j - 1];
            assert rest[j - 1] in rest;
            assert f[j] in tail;
            var k :| 0 <= k < |tail| && tail[k] == f[j];
            assert xs[k + 1] == f[j];
            assert rel(xs[0], xs[k + 1]);
          } else {
            assert f[i] == rest[i - 1] && f[j] == rest[j - 1];
            assert rel(rest[i - 1], rest[j - 1]);
          }
        }
      } else {
        assert Filter(xs, p) == rest;
      }
    }
  }

  /** `sum(f(x) for x in xs)`. */
  function Sum<T>(xs: seq<T>, f: T -> int): int
    decreases |xs|
  {
    if |xs| == 0 then 0 else f(xs[0]) + Sum(xs[1..], f)
  }

  lemma {:induction false} SumAppend<T>(xs: seq<T>, ys: seq<T>, f: T -> int)
    ensures Sum(xs + ys, f) == Sum(xs, f) + Sum(ys, f)
    decreases |xs|
  {
    if |xs| == 0 {
      assert xs + ys == ys;
    } else {
      assert (xs + ys)[1..] == xs[1..] + ys;
      SumAppend(xs[1..], ys, f);
    }
  }

  /** Replacing one element changes the sum by the difference. */
  lemma {:induction false} SumUpdate<T>(xs: seq<T>, k: nat, y: T, f: T -> int)
    requires k < |xs|
    ensures Sum(xs[k := y], f) == Sum(xs, f) - f(xs[k]) + f(y)
    decreases |xs|
  {
    if k > 0 {
      assert xs[k := y][1..] == xs[1..][k - 1 := y];
      SumUpdate(xs[1..], k - 1, y, f);
    }
  }

  /** `sum(f(x) for x in xs)` over real values. */
  function RealSum<T>(xs: seq<T>, f: T -> real): real
    decreases |xs|
  {
    if |xs| == 0 then 0.0 else f(xs[0]) + RealSum(xs[1..], f)
  }

  lemma {:induction false} RealSumAppend<T>(xs: seq<T>, ys: seq<T>, f: T -> real)
    ensures RealSum(xs + ys, f) == RealSum(xs, f) + RealSum(ys, f)
    decreases |xs|
  {
    if |xs| == 0 {
      assert xs + ys == ys;
    } else {
      assert (xs + ys)[1..] == xs[1..] + ys;
      RealSumAppend(xs[1..], ys, f);
    }
  }

  /** A sum of zeros is zero. */
  lemma {:induction false} RealSumOfZeros<T>(xs: seq<T>, f: T -> real)
    requires forall i :: 0 <= i < |xs| ==> f(xs[i]) == 0.0
    ensures RealSum(xs, f) == 0.0
    decreases |xs|
  {
    if |xs| > 0 {
      assert forall i :: 0 <= i < |xs[1..]| ==> xs[1..][i] == xs[i + 1];
      RealSumOfZeros(xs[1..], f);
    }
  }

  lemma {:induction false} RealSumUpdate<T>(xs: seq<T>, k: nat, y: T, f: T -> real)
    requires k < |xs|
    ensures RealSum(xs[k := y], f) == RealSum(xs, f) - f(xs[k]) + f(y)
    decreases |xs|
  {
    if k > 0 {
      assert xs[k := y][1..] == xs[1..][k - 1 := y];
      RealSumUpdate(xs[1..], k - 1, y, f);
    }
  }

  /** The position of the first element satisfying `p`, as a query's
      `.first()` finds it. */
  function FirstIndex<T>(xs: seq<T>, p: T -> bool): (r: Option<nat>)
    ensures r.Some? ==> r.value < |xs| && p(xs[r.value]) && forall j :: 0 <= j < r.value ==> !p(xs[j])
    ensures r.None? <==> forall j :: 0 <= j < |xs| ==> !p(xs[j])
    decreases |xs|
  {
    if |xs| == 0 then None
    else if p(xs[0]) then Some(0)
    else match FirstIndex(xs[1..], p)
      case None => None
      case Some(k) => Some(k + 1)
  }

  /** The first element a filter keeps is the list's first match. */
  lemma {:induction false} FilterHeadIsFirstMatch<T(!new)>(xs: seq<T>, p: T -> bool)
    ensures |Filter(xs, p)| > 0 <==> FirstIndex(xs, p).Some?
    ensures |Filter(xs, p)| > 0 ==> Filter(xs, p)[0] == xs[FirstIndex(xs, p).value]
    decreases |xs|
  {
    if |xs| > 0 && !p(xs[0]) {
      FilterHeadIsFirstMatch(xs[1..], p);
    }
  }

  /** The first match of a list with one more element at the end: the old
      first match if there was one, else the new element if it matches. */
  lemma {:induction false} FirstIndexAppendOne<T>(xs: seq<T>, x: T, p: T -> bool)
    ensures FirstIndex(xs, p).Some? ==> FirstIndex(xs + [x], p) == FirstIndex(xs, p)
    ensures FirstIndex(xs, p).None? && p(x) ==> FirstIndex(xs + [x], p) == Some(|xs|)
    ensures FirstIndex(xs, p).None? && !p(x) ==> FirstIndex(xs + [x], p).None?
    decreases |xs|
  {
    if |xs| == 0 {
      assert xs + [x] == [x];
    } else {
      assert (xs + [x])[0] == xs[0];
      assert (xs + [x])[1..] == xs[1..] + [x];
      FirstIndexAppendOne(xs[1..], x, p);
    }
  }

  /** Applies a fallible conversion to every element in order and stops at
      the first failure. */
  function MapAll<A, B, E(==)>(xs: seq<A>, f: A -> Result<B, E>): (r: Result<seq<B>, E>)
    ensures r.Success? <==> forall i :: 0 <= i < |xs| ==> f(xs[i]).Success?
    ensures r.Success? ==> |r.value| == |xs| && forall i :: 0 <= i < |xs| ==> r.value[i] == f(xs[i]).value
    ensures r.Failure? ==> exists i :: 0 <= i < |xs| && f(xs[i]).Failure? && f(xs[i]).error == r.error
    decreases |xs|
  {
    if |xs| == 0 then Success([])
    else
      match f(xs[0])
      case Failure(e) => Failure(e)
      case Success(y) =>
        var rest := MapAll(xs[1..], f);
        if rest.Failure? then
          var i :| 0 <= i < |xs[1..]| && f(xs[1..][i]).Failure? && f(xs[1..][i]).error == rest.error;
          assert f(xs[i + 1]).Failure? && f(xs[i + 1]).error == rest.error;
          Failure(rest.error)
        else
          assert forall i :: 1 <= i < |xs| ==> f(xs[i]) == f(xs[1..][i - 1]);
          Success([y] + rest.value)
  }

  /** Python's `xs[i]`: negative indices count from the end, and an index
      outside `[-|xs|, |xs|)` raises `IndexError` (`None` here). */
  function PyIndex<T>(xs: seq<T>, i: int): (r: Option<T>)
    ensures r.Some? <==> -|xs| <= i < |xs|
    ensures 0 <= i < |xs| ==> r == Some(xs[i])
    ensures -|xs| <= i < 0 ==> r == Some(xs[|xs| + i])
  {
    if 0 <= i < |xs| then Some(xs[i])
    else if -|xs| <= i < 0 then Some(xs[|xs| + i])
    else None
  }

  /** The largest element, for a non-empty sequence. */
  function Max(xs: seq<int>): (m: int)
    requires |xs| > 0
    ensures m in xs && forall x :: x in xs ==> x <= m
    decreases |xs|
  {
    if |xs| == 1 then xs[0]
    else
      var m' := Max(xs[1..]);
      assert forall x :: x in xs ==> x == xs[0] || x in xs[1..];
      if xs[0] >= m' then xs[0] else m'
  }
}

=== FILE: speech_sdk.dfy ===
/** The client of the speech-evaluation web service: the parameter frame,
    the cutting of audio into 1280-byte frames with their status flags and
    upload progress, the choice of the final result among the inbound
    messages, the decoding of that result, and the factory that hands out
    configured clients. The socket, the clock, base64 and UTF-8 decoding
    and the authentication signature are outside the model: inbound
    messages arrive already classified. */
module SpeechSdk {
  import opened Wrappers
  import opened Text
  import opened Xml
  import Analysis

  /** Audio status of a frame: first, continuing, last. */
  const AusFirst := 1
  const AusContinue := 2
  const AusLast := 4

  /** Data status of a frame: more to come, or the end of the audio. */
  const StatusContinue := 1
  const StatusEnd := 2

  datatype Frame = Frame(aus: int, status: int, chunk: seq<bv8>)

  function Flatten(frames: seq<Frame>): seq<bv8>
  {
    if |frames| == 0 then [] else Flatten(frames[..|frames| - 1]) + frames[|frames| - 1].chunk
  }

  function Min(a: int, b: int): int
  {
    if a <= b then a else b
  }

  /** The upload percentage after `sent` of `total` bytes, truncated, capped at 100. */
  function ProgressPercent(sent: nat, total: nat): (p: int)
    requires 0 < total
    ensures 0 <= p <= 100
    ensures sent >= total ==> p == 100
  {
    DivAtLeast(sent * 100, total, 100);
    Min(100, sent * 100 / total)
  }

  lemma DivAtLeast(x: nat, d: nat, q: nat)
    requires d > 0
    ensures x >= q * d ==> x / d >= q
  {
    var k, r := x / d, x % d;
    assert x == k * d + r && 0 <= r < d;
    if x >= q * d && k < q {
      MulMonotone(k + 1, q, d);
    }
  }

  lemma MulMonotone(a: int, b: int, d: nat)
    requires a <= b
    ensures a * d <= b * d
  {
    assert b * d - a * d == (b - a) * d;
  }

  lemma DivMonotone(x: nat, y: nat, d: nat)
    requires x <= y && d > 0
    ensures x / d <= y / d
  {
    var qx, qy := x / d, y / d;
    assert x == qx * d + x % d && y == qy * d + y % d;
    if qx > qy {
      MulMonotone(qy + 1, qx, d);
    }
  }

  lemma ProgressMonotone(a: nat, b: nat, total: nat)
    requires 0 < total && a <= b
    ensures ProgressPercent(a, total) <= ProgressPercent(b, total)
  {
    DivMonotone(a * 100, b * 100, total);
  }

  /** The `k`-th frame for `audio`: bytes from `1280 * k`, at most 1280 of
      them; it is the last frame when it reaches the end of the audio. */
  function FrameAt(audio: seq<bv8>, k: nat): Frame
    requires k * 1280 < |audio|
  {
    var n := |audio|;
    var end := Min(k * 1280 + 1280, n);
    var isLast := k * 1280 + 1280 >= n;
    Frame(if k == 0 then AusFirst else if isLast then AusLast else AusContinue,
          if isLast then StatusEnd else StatusContinue,
          audio[k * 1280..end])
  }

  lemma FlattenSnoc(frames: seq<Frame>, f: Frame)
    ensures Flatten(frames + [f]) == Flatten(frames) + f.chunk
  {
    assert (frames + [f])[..|frames|] == frames;
  }

  /** The progress reported after the `k`-th frame. */
  function ProgressAt(n: nat, k: nat): int
    requires 0 < n
  {
    ProgressPercent(Min(k * 1280 + 1280, n), n)
  }

  /** Once the frames cover the audio, their flags and sizes are the ones
      `SendAudioData` promises. */
  lemma FramesCoverAudio(audio: seq<bv8>, frames: seq<Frame>)
    requires |frames| * 1280 >= |audio| && (|frames| == 0 || (|frames| - 1) * 1280 < |audio|)
    requires forall j :: 0 <= j < |frames| ==> j * 1280 < |audio| && frames[j] == FrameAt(audio, j)
    ensures |frames| == (|audio| + 1279) / 1280
    ensures forall k :: 0 <= k < |frames| ==> 0 < |frames[k].chunk| <= 1280
    ensures forall k :: 0 <= k < |frames| - 1 ==> |frames[k].chunk| == 1280
    ensures forall k :: 0 <= k < |frames| ==>
      frames[k].status == (if k == |frames| - 1 then StatusEnd else StatusContinue)
    ensures forall k :: 0 <= k < |frames| ==>
      frames[k].aus == (if k == 0 then AusFirst else if k == |frames| - 1 then AusLast else AusContinue)
  {
  }

  lemma ProgressClimbs(n: nat, count: nat)
    requires 0 < n && count * 1280 >= n
    ensures forall j, k :: 0 <= j <= k < count ==> 0 <= ProgressAt(n, j) <= ProgressAt(n, k) <= 100
    ensures count > 0 ==> ProgressAt(n, count - 1) == 100
  {
    forall j, k | 0 <= j <= k < count
      ensures ProgressAt(n, j) <= ProgressAt(n, k)
    {
      ProgressMonotone(Min(j * 1280 + 1280, n), Min(k * 1280 + 1280, n), n);
    }
  }

  /** The progress reports `_send_audio_data` makes for `count` frames of
      `n` bytes: they never fall, stay within 0 to 100, and end at 100
      once the frames cover the audio. */
  function ProgressReports(n: nat, count: nat): (r: seq<int>)
    requires 0 < n
    ensures |r| == count
    ensures forall k :: 0 <= k < count ==> r[k] == ProgressAt(n, k)
  {
    seq(count, k requires 0 <= k < count => ProgressAt(n, k))
  }

  lemma ProgressReportsClimb(n: nat, count: nat)
    requires 0 < n && count * 1280 >= n
    ensures forall k :: 0 <= k < count ==> 0 <= ProgressReports(n, count)[k] <= 100
    ensures forall j, k :: 0 <= j <= k < count ==> ProgressReports(n, count)[j] <= ProgressReports(n, count)[k]
    ensures count > 0 ==> ProgressReports(n, count)[count - 1] == 100
  {
    ProgressClimbs(n, count);
  }

  /** `_send_audio_data`: the frames sent for `audio`, 1280 bytes each.
      Every frame but the last is full, the frames put back together are
      the audio, only the last frame carries the end status, and no frame
      at all is sent for empty audio. */
  method SendAudioData(audio: seq<bv8>) returns (frames: seq<Frame>)
    ensures |frames| == (|audio| + 1279) / 1280
    ensures Flatten(frames) == audio
    ensures forall k :: 0 <= k < |frames| ==> 0 < |frames[k].chunk| <= 1280
    ensures forall k :: 0 <= k < |frames| - 1 ==> |frames[k].chunk| == 1280
    ensures forall k :: 0 <= k < |frames| ==>
      frames[k].status == (if k == |frames| - 1 then StatusEnd else StatusContinue)
    ensures forall k :: 0 <= k < |frames| ==>
      frames[k].aus == (if k == 0 then AusFirst else if k == |frames| - 1 then AusLast else AusContinue)
  {
    var n := |audio|;
    frames := [];
    var k := 0;
    while k * 1280 < n
      invariant |frames| == k
      invariant k == 0 || (k - 1) * 1280 < n
      invariant forall j :: 0 <= j < k ==> j * 1280 < n && frames[j] == FrameAt(audio, j)
      invariant Flatten(frames) == audio[..Min(k * 1280, n)]
      decreases n - k * 1280
    {
      var f := FrameAt(audio, k);
      assert Flatten(frames + [f]) == audio[..Min(k * 1280 + 1280, n)] by {
        FlattenSnoc(frames, f);
        assert audio[..Min(k * 1280, n)] + f.chunk == audio[..Min(k * 1280 + 1280, n)];
      }
      frames := frames + [f];
      k := k + 1;
    }
    assert audio[..Min(k * 1280, n)] == audio;
    FramesCoverAudio(audio, frames);
  }

  // ---------------------------------------------------------------------
  // Requests and parameters

  datatype EvaluationRequest = EvaluationRequest(
    category: string,
    text: string,
    group: string,
    language: string,
    audioFormat: string,
    sampleRate: int)

  /** The request the character test sends for one row of characters. */
  function SyllableRequest(text: string): (r: EvaluationRequest)
    ensures r.text == text && r.category == "read_syllable"
    ensures r.group == "pupil" && r.language == "cn_vip" && r.audioFormat == "raw" && r.sampleRate == 16000
  {
    EvaluationRequest("read_syllable", text, "pupil", "cn_vip", "raw", 16000)
  }

  function SentenceRequest(text: string): (r: EvaluationRequest)
    ensures r.text == text && r.category == "read_sentence"
    ensures r.group == "pupil" && r.language == "cn_vip" && r.audioFormat == "raw" && r.sampleRate == 16000
  {
    EvaluationRequest("read_sentence", text, "pupil", "cn_vip", "raw", 16000)
  }

  /** The business part of the opening frame. */
  datatype ParameterFrame = ParameterFrame(
    appId: string,
    category: string,
    group: string,
    ent: string,
    auf: string,
    aue: string,
    text: string,
    status: int)

  const ByteOrderMark: char := '\U{feff}'

  /** `_send_parameters`: the text is sent behind a byte-order mark, and the
      audio format names the sample rate. */
  function Parameters(appId: string, request: EvaluationRequest): (p: ParameterFrame)
    ensures p.status == 0 && p.appId == appId && p.category == request.category
    ensures |p.text| == |request.text| + 1 && p.text[0] == ByteOrderMark && p.text[1..] == request.text
    ensures StartsWith(p.auf, "audio/L16;rate=") && p.auf[15..] == IntToString(request.sampleRate)
  {
    var auf := "audio/L16;rate=" + IntToString(request.sampleRate);
    assert auf[..15] == "audio/L16;rate=";
    ParameterFrame(appId, request.category, request.group, request.language, auf,
                   request.audioFormat, [ByteOrderMark] + request.text, 0)
  }

  /** The rate written into the audio format reads back as the request's rate. */
  lemma ParametersRateRoundTrip(appId: string, request: EvaluationRequest)
    ensures ParseInt(Parameters(appId, request).auf[15..]) == Some(request.sampleRate)
  {
    ParseIntOfIntToString(request.sampleRate);
  }

  // ---------------------------------------------------------------------
  // Results

  /** The result payload after base64 and UTF-8 decoding: absent or empty,
      not decodable, or a document (its text and the tree it parses to). */
  datatype Payload = NoPayload | Undecodable | Document(text: string, markup: Markup)

  /** One step of waiting: a receive that timed out, a message that is not
      valid JSON (or whose `data` is not an object), or a message with the
      `status` and payload of its `data` object. */
  datatype Inbound = ReceiveTimeout | Garbled | Message(status: Option<int>, payload: Payload)

  datatype EvaluationResponse = EvaluationResponse(
    success: bool,
    message: string,
    totalScore: real,
    phoneScore: real,
    toneScore: real,
    fluencyScore: real,
    integrityScore: real,
    xmlResult: string)

  function FailureResponse(message: string): (r: EvaluationResponse)
    ensures !r.success && r.message == message && r.xmlResult == ""
  {
    EvaluationResponse(false, message, 0.0, 0.0, 0.0, 0.0, 0.0, "")
  }

  const SuccessMessage := "评测成功"
  const TimeoutMessage := "等待评测结果超时"
  const ParseFailurePrefix := "结果解析失败: "

  /** The five scores of `read_syllable`, zero when the document or the
      element is missing. */
  function ScoresOf(m: Markup): (r: Result<seq<real>, string>)
    ensures r.Success? ==> |r.value| == 5
    ensures m.Malformed? ==> r == Success([0.0, 0.0, 0.0, 0.0, 0.0])
    ensures m.Parsed? && FindUnder(m.root, "rec_paper", "read_syllable").None? ==>
      r == Success([0.0, 0.0, 0.0, 0.0, 0.0])
    ensures m.Parsed? && FindUnder(m.root, "rec_paper", "read_syllable").Some? ==>
      var rs := FindUnder(m.root, "rec_paper", "read_syllable").value;
      (r.Success? <==> forall name :: name in Analysis.ScoreNames ==> Analysis.FloatAttr(rs, name).Success?)
      && (r.Success? ==> forall i :: 0 <= i < 5 ==> r.value[i] == Analysis.FloatAttr(rs, Analysis.ScoreNames[i]).value)
  {
    match m
    case Malformed => Success([0.0, 0.0, 0.0, 0.0, 0.0])
    case Parsed(root) =>
      match FindUnder(root, "rec_paper", "read_syllable")
      case None => Success([0.0, 0.0, 0.0, 0.0, 0.0])
      case Some(rs) => Analysis.Scores(rs)
  }

  lemma PrefixedStartsWith(prefix: string, e: string)
    ensures StartsWith(prefix + e, prefix)
  {
    assert (prefix + e)[..|prefix|] == prefix;
  }

  /** `_parse_result`: an empty payload or a document that does not parse is
      still a success with zero scores; an undecodable payload or a score
      that is not a number is a failure. */
  function ParseResult(payload: Payload): (r: EvaluationResponse)
    ensures r.success <==> payload.NoPayload? || (payload.Document? && (payload.text == "" || ScoresOf(payload.markup).Success?))
    ensures r.success ==> r.message == SuccessMessage
    ensures !r.success ==> StartsWith(r.message, ParseFailurePrefix)
    ensures payload.Document? && (payload.markup.Malformed? || payload.text == "") ==>
      r.success && r.totalScore == 0.0 && r.integrityScore == 0.0
    ensures payload.Document? && payload.text != "" && ScoresOf(payload.markup).Success? ==>
      var s := ScoresOf(payload.markup).value;
      r.totalScore == s[0] && r.phoneScore == s[1] && r.toneScore == s[2]
      && r.fluencyScore == s[3] && r.integrityScore == s[4] && r.xmlResult == payload.text
  {
    match payload
    case NoPayload => EvaluationResponse(true, SuccessMessage, 0.0, 0.0, 0.0, 0.0, 0.0, "")
    case Undecodable =>
      PrefixedStartsWith(ParseFailurePrefix, "invalid base64 or UTF-8");
      FailureResponse(ParseFailurePrefix + "invalid base64 or UTF-8")
    case Document(text, markup) =>
      if text == "" then EvaluationResponse(true, SuccessMessage, 0.0, 0.0, 0.0, 0.0, 0.0, "")
      else
        match ScoresOf(markup)
        case Failure(e) =>
          PrefixedStartsWith(ParseFailurePrefix, e);
          FailureResponse(ParseFailurePrefix + e)
        case Success(s) => EvaluationResponse(true, SuccessMessage, s[0], s[1], s[2], s[3], s[4], text)
  }

  /** The score the client reports is the one the full analysis reads. */
  lemma ParseResultAgreesWithAnalysis(text: string, markup: Markup)
    requires text != "" && ParseResult(Document(text, markup)).success
    requires Analysis.AnalyzeXml(markup).Success?
    ensures ParseResult(Document(text, markup)).totalScore == Analysis.AnalyzeXml(markup).value.overallScore
    ensures ParseResult(Document(text, markup)).integrityScore == Analysis.AnalyzeXml(markup).value.integrityScore
  {
  }

  predicate IsFinal(m: Inbound)
  {
    m.Message? && m.status == Some(StatusEnd)
  }

  /** The position of the first message carrying the end status. */
  function FirstFinal(received: seq<Inbound>): (r: Option<nat>)
    ensures r.None? <==> forall i :: 0 <= i < |received| ==> !IsFinal(received[i])
    ensures r.Some? ==>
      r.value < |received| && IsFinal(received[r.value])
      && forall j :: 0 <= j < r.value ==> !IsFinal(received[j])
    decreases |received|
  {
    if |received| == 0 then None
    else if IsFinal(received[0]) then Some(0)
    else
      match FirstFinal(received[1..])
      case None => None
      case Some(i) => Some(i + 1)
  }

  /** Whichever message is final with none final before it is the one
      `FirstFinal` finds. */
  lemma FirstFinalIsTheFirst(received: seq<Inbound>)
    ensures forall i :: 0 <= i < |received| && IsFinal(received[i]) && (forall j :: 0 <= j < i ==> !IsFinal(received[j])) ==>
      FirstFinal(received) == Some(i)
  {
    var r := FirstFinal(received);
    forall i | 0 <= i < |received| && IsFinal(received[i]) && (forall j :: 0 <= j < i ==> !IsFinal(received[j]))
      ensures r == Some(i)
    {
      assert r.Some?;
      assert !(r.value < i) && !(i < r.value);
    }
  }

  /** `_wait_for_result` over the messages received before the 30-second
      deadline: the first message with status 2 decides the response;
      timeouts and garbled messages are skipped; with none, the wait times
      out. */
  function WaitForResult(received: seq<Inbound>): (r: EvaluationResponse)
    ensures (forall i :: 0 <= i < |received| ==> !IsFinal(received[i])) ==> r == FailureResponse(TimeoutMessage)
    ensures forall i :: 0 <= i < |received| && IsFinal(received[i]) && (forall j :: 0 <= j < i ==> !IsFinal(received[j])) ==>
      r == ParseResult(received[i].payload)
    ensures r.success ==>
      exists i :: 0 <= i < |received| && IsFinal(received[i]) && ParseResult(received[i].payload) == r
        && forall j :: 0 <= j < i ==> !IsFinal(received[j])
  {
    FirstFinalIsTheFirst(received);
    match FirstFinal(received)
    case None => FailureResponse(TimeoutMessage)
    case Some(i) => ParseResult(received[i].payload)
  }

  // ---------------------------------------------------------------------
  // Evaluating a recording

  datatype Config = Config(appId: string, apiKey: string, apiSecret: string, host: string, wsUrl: string)

  /** `evaluate_audio_blob`: when the connection opens, the parameters and
      the audio go out and the wait decides; a connection that cannot be
      opened is a failure. */
  method EvaluateAudio(config: Config, audio: seq<bv8>, request: EvaluationRequest,
                       connected: bool, received: seq<Inbound>)
    returns (sent: seq<Frame>, r: EvaluationResponse)
    ensures !connected ==> !r.success && sent == []
    ensures connected ==> r == WaitForResult(received) && Flatten(sent) == audio
  {
    if !connected {
      return [], FailureResponse("评测失败: connection failed");
    }
    var _ := Parameters(config.appId, request);
    sent := SendAudioData(audio);
    r := WaitForResult(received);
  }

  /** The process-wide client configuration (`XfyunSDKFactory`). */
  datatype Factory = Factory(config: Option<Config>)

  const Uninitialised := Factory(None)

  function Initialize(appId: string, apiKey: string, apiSecret: string): (f: Factory)
    ensures f.config.Some? && f.config.value.appId == appId
    ensures f.config.value.apiKey == apiKey && f.config.value.apiSecret == apiSecret
    ensures f.config.value.host == "ise-api.xfyun.cn" && f.config.value.wsUrl == "ws://ise-api.xfyun.cn/v2/open-ise"
  {
    Factory(Some(Config(appId, apiKey, apiSecret, "ise-api.xfyun.cn", "ws://ise-api.xfyun.cn/v2/open-ise")))
  }

  const NotInitialisedMessage := "SDK未初始化，请先调用initialize方法"

  /** `get_sdk`: a client for the stored configuration, or the `RuntimeError`
      before `initialize`. */
  function GetSdk(f: Factory): (r: Result<Config, string>)
    ensures r.Success? <==> f.config.Some?
    ensures r.Success? ==> r.value == f.config.value
    ensures r.Failure? ==> r.error == NotInitialisedMessage
  {
    match f.config
    case None => Failure(NotInitialisedMessage)
    case Some(c) => Success(c)
  }

  lemma GetSdkAfterInitialize(appId: string, apiKey: string, apiSecret: string)
    ensures GetSdk(Initialize(appId, apiKey, apiSecret)).Success?
    ensures GetSdk(Initialize(appId, apiKey, apiSecret)).value.appId == appId
  {
  }
}

=== FILE: symbol_matrix.dfy ===
/** The offline generator of the attention test's fixed data: a matrix of
    26 rows of 40 symbols drawn from the ten test symbols, the text file
    holding it one row per line, and for every symbol the list of its
    positions with their counts. Writing the files is left to the caller:
    the model produces their contents. */
module SymbolMatrix {
  import opened Randomness
  import Text
  import Attention

  type Matrix = Attention.Matrix
  type Position = Attention.Position

  const Symbols: seq<char> := ['Π', 'Θ', 'Ψ', '≅', '⊕', 'א', 'Ϡ', 'ʆ', 'Ԅ', 'Φ']

  /** One practice row followed by 25 test rows. */
  const Rows: nat := 26
  const Cols: nat := 40
  const PracticeRow: nat := 0

  predicate Distinct(xs: seq<char>)
  {
    forall i, j :: 0 <= i < j < |xs| ==> xs[i] != xs[j]
  }

  /** `Rows` rows of `Cols` cells, every cell one of the test symbols. */
  predicate WellShaped(m: Matrix)
  {
    |m| == Rows && forall r :: 0 <= r < |m| ==> |m[r]| == Cols && forall c :: 0 <= c < |m[r]| ==> m[r][c] in Symbols
  }

  // ---------------------------------------------------------------------
  // Drawing the matrix
  // ---------------------------------------------------------------------

  /** `count` cells, each `random.choice(SYMBOLS)`, left to right. */
  function GenerateRow(count: nat, s: Source): (r: (seq<char>, Source))
    ensures |r.0| == count && forall c :: 0 <= c < count ==> r.0[c] in Symbols
    ensures r.1.draws == s.draws && r.1.used == s.used + count
    decreases count
  {
    if count == 0 then ([], s)
    else
      var (i, s1) := Below(s, |Symbols|);
      var (rest, s2) := GenerateRow(count - 1, s1);
      ([Symbols[i]] + rest, s2)
  }

  function GenerateRows(count: nat, s: Source): (r: (Matrix, Source))
    ensures |r.0| == count
    ensures forall k :: 0 <= k < count ==> |r.0[k]| == Cols && forall c :: 0 <= c < Cols ==> r.0[k][c] in Symbols
    decreases count
  {
    if count == 0 then ([], s)
    else
      var (row, s1) := GenerateRow(Cols, s);
      var (rest, s2) := GenerateRows(count - 1, s1);
      ([row] + rest, s2)
  }

  /** `generate_symbol_matrix`. */
  function GenerateSymbolMatrix(s: Source): (r: (Matrix, Source))
    ensures WellShaped(r.0)
  {
    GenerateRows(Rows, s)
  }

  // ---------------------------------------------------------------------
  // The matrix file
  // ---------------------------------------------------------------------

  /** `save_matrix_as_txt`: each row's symbols joined with no separator,
      then a newline. */
  function SaveMatrixAsTxt(m: Matrix): string
  {
    if |m| == 0 then "" else m[0] + "\n" + SaveMatrixAsTxt(m[1..])
  }

  /** The lines a Python file iteration yields: the text cut after every
      newline, with no empty piece after a final newline. Each line is
      given without its newline, which `strip()` removes anyway. */
  function Lines(text: string): (lines: seq<string>)
  {
    var parts := Text.Split(text, '\n');
    if parts[|parts| - 1] == "" then parts[..|parts| - 1] else parts
  }

  /** The attention service's `load_symbol_matrix`: every line stripped and
      split into its characters. */
  function LoadMatrix(text: string): (m: Matrix)
    ensures |m| == |Lines(text)|
  {
    var lines := Lines(text);
    seq(|lines|, k requires 0 <= k < |lines| => Text.PyStrip(lines[k]))
  }

  predicate NoWhitespace(m: Matrix)
  {
    forall r, c :: 0 <= r < |m| && 0 <= c < |m[r]| ==> !Text.IsPyWhitespace(m[r][c]) && m[r][c] != '\n'
  }

  lemma {:induction false} SplitSaved(m: Matrix)
    requires NoWhitespace(m)
    ensures Text.Split(SaveMatrixAsTxt(m), '\n') == m + [""]
  {
    if |m| > 0 {
      assert NoWhitespace(m[1..]) by {
        forall r, c | 0 <= r < |m[1..]| && 0 <= c < |m[1..][r]|
          ensures !Text.IsPyWhitespace(m[1..][r][c]) && m[1..][r][c] != '\n'
        {
          assert m[1..][r] == m[r + 1];
        }
      }
      SplitSaved(m[1..]);
      assert '\n' !in m[0] by {
        forall c | 0 <= c < |m[0]| ensures m[0][c] != '\n' {
        }
      }
      Text.SplitAfterPrefix(m[0], SaveMatrixAsTxt(m[1..]), '\n');
      assert SaveMatrixAsTxt(m) == m[0] + ['\n'] + SaveMatrixAsTxt(m[1..]);
    }
  }

  /** The saved file loads back as the matrix it was written from, as long
      as no cell is whitespace; the test symbols are not. */
  lemma SavedMatrixLoadsBack(m: Matrix)
    requires NoWhitespace(m)
    ensures LoadMatrix(SaveMatrixAsTxt(m)) == m
  {
    SplitSaved(m);
    assert (m + [""])[..|m|] == m;
    var loaded := LoadMatrix(SaveMatrixAsTxt(m));
    forall k | 0 <= k < |m|
      ensures loaded[k] == m[k]
    {
      assert forall c :: 0 <= c < |m[k]| ==> !Text.IsPyWhitespace(m[k][c]);
    }
  }

  lemma GeneratedMatrixLoadsBack(s: Source)
    ensures LoadMatrix(SaveMatrixAsTxt(GenerateSymbolMatrix(s).0)) == GenerateSymbolMatrix(s).0
  {
    var m := GenerateSymbolMatrix(s).0;
    WellShapedHasNoWhitespace(m);
    SavedMatrixLoadsBack(m);
  }

  lemma WellShapedHasNoWhitespace(m: Matrix)
    requires WellShaped(m)
    ensures NoWhitespace(m)
  {
    forall r, c | 0 <= r < |m| && 0 <= c < |m[r]|
      ensures !Text.IsPyWhitespace(m[r][c]) && m[r][c] != '\n'
    {
      SymbolsAreNotWhitespace();
      var i :| 0 <= i < |Symbols| && Symbols[i] == m[r][c];
    }
  }

  lemma SymbolsAreNotWhitespace()
    ensures forall i :: 0 <= i < |Symbols| ==> !Text.IsPyWhitespace(Symbols[i]) && Symbols[i] != '\n'
  {
  }

  // ---------------------------------------------------------------------
  // Target positions
  // ---------------------------------------------------------------------

  /** The cells read row by row. */
  function Flatten(m: Matrix): seq<char>
  {
    if |m| == 0 then [] else Flatten(m[..|m| - 1]) + m[|m| - 1]
  }

  predicate InMatrix(m: Matrix, p: Position)
  {
    0 <= p.0 < |m| && 0 <= p.1 < |m[p.0]|
  }

  /** `p` comes strictly before `q` when the matrix is read row by row. */
  predicate Before(p: Position, q: Position)
  {
    p.0 < q.0 || (p.0 == q.0 && p.1 < q.1)
  }

  predicate RowMajor(ps: seq<Position>)
  {
    forall i, j :: 0 <= i < j < |ps| ==> Before(ps[i], ps[j])
  }

  /** What `find_target_positions` returns: exactly the cells holding
      `target`, in reading order with no repeats, one per occurrence. */
  ghost predicate ListsPositionsOf(m: Matrix, target: char, ps: seq<Position>)
  {
    (forall p :: p in ps <==> InMatrix(m, p) && m[p.0][p.1] == target)
    && RowMajor(ps)
    && |ps| == multiset(Flatten(m))[target]
  }

  /** `find_target_positions`: every `(row, col)` holding the target, row
      by row and column by column. */
  method FindTargetPositions(m: Matrix, target: char) returns (ps: seq<Position>)
    ensures ListsPositionsOf(m, target, ps)
  {
    ps := [];
    var r := 0;
    while r < |m|
      invariant 0 <= r <= |m|
      invariant forall p :: p in ps <==> InMatrix(m, p) && p.0 < r && m[p.0][p.1] == target
      invariant RowMajor(ps)
      invariant |ps| == multiset(Flatten(m[..r]))[target]
    {
      ps := ScanRow(m, target, r, ps);
      assert m[..r + 1][..r] == m[..r];
      r := r + 1;
    }
    assert m[..r] == m;
  }

  /** The inner loop of `find_target_positions`: row `r`, column by
      column, appended to the positions found in the rows above. */
  method ScanRow(m: Matrix, target: char, r: nat, found: seq<Position>) returns (ps: seq<Position>)
    requires r < |m|
    requires forall p :: p in found <==> InMatrix(m, p) && p.0 < r && m[p.0][p.1] == target
    requires RowMajor(found)
    requires |found| == multiset(Flatten(m[..r]))[target]
    ensures forall p :: p in ps <==> InMatrix(m, p) && p.0 <= r && m[p.0][p.1] == target
    ensures RowMajor(ps)
    ensures |ps| == multiset(Flatten(m[..r + 1]))[target]
  {
    ps := found;
    var c := 0;
    while c < |m[r]|
      invariant 0 <= c <= |m[r]|
      invariant forall p :: p in ps <==> InMatrix(m, p) && Before(p, (r, c)) && m[p.0][p.1] == target
      invariant forall p :: p in ps ==> Before(p, (r, c))
      invariant RowMajor(ps)
      invariant |ps| == multiset(Flatten(m[..r]) + m[r][..c])[target]
    {
      assert m[r][..c + 1] == m[r][..c] + [m[r][c]];
      if m[r][c] == target {
        ps := ps + [(r, c)];
      }
      c := c + 1;
    }
    assert m[r][..c] == m[r];
    assert m[..r + 1][..r] == m[..r];
  }

  /** `generate_target_positions_json` without the file: the positions of
      every test symbol, and the metadata's `symbol_counts`. */
  method GenerateTargetPositions(m: Matrix) returns (targets: map<string, seq<Position>>, counts: map<string, int>)
    ensures targets.Keys == counts.Keys == set i | 0 <= i < |Symbols| :: [Symbols[i]]
    ensures forall i :: 0 <= i < |Symbols| ==> ListsPositionsOf(m, Symbols[i], targets[[Symbols[i]]])
    ensures forall k :: k in counts ==> counts[k] == |targets[k]|
    ensures WellShaped(m) ==> SumCounts(counts, Symbols) == Rows * Cols
  {
    targets := map[];
    var i := 0;
    while i < |Symbols|
      invariant 0 <= i <= |Symbols|
      invariant targets.Keys == set k | 0 <= k < i :: [Symbols[k]]
      invariant forall k :: 0 <= k < i ==> ListsPositionsOf(m, Symbols[k], targets[[Symbols[k]]])
    {
      var ps := FindTargetPositions(m, Symbols[i]);
      targets := targets[[Symbols[i]] := ps];
      i := i + 1;
    }
    counts := map k | k in targets :: |targets[k]|;
    if WellShaped(m) {
      CountsCoverMatrix(m, counts);
    }
  }

  // ---------------------------------------------------------------------
  // The counts cover the matrix
  // ---------------------------------------------------------------------

  /** The counts of `syms` added up. */
  function CountIn(syms: seq<char>, xs: seq<char>): nat
  {
    if |syms| == 0 then 0 else multiset(xs)[syms[0]] + CountIn(syms[1..], xs)
  }

  lemma {:induction false} CountInAppend(syms: seq<char>, xs: seq<char>, x: char)
    requires Distinct(syms)
    ensures CountIn(syms, xs + [x]) == CountIn(syms, xs) + (if x in syms then 1 else 0)
  {
    if |syms| > 0 {
      CountInAppend(syms[1..], xs, x);
      assert x in syms <==> x == syms[0] || x in syms[1..] by {
        assert syms == [syms[0]] + syms[1..];
      }
      if x == syms[0] {
        assert x !in syms[1..];
      }
    }
  }

  /** When every cell is one of the distinct symbols, their counts add up to
      the number of cells. */
  lemma {:induction false} CountInAll(syms: seq<char>, xs: seq<char>)
    requires Distinct(syms)
    requires forall k :: 0 <= k < |xs| ==> xs[k] in syms
    ensures CountIn(syms, xs) == |xs|
  {
    if |xs| == 0 {
      CountInEmpty(syms);
    } else {
      var init := xs[..|xs| - 1];
      CountInAll(syms, init);
      CountInAppend(syms, init, xs[|xs| - 1]);
      assert init + [xs[|xs| - 1]] == xs;
    }
  }

  lemma {:induction false} CountInEmpty(syms: seq<char>)
    ensures CountIn(syms, []) == 0
  {
    if |syms| > 0 {
      CountInEmpty(syms[1..]);
    }
  }

  lemma {:induction false} FlattenShape(m: Matrix)
    requires forall r :: 0 <= r < |m| ==> |m[r]| == Cols && forall c :: 0 <= c < |m[r]| ==> m[r][c] in Symbols
    ensures |Flatten(m)| == |m| * Cols
    ensures forall k :: 0 <= k < |Flatten(m)| ==> Flatten(m)[k] in Symbols
  {
    if |m| > 0 {
      var init := m[..|m| - 1];
      FlattenShape(init);
      var last := m[|m| - 1];
      forall k | 0 <= k < |Flatten(m)|
        ensures Flatten(m)[k] in Symbols
      {
        if k >= |Flatten(init)| {
          assert Flatten(m)[k] == last[k - |Flatten(init)|];
        }
      }
    }
  }

  /** The counts of `symbol_counts`, in the order of the symbols. */
  function SumCounts(counts: map<string, int>, syms: seq<char>): int
    requires forall k :: 0 <= k < |syms| ==> [syms[k]] in counts
  {
    if |syms| == 0 then 0 else counts[[syms[0]]] + SumCounts(counts, syms[1..])
  }

  lemma {:induction false} SumCountsIsCountIn(m: Matrix, counts: map<string, int>, syms: seq<char>)
    requires forall k :: 0 <= k < |syms| ==> [syms[k]] in counts && counts[[syms[k]]] == multiset(Flatten(m))[syms[k]]
    ensures SumCounts(counts, syms) == CountIn(syms, Flatten(m))
  {
    if |syms| > 0 {
      SumCountsIsCountIn(m, counts, syms[1..]);
    }
  }

  /** For a generated matrix, the counts over all symbols add up to the
      number of cells, `Rows * Cols`. */
  lemma CountsCoverMatrix(m: Matrix, counts: map<string, int>)
    requires WellShaped(m)
    requires forall i :: 0 <= i < |Symbols| ==> [Symbols[i]] in counts && counts[[Symbols[i]]] == multiset(Flatten(m))[Symbols[i]]
    ensures SumCounts(counts, Symbols) == Rows * Cols
  {
    FlattenShape(m);
    SymbolsAreDistinct();
    CountInAll(Symbols, Flatten(m));
    SumCountsIsCountIn(m, counts, Symbols);
  }

  lemma SymbolsAreDistinct()
    ensures Distinct(Symbols)
  {
  }
}

=== FILE: target_rows.dfy ===
/** The backend's generator of the attention test's target positions: for
    every test symbol, four distinct columns of the practice row and three
    distinct columns of each of the 16 formal rows, drawn without
    replacement, and the metadata's per-symbol counts. Writing the JSON
    file is left to the caller. */
module TargetRows {
  import opened Randomness
  import Attention

  type Position = Attention.Position

  const Symbols: seq<char> := ['Π', 'Θ', 'Ψ', '≅', '⊕', 'א', 'Ϡ', 'ʆ', 'Ԅ', 'Φ']

  /** One practice row followed by 16 formal rows of 25 columns. */
  const Rows: nat := 17
  const Cols: nat := 25
  const PracticeRow: nat := 0
  const TargetsPerPracticeRow: nat := 4
  const TargetsPerFormalRow: nat := 3

  /** Positions per symbol: the practice row's and three for each formal row. */
  const TargetsPerSymbol: nat := TargetsPerPracticeRow + TargetsPerFormalRow * (Rows - 1)

  predicate DistinctInts(xs: seq<int>)
  {
    forall i, j :: 0 <= i < j < |xs| ==> xs[i] != xs[j]
  }

  predicate DistinctPositions(ps: seq<Position>)
  {
    forall i, j :: 0 <= i < j < |ps| ==> ps[i] != ps[j]
  }

  // ---------------------------------------------------------------------
  // Sampling without replacement
  // ---------------------------------------------------------------------

  function Range(n: nat): (r: seq<int>)
    ensures |r| == n && forall i :: 0 <= i < n ==> r[i] == i
  {
    seq(n, i => i)
  }

  /** The pool method of Python's `random.sample`: the `k` picks are drawn
      one at a time from the live part of the pool, each pick's place taken
      by the pool's last live element. */
  function SampleFrom(pool: seq<int>, k: nat, s: Source): (r: (seq<int>, Source))
    requires k <= |pool|
    ensures |r.0| == k
    ensures forall x :: x in r.0 ==> x in pool
    ensures DistinctInts(pool) ==> DistinctInts(r.0)
    decreases k
  {
    if k == 0 then ([], s)
    else
      var (j, s1) := Below(s, |pool|);
      var last := |pool| - 1;
      var live := pool[j := pool[last]][..last];
      var (rest, s2) := SampleFrom(live, k - 1, s1);
      assert forall x :: x in live ==> x in pool;
      if DistinctInts(pool) then
        RemovedPick(pool, j);
        ([pool[j]] + rest, s2)
      else
        ([pool[j]] + rest, s2)
  }

  /** Taking the pick out of a pool of distinct values leaves distinct
      values without it. */
  lemma RemovedPick(pool: seq<int>, j: nat)
    requires DistinctInts(pool) && j < |pool|
    ensures DistinctInts(pool[j := pool[|pool| - 1]][..|pool| - 1])
    ensures pool[j] !in pool[j := pool[|pool| - 1]][..|pool| - 1]
  {
    var last := |pool| - 1;
    var live := pool[j := pool[last]][..last];
    forall t | 0 <= t < |live|
      ensures live[t] != pool[j]
    {
      if t == j {
        assert live[t] == pool[last];
      } else {
        assert live[t] == pool[t];
      }
    }
    forall a, b | 0 <= a < b < |live|
      ensures live[a] != live[b]
    {
      var pa := if a == j then last else a;
      var pb := if b == j then last else b;
      assert live[a] == pool[pa] && live[b] == pool[pb] && pa != pb;
    }
  }

  /** `random.sample(range(n), k)`. */
  function Sample(n: nat, k: nat, s: Source): (r: (seq<int>, Source))
    requires k <= n
    ensures |r.0| == k && DistinctInts(r.0)
    ensures forall i :: 0 <= i < k ==> 0 <= r.0[i] < n
  {
    var r := SampleFrom(Range(n), k, s);
    assert forall i :: 0 <= i < k ==> r.0[i] in Range(n);
    r
  }

  // ---------------------------------------------------------------------
  // Positions
  // ---------------------------------------------------------------------

  /** `generate_positions_for_row`: `count` distinct columns of `row`. */
  function PositionsForRow(row: int, count: nat, s: Source): (r: (seq<Position>, Source))
    requires count <= Cols
    ensures |r.0| == count && DistinctPositions(r.0)
    ensures forall k :: 0 <= k < count ==> r.0[k].0 == row && 0 <= r.0[k].1 < Cols
  {
    var (columns, s1) := Sample(Cols, count, s);
    (seq(count, k requires 0 <= k < count => (row, columns[k])), s1)
  }

  /** The formal rows from `row` to the last, three positions each. */
  function FormalRows(row: nat, s: Source): (r: (seq<Position>, Source))
    requires 1 <= row <= Rows
    ensures |r.0| == TargetsPerFormalRow * (Rows - row) && DistinctPositions(r.0)
    ensures forall k :: 0 <= k < |r.0| ==> r.0[k].0 == row + k / TargetsPerFormalRow && 0 <= r.0[k].1 < Cols
    decreases Rows - row
  {
    if row == Rows then ([], s)
    else
      var (here, s1) := PositionsForRow(row, TargetsPerFormalRow, s);
      var (below, s2) := FormalRows(row + 1, s1);
      (here + below, s2)
  }

  /** Where the `k`-th position of a symbol's list lies: the practice row
      for the first four, then three to each formal row in turn. */
  function PlannedRow(k: nat): nat
  {
    if k < TargetsPerPracticeRow then PracticeRow
    else 1 + (k - TargetsPerPracticeRow) / TargetsPerFormalRow
  }

  /** A symbol's list as the generator lays it out: 52 distinct cells of
      the grid, each in its planned row. */
  predicate Planned(ps: seq<Position>)
  {
    |ps| == TargetsPerSymbol && DistinctPositions(ps)
    && forall k :: 0 <= k < |ps| ==> ps[k].0 == PlannedRow(k) && 0 <= ps[k].1 < Cols
  }

  /** One symbol's iteration of `generate_target_positions`. */
  function SymbolPositions(s: Source): (r: (seq<Position>, Source))
    ensures Planned(r.0)
  {
    var (practice, s1) := PositionsForRow(PracticeRow, TargetsPerPracticeRow, s);
    var (formal, s2) := FormalRows(1, s1);
    PracticeThenFormal(practice, formal);
    (practice + formal, s2)
  }

  lemma PracticeThenFormal(practice: seq<Position>, formal: seq<Position>)
    requires |practice| == TargetsPerPracticeRow && DistinctPositions(practice)
    requires forall k :: 0 <= k < |practice| ==> practice[k].0 == PracticeRow && 0 <= practice[k].1 < Cols
    requires |formal| == TargetsPerFormalRow * (Rows - 1) && DistinctPositions(formal)
    requires forall k :: 0 <= k < |formal| ==> formal[k].0 == 1 + k / TargetsPerFormalRow && 0 <= formal[k].1 < Cols
    ensures Planned(practice + formal)
  {
    var ps := practice + formal;
    forall k | 0 <= k < |ps|
      ensures ps[k].0 == PlannedRow(k) && 0 <= ps[k].1 < Cols
    {
      if k >= |practice| {
        assert ps[k] == formal[k - |practice|];
      }
    }
    forall i, j | 0 <= i < j < |ps|
      ensures ps[i] != ps[j]
    {
      if j >= |practice| && i < |practice| {
        assert ps[j] == formal[j - |practice|];
      } else if i >= |practice| {
        assert ps[i] == formal[i - |practice|] && ps[j] == formal[j - |practice|];
      }
    }
  }

  /** Every planned row other than the practice row is a formal row. */
  lemma PlannedRowsAreInTheGrid(k: nat)
    requires k < TargetsPerSymbol
    ensures PlannedRow(k) < Rows
    ensures PlannedRow(k) == PracticeRow <==> k < TargetsPerPracticeRow
  {
  }

  function PositionsOf(syms: seq<char>, s: Source): (r: (map<string, seq<Position>>, Source))
    ensures forall key :: key in r.0 <==> |key| == 1 && key[0] in syms
    ensures forall key :: key in r.0 ==> Planned(r.0[key])
  {
    if |syms| == 0 then (map[], s)
    else
      var (ps, s1) := SymbolPositions(s);
      var (rest, s2) := PositionsOf(syms[1..], s1);
      var targets := rest[[syms[0]] := ps];
      AddedSymbol(syms, rest, ps, targets);
      (targets, s2)
  }

  lemma AddedSymbol(syms: seq<char>, rest: map<string, seq<Position>>, ps: seq<Position>, targets: map<string, seq<Position>>)
    requires |syms| > 0 && Planned(ps) && targets == rest[[syms[0]] := ps]
    requires forall key :: key in rest <==> |key| == 1 && key[0] in syms[1..]
    requires forall key :: key in rest ==> Planned(rest[key])
    ensures forall key :: key in targets <==> |key| == 1 && key[0] in syms
    ensures forall key :: key in targets ==> Planned(targets[key])
  {
    assert forall c :: c in syms <==> c == syms[0] || c in syms[1..] by {
      assert syms == [syms[0]] + syms[1..];
    }
    forall key
      ensures key in targets <==> |key| == 1 && key[0] in syms
    {
      if |key| == 1 && key[0] == syms[0] {
        assert key == [syms[0]];
      }
    }
  }

  /** `generate_target_positions`: a planned list for every test symbol and
      for nothing else. */
  function GenerateTargetPositions(s: Source): (r: (map<string, seq<Position>>, Source))
    ensures forall key :: key in r.0 <==> |key| == 1 && key[0] in Symbols
    ensures forall key :: key in r.0 ==> Planned(r.0[key])
  {
    PositionsOf(Symbols, s)
  }

  /** The metadata's `target_counts`: one per symbol, the length of its list. */
  function TargetCounts(targets: map<string, seq<Position>>): (counts: map<string, int>)
    ensures counts.Keys == targets.Keys
    ensures forall key :: key in counts ==> counts[key] == |targets[key]|
  {
    map key | key in targets :: |targets[key]|
  }

  /** Every symbol's count is 52, and within its list four positions lie in
      the practice row and three in each formal row. */
  lemma EverySymbolGetsItsTargets(s: Source, key: string, row: nat)
    requires key in GenerateTargetPositions(s).0
    requires row < Rows
    ensures TargetCounts(GenerateTargetPositions(s).0)[key] == 52
    ensures CountInRow(GenerateTargetPositions(s).0[key], row)
            == if row == PracticeRow then TargetsPerPracticeRow else TargetsPerFormalRow
  {
    PlannedListCounts(GenerateTargetPositions(s).0[key], row);
  }

  lemma PlannedListCounts(ps: seq<Position>, row: nat)
    requires Planned(ps) && row < Rows
    ensures |ps| == 52
    ensures CountInRow(ps, row) == if row == PracticeRow then TargetsPerPracticeRow else TargetsPerFormalRow
  {
    PlannedCount(ps, row, |ps|);
    assert ps[..|ps|] == ps;
  }

  function CountInRow(ps: seq<Position>, row: int): nat
  {
    if |ps| == 0 then 0
    else CountInRow(ps[..|ps| - 1], row) + (if ps[|ps| - 1].0 == row then 1 else 0)
  }

  /** How many of the first `n` planned places fall in `row`. */
  function PlannedInRow(n: nat, row: nat): nat
  {
    if n == 0 then 0
    else PlannedInRow(n - 1, row) + (if PlannedRow(n - 1) == row then 1 else 0)
  }

  lemma {:induction false} PlannedCount(ps: seq<Position>, row: nat, n: nat)
    requires Planned(ps) && n <= |ps| && row < Rows
    ensures CountInRow(ps[..n], row) == PlannedInRow(n, row)
    ensures n == |ps| ==> PlannedInRow(n, row) == if row == PracticeRow then TargetsPerPracticeRow else TargetsPerFormalRow
  {
    if n > 0 {
      PlannedCount(ps, row, n - 1);
      assert ps[..n][..n - 1] == ps[..n - 1];
    }
    if n == |ps| {
      PlannedInRowTotal(row, n);
    }
  }

  /** Over the whole list, the planned places give the practice row four and
      every formal row three. */
  lemma {:induction false} PlannedInRowTotal(row: nat, n: nat)
    requires row < Rows && n == TargetsPerSymbol
    ensures PlannedInRow(n, row) == if row == PracticeRow then TargetsPerPracticeRow else TargetsPerFormalRow
  {
    PlannedInRowPrefix(row, n);
  }

  /** In closed form: the first `n` places give a row the part of its block
      that lies below `n`. */
  lemma {:induction false} PlannedInRowPrefix(row: nat, n: nat)
    ensures PlannedInRow(n, row) == Clip(n - Start(row), Width(row))
  {
    if n > 0 {
      PlannedInRowPrefix(row, n - 1);
      PlannedRowBlock(n - 1, row);
    }
  }

  /** Where `row`'s block of places starts and how wide it is. */
  function Start(row: nat): int
  {
    if row == PracticeRow then 0 else TargetsPerPracticeRow + TargetsPerFormalRow * (row - 1)
  }

  function Width(row: nat): nat
  {
    if row == PracticeRow then TargetsPerPracticeRow else TargetsPerFormalRow
  }

  function Clip(x: int, w: nat): nat
  {
    if x <= 0 then 0 else if x >= w then w else x
  }

  lemma PlannedRowBlock(k: nat, row: nat)
    ensures PlannedRow(k) == row <==> Start(row) <= k < Start(row) + Width(row)
  {
  }
}

=== FILE: text.dfy ===
/** String and number helpers with the exact semantics of the Python and
    JavaScript library calls the source relies on: substring tests, decimal
    rendering and parsing, zero padding, splitting and whitespace trimming. */
module Text {
  import opened Wrappers

  /** `t` occurs in `s` starting at index `i`. */
  predicate OccursAt(s: string, t: string, i: int)
  {
    0 <= i && i + |t| <= |s| && s[i..i + |t|] == t
  }

  /** `t in s` (Python) / `s.includes(t)` (JavaScript). */
  function Contains(s: string, t: string): (r: bool)
    ensures r <==> exists i :: OccursAt(s, t, i)
    decreases |s|
  {
    if |t| > |s| then
      false
    else if s[..|t|] == t then
      assert OccursAt(s, t, 0);
      true
    else if Contains(s[1..], t) then
      var i :| OccursAt(s[1..], t, i);
      assert s[i + 1..i + 1 + |t|] == s[1..][i..i + |t|];
      assert OccursAt(s, t, i + 1);
      true
    else
      var tail := s[1..];
      assert forall i :: OccursAt(s, t, i) ==> i > 0 && OccursAt(tail, t, i - 1) by {
        forall i | OccursAt(s, t, i)
          ensures i > 0 && OccursAt(tail, t, i - 1)
        {
          assert tail[i - 1..i - 1 + |t|] == s[i..i + |t|];
        }
      }
      false
  }

  /** A string lacking one of the characters of `t` does not contain `t`. */
  lemma MissingCharacterExcludes(s: string, t: string, k: int)
    requires 0 <= k < |t| && t[k] !in s
    ensures !Contains(s, t)
  {
    forall i | 0 <= i && i + |t| <= |s|
      ensures !OccursAt(s, t, i)
    {
      assert s[i..i + |t|][k] == s[i + k] && s[i + k] in s;
    }
  }

  /** True when `s` contains at least one of `keys` (Python `any(k in s for k in keys)`). */
  predicate ContainsAny(s: string, keys: seq<string>)
  {
    exists k :: k in keys && Contains(s, k)
  }

  predicate StartsWith(s: string, prefix: string)
  {
    |prefix| <= |s| && s[..|prefix|] == prefix
  }

  predicate IsDigit(c: char)
  {
    '0' <= c <= '9'
  }

  predicate AllDigits(s: string)
  {
    forall i :: 0 <= i < |s| ==> IsDigit(s[i])
  }

  function DigitChar(d: nat): (c: char)
    requires d < 10
    ensures IsDigit(c)
  {
    (d + '0' as int) as char
  }

  function DigitValue(c: char): (d: nat)
    requires IsDigit(c)
    ensures d < 10 && DigitChar(d) == c
    ensures forall e :: 0 <= e < 10 && DigitChar(e) == c ==> e == d
  {
    (c as int - '0' as int) as nat
  }

  /** Decimal rendering of a natural number without leading zeros (`str(n)`). */
  function NatToString(n: nat): (s: string)
    ensures |s| >= 1 && AllDigits(s)
    ensures n < 10 <==> |s| == 1
    decreases n
  {
    if n < 10 then [DigitChar(n)] else NatToString(n / 10) + [DigitChar(n % 10)]
  }

  /** `str(n)` / `String(n)` for any integer. */
  function IntToString(n: int): (s: string)
    ensures |s| >= 1
    ensures n >= 0 ==> s == NatToString(n)
    ensures n < 0 ==> s == "-" + NatToString(-n)
  {
    if n >= 0 then NatToString(n) else "-" + NatToString(-n)
  }

  /** The value of a string of decimal digits. */
  function DigitsValue(s: string): (n: nat)
    requires AllDigits(s)
    decreases |s|
  {
    if |s| == 0 then 0 else DigitsValue(s[..|s| - 1]) * 10 + DigitValue(s[|s| - 1])
  }

  lemma {:induction false} DigitsValueOfNatToString(n: nat)
    ensures DigitsValue(NatToString(n)) == n
    decreases n
  {
    if n >= 10 {
      var s := NatToString(n);
      assert s[..|s| - 1] == NatToString(n / 10);
      DigitsValueOfNatToString(n / 10);
    }
  }

  /** JavaScript `a % b`: the remainder takes the sign of the dividend. */
  function JsRem(a: int, b: int): (r: int)
    requires b > 0
    ensures a >= 0 ==> 0 <= r < b
    ensures a < 0 ==> -b < r <= 0
    ensures a >= 0 ==> r == a % b
  {
    if a >= 0 then a % b else -((-a) % b)
  }

  /** Unlike Euclidean remainder, the JavaScript one is odd in the dividend. */
  lemma JsRemIsOdd(a: int, b: int)
    requires b > 0
    ensures JsRem(-a, b) == -JsRem(a, b)
  {
  }

  /** Python `f"{n:02d}"` and JavaScript `String(n).padStart(2, '0')`: the two
      agree for every integer, because a negative number already has width 2. */
  function Pad2(n: int): (s: string)
    ensures 0 <= n < 10 ==> s == ['0', DigitChar(n)]
    ensures 10 <= n < 100 ==> s == [DigitChar(n / 10), DigitChar(n % 10)]
    ensures |s| >= 2
    ensures n >= 0 ==> AllDigits(s) && DigitsValue(s) == n
  {
    var t := IntToString(n);
    if 0 <= n < 10 then
      assert ['0', DigitChar(n)][..1] == ['0'];
      assert DigitsValue(['0']) == 0 by {
        assert ['0'][..0] == [];
      }
      "0" + t
    else if n >= 10 then
      DigitsValueOfNatToString(n);
      t
    else
      t
  }

  /** Parses an optionally signed run of ASCII decimal digits (`int(s)` on
      canonical input); anything else is the `ValueError` branch. */
  function ParseInt(s: string): (r: Option<int>)
    ensures AllDigits(s) && |s| > 0 ==> r == Some(DigitsValue(s))
    ensures r.Some? ==> |s| > 0
  {
    if |s| > 0 && AllDigits(s) then Some(DigitsValue(s))
    else if |s| > 1 && s[0] == '-' && AllDigits(s[1..]) then
      var v: int := DigitsValue(s[1..]);
      Some(-v)
    else if |s| > 1 && s[0] == '+' && AllDigits(s[1..]) then Some(DigitsValue(s[1..]))
    else None
  }

  lemma ParseIntOfIntToString(n: int)
    ensures ParseInt(IntToString(n)) == Some(n)
  {
    if n >= 0 {
      DigitsValueOfNatToString(n);
    } else {
      var s := IntToString(n);
      assert s[1..] == NatToString(-n);
      DigitsValueOfNatToString(-n);
    }
  }

  /** The message a service raises for a missing row, `f"{what}: ID={id}"`:
      the description, then the separator, then the id that can be read back. */
  function MissingRow(what: string, id: int): (m: string)
    ensures |m| > |what| + 5 && m[..|what|] == what && m[|what|..|what| + 5] == ": ID="
    ensures ParseInt(m[|what| + 5..]) == Some(id)
  {
    var m := what + ": ID=" + IntToString(id);
    assert m[..|what|] == what;
    assert m[|what|..|what| + 5] == ": ID=";
    assert m[|what| + 5..] == IntToString(id);
    ParseIntOfIntToString(id);
    m
  }

  /** Two missing-row messages are equal only for the same description and id. */
  lemma MissingRowIsInjective(what: string, id: int, what': string, id': int)
    requires |what| == |what'|
    requires MissingRow(what, id) == MissingRow(what', id')
    ensures what == what' && id == id'
  {
    var m := MissingRow(what, id);
    assert m[..|what|] == what;
    assert m[|what| + 5..] == MissingRow(what', id')[|what'| + 5..];
  }

  function Pow10(k: nat): (p: nat)
    ensures p >= 1
  {
    if k == 0 then 1 else 10 * Pow10(k - 1)
  }

  /** The value of an unsigned decimal literal `int` or `int.frac`, where
      either side of the point may be empty but not both. */
  function UnsignedDecimal(s: string): Option<real>
  {
    if |s| > 0 && AllDigits(s) then Some(DigitsValue(s) as real)
    else if exists i :: 0 <= i < |s| && s[i] == '.' then
      var i :| 0 <= i < |s| && s[i] == '.';
      var whole := s[..i];
      var frac := s[i + 1..];
      if |whole| + |frac| > 0 && AllDigits(whole) && AllDigits(frac) then
        Some(DigitsValue(whole) as real + DigitsValue(frac) as real / Pow10(|frac|) as real)
      else None
    else None
  }

  /** `float(s)` on plain decimal literals with an optional sign. */
  function ParseDecimal(s: string): (r: Option<real>)
    ensures |s| > 0 && AllDigits(s) ==> r == Some(DigitsValue(s) as real)
  {
    if |s| > 0 && (s[0] == '-' || s[0] == '+') then
      match UnsignedDecimal(s[1..])
      case Some(v) => if s[0] == '-' then Some(-v) else Some(v)
      case None => None
    else UnsignedDecimal(s)
  }

  /** Splits on every occurrence of `sep` (`s.split(sep)` in both languages):
      the result always has one more part than `s` has separators. */
  function Split(s: string, sep: char): (parts: seq<string>)
    ensures |parts| >= 1
    ensures forall p :: p in parts ==> sep !in p
    decreases |s|
  {
    if |s| == 0 then [""]
    else
      var rest := Split(s[1..], sep);
      if s[0] == sep then [""] + rest
      else [[s[0]] + rest[0]] + rest[1..]
  }

  function Join(parts: seq<string>, sep: string): string
  {
    if |parts| == 0 then ""
    else if |parts| == 1 then parts[0]
    else parts[0] + sep + Join(parts[1..], sep)
  }

  lemma {:induction false} JoinSplit(s: string, sep: char)
    ensures Join(Split(s, sep), [sep]) == s
    decreases |s|
  {
    if |s| > 0 {
      JoinSplit(s[1..], sep);
      var rest := Split(s[1..], sep);
      if s[0] != sep {
        if |rest| == 1 {
        } else {
          assert rest == [rest[0]] + rest[1..];
          assert Join(rest, [sep]) == rest[0] + [sep] + Join(rest[1..], [sep]);
        }
      }
    }
  }

  lemma SplitWithoutSeparator(s: string, sep: char)
    requires sep !in s
    ensures Split(s, sep) == [s]
    decreases |s|
  {
    if |s| > 0 {
      SplitWithoutSeparator(s[1..], sep);
      assert [s[0]] + s[1..] == s;
    }
  }

  /** A prefix free of the separator becomes the first part on its own. */
  lemma {:induction false} SplitAfterPrefix(a: string, b: string, sep: char)
    requires sep !in a
    ensures Split(a + [sep] + b, sep) == [a] + Split(b, sep)
    decreases |a|
  {
    if |a| > 0 {
      assert (a + [sep] + b)[1..] == a[1..] + [sep] + b;
      SplitAfterPrefix(a[1..], b, sep);
      assert [a[0]] + a[1..] == a;
    } else {
      assert a + [sep] + b == [sep] + b;
      assert ([sep] + b)[1..] == b;
    }
  }

  /** Characters Python's `str.strip()` removes. */
  predicate IsPyWhitespace(c: char)
  {
    '\t' <= c <= '\r' || '\U{1c}' <= c <= '\U{1f}' || c == ' ' || c == '\U{85}' || c == '\U{a0}'
    || c == '\U{1680}' || '\U{2000}' <= c <= '\U{200a}' || c == '\U{2028}' || c == '\U{2029}'
    || c == '\U{202f}' || c == '\U{205f}' || c == '\U{3000}'
  }

  /** Characters JavaScript's `String.prototype.trim()` removes. */
  predicate IsJsWhitespace(c: char)
  {
    '\t' <= c <= '\r' || c == ' ' || c == '\U{a0}' || c == '\U{feff}'
    || c == '\U{1680}' || '\U{2000}' <= c <= '\U{200a}' || c == '\U{2028}' || c == '\U{2029}'
    || c == '\U{202f}' || c == '\U{205f}' || c == '\U{3000}'
  }

  function TrimStart(s: string, ws: char -> bool): (r: string)
    ensures |r| <= |s| && r == s[|s| - |r|..]
    ensures |r| > 0 ==> !ws(r[0])
    ensures (forall i :: 0 <= i < |s| ==> !ws(s[i])) ==> r == s
    decreases |s|
  {
    if |s| > 0 && ws(s[0]) then TrimStart(s[1..], ws) else s
  }

  function TrimEnd(s: string, ws: char -> bool): (r: string)
    ensures |r| <= |s| && r == s[..|r|]
    ensures |r| > 0 ==> !ws(r[|r| - 1])
    ensures (forall i :: 0 <= i < |s| ==> !ws(s[i])) ==> r == s
    decreases |s|
  {
    if |s| > 0 && ws(s[|s| - 1]) then TrimEnd(s[..|s| - 1], ws) else s
  }

  /** Python `s.strip()`. */
  function PyStrip(s: string): (r: string)
    ensures |r| <= |s|
    ensures |r| > 0 ==> !IsPyWhitespace(r[0]) && !IsPyWhitespace(r[|r| - 1])
    ensures (forall i :: 0 <= i < |s| ==> !IsPyWhitespace(s[i])) ==> r == s
  {
    TrimEnd(TrimStart(s, IsPyWhitespace), IsPyWhitespace)
  }

  /** JavaScript `s.trim()`. */
  function JsTrim(s: string): (r: string)
    ensures |r| <= |s|
    ensures |r| > 0 ==> !IsJsWhitespace(r[0]) && !IsJsWhitespace(r[|r| - 1])
    ensures (forall i :: 0 <= i < |s| ==> !IsJsWhitespace(s[i])) ==> r == s
  {
    TrimEnd(TrimStart(s, IsJsWhitespace), IsJsWhitespace)
  }

  /** ASCII case folding; the source lower-cases URLs and keyword haystacks. */
  function AsciiLower(s: string): (r: string)
    ensures |r| == |s|
    ensures forall i :: 0 <= i < |s| ==> r[i] == (if 'A' <= s[i] <= 'Z' then (s[i] as int + 32) as char else s[i])
  {
    seq(|s|, i requires 0 <= i < |s| => if 'A' <= s[i] <= 'Z' then (s[i] as int + 32) as char else s[i])
  }
}

=== FILE: timer.dfy ===
/** The countdown shown during the timed tests: a number of seconds left,
    whether the countdown runs, and whether a one-second interval is
    installed. The browser's interval is replaced by explicit ticks: each
    `Tick` is one firing of the interval, and the end-of-time callback is the
    `ended` flag it returns. */
module Timer {
  import opened Wrappers
  import Text

  /** The countdown length when the page does not give one. */
  const DefaultSeconds: int := 180

  datatype Timer = Timer(initial: int, remaining: int, running: bool, hasInterval: bool)

  /** `useTimer(initialTime = 180)`. */
  function NewTimer(initialTime: Option<int>): (t: Timer)
    ensures t.initial == t.remaining == initialTime.GetOr(DefaultSeconds)
    ensures !t.running && !t.hasInterval
  {
    var initial := initialTime.GetOr(DefaultSeconds);
    Timer(initial, initial, false, false)
  }

  /** `formatTime`: whole minutes (rounded down) and the remaining seconds,
      each padded to two characters, separated by a colon. */
  function FormatTime(seconds: int): string
  {
    Text.Pad2(seconds / 60) + ":" + Text.Pad2(Text.JsRem(seconds, 60))
  }

  /** Reads back `mm:ss` as displayed: digits for the minutes, exactly two
      digits below 60 for the seconds. */
  function ParseTime(s: string): (r: Option<int>)
    ensures r.Some? ==> r.value >= 0
  {
    var parts := Text.Split(s, ':');
    if |parts| == 2 && |parts[0]| > 0 && Text.AllDigits(parts[0])
      && |parts[1]| == 2 && Text.AllDigits(parts[1]) && Text.DigitsValue(parts[1]) < 60
    then Some(Text.DigitsValue(parts[0]) * 60 + Text.DigitsValue(parts[1]))
    else None
  }

  /** Every non-negative number of seconds is displayed so that it can be
      read back exactly. */
  lemma FormatTimeRoundTrip(seconds: int)
    requires seconds >= 0
    ensures ParseTime(FormatTime(seconds)) == Some(seconds)
  {
    var m := Text.Pad2(seconds / 60);
    var sec := Text.Pad2(Text.JsRem(seconds, 60));
    assert ':' !in m by {
      forall i | 0 <= i < |m| ensures m[i] != ':' {
        assert Text.IsDigit(m[i]);
      }
    }
    assert ':' !in sec by {
      forall i | 0 <= i < |sec| ensures sec[i] != ':' {
        assert Text.IsDigit(sec[i]);
      }
    }
    Text.SplitAfterPrefix(m, sec, ':');
    Text.SplitWithoutSeparator(sec, ':');
    assert FormatTime(seconds) == m + [':'] + sec;
  }

  /** `stopTimer`: the interval is cleared and the countdown stops; the time
      left is kept. */
  function Stop(t: Timer): (r: Timer)
    ensures !r.running && !r.hasInterval
    ensures r.remaining == t.remaining && r.initial == t.initial
  {
    t.(running := false, hasInterval := false)
  }

  lemma StopIsIdempotent(t: Timer)
    ensures Stop(Stop(t)) == Stop(t)
  {
  }

  /** `startTimer`: any previous interval is replaced by a fresh one and the
      countdown runs from the time left. */
  function Start(t: Timer): (r: Timer)
    ensures r.running && r.hasInterval
    ensures r.remaining == t.remaining && r.initial == t.initial
  {
    t.(running := true, hasInterval := true)
  }

  /** `resetTimer(newTime = initialTime)`: stops, then sets the time left. */
  function Reset(t: Timer, newTime: Option<int>): (r: Timer)
    ensures !r.running && !r.hasInterval && r.initial == t.initial
    ensures r.remaining == newTime.GetOr(t.initial)
  {
    Stop(t).(remaining := newTime.GetOr(t.initial))
  }

  /** `updateTimer`: one firing of the interval. A stopped countdown ignores
      it; a running one loses a second and, on reaching zero or below, stops
      and reports the end. */
  function Tick(t: Timer): (r: (Timer, bool))
    ensures !t.running ==> r == (t, false)
    ensures t.running ==> r.0.remaining == t.remaining - 1 && r.0.initial == t.initial
    ensures t.running ==> (r.1 <==> t.remaining <= 1)
    ensures r.1 ==> !r.0.running && !r.0.hasInterval
    ensures t.running && !r.1 ==> r.0.running && r.0.hasInterval == t.hasInterval
  {
    if !t.running then (t, false)
    else
      var next := t.(remaining := t.remaining - 1);
      if next.remaining <= 0 then (Stop(next), true)
      else (next, false)
  }

  /** `k` firings in a row: the final state and how many times the end was
      reported. */
  function Ticks(t: Timer, k: nat): (Timer, nat)
    decreases k
  {
    if k == 0 then (t, 0)
    else
      var (next, ended) := Tick(t);
      var (last, n) := Ticks(next, k - 1);
      (last, n + (if ended then 1 else 0))
  }

  /** A stopped countdown stays as it is, however often the interval fires. */
  lemma {:induction false} StoppedTimerIgnoresTicks(t: Timer, k: nat)
    requires !t.running
    ensures Ticks(t, k) == (t, 0)
  {
    if k > 0 {
      StoppedTimerIgnoresTicks(t, k - 1);
    }
  }

  /** A countdown started with `n >= 1` seconds left keeps running for the
      first `n - 1` firings, ends on the `n`-th with no time left, reports
      the end exactly once, and ignores every later firing. */
  lemma {:induction false} CountdownEndsOnTime(t: Timer, j: nat)
    requires t.running && t.remaining >= 1
    ensures Ticks(t, t.remaining - 1 + j).0.running == (j == 0)
    ensures Ticks(t, t.remaining + j) == (Stop(t.(remaining := 0)), 1)
    decreases t.remaining
  {
    var (next, ended) := Tick(t);
    if t.remaining == 1 {
      assert next == Stop(t.(remaining := 0)) && ended;
      StoppedTimerIgnoresTicks(next, j);
      if j > 0 {
        StoppedTimerIgnoresTicks(next, j - 1);
      }
    } else {
      assert !ended && next == t.(remaining := t.remaining - 1);
      CountdownEndsOnTime(next, j);
      assert Stop(next.(remaining := 0)) == Stop(t.(remaining := 0));
    }
  }
}

=== FILE: wrappers.dfy ===
/** Failure-compatible wrappers shared by every module of the model:
    `Option` for values that may be absent (Python's `None`) and `Result`
    for operations that either return a value or raise. */
module Wrappers {

  datatype Option<+T> = None | Some(value: T) {

    /** The value, or `default` when absent (Python's `x if x is not None else default`). */
    function GetOr(default: T): T {
      match this
      case Some(v) => v
      case None => default
    }
  }

  datatype Result<+R, +E> = Success(value: R) | Failure(error: E) {

    predicate IsFailure() {
      Failure?
    }

    function PropagateFailure<U>(): Result<U, E>
      requires Failure?
    {
      Failure(error)
    }

    function Extract(): R
      requires Success?
    {
      value
    }
  }
}

=== FILE: xml.dfy ===
/** The part of an ElementTree document the speech-evaluation code reads:
    elements with a tag, string attributes and ordered children, and the
    three path queries it issues (`.//tag`, the first match of `.//tag`, and
    `.//outer/inner`). Turning text into a tree is outside the model: a
    document is either a parsed tree or malformed. */
module Xml {
  import opened Wrappers
  import opened Seqs

  datatype Element = Element(tag: string, attrs: map<string, string>, children: seq<Element>)

  /** The outcome of `ET.fromstring`: a tree, or the `ParseError` branch. */
  datatype Markup = Parsed(root: Element) | Malformed

  /** `e.get(name)`. */
  function Get(e: Element, name: string): (r: Option<string>)
    ensures r.Some? <==> name in e.attrs
    ensures r.Some? ==> r.value == e.attrs[name]
  {
    if name in e.attrs then Some(e.attrs[name]) else None
  }

  /** Every element strictly below `e`, in document (pre-)order: the
      elements a `.//` step visits. */
  function Descendants(e: Element): seq<Element>
    decreases e, 1
  {
    DescendantsOfSeq(e.children)
  }

  function DescendantsOfSeq(cs: seq<Element>): seq<Element>
    decreases cs, 0
  {
    if |cs| == 0 then []
    else [cs[0]] + Descendants(cs[0]) + DescendantsOfSeq(cs[1..])
  }

  lemma {:induction false} ChildrenAreDescendantsOfSeq(cs: seq<Element>)
    ensures forall c :: c in cs ==> c in DescendantsOfSeq(cs)
    decreases cs
  {
    if |cs| > 0 {
      ChildrenAreDescendantsOfSeq(cs[1..]);
      assert forall c :: c in cs ==> c == cs[0] || c in cs[1..];
    }
  }

  lemma ChildrenAreDescendants(e: Element)
    ensures forall c :: c in e.children ==> c in Descendants(e)
  {
    ChildrenAreDescendantsOfSeq(e.children);
  }

  /** Below is transitive: a descendant of a descendant is a descendant. */
  lemma {:induction false} DescendantsTransitive(e: Element, d: Element, x: Element)
    requires d in Descendants(e) && x in Descendants(d)
    ensures x in Descendants(e)
    decreases e, 1
  {
    DescendantsOfSeqTransitive(e.children, d, x);
  }

  lemma {:induction false} DescendantsOfSeqTransitive(cs: seq<Element>, d: Element, x: Element)
    requires d in DescendantsOfSeq(cs) && x in Descendants(d)
    ensures x in DescendantsOfSeq(cs)
    decreases cs, 0
  {
    var head := [cs[0]] + Descendants(cs[0]);
    assert DescendantsOfSeq(cs) == head + DescendantsOfSeq(cs[1..]);
    if d == cs[0] {
    } else if d in Descendants(cs[0]) {
      DescendantsTransitive(cs[0], d, x);
    } else {
      DescendantsOfSeqTransitive(cs[1..], d, x);
    }
  }

  predicate HasTag(tag: string, e: Element)
  {
    e.tag == tag
  }

  /** `e.findall(".//tag")`. */
  function FindAll(e: Element, tag: string): (r: seq<Element>)
    ensures forall x :: x in r <==> x in Descendants(e) && x.tag == tag
  {
    Filter(Descendants(e), x => HasTag(tag, x))
  }

  /** `e.find(".//tag")`: the first element of `FindAll`. */
  function Find(e: Element, tag: string): (r: Option<Element>)
    ensures r.None? <==> forall x :: x in Descendants(e) ==> x.tag != tag
    ensures r.Some? ==> r.value.tag == tag && r.value in Descendants(e)
  {
    var all := FindAll(e, tag);
    if |all| == 0 then None
    else
      assert all[0] in all;
      Some(all[0])
  }

  /** The children of `e` whose tag is `tag`, in order. */
  function ChildrenTagged(e: Element, tag: string): (r: seq<Element>)
    ensures forall x :: x in r <==> x in e.children && x.tag == tag
  {
    Filter(e.children, x => HasTag(tag, x))
  }

  /** The matches of `.//outer/inner`: for each `outer` below `e` in document
      order, its `inner` children in order. */
  function FindAllUnder(e: Element, outer: string, inner: string): seq<Element>
  {
    ChildrenOfEach(FindAll(e, outer), inner)
  }

  function ChildrenOfEach(parents: seq<Element>, tag: string): (r: seq<Element>)
    ensures forall x :: x in r <==> exists p :: p in parents && x in p.children && x.tag == tag
    decreases |parents|
  {
    if |parents| == 0 then []
    else
      var r := ChildrenTagged(parents[0], tag) + ChildrenOfEach(parents[1..], tag);
      assert forall p :: p in parents ==> p == parents[0] || p in parents[1..];
      r
  }

  /** `e.find(".//outer/inner")`. */
  function FindUnder(e: Element, outer: string, inner: string): (r: Option<Element>)
    ensures r.None? <==> forall p, x :: p in Descendants(e) && p.tag == outer && x in p.children ==> x.tag != inner
    ensures r.Some? ==>
      r.value.tag == inner && exists p :: p in Descendants(e) && p.tag == outer && r.value in p.children
  {
    var all := FindAllUnder(e, outer, inner);
    if |all| == 0 then None
    else
      assert all[0] in all;
      Some(all[0])
  }
}
